=== FILE: README.md ===
# Advent of Code 2022 solvers, modelled in Dafny

The repository holds two generations of C# solvers for the Advent of Code 2022
puzzles. The older tree, `src/AdvendOfCode2022`, solves days 1 to 6, 11, 13 and 14.
The newer tree, `src/AdventOfCode2022`, solves days 1, 2, 4, 7 to 10 and 12 to 21.
Each day reads the puzzle input as one string and prints one answer per task.

This project models each day's solver as a Dafny module named after the day. The
module parses the input, computes both tasks, and carries lemmas that tie each
answer to an independent definition of what it means.
- `DayN` models a day from the newer tree, or from the only tree that has it.
- `LegacyDayN` models days 1, 2 and 4 of the older tree.
- `Common` holds shared pieces with C# meaning:
  - `Result` for thrown exceptions, whose messages are kept;
  - truncating `/` and `%` (`TDiv`, `TMod`);
  - `string.Split` and `Trim`;
  - `int.Parse` and `long.Parse` with their range checks;
  - LINQ `Sum`, `Max`, `OrderDescending` and `Distinct`.
- `Parsing` models the FParsec combinators the solvers use: `Newline`, `Int`,
  `Long`, `Many` and `Many1`. Each comes with read-back lemmas: printed data
  parses back to itself.

Every error the source can raise is an `Err` carrying a descriptive message. Some messages are .NET's own and some are written for the model. The errors include:
- `Max` over an empty sequence;
- a missing dictionary key;
- a division by zero;
- a parse failure.

Line breaks (`Environment.NewLine`) are modelled as a single `'\n'`. Integers are
unbounded; see "Left out".

## Model

| member | source | states |
|---|---|---|
| Day1.Totals | src/AdventOfCode2022/Days/Day1.cs:9 | one total per elf, in input order, each the sum of that elf's calories |
| Day1.MaxTotal | src/AdventOfCode2022/Days/Day1.cs:6-11 | part one is defined exactly when there is at least one elf (LINQ `Max` throws on none); the answer is at least every elf's total and is some elf's total |
| Day1.TopCount | src/AdventOfCode2022/Days/Day1.cs:18 | `Take(3)` keeps three totals, or all of them when there are fewer |
| Day1.TopThreeOfAnyArrangement | src/AdventOfCode2022/Days/Day1.cs:13-21 | part two is the sum of the first three of every descending rearrangement of the totals, so it does not depend on how ties are ordered |
| Day1.TopThreeFewElves | src/AdventOfCode2022/Days/Day1.cs:16-19 | with three elves or fewer, part two adds up every total |
| Day1.FirstIsMax | src/AdventOfCode2022/Days/Day1.cs:9-17 | the first total in descending order is part one's maximum |
| Day1.TopThreeAtLeastMax | src/AdventOfCode2022/Days/Day1.cs:6-21 | when no calorie count is negative, part two is at least part one |
| Day1.GroupShown | src/AdventOfCode2022/Days/Day1.cs:25 | a group printed one number per line is read back by the number-list grammar, stopping before a blank line or at the end |
| Day1.ParseShowSource | src/AdventOfCode2022/Days/Day1.cs:23-29 | groups of 64-bit numbers printed with blank lines between them are read back as themselves |
| Day1.EmptySource | src/AdventOfCode2022/Days/Day1.cs:23-29 | empty text is one elf carrying nothing, and part one answers 0 |
| Day1.TrailingLineBreakFails | src/AdventOfCode2022/Days/Day1.cs:25-28 | a number followed by a single final line break is an error: the separator is consumed and no number follows |
| Day1.CalculateTaskOne | src/AdventOfCode2022/Days/Day1.cs:6-11 | part one succeeds exactly when the text parses; the answer is at least every elf's total and is some elf's total |
| Day1.CalculateTaskTwo | src/AdventOfCode2022/Days/Day1.cs:13-21 | part two succeeds exactly when the text parses, and equals the sum of the first three entries of every descending arrangement of the totals |
| Day1.OutOfRangeFails | src/AdventOfCode2022/Days/Day1.cs:23-29 | a number outside the 64-bit range makes the parse and both parts fail |
| LegacyDay1.ParseNumber | src/AdvendOfCode2022/Days/Day1.cs:29 | a line parses exactly when `long.Parse` accepts it, to the same value |
| LegacyDay1.ParseGroup | src/AdvendOfCode2022/Days/Day1.cs:29 | a parsed group holds one number per line of its text |
| LegacyDay1.ParseSource | src/AdvendOfCode2022/Days/Day1.cs:25-31 | a parsed source holds one group per blank-line-separated piece of the text |
| LegacyDay1.GroupsNonEmpty | src/AdvendOfCode2022/Days/Day1.cs:27-29 | every group of a parsed source holds at least one number |
| LegacyDay1.EmptyLastLine | src/AdvendOfCode2022/Days/Day1.cs:29 | a group that is empty or ends with a line break does not parse (`long.Parse("")` throws) |
| LegacyDay1.GroupReadsBack | src/AdvendOfCode2022/Days/Day1.cs:29 | a group printed one number per line reads back as itself |
| LegacyDay1.ParseShowSource | src/AdvendOfCode2022/Days/Day1.cs:25-31 | printed groups read back as themselves |
| LegacyDay1.TreesAgree | src/AdvendOfCode2022/Days/Day1.cs:8-31 | on printed groups the older and newer trees parse alike and give the same answers to both parts |
| LegacyDay1.EmptySourceDiffers | src/AdvendOfCode2022/Days/Day1.cs:27-29 | on empty text the older tree fails while the newer one reads one empty elf |
| LegacyDay1.TrailingNewlineFails | src/AdvendOfCode2022/Days/Day1.cs:27-29 | any text with a final line break fails in the older tree, because its last line is empty |
| LegacyDay1.CalculateTaskOne | src/AdvendOfCode2022/Days/Day1.cs:8-13 | part one succeeds exactly when the text parses; the answer is at least every group's total and is some group's total |
| LegacyDay1.CalculateTaskTwo | src/AdvendOfCode2022/Days/Day1.cs:15-23 | part two succeeds exactly when the text parses, and equals the sum of the first three entries of every descending arrangement of the totals |
| Day2.TablesInverse | src/AdventOfCode2022/Days/Day2.cs:18-26 | `LosersOf` undoes `WinnersOf` in both directions, and no figure beats itself or the figure that beats it |
| Day2.BeatenByIsCyclic | src/AdventOfCode2022/Days/Day2.cs:18-43 | the `WinnersOf` table is the rock-paper-scissors rule: it names the opponent exactly when the round is won, `LosersOf` exactly when it is lost, and equal figures exactly when it is drawn |
| Day2.OutcomeSwap | src/AdventOfCode2022/Days/Day2.cs:36-43 | swapping the players turns a win into a loss and keeps a draw |
| Day2.ScoreOne | src/AdventOfCode2022/Days/Day2.cs:32-46 | a part-one round scores the figure's value plus 6, 3 or 0 for the outcome, between 1 and 9 |
| Day2.Choose | src/AdventOfCode2022/Days/Day2.cs:58-64 | part two's chosen figure brings about the wanted outcome against the opponent |
| Day2.ChooseUnique | src/AdventOfCode2022/Days/Day2.cs:58-64 | it is the only figure that does |
| Day2.ScoreTwo | src/AdventOfCode2022/Days/Day2.cs:55-67 | a part-two round scores what part one would for the chosen figure, between 1 and 9 |
| Day2.TotalOne | src/AdventOfCode2022/Days/Day2.cs:28-49 | part one's total is the sum of the rounds' part-one scores, as LINQ's `Select(score).Sum()` computes it |
| Day2.TotalTwo | src/AdventOfCode2022/Days/Day2.cs:51-70 | part two's total is the sum of the rounds' part-two scores |
| Day2.TotalOneBounds | src/AdventOfCode2022/Days/Day2.cs:32-46 | part one's total lies between one and nine points per round |
| Day2.TotalTwoIsTotalOne | src/AdventOfCode2022/Days/Day2.cs:51-70 | part two's total equals part one's total over the rounds with the chosen figures |
| Day2.ParseInputForOne | src/AdventOfCode2022/Days/Day2.cs:72-92 | `Run` does not ask for the end of the text, so text that does not start with a figure letter reads as no rounds; an error needs a first letter, and a read that starts with a round begins with that line's round |
| Day2.ParseInputForTwo | src/AdventOfCode2022/Days/Day2.cs:94-116 | likewise with an opponent letter A, B or C first and an outcome letter second |
| Day2.ParseShowRounds | src/AdventOfCode2022/Days/Day2.cs:72-117 | rounds printed one per line are read back by both grammars |
| LegacyDay2.ParseLine | src/AdvendOfCode2022/Days/Day2.cs:74-88 | a line reads exactly when its first space-separated piece starts with A, B or C and a second piece exists and starts with a letter the second column's table knows (otherwise an index or the `switch` throws); the opponent is the figure of the line's first character and the second value is the decoding of the second piece's first letter |
| LegacyDay2.ParseLines | src/AdvendOfCode2022/Days/Day2.cs:71-89 | the lines read exactly when every line does, and then give one round per line, each its own line's reading |
| LegacyDay2.ParseInputForOne | src/AdvendOfCode2022/Days/Day2.cs:69-90 | part one's input reads exactly when every line does with X, Y, Z as the second letter, and the rounds are the lines' readings in order |
| LegacyDay2.ParseInputForTwo | src/AdvendOfCode2022/Days/Day2.cs:92-113 | part two's input reads exactly when every line does with X, Y, Z read as lose, draw, win, and the rounds are the lines' readings in order |
| LegacyDay2.ParseShowRoundsOne | src/AdvendOfCode2022/Days/Day2.cs:69-90 | part-one rounds printed one per line, without a final line break, read back as themselves |
| LegacyDay2.ParseShowRoundsTwo | src/AdvendOfCode2022/Days/Day2.cs:92-113 | part-two rounds printed one per line read back as themselves |
| LegacyDay2.TreesAgreeOne | src/AdvendOfCode2022/Days/Day2.cs:69-90 | the newer grammar with a final line break reads the same part-one rounds as the older tree without one |
| LegacyDay2.TreesAgreeTwo | src/AdvendOfCode2022/Days/Day2.cs:92-113 | likewise for part two |
| LegacyDay2.TrailingNewlineFails | src/AdvendOfCode2022/Days/Day2.cs:71-98 | a final line break makes the older tree fail: the empty last line has no first character |
| LegacyDay2.LastLineFails | src/AdvendOfCode2022/Days/Day2.cs:74-75 | an empty line anywhere makes the whole parse fail |
| Day3.Priority | src/AdvendOfCode2022/Days/Day3.cs:51-59 | a priority exists exactly for ASCII letters; it lies in 1..52, and in 1..26 exactly for lower-case letters |
| Day3.PriorityInverse | src/AdvendOfCode2022/Days/Day3.cs:51-59 | priorities and letters correspond one to one: every priority in 1..52 has its letter and every letter's priority leads back to it |
| Day3.PriorityInjective | src/AdvendOfCode2022/Days/Day3.cs:51-59 | two items with the same priority are the same item |
| Day3.Halves | src/AdvendOfCode2022/Days/Day3.cs:38-39 | the first compartment holds `length / 2` items and the second the rest, and together they are the line |
| Day3.Intersect | src/AdvendOfCode2022/Days/Day3.cs:13-26 | LINQ `Intersect` keeps exactly the items found in both sides, without repeats |
| Day3.CommonItem | src/AdvendOfCode2022/Days/Day3.cs:13 | `Intersect(...).First()` succeeds exactly when the compartments share an item, and the item is in both |
| Day3.CommonItemIsFirst | src/AdvendOfCode2022/Days/Day3.cs:13 | the shared item chosen is the earliest item of the first compartment found in the second |
| Day3.LineScore | src/AdvendOfCode2022/Days/Day3.cs:10-15 | a line's score is the priority, 1 to 52, of an item both compartments hold |
| Day3.TaskOne | src/AdvendOfCode2022/Days/Day3.cs:6-17 | part one fails exactly when some line has no shared letter; otherwise it is the `Sum` of one score per line, each that line's own `LineScore`, and lies between 1 and 52 per line |
| Day3.Chunk | src/AdvendOfCode2022/Days/Day3.cs:47 | `Chunk(3)` makes non-empty groups of at most three lines, all but the last of exactly three |
| Day3.ChunkConcat | src/AdvendOfCode2022/Days/Day3.cs:45-48 | the groups, put back together, are the lines in order |
| Day3.Shared | src/AdvendOfCode2022/Days/Day3.cs:26 | the `Aggregate` of intersections holds exactly the items found in every line of the group |
| Day3.Badge | src/AdvendOfCode2022/Days/Day3.cs:26 | taking element 0 succeeds exactly when some item is in every line, and that item is |
| Day3.GroupScoresOk | src/AdvendOfCode2022/Days/Day3.cs:20-31 | part two succeeds exactly when every group has a badge with a priority, each group scoring 1..52 |
| Day3.GroupScoresAt | src/AdvendOfCode2022/Days/Day3.cs:24-28 | each group's entry in the list of scores is that group's own score |
| Day3.GroupsTotal | src/AdvendOfCode2022/Days/Day3.cs:24-28 | the groups' total fails exactly when some group has no badge with a priority; otherwise it is the `Sum` of one score per group, each that group's own `GroupScore`, between 1 and 52 per group |
| Day3.TaskTwo | src/AdvendOfCode2022/Days/Day3.cs:19-31 | part two fails exactly when some group of three lines has no badge letter; otherwise it is the `Sum` of each group's own `GroupScore`, between 1 and 52 per group |
| Day4.EitherContainsOtherIsInclusion | src/AdventOfCode2022/Days/Day4.cs:9-23 | for ranges written low to high, part one's test holds exactly when one range's sections include the other's |
| Day4.AnyEndInOtherIsOverlap | src/AdventOfCode2022/Days/Day4.cs:31-79 | for ranges written low to high, part two's test holds exactly when the ranges share a section |
| Day4.TestsRelated | src/AdventOfCode2022/Days/Day4.cs:9-45 | both tests are symmetric in the two ranges, and a contained pair also overlaps |
| Day4.MalformedRangeExample | src/AdventOfCode2022/Days/Day4.cs:12-22 | for a range written high to low the test is not inclusion: `5-3` has no sections but is not counted as inside `4-4` |
| Day4.CountContaining | src/AdventOfCode2022/Days/Day4.cs:6-26 | part one counts the positions whose pair has one range holding both ends of the other, which is at most every pair |
| Day4.CountOverlapping | src/AdventOfCode2022/Days/Day4.cs:28-48 | part two counts the positions whose pair has one range holding an end of the other, which is at most every pair |
| Day4.CountsOrdered | src/AdventOfCode2022/Days/Day4.cs:6-48 | part one's count never exceeds part two's |
| Day4.RangeParser | src/AdventOfCode2022/Days/Day4.cs:53-58 | a matched range consumed input and has non-negative ends (a negative `Index` throws) |
| Day4.PairShown | src/AdventOfCode2022/Days/Day4.cs:60-65 | a printed pair of ranges reads back as itself, up to a line break or the end |
| Day4.ParseInput | src/AdventOfCode2022/Days/Day4.cs:50-70 | `Many1` needs a first pair: text that does not start with one is an error, and a successful read begins with the first line's pair |
| Day4.ParseShowInput | src/AdventOfCode2022/Days/Day4.cs:50-70 | pairs of printable ranges, one per line, read back as themselves |
| LegacyDay4.FiltersAgree | src/AdvendOfCode2022/Days/Day4.cs:11-67 | the older tree's `IsBetween` tests are the newer tree's tests, hence inclusion and overlap for ranges written low to high |
| LegacyDay4.ParseRange | src/AdvendOfCode2022/Days/Day4.cs:58-62 | a parsed range has 32-bit ends |
| LegacyDay4.RangeReadsBack | src/AdvendOfCode2022/Days/Day4.cs:58-62 | a printed range of non-negative 32-bit numbers reads back as itself |
| LegacyDay4.ParseLine | src/AdvendOfCode2022/Days/Day4.cs:53-54 | a line reads exactly when splitting it at ',' gives at least two pieces and the first two read as ranges, and the pair is those two ranges |
| LegacyDay4.ParseInput | src/AdvendOfCode2022/Days/Day4.cs:48-56 | the input fails exactly when some line fails; otherwise it gives one pair per line, each its own line's reading |
| LegacyDay4.ParseShowInput | src/AdvendOfCode2022/Days/Day4.cs:48-56 | pairs printed one per line, without a final line break, read back as themselves |
| LegacyDay4.TreesAgree | src/AdvendOfCode2022/Days/Day4.cs:48-62 | the newer grammar with a final line break reads the same pairs as the older tree without one |
| LegacyDay4.TrailingNewlineFails | src/AdvendOfCode2022/Days/Day4.cs:50-54 | a final line break makes the older tree fail: the empty last line has no second part |
| LegacyDay4.NegativeStartFails | src/AdvendOfCode2022/Days/Day4.cs:58-62 | a range starting below zero does not read back: splitting at '-' cuts the sign off |
| Day5.CratesUpdate | src/AdvendOfCode2022/Days/Day5.cs:18-26 | replacing one stack trades its crates for the new ones and leaves every other crate counted |
| Day5.MoveReversed | src/AdvendOfCode2022/Days/Day5.cs:15-27 | part one's move succeeds only for known stacks and a non-negative count; it changes no other stack, leaves everything as it was when source and target coincide, and otherwise shortens the source and lengthens the target by the count |
| Day5.MoveKeepingOrder | src/AdvendOfCode2022/Days/Day5.cs:43-61 | part two's move has the same frame and lengths |
| Day5.MovesFail | src/AdvendOfCode2022/Days/Day5.cs:18-53 | a move fails exactly when a stack number is unknown, the count is negative (`Enumerable.Range` throws) or the source holds fewer crates than the count; for distinct stacks both cranes fail alike |
| Day5.MovesConserve | src/AdvendOfCode2022/Days/Day5.cs:15-61 | both moves keep every crate: the multiset of crates is unchanged |
| Day5.MovesCompared | src/AdvendOfCode2022/Days/Day5.cs:15-61 | between distinct stacks the two cranes leave the same source and the same old target, and the moved blocks are each other's reverse |
| Day5.CrateMover9000 | src/AdvendOfCode2022/Days/Day5.cs:17-26 | the crate-by-crate loop computes part one's move |
| Day5.CrateMover9001 | src/AdvendOfCode2022/Days/Day5.cs:45-60 | the loop through the spare stack computes part two's move |
| Day5.Unload | src/AdvendOfCode2022/Days/Day5.cs:57-60 | popping the spare stack onto the target appends the spare's crates in reverse |
| Day5.LoadSpare | src/AdvendOfCode2022/Days/Day5.cs:50-55 | lifting `count` crates onto the spare succeeds exactly when there are enough, leaving the rest below and the lifted crates reversed on the spare |
| Day5.RunConserves | src/AdvendOfCode2022/Days/Day5.cs:15-61 | a whole run keeps the stack numbers and every crate |
| Day5.Tops | src/AdvendOfCode2022/Days/Day5.cs:29-32 | the top crates exist exactly when no stack is empty; one per stack, ordered by stack number, each the last crate of its stack |
| Day5.Push | src/AdvendOfCode2022/Days/Day5.cs:93-94 | a crate goes on top of stack `k`, creating the stack when needed, and no other stack changes |
| Day5.RowLength | src/AdvendOfCode2022/Days/Day5.cs:84-108 | a drawing row is read exactly when its length is 3 more than a multiple of 4 (otherwise `Slice(4)` throws) |
| Day5.RowReadsBack | src/AdvendOfCode2022/Days/Day5.cs:84-108 | a drawn row is read back as its crates, in cell order, onto stacks numbered from the row's first index |
| Day5.ParseCommand | src/AdvendOfCode2022/Days/Day5.cs:111-115 | a parsed command holds three 32-bit numbers |
| Day5.WordsOfCommand | src/AdvendOfCode2022/Days/Day5.cs:113 | a printed command splits at spaces into its six words |
| Day5.CommandReadsBack | src/AdvendOfCode2022/Days/Day5.cs:111-115 | a printed command reads back as itself |
| Day5.ParseInput | src/AdvendOfCode2022/Days/Day5.cs:71-117 | text without a blank line is an error; otherwise the drawing is read from the first part and the commands, one per line and in order, from the second, and the parse succeeds when the drawing and every command line read |
| Day5.StackInCrates | src/AdvendOfCode2022/Days/Day5.cs:29-32 | a stack's crates are all among the crates of the stacks |
| Day5.TopIsCrate | src/AdvendOfCode2022/Days/Day5.cs:29-32 | every top crate is one of the crates on the stacks |
| Day5.TopsAreCrates | src/AdvendOfCode2022/Days/Day5.cs:15-32 | after a whole run there is one top crate per stack of the drawing, each a crate the drawing holds |
| Day5.Solve | src/AdvendOfCode2022/Days/Day5.cs:10-35 | an answer exists exactly when the input reads, every command applies and no stack ends empty; it is then the `Tops` of the final stacks, the last crate of each stack in stack order, one letter per drawn stack, each a crate of the drawing |
| Day5.TaskOne | src/AdvendOfCode2022/Days/Day5.cs:10-35 | part one succeeds exactly when the input reads, every one-at-a-time move applies and no stack ends empty, and its letters are the tops of the final stacks in stack order |
| Day5.TaskTwo | src/AdvendOfCode2022/Days/Day5.cs:37-69 | part two succeeds exactly when the input reads, every block move applies and no stack ends empty, and its letters are the tops of the final stacks in stack order |
| Day6.DistinctCountIsLength | src/AdvendOfCode2022/Days/Day6.cs:19 | `Distinct().Count()` never exceeds the window's length and equals it exactly when no character repeats |
| Day6.AnswerUnique | src/AdvendOfCode2022/Days/Day6.cs:6-29 | the answer (the first marker position, or the length plus one when there is none) is unique |
| Day6.FindMarker | src/AdvendOfCode2022/Days/Day6.cs:8-28 | the sliding window fails exactly when the text is too short to prime it and otherwise returns the answer |
| Day6.TaskOne | src/AdvendOfCode2022/Days/Day6.cs:6-29 | part one fails exactly on fewer than 3 characters and otherwise finds the first position after 4 distinct characters |
| Day6.TaskTwo | src/AdvendOfCode2022/Days/Day6.cs:31-54 | part two fails exactly on fewer than 13 characters and otherwise finds the first position after 14 distinct characters |
| Day6.MarkerExample | src/AdvendOfCode2022/Days/Day6.cs:6-29 | three worked answers, including the no-marker answer 5 for `aaaa` |
| Day7.TotalIsWalkSum | src/AdventOfCode2022/Days/Day7.cs:141-149 | a directory's recursive total is the sum of the own-file sizes of every directory the walk visits |
| Day7.TotalsAreWalkSum | src/AdventOfCode2022/Days/Day7.cs:30 | likewise for a list of directories and the walk of all of them |
| Day7.Walk | src/AdventOfCode2022/Days/Day7.cs:141-149 | `IterateDirectories` yields the directory itself first |
| Day7.PathWalked | src/AdventOfCode2022/Days/Day7.cs:141-149 | every directory reached by a path of child steps is visited by the walk |
| Day7.WalkedPath | src/AdventOfCode2022/Days/Day7.cs:141-149 | every directory the walk visits is reached by such a path |
| Day7.WalkBelow | src/AdventOfCode2022/Days/Day7.cs:141-149 | with non-negative file sizes, no visited directory is larger than the one the walk starts from |
| Day7.Replace | src/AdventOfCode2022/Days/Day7.cs:87-110 | changing the directory at a path leaves the path valid and leading to the new directory, and keeps the names, files and child count of the directories above |
| Day7.ReplaceTotal | src/AdventOfCode2022/Days/Day7.cs:28-31 | replacing a directory changes the root's total by exactly the difference of the two totals |
| Day7.ReplaceWellFormed | src/AdventOfCode2022/Days/Day7.cs:79-111 | replacing a directory by a well-formed one of the same name keeps every directory free of duplicate names |
| Day7.ParseLine | src/AdventOfCode2022/Days/Day7.cs:124-138 | a line is a command exactly when it starts with `$` and has a second character, a directory entry exactly when it starts with `dir ` and not `$`, and a file entry holds a space-free name and a 64-bit size |
| Day7.ParseShowLine | src/AdventOfCode2022/Days/Day7.cs:124-138 | a printed item reads back as itself |
| Day7.ParseInput | src/AdventOfCode2022/Days/Day7.cs:122-139 | a parsed session holds one item per line |
| Day7.ParseShowInput | src/AdventOfCode2022/Days/Day7.cs:122-139 | a printed session reads back as itself |
| Day7.FindDir | src/AdventOfCode2022/Days/Day7.cs:79-99 | `FirstOrDefault` by name finds the first directory with that name, and none exactly when no directory has it |
| Day7.Step | src/AdventOfCode2022/Days/Day7.cs:65-116 | one item keeps the shell consistent and fails exactly on an unknown command or when the current directory is null (`cd ..` above the root) and the item is not `ls` |
| Day7.CdParent | src/AdventOfCode2022/Days/Day7.cs:73-76 | `cd ..` moves to the directory that holds the current one and changes no directory |
| Day7.CdChild | src/AdventOfCode2022/Days/Day7.cs:77-90 | `cd x` moves one level down to a directory named `x`, creating it only when none exists, and keeps the total size |
| Day7.FileAdded | src/AdventOfCode2022/Days/Day7.cs:106-113 | a file entry is ignored when its name exists and is otherwise appended, growing the root's total by its size |
| Day7.DirAdded | src/AdventOfCode2022/Days/Day7.cs:98-105 | a directory entry is ignored exactly when its name exists and is otherwise appended empty, keeping the total |
| Day7.StepWellFormed | src/AdventOfCode2022/Days/Day7.cs:65-116 | no item ever gives a directory two entries of the same name |
| Day7.RunWellFormed | src/AdventOfCode2022/Days/Day7.cs:65-117 | neither does a whole session |
| Day7.PrepareRoot | src/AdventOfCode2022/Days/Day7.cs:58-120 | the tree built is a well-formed root named `/` |
| Day7.SmallTotalsBound | src/AdventOfCode2022/Days/Day7.cs:40 | the sum of totals up to the limit is at most the limit per directory |
| Day7.SmallTotalsAll | src/AdventOfCode2022/Days/Day7.cs:40 | when every total is within the limit, every one is added |
| Day7.SmallTotalsWhere | src/AdventOfCode2022/Days/Day7.cs:40 | the recursive sum of small totals is LINQ's `Where(total <= limit)` followed by `Sum(total)` |
| Day7.TaskOne | src/AdventOfCode2022/Days/Day7.cs:36-42 | part one succeeds exactly when the tree can be built, and is then the sum of the totals of at most 100000 over every directory the walk visits |
| Day7.SmallestAtLeast | src/AdventOfCode2022/Days/Day7.cs:50-53 | the smallest total at or above the bound: none exactly when every total is below it, otherwise some directory's total that is no larger than any qualifying one |
| Day7.TaskTwo | src/AdventOfCode2022/Days/Day7.cs:44-56 | part two succeeds exactly when the tree can be built; the answer is some directory's total, at most the root's and at least what must be freed, and no directory that frees enough is smaller |
| Day8.ParseRow | src/AdventOfCode2022/Days/Day8.cs:94-97 | a line is read exactly when every character is a digit, giving one height per character, equal to the digit |
| Day8.ParseShowRow | src/AdventOfCode2022/Days/Day8.cs:94-97 | a printed row of heights reads back as itself |
| Day8.ParseInput | src/AdventOfCode2022/Days/Day8.cs:87-101 | a parsed grid has one row per line, every height a digit |
| Day8.ParseShowInput | src/AdventOfCode2022/Days/Day8.cs:87-101 | a printed grid reads back as itself |
| Day8.MaxLength | src/AdventOfCode2022/Days/Day8.cs:78 | the column count is at least every line's length and is some line's length |
| Day8.RowCount | src/AdventOfCode2022/Days/Day8.cs:77 | the row count stops at the last non-empty line: every line after it is empty |
| Day8.MakeForest | src/AdventOfCode2022/Days/Day8.cs:77-105 | the grid is usable exactly when it has a non-empty line and every counted row is as long as the longest (otherwise a position lookup throws) |
| Day8.EdgeVisible | src/AdventOfCode2022/Days/Day8.cs:21-69 | every tree on the edge is visible |
| Day8.Sweep | src/AdventOfCode2022/Days/Day8.cs:23-32 | the sweep from the start marks exactly the trees taller than all trees before them |
| Day8.SweepBack | src/AdventOfCode2022/Days/Day8.cs:34-43 | the sweep from the end marks exactly the trees taller than all trees after them |
| Day8.SweepRows | src/AdventOfCode2022/Days/Day8.cs:21-44 | after the row sweeps a tree is marked exactly when it is visible from the left or the right |
| Day8.SweepColumn | src/AdventOfCode2022/Days/Day8.cs:48-68 | one column's sweeps add exactly the trees visible from the top or the bottom and touch no other column |
| Day8.Visibility | src/AdventOfCode2022/Days/Day8.cs:11-69 | the four sweeps compute the reference visibility map: a tree is marked exactly when it is visible from some side |
| Day8.MapIsVisible | src/AdventOfCode2022/Days/Day8.cs:11-69 | any map marking exactly the visible trees is the reference map |
| Day8.CountVisible | src/AdventOfCode2022/Days/Day8.cs:71 | part one counts the marked trees of the reference map, at most every tree |
| Day8.TakeWhile | src/AdventOfCode2022/Days/Day8.cs:115-131 | `TakeWhile` returns the longest prefix whose elements all pass, stopping at the first that fails |
| Day8.RangesInOrder | src/AdventOfCode2022/Days/Day8.cs:125-174 | `MakeRanges` lists the trees up, left, down and right, each from the nearest outwards |
| Day8.ViewingDistance | src/AdventOfCode2022/Days/Day8.cs:115-117 | a viewing distance is at most the number of trees in that direction |
| Day8.ViewingDistanceFirstBlock | src/AdventOfCode2022/Days/Day8.cs:115-117 | it counts every tree when all are lower, and otherwise the trees up to and including the first as tall or taller |
| Day8.Ranges | src/AdventOfCode2022/Days/Day8.cs:125-174 | the four lists stay in the grid and reach the edges: `row`, `col`, `rows - row - 1` and `cols - col - 1` trees long |
| Day8.Distances | src/AdventOfCode2022/Days/Day8.cs:107-119 | each of the four distances is at most the trees between the tree and that edge |
| Day8.ProductZero | src/AdventOfCode2022/Days/Day8.cs:120 | a zero distance makes the score zero |
| Day8.EdgeScoresZero | src/AdventOfCode2022/Days/Day8.cs:110-120 | a tree on the edge sees nothing one way, so it scores 0 |
| Day8.RowBest | src/AdventOfCode2022/Days/Day8.cs:80-84 | the best score of a row is at least every score in it and is one of them |
| Day8.BestScore | src/AdventOfCode2022/Days/Day8.cs:80-84 | part two's maximum is at least every tree's score and is some tree's score |
| Day8.TaskOne | src/AdventOfCode2022/Days/Day8.cs:8-72 | part one succeeds exactly when the grid is usable and answers the number of visible trees |
| Day8.TaskTwo | src/AdventOfCode2022/Days/Day8.cs:74-85 | part two succeeds exactly when the grid is usable and answers the best scenic score |
| Day9.MoveHead | src/AdventOfCode2022/Days/Day9.cs:69-80 | the head moves exactly one square: up and right increase the coordinate, down and left decrease it |
| Day9.MoveHeadInverse | src/AdventOfCode2022/Days/Day9.cs:69-80 | a move is undone by the opposite move |
| Day9.MoveTail | src/AdventOfCode2022/Days/Day9.cs:50-67 | a touching tail stays put; in line with the head it ends up touching; otherwise it steps diagonally towards the head; a head within two squares leaves the new tail touching both head and old tail |
| Day9.Follow | src/AdventOfCode2022/Days/Day9.cs:39-42 | every knot follows the one before it and the rope keeps its length |
| Day9.Step | src/AdventOfCode2022/Days/Day9.cs:38-42 | one command keeps the rope's length |
| Day9.StepTaut | src/AdventOfCode2022/Days/Day9.cs:36-45 | a command keeps a rope whose neighbouring knots touch in that state |
| Day9.TailTrail | src/AdventOfCode2022/Days/Day9.cs:19-45 | the visited set holds the tail's starting square |
| Day9.TailTrailSize | src/AdventOfCode2022/Days/Day9.cs:19-47 | the visited set has at most one more square than there are commands |
| Day9.Knots | src/AdventOfCode2022/Days/Day9.cs:33 | the rope starts with every knot at the origin |
| Day9.CountTailSquares | src/AdventOfCode2022/Days/Day9.cs:15-48 | the loop counts the squares of the tail's trail, between 1 and one more than the commands, and leaves a taut rope |
| Day9.ParseLine | src/AdventOfCode2022/Days/Day9.cs:87-96 | a parsed line's first character names the direction and the text from the third character on is its 32-bit count |
| Day9.ParseShowLine | src/AdventOfCode2022/Days/Day9.cs:84-97 | a printed command reads back as itself |
| Day9.ParseLinesFails | src/AdventOfCode2022/Days/Day9.cs:84-97 | the whole input fails exactly when one of its lines does |
| Day9.TrailingNewlineFails | src/AdventOfCode2022/Days/Day9.cs:84-87 | a trailing line break leaves an empty last line, which fails (`line[0]` throws) |
| Day10.ParseLine | src/AdventOfCode2022/Days/Day10.cs:89-102 | a line is `noop` exactly when it is that word; an `addx` line starts with `addx`, has a fifth character and a 32-bit operand |
| Day10.ParseShowLine | src/AdventOfCode2022/Days/Day10.cs:89-102 | a printed instruction reads back as itself |
| Day10.ParseRefuses | src/AdventOfCode2022/Days/Day10.cs:101 | anything but `noop` or an `addx` line is refused |
| Day10.ParseInput | src/AdventOfCode2022/Days/Day10.cs:86-103 | a parsed program holds one instruction per line |
| Day10.ParseShowInput | src/AdventOfCode2022/Days/Day10.cs:86-103 | a printed program reads back as itself |
| Day10.CycleCountSplit | src/AdventOfCode2022/Days/Day10.cs:62-81 | a program takes one cycle per `noop` and two per `addx` |
| Day10.StartStep | src/AdventOfCode2022/Days/Day10.cs:64-76 | the next instruction starts as many cycles later as the current one takes, with the register grown by what it adds |
| Day10.DuringInstruction | src/AdventOfCode2022/Days/Day10.cs:64-76 | during every cycle of an instruction the register holds what the instructions before it left |
| Day10.MakeHistory | src/AdventOfCode2022/Days/Day10.cs:55-84 | the history has an entry for exactly the cycles 1 to the program's length, each the register during that cycle |
| Day10.Strengths | src/AdventOfCode2022/Days/Day10.cs:22 | the strengths exist exactly when every probed cycle is in the history, each the cycle times its register |
| Day10.SignalStrengths | src/AdventOfCode2022/Days/Day10.cs:22 | one strength per probe cycle 20, 60, ..., 220, each the cycle times the register during it |
| Day10.TaskOne | src/AdventOfCode2022/Days/Day10.cs:18-24 | part one fails on a bad program or one shorter than 220 cycles and otherwise answers the sum of the six signal strengths |
| Day10.OnScreen | src/AdventOfCode2022/Days/Day10.cs:37 | the sprite's columns kept are exactly those in 0..39 |
| Day10.PixelRule | src/AdventOfCode2022/Days/Day10.cs:37-38 | a column is lit exactly when it is within one of the register |
| Day10.Draw | src/AdventOfCode2022/Days/Day10.cs:29-51 | drawing succeeds exactly when cycles 1..240 are in the history and gives 6 rows of 40 pixels, each lit exactly when its column is within one of the register during its cycle |
| Day10.TaskTwo | src/AdventOfCode2022/Days/Day10.cs:26-53 | part two fails on a bad program or one shorter than 240 cycles and otherwise draws that screen from the program's own register values |
| Day11.SkipSpaces | src/AdvendOfCode2022/Days/Day11.cs:115 | skipping white space never lengthens the text and stops at a non-space |
| Day11.MonkeyParser | src/AdvendOfCode2022/Days/Day11.cs:141-149 | the monkey parser fails without consuming exactly when the text does not start with `Monkey` |
| Day11.ParseInput | src/AdvendOfCode2022/Days/Day11.cs:151-152 | a successful parse yields at least one monkey |
| Day11.IntFieldShown | src/AdvendOfCode2022/Days/Day11.cs:133-135 | an indented caption followed by a 32-bit number reads back as that number |
| Day11.ItemsShown | src/AdvendOfCode2022/Days/Day11.cs:113-115 | a printed non-empty list of starting items reads back as itself |
| Day11.OperationShown | src/AdvendOfCode2022/Days/Day11.cs:116-132 | a printed operation line reads back as its two operands and operator |
| Day11.DecisionShown | src/AdvendOfCode2022/Days/Day11.cs:133-140 | the printed test and throw lines read back as the divisor and the two receivers |
| Day11.MonkeyShown | src/AdvendOfCode2022/Days/Day11.cs:141-149 | a printed monkey reads back as itself |
| Day11.MonkeysReadBack | src/AdvendOfCode2022/Days/Day11.cs:151 | monkeys printed one after another with blank lines between read back as the same list |
| Day11.ParseShowMonkeys | src/AdvendOfCode2022/Days/Day11.cs:151-152 | printing a non-empty list of monkeys and parsing it gives back the list |
| Day11.Apply | src/AdvendOfCode2022/Days/Day11.cs:182-191 | applying an operator fails exactly on a division by zero |
| Day11.Adjust | src/AdvendOfCode2022/Days/Day11.cs:71-99 | relief fails exactly when reducing modulo zero; a reduced level is smaller in size than the modulus and never negative for a non-negative level |
| Day11.Target | src/AdvendOfCode2022/Days/Day11.cs:100-101 | the receiver is the true monkey exactly when the divisor divides the level, and the test fails on a zero divisor |
| Day11.Pass | src/AdvendOfCode2022/Days/Day11.cs:94-101 | an inspection that succeeds hands the item to an existing monkey other than the inspecting one |
| Day11.Throw | src/AdvendOfCode2022/Days/Day11.cs:94-102 | a throw takes the first item off the thrower's queue and counts one inspection, appends the new level to the receiver's queue and changes no other monkey |
| Day11.Turn | src/AdvendOfCode2022/Days/Day11.cs:91-103 | after a turn the monkey's queue is empty and its count has grown by the number of items it held |
| Day11.Round | src/AdvendOfCode2022/Days/Day11.cs:89-104 | a round keeps the same monkeys |
| Day11.Rounds | src/AdvendOfCode2022/Days/Day11.cs:87-105 | the rounds keep the same monkeys |
| Day11.ThrowConserves | src/AdvendOfCode2022/Days/Day11.cs:94-102 | a throw neither loses nor duplicates an item |
| Day11.TurnConserves | src/AdvendOfCode2022/Days/Day11.cs:92-103 | a turn keeps the number of items |
| Day11.RoundConserves | src/AdvendOfCode2022/Days/Day11.cs:89-104 | a round keeps the number of items |
| Day11.RoundsConserve | src/AdvendOfCode2022/Days/Day11.cs:87-105 | any number of rounds keeps the number of items |
| Day11.GcdDivides | src/AdvendOfCode2022/Days/Day11.cs:85 | the greatest common divisor divides both numbers |
| Day11.LcmStep | src/AdvendOfCode2022/Days/Day11.cs:85 | one aggregation step fails exactly when both numbers are zero |
| Day11.LcmStepMultiple | src/AdvendOfCode2022/Days/Day11.cs:85 | one aggregation step gives a common multiple of its two numbers, zero exactly when one of them is |
| Day11.LcmOfDistinct | src/AdvendOfCode2022/Days/Day11.cs:81-85 | the aggregate of distinct divisors exists, is zero exactly when a divisor is, and is a multiple of every non-zero divisor |
| Day11.TestAgrees | src/AdvendOfCode2022/Days/Day11.cs:99-100 | levels congruent modulo a multiple of a divisor pass that divisor's test alike |
| Day11.OperateCongruent | src/AdvendOfCode2022/Days/Day11.cs:98 | an operation without division maps congruent levels to congruent levels |
| Day11.PassAlike | src/AdvendOfCode2022/Days/Day11.cs:94-101 | an inspection with reduced levels picks the same receiver, with a congruent level, as one with exact levels |
| Day11.ThrowAlike | src/AdvendOfCode2022/Days/Day11.cs:94-102 | a throw keeps reduced and exact holdings alike |
| Day11.TurnAlike | src/AdvendOfCode2022/Days/Day11.cs:91-103 | a turn keeps reduced and exact holdings alike |
| Day11.RoundAlike | src/AdvendOfCode2022/Days/Day11.cs:89-104 | a round keeps reduced and exact holdings alike |
| Day11.RoundsAlike | src/AdvendOfCode2022/Days/Day11.cs:87-105 | any number of rounds keeps reduced and exact holdings alike, failing alike |
| Day11.Business | src/AdvendOfCode2022/Days/Day11.cs:107 | the business fails exactly on no counts and is the only count when there is one |
| Day11.BusinessTopTwo | src/AdvendOfCode2022/Days/Day11.cs:107 | the business of two or more counts is the largest count times the largest of the others |
| Day11.ToRules | src/AdvendOfCode2022/Days/Day11.cs:82 | the dictionary of monkeys exists exactly when the ids are distinct and has exactly those ids as keys |
| Day11.ToRulesFinds | src/AdvendOfCode2022/Days/Day11.cs:82 | every monkey is found under its own id |
| Day11.Start | src/AdvendOfCode2022/Days/Day11.cs:57-62 | every monkey starts with its own items and no inspections |
| Day11.SimulateAlike | src/AdvendOfCode2022/Days/Day11.cs:84-107 | reducing modulo a common multiple of the divisors gives the same answer as exact levels |
| Day11.PartTwoExact | src/AdvendOfCode2022/Days/Day11.cs:74-107 | for monkeys without division or zero divisors, part two's reduced answer equals the exact one |
| Day11.NoMonkeys | src/AdvendOfCode2022/Days/Day11.cs:85-107 | without monkeys part two fails just as the exact computation does |
| Day11.CalculateWith | src/AdvendOfCode2022/Days/Day11.cs:85 | without monkeys the `Aggregate` over the divisors fails |
| Day11.Calculate | src/AdvendOfCode2022/Days/Day11.cs:79-108 | repeated ids and an empty list are errors; part one is the simulation with division by three, and part two, for monkeys without division or zero divisors, equals the simulation with exact levels |
| Day11.TaskOne | src/AdvendOfCode2022/Days/Day11.cs:69-72 | part one succeeds only for parsed monkeys with distinct ids, and is then 20 rounds with levels divided by three |
| Day11.TaskTwo | src/AdvendOfCode2022/Days/Day11.cs:74-77 | part two succeeds only for parsed monkeys with distinct ids; for monkeys without division or zero divisors it equals 10000 rounds with exact levels |
| Day12.Height | src/AdventOfCode2022/Days/Day12.cs:121-133 | the start reads as height 1, the end as 26, and a letter as its place in the alphabet |
| Day12.ParseGrid | src/AdventOfCode2022/Days/Day12.cs:107-143 | parsing fails exactly when there is no line, a line is shorter than the first, or `S` or `E` is missing from the first-line-wide grid; otherwise every cell holds its letter's height and start and end are the last `S` and `E`, at heights 1 and 26 |
| Day12.NextPositions | src/AdventOfCode2022/Days/Day12.cs:92-105 | the neighbours listed are exactly the cells inside the map, one step across, at most one lower than the current cell, with no cell listed twice |
| Day12.Extend | src/AdventOfCode2022/Days/Day12.cs:71-82 | extending one route adds exactly the next cells neither visited last step nor already taken, each ending one new route |
| Day12.Expand | src/AdventOfCode2022/Days/Day12.cs:68-83 | the new routes each extend an old route by one move, end at distinct cells not taken before, and cover every move out of the old layer into an unvisited cell |
| Day12.NextStep | src/AdventOfCode2022/Days/Day12.cs:62-90 | the next step is numbered one higher, its routes end at distinct cells none of which was visited in the step before, and it remembers exactly those cells as visited |
| Day12.NextStepMoves | src/AdventOfCode2022/Days/Day12.cs:62-90 | every new route is an old one plus a move, and every move from an old end to a cell the old step did not visit reaches a new end |
| Day12.Covered | src/AdventOfCode2022/Days/Day12.cs:24-34 | the end cell of any route from the summit turns up in some layer no later than the route's length |
| Day12.LayerReachable | src/AdventOfCode2022/Days/Day12.cs:24-34 | every cell of layer k ends a route of exactly k moves from the summit |
| Day12.Search | src/AdventOfCode2022/Days/Day12.cs:24-34 | the search stops at the first layer that meets the target, or reports that none up to the limit does |
| Day12.SearchShortest | src/AdventOfCode2022/Days/Day12.cs:24-34 | the layer found is reachable in that many moves and no target cell is reachable in fewer; when the search gives up, no target is reachable within the limit |
| Day12.SearchReaches | src/AdventOfCode2022/Days/Day12.cs:24-34 | a target cell reachable in m moves, m within the limit, makes the search succeed by layer m |
| Day12.Lowest | src/AdventOfCode2022/Days/Day12.cs:52 | the lowest cells are exactly the cells of height 1 |
| Day12.PartOne | src/AdventOfCode2022/Days/Day12.cs:12-35 | part one's answer is a number of moves, within the limit, in which the start is reachable walking down from the summit; when the two differ no smaller number works, and a failure means none within the limit does |
| Day12.PartTwo | src/AdventOfCode2022/Days/Day12.cs:37-60 | part two's answer is a number of moves, within the limit, in which some cell of height 1 is reachable walking down from the summit; when the summit is higher no smaller number works, and a failure means none within the limit does |
| Day12.PartsShortest | src/AdventOfCode2022/Days/Day12.cs:12-60 | on a parsed map, part one answers the least number of moves between start and summit; part two answers a number of moves in which some cell of height 1 is reachable, and no such cell is reachable in fewer |
| Day13.NumberOrder | src/AdvendOfCode2022/Days/Day13.cs:72-77 | two integers compare as lower, tied or higher exactly as their values do |
| Day13.NumberAgainstList | src/AdvendOfCode2022/Days/Day13.cs:79-82 | an integer facing a list, on either side, compares as the one-element list holding it |
| Day13.EmptyLists | src/AdvendOfCode2022/Days/Day13.cs:84-86 | two empty lists tie; a non-empty list is higher than an empty one and the empty one lower |
| Day13.Lexicographic | src/AdvendOfCode2022/Days/Day13.cs:88-91 | non-empty lists are decided by their heads, and by their tails when the heads tie |
| Day13.Reflexive | src/AdvendOfCode2022/Days/Day13.cs:68-93 | every packet ties with itself |
| Day13.Antisymmetric | src/AdvendOfCode2022/Days/Day13.cs:68-93 | swapping the two packets swaps a decided answer and keeps a tie |
| Day13.Transitive | src/AdvendOfCode2022/Days/Day13.cs:68-93 | if a is not after b and b is not after c then a compares to c as the two answers chained: lower if either was lower, tied if both tied |
| Day13.ParseShow | src/AdvendOfCode2022/Days/Day13.cs:97-102 | a printed packet followed by a delimiter reads back as itself |
| Day13.ParseShowPair | src/AdvendOfCode2022/Days/Day13.cs:103-107 | a printed pair on two consecutive lines reads back as itself |
| Day13.ParseShowInput | src/AdvendOfCode2022/Days/Day13.cs:95-113 | pairs printed with blank lines between read back as the same pairs |
| Day13.Element | src/AdvendOfCode2022/Days/Day13.cs:97-102 | the element parser matches exactly what the packet grammar reads, fails without consuming exactly when the text starts neither a list nor a number, and otherwise fails fatally |
| Day13.ParsePair | src/AdvendOfCode2022/Days/Day13.cs:103-107 | a pair fails without consuming exactly when the text does not start a packet, and a match consumes input |
| Day13.ParseInput | src/AdvendOfCode2022/Days/Day13.cs:109-111 | a parsed input holds at least one pair |
| Day13.LonePacket | src/AdvendOfCode2022/Days/Day13.cs:103-107 | a packet at the end of the text, before a final line break or before a blank line is a fatal error for the pair parser |
| Day13.LonePacketFails | src/AdvendOfCode2022/Days/Day13.cs:109-111 | after a pair and a blank line, a packet with no partner makes the whole parse an error rather than ending the list of pairs |
| Day13.RightOrderIndicesExact | src/AdvendOfCode2022/Days/Day13.cs:34-42 | an index is collected exactly when its pair compares as lower or tied |
| Day13.PartOne | src/AdvendOfCode2022/Days/Day13.cs:30-45 | part one answers the sum of the 1-based indices of the pairs in the right order |
| Day13.Insert | src/AdvendOfCode2022/Days/Day13.cs:55-60 | inserting a packet adds it to the multiset and nothing else |
| Day13.InsertOrdered | src/AdvendOfCode2022/Days/Day13.cs:55-60 | inserting into an ordered sequence keeps it ordered |
| Day13.Sort | src/AdvendOfCode2022/Days/Day13.cs:55-60 | sorting permutes the packets into an order in which no packet is lower than an earlier one |
| Day13.IndexOf | src/AdvendOfCode2022/Days/Day13.cs:62-63 | the index is the first position holding the packet, or -1 when it is absent |
| Day13.PositionIsCountLower | src/AdvendOfCode2022/Days/Day13.cs:62-63 | in an ordered sequence, the first position of a packet that everything before it is decided against equals the number of packets lower than it |
| Day13.DividerPosition | src/AdvendOfCode2022/Days/Day13.cs:50-63 | when no packet ties with a divider, the divider's position in any ordering of all packets is the number of packets lower than it, itself included among the dividers |
| Day13.AnyOrderDecoderKey | src/AdvendOfCode2022/Days/Day13.cs:55-65 | every ordering of the packets and dividers gives the same product of divider positions, the decoder key |
| Day13.SortedDecoderKey | src/AdvendOfCode2022/Days/Day13.cs:49-65 | with no ties against the dividers, sorting and multiplying the dividers' positions gives the decoder key |
| Day13.AllPackets | src/AdvendOfCode2022/Days/Day13.cs:49 | the packets are listed pair by pair, the first of each pair before the second |
| Day13.PartTwo | src/AdvendOfCode2022/Days/Day13.cs:47-66 | with no packet tied against a divider, part two answers the decoder key of all packets |
| Day14.ParsePaths | src/AdvendOfCode2022/Days/Day14.cs:119-127 | a successful parse gives at least one path, each of at least one point |
| Day14.PointShown | src/AdvendOfCode2022/Days/Day14.cs:119-123 | a printed `x,y` point of 32-bit coordinates reads back as itself |
| Day14.PathShown | src/AdvendOfCode2022/Days/Day14.cs:124 | a printed path of points joined by ` -> ` reads back as itself |
| Day14.ParseShowPaths | src/AdvendOfCode2022/Days/Day14.cs:117-127 | paths printed one per line read back as the same paths |
| Day14.SegmentCovers | src/AdvendOfCode2022/Days/Day14.cs:130-146 | a straight segment together with its far end covers exactly the cells on the line between its ends |
| Day14.ExpandCovers | src/AdvendOfCode2022/Days/Day14.cs:128-147 | the cells of a straight path are exactly the cells on its lines, or its only point |
| Day14.RocksHoldEnds | src/AdvendOfCode2022/Days/Day14.cs:146 | every path's last point is among the rock cells |
| Day14.ParseInput | src/AdvendOfCode2022/Days/Day14.cs:117-148 | a successful parse yields at least one rock cell |
| Day14.RockSet | src/AdvendOfCode2022/Days/Day14.cs:17 | the occupied set holds exactly the rock cells |
| Day14.Lowest | src/AdvendOfCode2022/Days/Day14.cs:19 | the lowest row is the largest row of any rock and belongs to one |
| Day14.Next | src/AdvendOfCode2022/Days/Day14.cs:35-54 | a grain moves one row down into a free cell at most one column away, straight down first, then down-left, then down-right, and stays exactly when all three are taken |
| Day14.SettleAbyss | src/AdvendOfCode2022/Days/Day14.cs:27-59 | a grain in part one falls to a cell it cannot leave, or past the lowest rock, only downwards and never into an occupied cell |
| Day14.SettleFloor | src/AdvendOfCode2022/Days/Day14.cs:78-111 | a grain in part two falls to a cell it cannot leave or to the row above the floor, never into an occupied cell |
| Day14.PourAbyss | src/AdvendOfCode2022/Days/Day14.cs:14-63 | the pour adds one occupied cell per counted grain, keeps every old cell, and ends when the next grain falls past the lowest rock; it fails only as an endless loop |
| Day14.PourFloor | src/AdvendOfCode2022/Days/Day14.cs:65-115 | the pour adds one occupied cell per counted grain until the source is covered, and reports an endless loop exactly when the source is free and the floor is above row 1 |
| Day14.PourFloorInCone | src/AdvendOfCode2022/Days/Day14.cs:65-115 | part two's sand stays within the cone under the source above the floor |
| Day14.DropAbyss | src/AdvendOfCode2022/Days/Day14.cs:25-59 | the inner loop of part one leaves the grain where the fall rule settles it |
| Day14.RunAbyss | src/AdvendOfCode2022/Days/Day14.cs:20-60 | the outer loop of part one counts the grains of the pour, and ends exactly when the pour does |
| Day14.TaskOne | src/AdvendOfCode2022/Days/Day14.cs:14-63 | part one fails on a bad input and otherwise answers the number of grains that come to rest before one falls into the abyss |
| Day14.DropFloor | src/AdvendOfCode2022/Days/Day14.cs:76-111 | the inner loop of part two leaves the grain where the fall rule settles it above the floor |
| Day14.RunFloor | src/AdvendOfCode2022/Days/Day14.cs:71-112 | the outer loop of part two counts the grains of the pour, and ends exactly when the pour does |
| Day14.TaskTwo | src/AdvendOfCode2022/Days/Day14.cs:65-115 | part two fails on a bad input and otherwise answers the number of grains that rest, with the floor two rows below the lowest rock, until the source is covered |
| Day15.DistanceMetric | src/AdventOfCode2022/Days/Day15.cs:17-20 | the Manhattan distance is symmetric, zero exactly between equal points, and obeys the triangle inequality |
| Day15.IsCloseToAny | src/AdventOfCode2022/Days/Day15.cs:157-160 | a point is close exactly when some sensor is no farther from it than from its own beacon |
| Day15.IsFarFromAny | src/AdventOfCode2022/Days/Day15.cs:162-165 | a point is far exactly when every sensor is farther from it than from its own beacon |
| Day15.FarIffNotClose | src/AdventOfCode2022/Days/Day15.cs:157-165 | a point is far from all sensors exactly when it is close to none |
| Day15.BeaconsAreClose | src/AdventOfCode2022/Days/Day15.cs:157-160 | every sensor's beacon is close to that sensor |
| Day15.Beacons | src/AdventOfCode2022/Days/Day15.cs:39 | the beacons are exactly the sensors' closest beacons |
| Day15.Bag | src/AdventOfCode2022/Days/Day15.cs:50-67 | every point the loop collects is kept, lies on row y, within the offsets run, and there are at most two per offset |
| Day15.BagComplete | src/AdventOfCode2022/Days/Day15.cs:50-67 | every kept point of the row within the offsets run is collected |
| Day15.OriginTwice | src/AdventOfCode2022/Days/Day15.cs:56-66 | offset 0 looks at the point on the row's column 0 twice, so a kept origin is collected twice |
| Day15.PositionsOfBag | src/AdventOfCode2022/Days/Day15.cs:50-67 | the collected points, counted once each, are the bag's points, and the bag is longer by one exactly when the origin is kept |
| Day15.PartOne | src/AdventOfCode2022/Days/Day15.cs:36-70 | part one fails exactly with no sensors; otherwise every point it counts is close to a sensor and not a beacon, and there are at most two per offset |
| Day15.PartOneCorrected | src/AdventOfCode2022/Days/Day15.cs:36-70 | counting each collected point once gives the number of distinct points, the intended answer |
| Day15.PartOneOffByOne | src/AdventOfCode2022/Days/Day15.cs:56-69 | the source's count exceeds the distinct count by one exactly when the row's column-0 point is counted |
| Day15.RowRangeCovers | src/AdventOfCode2022/Days/Day15.cs:83-92 | a column within the limit is in a sensor's clipped range of the row exactly when the sensor covers that point |
| Day15.RowRanges | src/AdventOfCode2022/Days/Day15.cs:83-93 | the row's ranges are exactly the ranges of the sensors that reach it |
| Day15.RowRangesCover | src/AdventOfCode2022/Days/Day15.cs:83-93 | a column within the limit is in some range exactly when the point is close to some sensor |
| Day15.Sweep | src/AdventOfCode2022/Days/Day15.cs:95-114 | the sweep over ranges sorted by start finds the first uncovered column within the limit, or reports that every column is covered |
| Day15.ScanRow | src/AdventOfCode2022/Days/Day15.cs:83-120 | scanning a row finds its first column far from every sensor, or reports that every column is close to some sensor |
| Day15.TuningDecodes | src/AdventOfCode2022/Days/Day15.cs:123 | the tuning frequency of a point in range gives back its column and row |
| Day15.PartTwo | src/AdventOfCode2022/Days/Day15.cs:72-125 | part two succeeds exactly when some point in the square is far from every sensor, and then answers the tuning frequency of such a point |
| Day17.ParseJets | src/AdventOfCode2022/Days/Day17.cs:121-124 | one jet per character of the trimmed text, a push to the left exactly where the character is `<` |
| Day17.Shape | src/AdventOfCode2022/Days/Day17.cs:14-20 | every rock shape has one to five distinct cells within a four-by-four box |
| Day17.Cycles | src/AdventOfCode2022/Days/Day17.cs:121-144 | the jets repeat with the pattern's length and the shapes with period five |
| Day17.TakePrefix | src/AdventOfCode2022/Days/Day17.cs:146-158 | taking `count` items yields the first `count` of them, or the whole stream when the count is never reached |
| Day17.Processed | src/AdventOfCode2022/Days/Day17.cs:43-100 | as many rocks fall as asked for when that is between 1 and 100001, and otherwise 100001 |
| Day17.Cells | src/AdventOfCode2022/Days/Day17.cs:24-27 | a rock covers its shape's cells shifted to its position |
| Day17.Move | src/AdventOfCode2022/Days/Day17.cs:160-170 | a move happens exactly when every shifted cell is free, and then the rock is shifted by the offsets; otherwise it stays |
| Day17.MoveKeepsFree | src/AdventOfCode2022/Days/Day17.cs:160-170 | a rock on free cells stays on free cells after a move |
| Day17.SpawnFits | src/AdventOfCode2022/Days/Day17.cs:54 | a new rock appears two columns from the wall, three rows above the highest stored cell, and always fits there |
| Day17.Fall | src/AdventOfCode2022/Days/Day17.cs:55-90 | a falling rock uses at least one jet, keeps its shape, never rises, stays on free cells and ends where it cannot move down |
| Day17.AddRow | src/AdventOfCode2022/Days/Day17.cs:71-75 | storing a row appends it to the column unless it is already there, keeping the column's earlier rows |
| Day17.Store | src/AdventOfCode2022/Days/Day17.cs:69-76 | after storing a rock each column holds its old rows, in order, followed by the rock's new cells in it |
| Day17.Truncate | src/AdventOfCode2022/Days/Day17.cs:78-84 | a column keeps at most its last 30 rows and is untouched when it has no more |
| Day17.RestKeeps | src/AdventOfCode2022/Days/Day17.cs:69-84 | after a rock comes to rest its cells are remembered, nothing new but its cells is, and no column exceeds 30 rows |
| Day17.Bottom | src/AdventOfCode2022/Days/Day17.cs:92 | the height is the highest remembered row of any column |
| Day17.Drop | src/AdventOfCode2022/Days/Day17.cs:51-95 | one more rock keeps the tower well formed, uses a jet, and raises the height by at most seven |
| Day17.Run | src/AdventOfCode2022/Days/Day17.cs:40-100 | after n rocks the tower is well formed, at least one high once a rock has fallen, and at most seven per rock |
| Day17.Calculate | src/AdventOfCode2022/Days/Day17.cs:40-106 | the height is answered directly exactly when the jet pattern is non-empty and the rocks asked for all fall within the cap, and then lies between 1 and seven per rock |
| Day17.PartOne | src/AdventOfCode2022/Days/Day17.cs:30-33 | part one succeeds exactly when the jet pattern is non-empty, and is then the height after 2022 rocks, between 1 and seven per rock |
| Day18.Adjacent | src/AdventOfCode2022/Days/Day18.cs:87-95 | a cube has exactly six distinct neighbours, exactly the cells sharing a face with it |
| Day18.TouchingSymmetric | src/AdventOfCode2022/Days/Day18.cs:87-95 | sharing a face is symmetric and no cube shares a face with itself |
| Day18.Exposed | src/AdventOfCode2022/Days/Day18.cs:11 | a cube has at most six open faces |
| Day18.PartOne | src/AdventOfCode2022/Days/Day18.cs:8-14 | the surface area is at most six faces per distinct cube |
| Day18.TouchesCount | src/AdventOfCode2022/Days/Day18.cs:87-95 | the cubes touching a cube are exactly its neighbours that are cubes |
| Day18.TouchSumPairs | src/AdventOfCode2022/Days/Day18.cs:11 | counting every cube's touching cubes counts each touching pair twice |
| Day18.SurfaceContacts | src/AdventOfCode2022/Days/Day18.cs:11 | the open faces of cubes are six per cube less one per touching neighbour |
| Day18.PartOneFaces | src/AdventOfCode2022/Days/Day18.cs:8-14 | the surface area is six per distinct cube less two per touching pair |
| Day18.FirstOpen | src/AdventOfCode2022/Days/Day18.cs:40-43 | the next cell tried is a listed neighbour that is air and unvisited, and there is none exactly when every neighbour is a cube or visited |
| Day18.ReachedEscape | src/AdventOfCode2022/Days/Day18.cs:56-69 | once an air walk from the start leaves the box, every cell it reached has an air walk out of the box |
| Day18.ExitFound | src/AdventOfCode2022/Days/Day18.cs:56-69 | a step out of the box lets the start and every visited cell out, keeping what was known before |
| Day18.HasWayOut | src/AdventOfCode2022/Days/Day18.cs:26-74 | a way out is reported only for a cell from which an air walk leaves the box; the cells cached as connected only grow, all with a way out, and stay unchanged when none is found |
| Day18.ExposedOut | src/AdventOfCode2022/Days/Day18.cs:22 | the faces of a cube counted in part two are at most its air neighbours with a way out |
| Day18.OutsideSurface | src/AdventOfCode2022/Days/Day18.cs:22 | the faces counted over all cubes are at most the open faces with a way out |
| Day18.Cubes | src/AdventOfCode2022/Days/Day18.cs:10-18 | the set holds exactly the parsed cubes |
| Day18.PartTwo | src/AdventOfCode2022/Days/Day18.cs:16-75 | part two fails exactly with no cubes, and otherwise counts only faces with a way out of the box, at most part one's surface area |
| Day19.Plus | src/AdventOfCode2022/Days/Day19.cs:119 | adding to one resource changes that resource by the amount and leaves the others alone |
| Day19.CalculateTime | src/AdventOfCode2022/Days/Day19.cs:143-153 | the wait is the least number of minutes after which the income brings the stock up to the price, zero exactly when it already is |
| Day19.Wait | src/AdventOfCode2022/Days/Day19.cs:99-104 | the wait for a price is the least number of minutes after which every entry of the price is in stock |
| Day19.AffordableLater | src/AdventOfCode2022/Days/Day19.cs:99-104 | waiting longer never makes a price unaffordable again |
| Day19.Pay | src/AdventOfCode2022/Days/Day19.cs:113-116 | paying takes from each resource exactly the total the price asks of it |
| Day19.Find | src/AdventOfCode2022/Days/Day19.cs:19-22 | the robot for a kind is found exactly when the blueprint has a robot of that kind, and otherwise the dictionary lookup fails |
| Day19.Build | src/AdventOfCode2022/Days/Day19.cs:79-126 | a build happens only below the cap, ends later but within 24 minutes, adds exactly one robot of its kind, waits the least time that pays for the robot plus a minute, and leaves every resource grown by its robots' output less the price |
| Day19.BuildKeepsStock | src/AdventOfCode2022/Days/Day19.cs:111-116 | with one entry per resource in a price, a build never leaves a resource negative |
| Day19.PriceOfSingle | src/AdventOfCode2022/Days/Day19.cs:113-116 | a price naming a resource once asks exactly that entry's value of it |
| Day19.PriceOfAbsent | src/AdventOfCode2022/Days/Day19.cs:113-116 | a price that does not name a resource asks nothing of it |
| Day19.Explore | src/AdventOfCode2022/Days/Day19.cs:70-127 | the search's answer is at least what the state it starts from is on course to crack |
| Day19.Branches | src/AdventOfCode2022/Days/Day19.cs:79-126 | trying the robot kinds in turn never lowers the best found so far |
| Day19.BranchesBound | src/AdventOfCode2022/Days/Day19.cs:79-126 | every build the search tries leads to an explored state whose best is no more than the answer |
| Day19.BranchesAttained | src/AdventOfCode2022/Days/Day19.cs:75-126 | the answer is the starting state's own expectation or some build's answer |
| Day19.ExploreIsBest | src/AdventOfCode2022/Days/Day19.cs:70-127 | no state reachable by builds is on course to crack more geodes than the answer |
| Day19.ExploreAttained | src/AdventOfCode2022/Days/Day19.cs:70-127 | some sequence of builds reaches a state on course to crack exactly the answer |
| Day19.PathKeepsCaps | src/AdventOfCode2022/Days/Day19.cs:55-85 | along any sequence of builds robot counts that start within their caps stay within them |
| Day19.PathKeepsStock | src/AdventOfCode2022/Days/Day19.cs:97-116 | along any sequence of builds with plain prices no resource goes negative |
| Day19.PricesInMembers | src/AdventOfCode2022/Days/Day19.cs:56 | the prices collected in a resource are exactly the price entries for that resource |
| Day19.Caps | src/AdventOfCode2022/Days/Day19.cs:55-57 | the caps exist exactly when every one of ore, clay and obsidian is priced somewhere, each five more than its dearest price, geode capped at the largest `int` |
| Day19.Cap | src/AdventOfCode2022/Days/Day19.cs:56 | a cap is five more than the dearest of its prices |
| Day19.Quality | src/AdventOfCode2022/Days/Day19.cs:50-131 | a blueprint's quality is the search's best geode count times its number |
| Day19.PartOne | src/AdventOfCode2022/Days/Day19.cs:19-44 | part one succeeds exactly when every blueprint has distinct robot kinds and a quality |
| Day19.PartOneSums | src/AdventOfCode2022/Days/Day19.cs:38-44 | part one's answer is the sum of the blueprints' qualities |
| Day20.ParseInput | src/AdventOfCode2022/Days/Day20.cs:142-145 | a successful parse gives one 32-bit number per non-empty trimmed line |
| Day20.ParseShowInput | src/AdventOfCode2022/Days/Day20.cs:142-145 | numbers printed one per line read back as themselves |
| Day20.RemoveAtCount | src/AdventOfCode2022/Days/Day20.cs:32-47 | removing a node takes exactly one occurrence of it out of the list |
| Day20.InsertAtCount | src/AdventOfCode2022/Days/Day20.cs:38-53 | putting a node back adds exactly one occurrence of it |
| Day20.Moved | src/AdventOfCode2022/Days/Day20.cs:25-54 | a move keeps the list's length and its nodes |
| Day20.WalkForward | src/AdventOfCode2022/Days/Day20.cs:27-38 | the forward walk, wrapping from the last node to the first, ends just before the landing place |
| Day20.WalkBack | src/AdventOfCode2022/Days/Day20.cs:42-53 | the backward walk, wrapping from the first node to the last, ends at the landing place |
| Day20.MoveNode | src/AdventOfCode2022/Days/Day20.cs:25-54 | one node's move through the linked list puts it exactly where the move rule does |
| Day20.MovedKeepsOthers | src/AdventOfCode2022/Days/Day20.cs:25-54 | a move leaves the other nodes in their cyclic order |
| Day20.MovedLandsAfter | src/AdventOfCode2022/Days/Day20.cs:25-54 | the moved node lands right after the node reached by walking its value's number of steps around the other nodes |
| Day20.MovedModulo | src/AdventOfCode2022/Days/Day20.cs:102-105 | walking k steps around the n-1 other nodes lands where walking k mod (n-1) steps does |
| Day20.StepsReduce | src/AdventOfCode2022/Days/Day20.cs:102-117 | part two's reduced walk length is part one's modulo the number of other nodes |
| Day20.Steps | src/AdventOfCode2022/Days/Day20.cs:33-117 | a node walks its value's magnitude in part one, and in part two fewer places than there are other nodes, that magnitude's remainder |
| Day20.MixNode | src/AdventOfCode2022/Days/Day20.cs:17-54 | a turn fails exactly for a non-zero value alone in the list, keeps every node once, and leaves the list alone for a zero |
| Day20.MixFromFails | src/AdventOfCode2022/Days/Day20.cs:17-55 | a round fails exactly on a one-node list holding a non-zero value |
| Day20.MixFromReduce | src/AdventOfCode2022/Days/Day20.cs:86-124 | a round with full walks and a round with walks reduced modulo n-1 mix alike |
| Day20.Turn | src/AdventOfCode2022/Days/Day20.cs:19-54 | one node's turn through the linked list agrees with the turn rule |
| Day20.MixRound | src/AdventOfCode2022/Days/Day20.cs:17-55 | a round of turns in input order agrees with the round rule |
| Day20.MixRoundsReduce | src/AdventOfCode2022/Days/Day20.cs:84-125 | any number of rounds mix alike with full and with reduced walks |
| Day20.Mix | src/AdventOfCode2022/Days/Day20.cs:12-55 | mixing from the input order fails exactly on a one-node list holding a non-zero value, and otherwise lists every node once |
| Day20.MixedIsPermutation | src/AdventOfCode2022/Days/Day20.cs:17-55 | the mixed list carries exactly the input's values, as a multiset |
| Day20.ContentsOfIds | src/AdventOfCode2022/Days/Day20.cs:12-15 | the list built in input order carries the input values in order |
| Day20.FirstZero | src/AdventOfCode2022/Days/Day20.cs:57 | the zero found is the first in the list, and there is none exactly when no value is zero |
| Day20.GroveSum | src/AdventOfCode2022/Days/Day20.cs:57-69 | the grove sum fails exactly when there is no zero, and otherwise is the sum of the values 1000, 2000 and 3000 places after it around the circle |
| Day20.TaskOne | src/AdventOfCode2022/Days/Day20.cs:6-70 | part one fails on a bad input, a lone non-zero value or no zero, and otherwise answers the grove sum after one round of mixing |
| Day20.Decrypted | src/AdventOfCode2022/Days/Day20.cs:74 | every value is multiplied by 811589153, zero exactly where the input value was |
| Day20.DecryptedFitsLong | src/AdventOfCode2022/Days/Day20.cs:74 | the keyed values of 32-bit inputs fit in 64 bits |
| Day20.TaskTwo | src/AdventOfCode2022/Days/Day20.cs:72-140 | part two fails on a bad input, a lone non-zero value or no zero, and otherwise answers the grove sum after ten rounds of mixing the keyed values |
| Day21.Create | src/AdventOfCode2022/Days/Day21.cs:15-27 | an operation is created exactly from `+`, `-`, `*` or `/`, and prints back as that text |
| Day21.CreateOpText | src/AdventOfCode2022/Days/Day21.cs:15-27 | every operation is created from its own text |
| Day21.Apply | src/AdventOfCode2022/Days/Day21.cs:17-24 | applying an operation fails exactly on a division by zero |
| Day21.JobsFind | src/AdventOfCode2022/Days/Day21.cs:9-13 | with distinct ids each monkey's job is found under its id |
| Day21.Expressions | src/AdventOfCode2022/Days/Day21.cs:39 | every waiting monkey is an expression monkey of the input |
| Day21.Pass | src/AdventOfCode2022/Days/Day21.cs:43-89 | a pass keeps every known key; part one's indexer overwrites a value, while in part two (`strict`) `ImmutableDictionary.Add` fails on an id that already has a different value and leaves an equal one alone, so every known value is kept; it leaves waiting only monkeys that were waiting and had an operand missing, and changes nothing exactly when it evaluates nobody |
| Day21.PassEqualValue | src/AdventOfCode2022/Days/Day21.cs:81-86 | in part two a monkey whose id already holds the value it evaluates to leaves the values as they were, and one whose id holds another value fails |
| Day21.UntilRoot | src/AdventOfCode2022/Days/Day21.cs:41-53 | evaluation until `root` is known keeps every known key and ends with a value for `root` |
| Day21.EvalDeeper | src/AdventOfCode2022/Days/Day21.cs:41-53 | evaluating the expression tree deeper never changes an answer already found |
| Day21.PassMeant | src/AdventOfCode2022/Days/Day21.cs:43-52 | a pass records only values the expression tree gives |
| Day21.UntilRootMeant | src/AdventOfCode2022/Days/Day21.cs:41-53 | every value known when `root` is reached is what the expression tree gives |
| Day21.ConstantsMeant | src/AdventOfCode2022/Days/Day21.cs:34-37 | with distinct ids the starting values are the constant monkeys' numbers |
| Day21.PartOneEvaluates | src/AdventOfCode2022/Days/Day21.cs:30-56 | part one's answer is the value of the expression tree at `root` |
| Day21.StartMeant | src/AdventOfCode2022/Days/Day21.cs:30-56 | with distinct ids, every value known once `root` is reached is what the expression tree gives at some depth |
| Day21.PartOne | src/AdventOfCode2022/Days/Day21.cs:30-56 | repeated expression ids are an error, and with distinct ids part one's answer is the value of the expression tree at `root` |
| Day21.SolveRight | src/AdventOfCode2022/Days/Day21.cs:132-143 | solving for the right operand fails exactly on a division by zero: a zero known factor, or a zero result of a division |
| Day21.SolveLeft | src/AdventOfCode2022/Days/Day21.cs:145-157 | solving for the left operand fails exactly when dividing by a zero known factor |
| Day21.SolveRightReapplies | src/AdventOfCode2022/Days/Day21.cs:132-143 | the right operand found, put back into the operation, gives the value sought whenever the division involved is exact |
| Day21.SolveLeftReapplies | src/AdventOfCode2022/Days/Day21.cs:145-157 | the left operand found, put back into the operation, gives the value sought, for a product whenever it divides exactly |
| Day21.SeedValues | src/AdventOfCode2022/Days/Day21.cs:66-70 | the starting values of part two are constant monkeys of the input, never `humn` |
| Day21.SeedValuesExact | src/AdventOfCode2022/Days/Day21.cs:66-70 | `ImmutableDictionary.Add` makes the seeding fail exactly when two constant monkeys other than `humn` share an id with different numbers; otherwise every such monkey's id holds its number |
| Day21.SeedWaiting | src/AdventOfCode2022/Days/Day21.cs:72-76 | the waiting monkeys of part two are distinct expression monkeys of the input, never `root`, and every expression monkey other than `root` is among them |
| Day21.Merge | src/AdventOfCode2022/Days/Day21.cs:72-76 | adding the entries one by one keeps distinct ids, each entry taken from the input |
| Day21.MergeExact | src/AdventOfCode2022/Days/Day21.cs:72-76 | `ImmutableDictionary.Add` makes the merge fail exactly when two entries share an id with different formulas; otherwise every entry is kept, an identical repeat once |
| Day21.Filter | src/AdventOfCode2022/Days/Day21.cs:73 | exactly the entries not for `root` are kept |
| Day21.Settle | src/AdventOfCode2022/Days/Day21.cs:78-94 | the loop keeps every known value and stops at a state in which a further pass changes nothing, with no waiting monkey ready |
| Day21.ById | src/AdventOfCode2022/Days/Day21.cs:72-76 | the waiting monkeys are found exactly by their ids |
| Day21.Walk | src/AdventOfCode2022/Days/Day21.cs:111-158 | the backward walk keeps every known value |
| Day21.WalkStep | src/AdventOfCode2022/Days/Day21.cs:119-157 | one backward step solves for the unknown operand and goes on from it, or fails as the solving does |
| Day21.WalkEnds | src/AdventOfCode2022/Days/Day21.cs:115-129 | the walk stops at `humn`, stops when both operands are unknown, fails for a monkey without a formula and fails when both operands are already known |
| Day21.RootFormula | src/AdventOfCode2022/Days/Day21.cs:61 | the formula is that of the first monkey named `root`, and the cast fails exactly when that monkey is a constant |
| Day21.Equate | src/AdventOfCode2022/Days/Day21.cs:96-109 | equating fails exactly when neither of `root`'s operands is known, or both are known with different values (`Add` refuses the second); otherwise the walk starts from an operand that is given the other's value, the unknown one when there is one, and the right one, with the values unchanged, when both are known and equal |
| Day21.PartTwo | src/AdventOfCode2022/Days/Day21.cs:58-168 | part two succeeds only when `root` is an expression monkey |
| Day21.RepeatedConstant | src/AdventOfCode2022/Days/Day21.cs:66-70 | a constant monkey listed twice with the same number is accepted and part two answers as with one |
| Day21.ClashingConstant | src/AdventOfCode2022/Days/Day21.cs:66-70 | a constant monkey listed twice with different numbers makes part two fail |
| Common.TMod | src/AdvendOfCode2022/Days/Day11.cs:99 | C#'s `%` leaves a remainder smaller in size than the divisor and carrying the dividend's sign |
| Common.TDivMod | src/AdventOfCode2022/Days/Day21.cs:21 | C#'s truncating `/` and `%` together rebuild the dividend: a == b * (a / b) + a % b |
| Common.TModZeroIffDivides | src/AdvendOfCode2022/Days/Day11.cs:162 | the divisibility test `x % d == 0` holds exactly when d divides x, whatever the signs |
| Common.JoinSplit | src/AdvendOfCode2022/Days/Day4.cs:50 | `Split` on one separator loses nothing: the pieces joined by it give the text back |
| Common.SplitJoin | src/AdvendOfCode2022/Days/Day4.cs:53 | splitting separator-free pieces joined by the separator gives exactly those pieces |
| Common.TrimmedEntriesJoin | src/AdventOfCode2022/Days/Day20.cs:144 | `TrimEntries` with `RemoveEmptyEntries` returns trimmed, non-empty, separator-free lines as they were joined |
| Common.ParseInt32 | src/AdvendOfCode2022/Days/Day4.cs:61 | `int.Parse` yields a value exactly when the text is a decimal number inside the 32-bit range, and then that number |
| Common.ParseShowInt32 | src/AdventOfCode2022/Days/Day9.cs:95 | every 32-bit number printed in decimal is read back by `int.Parse` as itself |
| Common.OrderDescending | src/AdventOfCode2022/Days/Day1.cs:17 | `OrderDescending` returns a permutation of its input with no element smaller than one after it |
| Common.MapResultAt | src/AdventOfCode2022/Days/Day8.cs:87-101 | a successful map holds each element's value at its position |
| Common.ParseEachLine | src/AdvendOfCode2022/Days/Day4.cs:50-55 | reading every line fails exactly when one line fails, and otherwise gives one value per line |
| Common.ParseEachLineAt | src/AdvendOfCode2022/Days/Day4.cs:50-55 | each value read is what its own line reads as |
| Common.CountWhereIndices | src/AdventOfCode2022/Days/Day4.cs:9-23 | LINQ `Where(p).Count()` is the number of positions whose element satisfies `p` |
| Common.Where | src/AdventOfCode2022/Days/Day7.cs:40 | LINQ `Where` keeps as many elements as satisfy `p`, each one of the input satisfying `p`, and loses none that does |
| Common.SumBounds | src/AdvendOfCode2022/Days/Day3.cs:15 | a sum of terms each between two bounds lies between the bounds times the number of terms |
| Common.DescendingUnique | src/AdvendOfCode2022/Days/Day11.cs:107 | any two descending arrangements of the same numbers are equal, so the top entries do not depend on how the sort breaks ties |
| Parsing.IntShown | src/AdvendOfCode2022/Days/Day11.cs:113 | the `Int` parser reads back any 32-bit number printed in decimal and stops at the first non-digit |
| Parsing.Int | src/AdvendOfCode2022/Days/Day14.cs:124 | `Int` fails without consuming exactly when no signed digits start the text, fails fatally exactly when the digits are out of the 32-bit range, and otherwise consumes at least one character |
| Parsing.Many1First | src/AdventOfCode2022/Days/Day4.cs:67-69 | `Many1` matches only when its first item does, and then begins with that item |
| Parsing.IntOutOfRange | src/AdvendOfCode2022/Days/Day13.cs:100 | a printed number outside the 32-bit range is a fatal error for `Int` |
| Parsing.LongOutOfRange | src/AdventOfCode2022/Days/Day1.cs:25 | a printed number outside the 64-bit range is a fatal error for `Long` |
| Parsing.Many1Lines | src/AdvendOfCode2022/Days/Day14.cs:125 | a non-empty list printed one item per line is read back whole by `Many1` with `Newline` or `Many1(Newline)` as separator and a trailing separator allowed |
| Parsing.ManyInterleaveAll | src/AdvendOfCode2022/Days/Day14.cs:124 | items printed with a separator between them are read back whole by `Many` and `Many1` |

## Left out

- Program.cs, `DayAttribute`, `InputAttribute`, `DayBase` and `ContainerHelper`: command-line dispatch, reading the input file and printing. These are I/O; the model takes the input text as a parameter and returns the answer.
- Day16 (src/AdventOfCode2022/Days/Day16.cs) is not part of this model. Its parallel beam search keeps the best `Math.Max(count / 4, 1000)` states per step, so its answer depends on a heuristic cut-off and on thread scheduling.
- Line breaks: `Environment.NewLine` is taken to be `"\n"`. On Windows it is `"\r\n"`, and every split on it would behave differently.
- Parsing.Newline: FParsec's `newline` also accepts `"\r\n"` and a lone `"\r"`. The model accepts only `'\n'`, so input with Windows or old Mac line ends is refused where the source reads it.
- Parsing.Int and Parsing.Long: FParsec's `pint32` and `pint64` also accept hexadecimal, octal and binary numbers written with a `0x`, `0o` or `0b` prefix. The model reads only decimal digits after an optional sign.
- Parsing.RunParser: FParsec's `Run` does not demand the end of input, so text after the last parsed item is ignored. The model's read-back lemmas are stated for input that holds exactly the printed data.
- Common.ParseInt: `int.Parse` and `long.Parse` use the current culture. The model fixes the invariant culture's signs (`-` and `+`) and the ASCII white space that `NumberStyles.Integer` trims. Culture-specific signs and Unicode white space are not modelled.
- Integer width: C# `int` and `long` are modelled by the unbounded `int`. Parsing checks the 32-bit and 64-bit ranges: `int.Parse` and `long.Parse` reject a number out of range, and FParsec's `Int` and `Long` fail after consuming its digits, which ends the whole parse with an error. Arithmetic never wraps and never throws `OverflowException`. The known places where this matters follow.
- Day20.Steps: for the value -2147483648, part one's `-value` (Day20.cs:48) wraps to itself and `Enumerable.Range` throws. The model walks 2^31 places instead.
- Day1.Totals, Day10.Strengths, Day19.PartOne and Day20.GroveSum: LINQ `Sum` over `int` is checked and throws `OverflowException` when the total leaves the 32-bit range. The model returns the exact sum (Day1.cs:10, Day10.cs:22, Day19.cs:41, Day20.cs:69).
- Day14.PourFloor: with the floor above the source (floor < 1) the model reports that the loop never ends. In the source the unchecked `position.Y + 1` (Day14.cs:87) wraps around from `int.MaxValue` to negative rows, reaches `floor - 1` and ends.
- Day11: `Inspected` is a `long` in the source (Day11.cs) and the business product can overflow it. Worry levels are `BigInteger` in the source and exact `int` in the model, so they agree.
- Day17, Day19 and Day21: `long` and `int` arithmetic (heights, geode counts and qualities before the sum, monkey values) is exact in the model and can wrap in the source for extreme inputs.
- Day8.Product: the scenic score, the product of the four viewing distances, `Aggregate((x, y) => x * y)` (Day8.cs:120), is unchecked `int` arithmetic and wraps in the source for a grid wide and tall enough. The model multiplies exactly.
- Day15.Reach: the scan width `.Max() * 10` (Day15.cs:44-48) is unchecked `int` arithmetic and wraps in the source for coordinates above about 214 million. The model multiplies exactly.
- Day11.Pass: when a monkey's throw target is the monkey itself, the source appends the item to the queue it is emptying and carries on. The model stops with the error "a monkey throws to itself" instead. Example: monkey 0 holds 9 with `new = old + 0`, test divisible by 2, true to 1, false to 0; monkey 1 holds 3 with `new = old * 0`, test divisible by 1, true to 0, false to 0. In part one (levels divided by 3) the source goes 9 to 3 to 1, each odd and thrown back to monkey 0, then 0, which is even and goes to monkey 1, so all 20 rounds finish; the model returns `Err`. In part two (levels reduced modulo the lcm 2) the level 1 stays odd and the source loops for ever.
- Day11.Calculate and Day11.TaskTwo: part two is proved equal to the simulation with exact levels only when no monkey's operation divides and no divisor is zero (`Exactly`). With a division, reducing levels modulo the lcm changes what the division gives, and the contract then says nothing about the answer beyond the error cases.
- Day13.PartTwo: the answer is proved equal to the decoder key only when no packet ties with a divider (`NoTies`). The source finds the dividers with `IndexOf`, which compares records holding `IElement[]` arrays by reference, so an input packet such as `[2]` or `[[2]]` that ties with a divider is never mistaken for it. The model's `IndexOf` compares by value and may find the input packet instead.
- Day13.Sort: `List.Sort` is an unstable introspective sort. The model sorts by insertion. Both give an ordering in which no packet is lower than an earlier one. With no ties against the dividers, every such ordering gives the same answer (`AnyOrderDecoderKey`).
- Day12.PartOne and Day12.PartTwo: the source loops forever when the target cannot be reached. The model stops after `limit` layers with an error. `NextStep` remembers only the previous layer as visited, as the source does.
- Day12.ParseGrid: the grid is taken as its non-empty lines; `Split` and `Where` are not modelled further.
- Day14: a grain that comes to rest on the occupied source in part one loops forever in the source; the model reports the error "the loop never ends". In part two with the floor above the source the model reports the same error, while in the source each grain falls until `position.Y + 1` (Day14.cs:87) wraps around and then lands (see the Integer width line for Day14.PourFloor). Diagonal rock segments are walked along the first point's row, as the source does.
- Day15.PartTwo: the source scans rows with `Parallel.For` and may report any row with a gap. The model scans rows in order and reports the first one; its contract says only that the answer is the tuning frequency of some point far from every sensor.
- Day15.PartOne: the source collects points in a `ConcurrentBag` from sequential code. The model keeps them in a sequence, in the same order.
- Day15.ParseInput is not modelled: the sensors, the row and the limit are taken as data.
- Day17.Calculate: the period detection and extrapolation the source uses when more rocks are asked for than it simulates (Day17.cs:108-118) are not modelled. Such a request gives an error, so part two (1000000000000 rocks) is not covered. An empty jet pattern loops forever in the source and is an error here. `Describe` and the history dictionary serve only the period detection and are left out with it.
- Day18.PartTwo: only soundness of `HasWayOut` is proved: every face it counts opens onto air that escapes the bounding box. That every such face is found is not proved, so the contract bounds the answer from above. The model visits `Distinct(points)` in order of first appearance, the order in which `ToHashSet` over an array enumerates (Day18.cs:18).
- Day18.ParseInput (`int.Parse` of comma-separated lines) is not modelled: the cubes are taken as data.
- Day19.PartOne: the source's breadth-first queue and its visited set of strings are replaced by a recursive maximum over the same reachable states. The visited set only skips states already queued, so the model takes its maximum over the choices the source explores. The blueprint parser is not modelled (blueprints are data). Part two is empty in the source.
- Day20: a one-number list with a non-zero value throws in the source: a null dereference in part one, a division by zero in part two. The model returns an error.
- Day21.PartOne: the source's fixpoint loop spins forever when a round makes no progress (a cycle or a missing name). The model reports an error there.
- Day21.PartTwo: the contract says only that an answer needs a `root` monkey with an operation. That the answer makes root's two operands equal is not proved: the inversion uses truncating division, so it can land on a value that does not reproduce the target. `SolveRightReapplies` and `SolveLeftReapplies` state when a single inversion step is exact.
- Day21: dictionary iteration order is not modelled; the order in which ready monkeys are evaluated does not change their values. The FParsec parser is not modelled: the monkeys are data.

## Findings

| source | as written | input that shows it | evidently intended | confidence | as-written member | corrected member |
|---|---|---|---|---|---|---|
| src/AdventOfCode2022/Days/Day15.cs:56-69 | offset 0 adds both `(x + 0, y)` and `(x - 0, y)` to the bag, so a kept point on column 0 is counted twice | row y = 10, one sensor at (0, 10) with its beacon at (2, 10): the point (0, 10) is close to the sensor and is not a beacon, so it is counted twice and the count is one too high | count each position on the row once | not executed | Day15.PartOneOffByOne | Day15.PartOneCorrected |

=== FILE: common.dfy ===
/** Shared vocabulary for the puzzle solvers: failure-carrying results, the
    C# integer operators that differ from Dafny's, the string helpers the
    solvers lean on (`string.Split`, `int.Parse`, `ToString`), sums and
    maxima, and a stable sort. */
module Common {

  /** A value or nothing, as C#'s nullable values and `FirstOrDefault` give. */
  datatype Option<T> = None | Some(value: T) {
    function GetOr(default: T): T {
      match this
      case Some(v) => v
      case None => default
    }
  }

  /** A value or the exception the C# code would have thrown. */
  datatype Result<T> = Ok(value: T) | Err(error: string)

  function Abs(x: int): (r: nat)
    ensures r == x || r == -x
  {
    if x < 0 then -x else x
  }

  function Max2(a: int, b: int): (r: int)
    ensures r >= a && r >= b
    ensures r == a || r == b
  {
    if a >= b then a else b
  }

  function Min2(a: int, b: int): (r: int)
    ensures r <= a && r <= b
    ensures r == a || r == b
  {
    if a <= b then a else b
  }

  // ---------------------------------------------------------------------
  // C# integer division and remainder truncate toward zero.

  /** `a / b` on C# `int`, `long` and `BigInteger`. */
  function TDiv(a: int, b: int): int
    requires b != 0
  {
    if a >= 0 && b > 0 then a / b
    else if a >= 0 then -(a / -b)
    else if b > 0 then -((-a) / b)
    else (-a) / (-b)
  }

  /** `a % b` on C# `int`, `long` and `BigInteger`: the remainder takes the
      sign of the dividend. */
  function TMod(a: int, b: int): (r: int)
    requires b != 0
    ensures Abs(r) < Abs(b)
    ensures a >= 0 ==> r >= 0
    ensures a <= 0 ==> r <= 0
  {
    if a >= 0 && b > 0 then a % b
    else if a >= 0 then a % (-b)
    else if b > 0 then -((-a) % b)
    else -((-a) % (-b))
  }

  /** The truncated quotient and remainder put the dividend back
      together. */
  lemma TDivMod(a: int, b: int)
    requires b != 0
    ensures a == b * TDiv(a, b) + TMod(a, b)
  {
    TDivModFacts(a, b);
  }

  lemma AbsMulAtLeast(g: int, m: int)
    requires g != 0 && m != 0
    ensures Abs(g * m) >= Abs(g)
  {
    MulAtLeast(Abs(m), Abs(g));
    if g < 0 && m < 0 {
      assert g * m == (-g) * (-m);
    } else if g < 0 {
      assert Abs(g * m) == (-g) * m;
    } else if m < 0 {
      assert Abs(g * m) == g * (-m);
    }
  }

  /** Truncating division of an exact multiple gives the factor back. */
  lemma TDivExact(k: int, g: int)
    requires g != 0
    ensures TDiv(k * g, g) == k
  {
    var q := TDiv(k * g, g);
    var r := TMod(k * g, g);
    TDivMod(k * g, g);
    assert r == g * (k - q) by {
      assert g * (k - q) == g * k - g * q;
    }
    if k - q != 0 {
      AbsMulAtLeast(g, k - q);
    }
  }

  lemma TDivModFacts(a: int, b: int)
    requires b != 0
    ensures a >= 0 && b > 0 ==> a == b * TDiv(a, b) + a % b
    ensures a >= 0 && b < 0 ==> a == b * TDiv(a, b) + a % (-b)
    ensures a < 0 && b > 0 ==> a == b * TDiv(a, b) - (-a) % b
    ensures a < 0 && b < 0 ==> a == b * TDiv(a, b) - (-a) % (-b)
  {
    if a >= 0 && b > 0 {
      EuclidNat(a, b);
    } else if a >= 0 {
      EuclidNat(a, -b);
      NegTimesNeg(b, a / -b);
    } else if b > 0 {
      EuclidNat(-a, b);
      NegTimesNeg(b, (-a) / b);
    } else {
      EuclidNat(-a, -b);
      NegTimesNeg(b, (-a) / (-b));
    }
  }

  lemma EuclidNat(a: nat, b: int)
    requires b > 0
    ensures a == b * (a / b) + a % b
    ensures 0 <= a % b < b
  {
  }

  lemma NegTimesNeg(b: int, q: int)
    ensures b * -q == -(b * q)
    ensures (-b) * q == -(b * q)
  {
  }

  /** Truncating and Euclidean remainders agree on whether `b` divides `a`. */
  lemma TModZeroIffDivides(a: int, b: int)
    requires b != 0
    ensures TMod(a, b) == 0 <==> a % b == 0
  {
    if a >= 0 && b > 0 {
    } else if a >= 0 {
      ModNegDivisor(a, b);
    } else if b > 0 {
      ModNegDividend(a, b);
    } else {
      ModNegDivisor(a, b);
      ModNegDividend(a, -b);
    }
  }

  lemma ModNegDivisor(a: int, b: int)
    requires b != 0
    ensures a % b == a % (-b)
  {
  }

  lemma ModNegDividend(a: int, b: int)
    requires b > 0
    ensures (-a) % b == 0 <==> a % b == 0
  {
    if a % b == 0 {
      var k := a / b;
      assert a == k * b;
      ModUnique(-a, b, -k, 0);
    }
    if (-a) % b == 0 {
      var k := (-a) / b;
      assert -a == k * b;
      ModUnique(a, b, -k, 0);
    }
  }

  lemma MulNonNegative(a: int, b: int)
    requires a >= 0 && b >= 0
    ensures a * b >= 0
  {
  }

  lemma MulAtLeast(d: int, b: int)
    requires d >= 1 && b > 0
    ensures d * b >= b
  {
    MulNonNegative(d - 1, b);
    assert d * b == (d - 1) * b + b;
  }

  /** Euclidean division is unique: a quotient and an in-range remainder
      that rebuild `y` are the ones Dafny's `/` and `%` give. */
  lemma ModUnique(y: int, b: int, q: int, r: int)
    requires b > 0 && y == q * b + r && 0 <= r < b
    ensures y / b == q && y % b == r
  {
    var q0 := y / b;
    var r0 := y % b;
    assert y == q0 * b + r0;
    assert (q - q0) * b == r0 - r;
    if q - q0 >= 1 {
      MulAtLeast(q - q0, b);
    }
    if q0 - q >= 1 {
      assert (q0 - q) * b == r - r0;
      MulAtLeast(q0 - q, b);
    }
  }

  /** Adding a multiple of the modulus does not change the remainder. */
  lemma ModAddMultiple(x: int, b: int, k: int)
    requires b > 0
    ensures (x + k * b) % b == x % b
  {
    var q := x / b;
    var r := x % b;
    assert x == q * b + r;
    assert x + k * b == (q + k) * b + r;
    ModUnique(x + k * b, b, q + k, r);
  }

  // ---------------------------------------------------------------------
  // Sums and maxima over sequences (LINQ `Sum`, `Max`, `Count`).

  function Sum(s: seq<int>): int
  {
    if |s| == 0 then 0 else s[0] + Sum(s[1..])
  }

  lemma {:induction false} SumAppend(a: seq<int>, b: seq<int>)
    ensures Sum(a + b) == Sum(a) + Sum(b)
  {
    if |a| == 0 {
      assert a + b == b;
    } else {
      assert (a + b)[1..] == a[1..] + b;
      SumAppend(a[1..], b);
    }
  }

  /** A sum of `|s|` terms, each between `lo` and `hi`. */
  lemma {:induction false} SumBounds(s: seq<int>, lo: int, hi: int)
    requires forall i :: 0 <= i < |s| ==> lo <= s[i] <= hi
    ensures lo * |s| <= Sum(s) <= hi * |s|
  {
    if |s| > 0 {
      SumBounds(s[1..], lo, hi);
    }
  }

  lemma SumNonNegative(s: seq<int>)
    requires forall i :: 0 <= i < |s| ==> s[i] >= 0
    ensures Sum(s) >= 0
  {
  }
  /** A sum of non-negative numbers is at least its first one. */
  lemma SumAtLeastFirst(s: seq<int>)
    requires |s| > 0
    requires forall i :: 0 <= i < |s| ==> s[i] >= 0
    ensures Sum(s) >= s[0]
  {
    SumNonNegative(s[1..]);
  }

  /** Reordering does not change a sum. */
  lemma {:induction false} SumPermutation(a: seq<int>, b: seq<int>)
    requires multiset(a) == multiset(b)
    ensures Sum(a) == Sum(b)
    decreases |a|
  {
    if |a| > 0 {
      var j := PermutationHead(a, b);
      SumPermutation(a[1..], b[..j] + b[j + 1..]);
      SumAppend(b[..j] + [a[0]], b[j + 1..]);
      SumAppend(b[..j], [a[0]]);
      SumAppend(b[..j], b[j + 1..]);
    } else {
      assert |b| == |multiset(b)| == 0;
    }
  }

  /** The first element of `a` sits somewhere in a permutation `b` of it,
      and what is left of the two is again a permutation. */
  lemma PermutationHead<T>(a: seq<T>, b: seq<T>) returns (j: nat)
    requires |a| > 0 && multiset(a) == multiset(b)
    ensures j < |b| && b[j] == a[0]
    ensures b == b[..j] + [a[0]] + b[j + 1..]
    ensures multiset(a[1..]) == multiset(b[..j] + b[j + 1..])
  {
    assert a[0] in multiset(b);
    j :| 0 <= j < |b| && b[j] == a[0];
    RemoveAtMultiset(b, j);
    assert a == [a[0]] + a[1..];
  }

  /** `Max()` of a non-empty sequence; LINQ throws on an empty one, so the
      callers decide what an empty input means. */
  function Max(s: seq<int>): (m: int)
    requires |s| > 0
    ensures forall i :: 0 <= i < |s| ==> s[i] <= m
    ensures exists i :: 0 <= i < |s| && s[i] == m
  {
    if |s| == 1 then s[0]
    else
      var rest := Max(s[1..]);
      assert forall i :: 1 <= i < |s| ==> s[i] == s[1..][i - 1];
      if s[0] >= rest then s[0] else rest
  }

  /** `f` applied to every element in turn; the first error is the
      answer, as when `Select(f).ToArray()` meets a throwing element. */
  function MapResult<A, B>(s: seq<A>, f: A -> Result<B>): (r: Result<seq<B>>)
    ensures r.Ok? ==> |r.value| == |s|
  {
    if |s| == 0 then Ok([])
    else
      match f(s[0])
      case Err(e) => Err(e)
      case Ok(x) =>
        match MapResult(s[1..], f)
        case Err(e) => Err(e)
        case Ok(xs) => Ok([x] + xs)
  }

  /** The whole map fails exactly when one of its elements does. */
  lemma {:induction false} MapResultFails<A, B>(s: seq<A>, f: A -> Result<B>)
    ensures MapResult(s, f).Err? <==> exists i :: 0 <= i < |s| && f(s[i]).Err?
  {
    if |s| > 0 {
      MapResultFails(s[1..], f);
      if f(s[0]).Ok? {
        forall i | 0 < i < |s|
          ensures s[i] == s[1..][i - 1]
        {
        }
      }
    }
  }

  /** Otherwise it holds every element's value, in order. */
  lemma {:induction false} MapResultOk<A, B>(s: seq<A>, f: A -> Result<B>, values: seq<B>)
    requires |s| == |values|
    requires forall i :: 0 <= i < |s| ==> f(s[i]) == Ok(values[i])
    ensures MapResult(s, f) == Ok(values)
  {
    if |s| > 0 {
      MapResultOk(s[1..], f, values[1..]);
      assert [values[0]] + values[1..] == values;
    }
  }

  /** A successful map holds each element's value at its position. */
  lemma {:induction false} MapResultAt<A, B>(s: seq<A>, f: A -> Result<B>, i: int)
    requires MapResult(s, f).Ok? && 0 <= i < |s|
    ensures f(s[i]).Ok? && MapResult(s, f).value[i] == f(s[i]).value
  {
    if i > 0 {
      MapResultAt(s[1..], f, i - 1);
      assert s[1..][i - 1] == s[i];
    }
  }

  /** Every line of `text` read by `line`, as `Split('\n').Select(...)`
      does: it fails exactly when some line does. */
  function ParseEachLine<T>(text: string, line: string -> Result<T>): (r: Result<seq<T>>)
    ensures r.Err? <==> exists i :: 0 <= i < |Split(text, '\n')| && line(Split(text, '\n')[i]).Err?
    ensures r.Ok? ==> |r.value| == |Split(text, '\n')|
  {
    var lines := Split(text, '\n');
    MapResultFails(lines, line);
    match MapResult(lines, line)
    case Err(e) => Err(e)
    case Ok(values) =>
      assert forall i :: 0 <= i < |lines| ==> line(lines[i]).Ok?;
      Ok(values)
  }

  /** Otherwise it holds each line's value, in order. */
  lemma ParseEachLineAt<T>(text: string, line: string -> Result<T>, i: int)
    requires ParseEachLine(text, line).Ok? && 0 <= i < |Split(text, '\n')|
    ensures line(Split(text, '\n')[i]) == Ok(ParseEachLine(text, line).value[i])
  {
    MapResultAt(Split(text, '\n'), line, i);
  }

  /** `Enumerable.Repeat`: `n` copies of `x`. */
  function Repeat<T>(x: T, n: nat): (r: seq<T>)
    ensures |r| == n
    ensures forall i :: 0 <= i < n ==> r[i] == x
  {
    seq(n, _ => x)
  }

  /** `Select`: `f` applied to every element. */
  function Map<A, B>(s: seq<A>, f: A -> B): (r: seq<B>)
    ensures |r| == |s|
    ensures forall i :: 0 <= i < |s| ==> r[i] == f(s[i])
  {
    if |s| == 0 then [] else [f(s[0])] + Map(s[1..], f)
  }

  /** `Reverse`. */
  function Reverse<T>(s: seq<T>): (r: seq<T>)
    ensures |r| == |s|
    ensures forall i :: 0 <= i < |s| ==> r[i] == s[|s| - 1 - i]
  {
    if |s| == 0 then [] else Reverse(s[1..]) + [s[0]]
  }

  lemma ReverseMultiset<T>(s: seq<T>)
    ensures multiset(Reverse(s)) == multiset(s)
  {
    if |s| > 0 {
      ReverseMultiset(s[1..]);
      assert s == [s[0]] + s[1..];
    }
  }

  predicate IsLeast(m: int, s: set<int>)
  {
    m in s && forall x :: x in s ==> m <= x
  }

  /** A finite non-empty set of numbers has a least element. */
  lemma {:induction false} HasLeast(s: set<int>)
    requires s != {}
    ensures exists m :: IsLeast(m, s)
    decreases |s|
  {
    assert (forall y :: y !in s) ==> s == {};
    var y :| y in s;
    var t := s - {y};
    if t == {} {
      assert s == {y};
      assert IsLeast(y, s);
    } else {
      HasLeast(t);
      var m :| IsLeast(m, t);
      assert s == t + {y};
      if y < m {
        assert IsLeast(y, s);
      } else {
        assert IsLeast(m, s);
      }
    }
  }

  lemma ReverseReverse<T>(s: seq<T>)
    ensures Reverse(Reverse(s)) == s
  {
  }

  /** The least element of a non-empty set of numbers. */
  function SetMin(s: set<int>): (m: int)
    requires s != {}
    ensures m in s && forall x :: x in s ==> m <= x
  {
    HasLeast(s);
    var m :| IsLeast(m, s);
    m
  }

  /** The elements of a finite set of numbers in ascending order
      (`OrderBy` on the keys of a dictionary). */
  /** Every position of `Ascending(s)` holds a member of `s`. */
  lemma AscendingMembers(s: set<int>)
    ensures forall i :: 0 <= i < |Ascending(s)| ==> Ascending(s)[i] in s
  {
    var r := Ascending(s);
    forall i | 0 <= i < |r|
      ensures r[i] in s
    {
      assert r[i] in r;
    }
  }

  function Ascending(s: set<int>): (r: seq<int>)
    ensures |r| == |s|
    ensures forall x :: x in r <==> x in s
    ensures forall i, j :: 0 <= i < j < |r| ==> r[i] < r[j]
    decreases |s|
  {
    if s == {} then []
    else
      var m := SetMin(s);
      var rest := Ascending(s - {m});
      PrependLeast(m, rest, s);
      [m] + rest
  }

  lemma PrependLeast(m: int, rest: seq<int>, s: set<int>)
    requires m in s && forall x :: x in s ==> m <= x
    requires forall x :: x in rest <==> x in s - {m}
    requires forall i, j :: 0 <= i < j < |rest| ==> rest[i] < rest[j]
    ensures forall x :: x in [m] + rest <==> x in s
    ensures forall i, j :: 0 <= i < j < |[m] + rest| ==> ([m] + rest)[i] < ([m] + rest)[j]
  {
    var r := [m] + rest;
    forall i, j | 0 <= i < j < |r|
      ensures r[i] < r[j]
    {
      if i == 0 {
        assert r[j] == rest[j - 1] && r[j] in rest;
      } else {
        assert r[i] == rest[i - 1] && r[j] == rest[j - 1];
      }
    }
  }

  /** Moving the head of `s` onto the end of `acc`. */
  lemma AppendHead<T>(acc: seq<T>, s: seq<T>)
    requires |s| > 0
    ensures acc + [s[0]] + s[1..] == acc + s
  {
    assert [s[0]] + s[1..] == s;
  }

  /** How many elements of `s` satisfy `p`. */
  function CountWhere<T>(s: seq<T>, p: T -> bool): (n: nat)
    ensures n <= |s|
  {
    if |s| == 0 then 0 else (if p(s[0]) then 1 else 0) + CountWhere(s[1..], p)
  }

  /** The positions of `s` whose element satisfies `p`. */
  function Positions<T>(s: seq<T>, p: T -> bool): (r: set<int>)
    ensures forall i :: i in r <==> 0 <= i < |s| && p(s[i])
  {
    set i | 0 <= i < |s| && p(s[i])
  }

  /** A count is the number of positions whose element satisfies `p`. */
  lemma {:induction false} CountWhereIndices<T>(s: seq<T>, p: T -> bool)
    ensures CountWhere(s, p) == |Positions(s, p)|
  {
    if |s| > 0 {
      var init := s[..|s| - 1];
      var last := s[|s| - 1];
      CountWhereIndices(init, p);
      assert init + [last] == s;
      CountWhereAppend(init, [last], p);
      assert CountWhere([last], p) == if p(last) then 1 else 0 by {
        assert [last][1..] == [];
      }
      var before := Positions(init, p);
      var after := Positions(s, p);
      if p(last) {
        assert after == before + {|s| - 1};
      } else {
        assert after == before;
      }
    }
  }

  /** LINQ `Where`: the elements that satisfy `p`, in order. */
  function Where<T>(s: seq<T>, p: T -> bool): (r: seq<T>)
    ensures |r| == CountWhere(s, p)
    ensures forall i :: 0 <= i < |r| ==> r[i] in s && p(r[i])
    ensures forall i :: 0 <= i < |s| && p(s[i]) ==> s[i] in r
  {
    if |s| == 0 then []
    else
      var rest := Where(s[1..], p);
      assert forall i :: 1 <= i < |s| ==> s[i] == s[1..][i - 1];
      if p(s[0]) then [s[0]] + rest else rest
  }

  lemma {:induction false} CountWhereMonotone<T>(s: seq<T>, p: T -> bool, q: T -> bool)
    requires forall x :: p(x) ==> q(x)
    ensures CountWhere(s, p) <= CountWhere(s, q)
  {
    if |s| > 0 {
      CountWhereMonotone(s[1..], p, q);
    }
  }

  lemma {:induction false} CountWhereAppend<T>(a: seq<T>, b: seq<T>, p: T -> bool)
    ensures CountWhere(a + b, p) == CountWhere(a, p) + CountWhere(b, p)
  {
    if |a| == 0 {
      assert a + b == b;
    } else {
      assert (a + b)[1..] == a[1..] + b;
      CountWhereAppend(a[1..], b, p);
    }
  }

  /** A count depends only on the multiset of elements. */
  lemma {:induction false} CountWherePermutation<T>(a: seq<T>, b: seq<T>, p: T -> bool)
    requires multiset(a) == multiset(b)
    ensures CountWhere(a, p) == CountWhere(b, p)
    decreases |a|
  {
    if |a| > 0 {
      var j := PermutationHead(a, b);
      CountWherePermutation(a[1..], b[..j] + b[j + 1..], p);
      CountWhereAppend(b[..j] + [a[0]], b[j + 1..], p);
      CountWhereAppend(b[..j], [a[0]], p);
      CountWhereAppend(b[..j], b[j + 1..], p);
    } else {
      assert |b| == |multiset(b)| == 0;
    }
  }

  lemma RemoveAtMultiset<T>(s: seq<T>, j: int)
    requires 0 <= j < |s|
    ensures multiset(s[..j] + s[j + 1..]) == multiset(s) - multiset{s[j]}
  {
    assert s == s[..j] + [s[j]] + s[j + 1..];
  }

  // ---------------------------------------------------------------------
  // `string.Split(char)`: the pieces between separators, empty pieces kept.

  function Split(s: string, sep: char): (parts: seq<string>)
    ensures |parts| >= 1
    ensures forall i :: 0 <= i < |parts| ==> sep !in parts[i]
  {
    if |s| == 0 then [""]
    else
      var rest := Split(s[1..], sep);
      if s[0] == sep then [""] + rest
      else [[s[0]] + rest[0]] + rest[1..]
  }

  /** `string.Join(sep, parts)`. */
  function Join(parts: seq<string>, sep: char): string
    requires |parts| >= 1
  {
    if |parts| == 1 then parts[0] else parts[0] + [sep] + Join(parts[1..], sep)
  }

  /** Splitting loses nothing: joining the pieces gives the text back. */
  lemma {:induction false} JoinSplit(s: string, sep: char)
    ensures Join(Split(s, sep), sep) == s
  {
    if |s| > 0 {
      var rest := Split(s[1..], sep);
      JoinSplit(s[1..], sep);
      if s[0] == sep {
        assert Split(s, sep) == [""] + rest;
        assert ([""] + rest)[1..] == rest;
      } else {
        var parts := Split(s, sep);
        assert parts == [[s[0]] + rest[0]] + rest[1..];
        if |rest| == 1 {
          assert Join(parts, sep) == [s[0]] + rest[0];
        } else {
          assert parts[1..] == rest[1..];
          assert Join(rest, sep) == rest[0] + [sep] + Join(rest[1..], sep);
        }
      }
    }
  }

  /** Splitting a join of separator-free pieces gives the pieces back. */
  lemma {:induction false} SplitJoin(parts: seq<string>, sep: char)
    requires |parts| >= 1
    requires forall i :: 0 <= i < |parts| ==> sep !in parts[i]
    ensures Split(Join(parts, sep), sep) == parts
  {
    if |parts| == 1 {
      SplitNoSeparator(parts[0], sep);
    } else {
      SplitJoin(parts[1..], sep);
      SplitPrefix(parts[0], Join(parts[1..], sep), sep);
      assert [parts[0]] + parts[1..] == parts;
    }
  }

  lemma {:induction false} SplitNoSeparator(s: string, sep: char)
    requires sep !in s
    ensures Split(s, sep) == [s]
  {
    if |s| > 0 {
      SplitNoSeparator(s[1..], sep);
      assert Split(s, sep) == [[s[0]] + s[1..]];
      assert [s[0]] + s[1..] == s;
    }
  }

  /** A separator-free head in front of a separator becomes its own piece. */
  lemma {:induction false} SplitPrefix(head: string, tail: string, sep: char)
    requires sep !in head
    ensures Split(head + [sep] + tail, sep) == [head] + Split(tail, sep)
  {
    var s := head + [sep] + tail;
    if |head| == 0 {
      assert s == [sep] + tail;
      assert s[1..] == tail;
    } else {
      assert s[1..] == head[1..] + [sep] + tail;
      SplitPrefix(head[1..], tail, sep);
      assert [head[0]] + head[1..] == head;
    }
  }

  /** Text ending in a separator has an empty last piece. */
  lemma {:induction false} SplitTrailingSeparator(s: string, sep: char)
    ensures var parts := Split(s + [sep], sep); parts[|parts| - 1] == ""
  {
    if |s| == 0 {
      assert [sep][1..] == "";
    } else {
      assert (s + [sep])[1..] == s[1..] + [sep];
      SplitTrailingSeparator(s[1..], sep);
    }
  }

  // ---------------------------------------------------------------------
  // `string.Split(string)`: cut at each leftmost occurrence of `sep`.

  function SplitOn(s: string, sep: string): (parts: seq<string>)
    requires |sep| > 0
    ensures |parts| >= 1
    decreases |s|
  {
    if |s| < |sep| then [s]
    else if s[..|sep|] == sep then [""] + SplitOn(s[|sep|..], sep)
    else
      var rest := SplitOn(s[1..], sep);
      [[s[0]] + rest[0]] + rest[1..]
  }

  function JoinOn(parts: seq<string>, sep: string): string
    requires |parts| >= 1
  {
    if |parts| == 1 then parts[0] else parts[0] + sep + JoinOn(parts[1..], sep)
  }

  lemma {:induction false} JoinSplitOn(s: string, sep: string)
    requires |sep| > 0
    ensures JoinOn(SplitOn(s, sep), sep) == s
    decreases |s|
  {
    if |s| < |sep| {
    } else if s[..|sep|] == sep {
      var rest := SplitOn(s[|sep|..], sep);
      JoinSplitOn(s[|sep|..], sep);
      assert SplitOn(s, sep) == [""] + rest;
      assert ([""] + rest)[1..] == rest;
      assert s == s[..|sep|] + s[|sep|..];
    } else {
      var rest := SplitOn(s[1..], sep);
      JoinSplitOn(s[1..], sep);
      GlueJoin(s[0], rest, sep);
      assert s == [s[0]] + s[1..];
    }
  }

  /** Gluing a character to the first piece glues it to the joined text. */
  lemma GlueJoin(c: char, rest: seq<string>, sep: string)
    requires |rest| >= 1
    ensures JoinOn([[c] + rest[0]] + rest[1..], sep) == [c] + JoinOn(rest, sep)
  {
    var parts := [[c] + rest[0]] + rest[1..];
    if |rest| > 1 {
      assert parts[1..] == rest[1..];
    }
  }

  /** `sep` occurs in `s` at position `i`. */
  predicate OccursAt(s: string, sep: string, i: nat)
  {
    i + |sep| <= |s| && s[i..i + |sep|] == sep
  }

  /** No occurrence of `sep` starts inside `head`, even one running on
      into a `sep` written after it. */
  predicate SepFreeBefore(head: string, sep: string)
  {
    forall i: nat :: i < |head| ==> !OccursAt(head + sep, sep, i)
  }

  /** No occurrence of `sep` anywhere in `s`. */
  predicate SepFree(s: string, sep: string)
  {
    forall i: nat :: i < |s| ==> !OccursAt(s, sep, i)
  }

  /** A head free of `sep` in front of a `sep` becomes its own piece. */
  lemma {:induction false} SplitOnPrefix(head: string, tail: string, sep: string)
    requires |sep| > 0
    requires SepFreeBefore(head, sep)
    ensures SplitOn(head + sep + tail, sep) == [head] + SplitOn(tail, sep)
    decreases |head|
  {
    var s := head + sep + tail;
    if |head| == 0 {
      assert s == sep + tail;
      assert s[..|sep|] == sep && s[|sep|..] == tail;
    } else {
      assert !OccursAt(head + sep, sep, 0);
      assert s[..|sep|] == (head + sep)[0..0 + |sep|];
      assert s[1..] == head[1..] + sep + tail;
      forall i: nat | i < |head[1..]|
        ensures !OccursAt(head[1..] + sep, sep, i)
      {
        assert !OccursAt(head + sep, sep, i + 1);
        assert (head[1..] + sep)[i..i + |sep|] == (head + sep)[i + 1..i + 1 + |sep|];
      }
      SplitOnPrefix(head[1..], tail, sep);
      assert [head[0]] + head[1..] == head;
    }
  }

  /** Text free of `sep` is a single piece. */
  lemma {:induction false} SplitOnNoSeparator(s: string, sep: string)
    requires |sep| > 0
    requires SepFree(s, sep)
    ensures SplitOn(s, sep) == [s]
    decreases |s|
  {
    if |s| >= |sep| {
      assert !OccursAt(s, sep, 0);
      forall i: nat | i < |s[1..]|
        ensures !OccursAt(s[1..], sep, i)
      {
        assert !OccursAt(s, sep, i + 1);
        if i + |sep| <= |s[1..]| {
          assert s[1..][i..i + |sep|] == s[i + 1..i + 1 + |sep|];
        }
      }
      SplitOnNoSeparator(s[1..], sep);
      assert [s[0]] + s[1..] == s;
    }
  }

  /** Splitting a join whose pieces hold no separator gives the pieces
      back. */
  lemma {:induction false} SplitOnJoinOn(parts: seq<string>, sep: string)
    requires |sep| > 0 && |parts| >= 1
    requires forall i :: 0 <= i < |parts| - 1 ==> SepFreeBefore(parts[i], sep)
    requires SepFree(parts[|parts| - 1], sep)
    ensures SplitOn(JoinOn(parts, sep), sep) == parts
  {
    if |parts| == 1 {
      SplitOnNoSeparator(parts[0], sep);
    } else {
      SplitOnJoinOn(parts[1..], sep);
      SplitOnPrefix(parts[0], JoinOn(parts[1..], sep), sep);
      assert [parts[0]] + parts[1..] == parts;
    }
  }

  /** `string.StartsWith`. */
  predicate StartsWith(s: string, prefix: string)
  {
    |prefix| <= |s| && s[..|prefix|] == prefix
  }

  /** `last` is how `s` ends. */
  predicate EndsWith(s: string, last: string)
  {
    |last| <= |s| && s[|s| - |last|..] == last
  }

  /** The last of `parts` is how `s` ends, and is all of `s` when it
      is the only part. */
  predicate EndsWithLast(s: string, parts: seq<string>)
  {
    && |parts| > 0
    && EndsWith(s, parts[|parts| - 1])
    && (|parts| == 1 ==> parts[0] == s)
  }

  /** Dropping the text in front keeps the last piece a suffix. */
  lemma PrependEmptyPiece(s: string, k: nat, rest: seq<string>)
    requires 0 < k <= |s| && EndsWithLast(s[k..], rest)
    ensures EndsWithLast(s, [""] + rest)
  {
    var last := rest[|rest| - 1];
    assert ([""] + rest)[|rest|] == last;
    assert s[k..][|s[k..]| - |last|..] == s[|s| - |last|..];
  }

  /** Gluing a character to the first piece keeps the last piece a suffix
      and, when there is one piece, makes it the whole text. */
  lemma GlueFirstPiece(s: string, rest: seq<string>)
    requires |s| > 0 && EndsWithLast(s[1..], rest)
    ensures EndsWithLast(s, [[s[0]] + rest[0]] + rest[1..])
  {
    var glued := [[s[0]] + rest[0]] + rest[1..];
    var last := rest[|rest| - 1];
    if |rest| == 1 {
      assert glued[0] == [s[0]] + s[1..] == s;
    } else {
      assert glued[|rest| - 1] == last;
      assert s[1..][|s[1..]| - |last|..] == s[|s| - |last|..];
    }
  }

  /** The last piece of a split is how the text ends, and is the whole
      text when it is the only piece. */
  lemma {:induction false} SplitOnLastPiece(s: string, sep: string)
    requires |sep| > 0
    ensures EndsWithLast(s, SplitOn(s, sep))
    decreases |s|
  {
    if |s| < |sep| {
      assert s[|s| - |s|..] == s;
    } else if s[..|sep|] == sep {
      SplitOnLastPiece(s[|sep|..], sep);
      PrependEmptyPiece(s, |sep|, SplitOn(s[|sep|..], sep));
    } else {
      SplitOnLastPiece(s[1..], sep);
      GlueFirstPiece(s, SplitOn(s[1..], sep));
    }
  }

  // ---------------------------------------------------------------------
  // `StringSplitOptions.TrimEntries` and `RemoveEmptyEntries`.

  /** The white space `string.Trim` removes that can occur in a line of
      puzzle input. */
  predicate IsWhiteSpace(c: char)
  {
    c == ' ' || c == '\t' || c == '\r' || c == '\n' || c == '\U{B}' || c == '\U{C}'
  }

  function TrimStart(s: string): (r: string)
    ensures |r| <= |s| && r == s[|s| - |r|..]
    ensures |r| > 0 ==> !IsWhiteSpace(r[0])
    ensures forall i :: 0 <= i < |s| - |r| ==> IsWhiteSpace(s[i])
  {
    if |s| > 0 && IsWhiteSpace(s[0]) then
      var r := TrimStart(s[1..]);
      assert s[1..][|s| - 1 - |r|..] == s[|s| - |r|..];
      assert forall i :: 1 <= i < |s| - |r| ==> s[i] == s[1..][i - 1];
      r
    else s
  }

  function TrimEnd(s: string): (r: string)
    ensures |r| <= |s| && r == s[..|r|]
    ensures |r| > 0 ==> !IsWhiteSpace(r[|r| - 1])
    ensures forall i :: |r| <= i < |s| ==> IsWhiteSpace(s[i])
  {
    if |s| > 0 && IsWhiteSpace(s[|s| - 1]) then
      var r := TrimEnd(s[..|s| - 1]);
      assert s[..|s| - 1][..|r|] == s[..|r|];
      r
    else s
  }

  /** `string.Trim`: the white space at both ends removed. */
  function Trim(s: string): (r: string)
    ensures |r| > 0 ==> !IsWhiteSpace(r[0]) && !IsWhiteSpace(r[|r| - 1])
    ensures (|s| == 0 || (!IsWhiteSpace(s[0]) && !IsWhiteSpace(s[|s| - 1]))) ==> r == s
  {
    TrimEnd(TrimStart(s))
  }

  /** The non-empty entries, in order. */
  function DropEmpty(parts: seq<string>): (r: seq<string>)
    ensures |r| <= |parts|
    ensures forall i :: 0 <= i < |r| ==> r[i] != "" && r[i] in parts
    ensures (forall i :: 0 <= i < |parts| ==> parts[i] != "") ==> r == parts
  {
    if |parts| == 0 then []
    else if parts[0] == "" then DropEmpty(parts[1..])
    else [parts[0]] + DropEmpty(parts[1..])
  }

  /** `s.Split(sep, TrimEntries | RemoveEmptyEntries)`. */
  function TrimmedEntries(s: string, sep: char): (r: seq<string>)
    ensures forall i :: 0 <= i < |r| ==> r[i] != "" && r[i] == Trim(r[i])
  {
    DropEmpty(Map(Split(s, sep), Trim))
  }

  /** Lines that are trimmed, non-empty and free of the separator come
      back from `TrimmedEntries` as they were joined. */
  lemma TrimmedEntriesJoin(lines: seq<string>, sep: char)
    requires |lines| > 0
    requires forall i :: 0 <= i < |lines| ==> sep !in lines[i]
    requires forall i :: 0 <= i < |lines| ==> lines[i] != "" && Trim(lines[i]) == lines[i]
    ensures TrimmedEntries(Join(lines, sep), sep) == lines
  {
    SplitJoin(lines, sep);
    assert Map(lines, Trim) == lines;
  }

  // ---------------------------------------------------------------------
  // Decimal numbers: `int.Parse` / `long.Parse` and `ToString()`.

  predicate IsDigit(c: char) {
    '0' <= c <= '9'
  }

  predicate AllDigits(s: string) {
    forall i :: 0 <= i < |s| ==> IsDigit(s[i])
  }

  function DigitValue(c: char): nat
    requires IsDigit(c)
  {
    (c as int) - ('0' as int)
  }

  function DigitChar(d: nat): (c: char)
    requires d < 10
    ensures IsDigit(c) && DigitValue(c) == d
  {
    (('0' as int) + d) as char
  }

  /** The value of a run of decimal digits, most significant first. */
  function DigitsValue(s: string): nat
    requires AllDigits(s)
  {
    if |s| == 0 then 0 else DigitsValue(s[..|s| - 1]) * 10 + DigitValue(s[|s| - 1])
  }

  /** A non-negative number written in decimal without leading zeros. */
  function ShowNat(n: nat): (s: string)
    ensures |s| >= 1 && AllDigits(s)
  {
    if n < 10 then [DigitChar(n)] else ShowNat(n / 10) + [DigitChar(n % 10)]
  }

  /** `int.ToString(CultureInfo.InvariantCulture)`. */
  function ShowInt(i: int): (s: string)
    ensures |s| >= 1
  {
    if i < 0 then "-" + ShowNat(-i) else ShowNat(i)
  }

  /** A printed number holds no separator other than a digit or a minus
      sign. */
  lemma ShowIntWithout(i: int, sep: char)
    requires sep != '-' && !IsDigit(sep)
    ensures sep !in ShowInt(i)
  {
    assert AllDigits(ShowNat(Abs(i)));
  }

  function ParseNat(s: string): Option<nat>
  {
    if |s| > 0 && AllDigits(s) then Some(DigitsValue(s)) else None
  }

  /** An optional sign and at least one ASCII digit. */
  function ParseSigned(s: string): (r: Option<int>)
    ensures r.Some? ==> |s| >= 1
  {
    if |s| > 0 && s[0] == '-' then
      match ParseNat(s[1..])
      case Some(n) => Some(0 - n)
      case None => None
    else if |s| > 0 && s[0] == '+' then
      match ParseNat(s[1..])
      case Some(n) => Some(n)
      case None => None
    else
      match ParseNat(s)
      case Some(n) => Some(n)
      case None => None
  }

  /** `int.Parse` with `NumberStyles.Integer`: white space (tab, line feed,
      vertical tab, form feed, carriage return, space) is allowed at both
      ends of the signed digits. */
  function ParseInt(s: string): (r: Option<int>)
    ensures r.Some? ==> |s| >= 1
  {
    ParseSigned(Trim(s))
  }

  /** White space in front of a string that starts with something else is
      all `TrimStart` removes. */
  lemma {:induction false} TrimStartPadded(pad: string, x: string)
    requires forall i :: 0 <= i < |pad| ==> IsWhiteSpace(pad[i])
    requires |x| > 0 && !IsWhiteSpace(x[0])
    ensures TrimStart(pad + x) == x
  {
    if |pad| > 0 {
      assert (pad + x)[1..] == pad[1..] + x;
      TrimStartPadded(pad[1..], x);
    } else {
      assert pad + x == x;
    }
  }

  lemma {:induction false} TrimEndPadded(x: string, pad: string)
    requires forall i :: 0 <= i < |pad| ==> IsWhiteSpace(pad[i])
    requires |x| > 0 && !IsWhiteSpace(x[|x| - 1])
    ensures TrimEnd(x + pad) == x
  {
    if |pad| > 0 {
      var init := pad[..|pad| - 1];
      assert (x + pad)[..|x + pad| - 1] == x + init;
      TrimEndPadded(x, init);
    } else {
      assert x + pad == x;
    }
  }

  /** `Trim` removes exactly the white space padding a string that neither
      starts nor ends with white space. */
  lemma TrimPadded(before: string, x: string, after: string)
    requires forall i :: 0 <= i < |before| ==> IsWhiteSpace(before[i])
    requires forall i :: 0 <= i < |after| ==> IsWhiteSpace(after[i])
    requires |x| > 0 && !IsWhiteSpace(x[0]) && !IsWhiteSpace(x[|x| - 1])
    ensures Trim(before + x + after) == x
  {
    assert before + x + after == before + (x + after);
    TrimStartPadded(before, x + after);
    TrimEndPadded(x, after);
  }

  lemma {:induction false} DigitsValueShowNat(n: nat)
    ensures DigitsValue(ShowNat(n)) == n
  {
    if n >= 10 {
      var s := ShowNat(n);
      DigitsValueShowNat(n / 10);
      assert s[..|s| - 1] == ShowNat(n / 10);
    }
  }

  /** Printing a number and parsing it back gives the number. */
  lemma ParseShowInt(i: int)
    ensures ParseInt(ShowInt(i)) == Some(i)
  {
    ShowIntEnds(i);
    ParseShowSigned(i);
  }

  /** A printed number neither starts nor ends with white space. */
  lemma ShowIntEnds(i: int)
    ensures !IsWhiteSpace(ShowInt(i)[0]) && !IsWhiteSpace(ShowInt(i)[|ShowInt(i)| - 1])
    ensures Trim(ShowInt(i)) == ShowInt(i)
  {
    var s := ShowInt(i);
    assert AllDigits(ShowNat(Abs(i)));
    assert s[|s| - 1] == ShowNat(Abs(i))[|ShowNat(Abs(i))| - 1];
  }

  /** The number is read back with white space around it too. */
  lemma ParsePaddedInt(before: string, i: int, after: string)
    requires forall k :: 0 <= k < |before| ==> IsWhiteSpace(before[k])
    requires forall k :: 0 <= k < |after| ==> IsWhiteSpace(after[k])
    ensures ParseInt(before + ShowInt(i) + after) == Some(i)
  {
    ShowIntEnds(i);
    TrimPadded(before, ShowInt(i), after);
    ParseShowSigned(i);
  }

  lemma ParseShowSigned(i: int)
    ensures ParseSigned(ShowInt(i)) == Some(i)
  {
    if i < 0 {
      DigitsValueShowNat(-i);
      assert ShowInt(i)[1..] == ShowNat(-i);
    } else {
      DigitsValueShowNat(i);
    }
  }

  lemma ParseShowNat(n: nat)
    ensures ParseNat(ShowNat(n)) == Some(n)
  {
    DigitsValueShowNat(n);
  }

  /** The range of C#'s `int`. */
  predicate IsInt32(i: int)
  {
    -0x8000_0000 <= i <= 0x7FFF_FFFF
  }

  newtype Int32 = i: int | -0x8000_0000 <= i <= 0x7FFF_FFFF

  /** A printed number starts with a minus sign or a digit. */
  lemma ShowIntStart(i: int)
    ensures ShowInt(i)[0] == '-' || IsDigit(ShowInt(i)[0])
    ensures i >= 0 ==> IsDigit(ShowInt(i)[0])
  {
    if i >= 0 {
      assert IsDigit(ShowNat(i)[0]);
    }
  }

  /** `int.Parse` including its overflow error. */
  function ParseInt32(s: string): (r: Option<int>)
    ensures r.Some? <==> ParseInt(s).Some? && IsInt32(ParseInt(s).value)
    ensures r.Some? ==> r.value == ParseInt(s).value
  {
    match ParseInt(s)
    case Some(v) => if IsInt32(v) then Some(v) else None
    case None => None
  }

  lemma ParseShowInt32(i: int)
    requires IsInt32(i)
    ensures ParseInt32(ShowInt(i)) == Some(i)
  {
    ParseShowInt(i);
  }
  /** The range of C#'s `long`. */
  predicate IsInt64(i: int)
  {
    -0x8000_0000_0000_0000 <= i <= 0x7FFF_FFFF_FFFF_FFFF
  }

  /** `long.Parse` including its overflow error. */
  function ParseInt64(s: string): (r: Option<int>)
    ensures r.Some? <==> ParseInt(s).Some? && IsInt64(ParseInt(s).value)
    ensures r.Some? ==> r.value == ParseInt(s).value
  {
    match ParseInt(s)
    case Some(v) => if IsInt64(v) then Some(v) else None
    case None => None
  }

  lemma ParseShowInt64(i: int)
    requires IsInt64(i)
    ensures ParseInt64(ShowInt(i)) == Some(i)
  {
    ParseShowInt(i);
  }


  // ---------------------------------------------------------------------
  // A stable sort (LINQ `OrderBy`), ascending by an integer key.

  predicate SortedBy<T>(s: seq<T>, key: T -> int) {
    forall i, j :: 0 <= i < j < |s| ==> key(s[i]) <= key(s[j])
  }

  /** Puts `x` after every element whose key is at most its own. */
  function InsertBy<T>(x: T, s: seq<T>, key: T -> int): seq<T>
  {
    if |s| == 0 then [x]
    else if key(x) < key(s[0]) then [x] + s
    else [s[0]] + InsertBy(x, s[1..], key)
  }

  lemma {:induction false} InsertByMultiset<T>(x: T, s: seq<T>, key: T -> int)
    ensures multiset(InsertBy(x, s, key)) == multiset(s) + multiset{x}
    ensures |InsertBy(x, s, key)| == |s| + 1
  {
    if |s| > 0 && key(x) >= key(s[0]) {
      InsertByMultiset(x, s[1..], key);
      assert s == [s[0]] + s[1..];
    }
  }

  lemma {:induction false} InsertByLowerBound<T>(x: T, s: seq<T>, key: T -> int, lo: int)
    requires forall i :: 0 <= i < |s| ==> lo <= key(s[i])
    requires lo <= key(x)
    ensures forall i :: 0 <= i < |InsertBy(x, s, key)| ==> lo <= key(InsertBy(x, s, key)[i])
  {
    if |s| > 0 && key(x) >= key(s[0]) {
      InsertByLowerBound(x, s[1..], key, lo);
    }
  }

  lemma {:induction false} InsertBySorted<T>(x: T, s: seq<T>, key: T -> int)
    requires SortedBy(s, key)
    ensures SortedBy(InsertBy(x, s, key), key)
  {
    if |s| > 0 && key(x) >= key(s[0]) {
      var rest := InsertBy(x, s[1..], key);
      InsertBySorted(x, s[1..], key);
      InsertByLowerBound(x, s[1..], key, key(s[0]));
      var r := [s[0]] + rest;
      assert forall k :: 0 <= k < |rest| ==> r[k + 1] == rest[k];
    }
  }

  /** Insertion sort: a sorted permutation of its input. */
  function SortBy<T>(s: seq<T>, key: T -> int): (r: seq<T>)
    ensures SortedBy(r, key)
    ensures multiset(r) == multiset(s)
    ensures |r| == |s|
  {
    if |s| == 0 then []
    else
      var init := SortBy(s[..|s| - 1], key);
      InsertBySorted(s[|s| - 1], init, key);
      InsertByMultiset(s[|s| - 1], init, key);
      assert s == s[..|s| - 1] + [s[|s| - 1]];
      InsertBy(s[|s| - 1], init, key)
  }

  // ---------------------------------------------------------------------
  // Descending order (LINQ `OrderDescending`).

  predicate Descending(s: seq<int>)
  {
    forall i, j :: 0 <= i < j < |s| ==> s[i] >= s[j]
  }

  function Negate(x: int): int
  {
    -x
  }

  /** `OrderDescending`: the same numbers, largest first. */
  function OrderDescending(s: seq<int>): (r: seq<int>)
    ensures multiset(r) == multiset(s) && |r| == |s|
    ensures Descending(r)
  {
    var r := SortBy(s, Negate);
    assert forall i, j :: 0 <= i < j < |r| ==> Negate(r[i]) <= Negate(r[j]);
    r
  }

  /** Two descending arrangements of the same numbers start alike. */
  lemma DescendingHeads(a: seq<int>, b: seq<int>)
    requires multiset(a) == multiset(b) && |a| > 0
    requires Descending(a) && Descending(b)
    ensures |b| > 0 && a[0] == b[0]
  {
    assert a[0] in multiset(b);
    var i :| 0 <= i < |b| && b[i] == a[0];
    assert b[0] in multiset(a);
    var j :| 0 <= j < |a| && a[j] == b[0];
  }

  lemma TailsAlike(a: seq<int>, b: seq<int>)
    requires multiset(a) == multiset(b) && |a| > 0 && |b| > 0 && a[0] == b[0]
    ensures multiset(a[1..]) == multiset(b[1..])
  {
    assert a == [a[0]] + a[1..];
    assert b == [b[0]] + b[1..];
    assert multiset(a) == multiset([a[0]]) + multiset(a[1..]);
    assert multiset(b) == multiset([a[0]]) + multiset(b[1..]);
    forall x
      ensures multiset(a[1..])[x] == multiset(b[1..])[x]
    {
      assert multiset(a)[x] == multiset(b)[x];
    }
  }

  /** There is only one descending arrangement of a multiset of numbers. */
  lemma {:induction false} DescendingUnique(a: seq<int>, b: seq<int>)
    requires multiset(a) == multiset(b)
    requires Descending(a) && Descending(b)
    ensures a == b
    decreases |a|
  {
    if |a| == 0 {
      assert |multiset(b)| == 0;
    } else {
      DescendingHeads(a, b);
      TailsAlike(a, b);
      DescendingUnique(a[1..], b[1..]);
      assert a == [a[0]] + a[1..] && b == [b[0]] + b[1..];
    }
  }

  // ---------------------------------------------------------------------
  // LINQ `Distinct`.

  /** No element occurs twice. */
  predicate NoRepeats<T(==)>(s: seq<T>)
  {
    forall i, j :: 0 <= i < j < |s| ==> s[i] != s[j]
  }

  /** `Distinct`: every element once, at its first occurrence. */
  function Distinct<T(==,!new)>(s: seq<T>): (r: seq<T>)
    ensures forall x :: x in r <==> x in s
    ensures NoRepeats(r)
    ensures |s| > 0 ==> |r| > 0 && r[0] == s[0]
  {
    if |s| == 0 then []
    else
      var d := Distinct(s[..|s| - 1]);
      assert forall x :: x in s <==> x in s[..|s| - 1] || x == s[|s| - 1];
      if s[|s| - 1] in d then d else d + [s[|s| - 1]]
  }

  /** A list without repeats has as many elements as its set. */
  lemma {:induction false} NoRepeatsCardinality<T>(s: seq<T>)
    requires NoRepeats(s)
    ensures |set p | p in s| == |s|
  {
    if |s| > 0 {
      var init := s[..|s| - 1];
      assert NoRepeats(init) by {
        assert forall i, j :: 0 <= i < j < |init| ==> init[i] == s[i] && init[j] == s[j];
      }
      NoRepeatsCardinality(init);
      var last := s[|s| - 1];
      assert last !in init by {
        assert forall i :: 0 <= i < |init| ==> init[i] == s[i] && s[i] != s[|s| - 1];
      }
      assert (set p | p in s) == (set p | p in init) + {last} by {
        assert s == init + [last];
      }
    }
  }

  /** The largest of a descending sequence comes first. */
  lemma MaxOfDescending(d: seq<int>)
    requires |d| > 0 && Descending(d)
    ensures Max(d) == d[0]
  {
  }

  /** Rearranging numbers keeps their largest. */
  lemma MaxPermutation(a: seq<int>, b: seq<int>)
    requires |a| > 0 && multiset(a) == multiset(b)
    ensures |b| > 0 && Max(a) == Max(b)
  {
    assert |b| == |multiset(b)| == |multiset(a)| == |a|;
    var i :| 0 <= i < |a| && a[i] == Max(a);
    assert a[i] in multiset(b);
    var j :| 0 <= j < |b| && b[j] == Max(b);
    assert b[j] in multiset(a);
  }
}

=== FILE: day1.dfy ===
/** Day 1: calorie counting. Each elf carries a group of numbers; part one
    is the largest group total, part two the sum of the three largest. */
module Day1 {
  import opened Common
  import opened Parsing

  /** Every elf's total. */
  function Totals(groups: seq<seq<int>>): (r: seq<int>)
    ensures |r| == |groups|
    ensures forall i :: 0 <= i < |groups| ==> r[i] == Sum(groups[i])
  {
    Map(groups, Sum)
  }

  /** `CalculateTaskOne`: the largest total. `Max` throws on an empty
      sequence. */
  function MaxTotal(groups: seq<seq<int>>): (r: Result<int>)
    ensures r.Ok? <==> |groups| > 0
    ensures r.Ok? ==> forall i :: 0 <= i < |groups| ==> Sum(groups[i]) <= r.value
    ensures r.Ok? ==> exists i :: 0 <= i < |groups| && Sum(groups[i]) == r.value
  {
    if |groups| == 0 then Err("sequence contains no elements")
    else
      var totals := Totals(groups);
      var m := Max(totals);
      assert exists i :: 0 <= i < |totals| && totals[i] == m;
      Ok(m)
  }

  /** The number of elves part two adds up: `Take(3)`. */
  function TopCount(n: nat): (k: nat)
    ensures k <= n && k <= 3
    ensures k == 3 || k == n
  {
    if n < 3 then n else 3
  }

  /** `CalculateTaskTwo`: the first three of the descending totals, or all
      of them when there are fewer. */
  function TopThree(groups: seq<seq<int>>): int
  {
    var d := OrderDescending(Totals(groups));
    Sum(d[..TopCount(|d|)])
  }

  /** Part two does not depend on how the totals are arranged: any
      descending arrangement gives the same first three. */
  lemma TopThreeOfAnyArrangement(groups: seq<seq<int>>, d: seq<int>)
    requires multiset(d) == multiset(Totals(groups))
    requires Descending(d)
    ensures TopThree(groups) == Sum(d[..TopCount(|d|)])
  {
    DescendingUnique(d, OrderDescending(Totals(groups)));
  }

  /** With three elves or fewer, part two is the sum of all totals. */
  lemma TopThreeFewElves(groups: seq<seq<int>>)
    requires |groups| <= 3
    ensures TopThree(groups) == Sum(Totals(groups))
  {
    var d := OrderDescending(Totals(groups));
    assert d[..TopCount(|d|)] == d;
    SumPermutation(d, Totals(groups));
  }

  /** The first descending total is the largest. */
  lemma FirstIsMax(groups: seq<seq<int>>)
    requires |groups| > 0
    ensures OrderDescending(Totals(groups))[0] == MaxTotal(groups).value
  {
    var totals := Totals(groups);
    var d := OrderDescending(totals);
    var m := MaxTotal(groups).value;
    assert d[0] in multiset(totals);
    var k :| 0 <= k < |totals| && totals[k] == m;
    assert m in multiset(d);
  }

  /** Groups without negative numbers have non-negative totals. */
  lemma TotalsNonNegative(groups: seq<seq<int>>)
    requires forall i, j :: 0 <= i < |groups| && 0 <= j < |groups[i]| ==> groups[i][j] >= 0
    ensures forall i :: 0 <= i < |Totals(groups)| ==> Totals(groups)[i] >= 0
  {
    forall i | 0 <= i < |groups|
      ensures Sum(groups[i]) >= 0
    {
      SumNonNegative(groups[i]);
    }
  }

  /** Rearranging non-negative numbers gives non-negative numbers. */
  lemma NonNegativeArrangement(a: seq<int>, b: seq<int>)
    requires multiset(a) == multiset(b)
    requires forall i :: 0 <= i < |a| ==> a[i] >= 0
    ensures forall i :: 0 <= i < |b| ==> b[i] >= 0
  {
    forall i | 0 <= i < |b|
      ensures b[i] >= 0
    {
      assert b[i] in multiset(a);
    }
  }

  /** With no negative numbers, part two is at least part one. */
  lemma TopThreeAtLeastMax(groups: seq<seq<int>>)
    requires |groups| > 0
    requires forall i, j :: 0 <= i < |groups| && 0 <= j < |groups[i]| ==> groups[i][j] >= 0
    ensures TopThree(groups) >= MaxTotal(groups).value
  {
    var totals := Totals(groups);
    var d := OrderDescending(totals);
    FirstIsMax(groups);
    TotalsNonNegative(groups);
    NonNegativeArrangement(totals, d);
    SumAtLeastFirst(d[..TopCount(|d|)]);
  }

  // ---------------------------------------------------------------------
  // The grammar: numbers on consecutive lines form a group, groups are
  // separated by a blank line.

  /** `Newline.AndTry(NotFollowedByNewline)`: a line break that does not
      start a blank line; before a blank line it backtracks. */
  function LineBreak(s: string): (r: Reply<()>)
    ensures !r.Failure?
  {
    if |s| > 0 && s[0] == '\n' && !(|s| > 1 && s[1] == '\n') then Match((), s[1..]) else NoMatch
  }

  /** `Newline.And(Newline)`: once one line break is read, a second is
      required. */
  function BlankLine(s: string): (r: Reply<()>)
  {
    if |s| > 0 && s[0] == '\n' then
      if |s| > 1 && s[1] == '\n' then Match((), s[2..]) else Failure("newline expected")
    else NoMatch
  }

  /** One group: `Many(Long, sep: LineBreak)`. */
  function Group(s: string): Reply<seq<int>>
  {
    Many(Long, LineBreak, false, s)
  }

  /** `ParseSource`: at least one group, since even empty text is one
      empty group. */
  function ParseSource(source: string): (r: Result<seq<seq<int>>>)
    ensures r.Ok? ==> |r.value| >= 1
  {
    RunParser(Many(Group, BlankLine, false, source))
  }

  /** `CalculateTaskOne`: the largest total, defined exactly when the
      source parses. */
  function CalculateTaskOne(source: string): (r: Result<int>)
    ensures r.Ok? <==> ParseSource(source).Ok?
    ensures r.Ok? ==> forall i :: 0 <= i < |ParseSource(source).value| ==> Sum(ParseSource(source).value[i]) <= r.value
    ensures r.Ok? ==> exists i :: 0 <= i < |ParseSource(source).value| && Sum(ParseSource(source).value[i]) == r.value
  {
    match ParseSource(source)
    case Err(e) => Err(e)
    case Ok(groups) => MaxTotal(groups)
  }

  /** `CalculateTaskTwo`: the sum of the three largest totals, whatever
      order a descending sort leaves equal totals in. */
  function CalculateTaskTwo(source: string): (r: Result<int>)
    ensures r.Ok? <==> ParseSource(source).Ok?
    ensures r.Ok? ==> forall d :: multiset(d) == multiset(Totals(ParseSource(source).value)) && Descending(d) ==>
      r.value == Sum(d[..TopCount(|d|)])
  {
    match ParseSource(source)
    case Err(e) => Err(e)
    case Ok(groups) =>
      forall d | multiset(d) == multiset(Totals(groups)) && Descending(d)
        ensures TopThree(groups) == Sum(d[..TopCount(|d|)])
      {
        TopThreeOfAnyArrangement(groups, d);
      }
      Ok(TopThree(groups))
  }

  /** A group the grammar can read back: not empty, every number a
      `long`. */
  predicate ValidGroup(g: seq<int>)
  {
    |g| > 0 && forall j :: 0 <= j < |g| ==> IsInt64(g[j])
  }

  /** Groups the grammar can read back: at least one, each valid. */
  predicate Printable(groups: seq<seq<int>>)
  {
    |groups| > 0 && AllValid(groups, ValidGroup)
  }

  /** A group, one number per line. */
  function ShowGroup(g: seq<int>): string
  {
    Interleave(g, ShowInt, "\n")
  }

  /** Groups with a blank line between them and no final line break. */
  function ShowGroups(groups: seq<seq<int>>): string
  {
    Interleave(groups, ShowGroup, "\n\n")
  }

  /** Text that may follow a group: nothing or a blank line. */
  predicate GroupEnd(rest: string)
  {
    rest == "" || (|rest| >= 2 && rest[0] == '\n' && rest[1] == '\n')
  }

  lemma LineBreakBefore(line: string, rest: string)
    requires |line| > 0 && line[0] != '\n'
    ensures LineBreak("\n" + (line + rest)) == Match((), line + rest)
  {
    var s := "\n" + (line + rest);
    assert s[1..] == line + rest;
    assert s[1] == line[0];
  }

  /** Numbers and single line breaks read back what they print. */
  lemma NumbersReadBack()
    ensures ReadsBackWith(Long, LineBreak, ShowInt, IsInt64, "\n", GroupEnd)
  {
    forall x: int, t: string | IsInt64(x) && GroupEnd(t)
      ensures Long(ShowInt(x) + t) == Match(x, t)
    {
      LongShown(x, t);
    }
    forall x: int, t: string | IsInt64(x)
      ensures Long(ShowInt(x) + ("\n" + t)) == Match(x, "\n" + t)
    {
      LongShown(x, "\n" + t);
    }
    forall x: int, t: string | IsInt64(x)
      ensures LineBreak("\n" + (ShowInt(x) + t)) == Match((), ShowInt(x) + t)
    {
      ShowIntStart(x);
      LineBreakBefore(ShowInt(x), t);
    }
  }

  /** A printed group is read back up to the blank line or the end. */
  lemma GroupShown(g: seq<int>, rest: string)
    requires ValidGroup(g)
    requires GroupEnd(rest)
    ensures Group(ShowGroup(g) + rest) == Match(g, rest)
  {
    NumbersReadBack();
    ManyInterleave(Long, LineBreak, false, ShowInt, IsInt64, "\n", GroupEnd, g, rest);
  }

  /** Groups and blank lines read back what they print. */
  lemma GroupsReadBack()
    ensures ReadsBackWith(Group, BlankLine, ShowGroup, ValidGroup, "\n\n", AtEnd)
  {
    forall g: seq<int>, t: string | ValidGroup(g) && AtEnd(t)
      ensures Group(ShowGroup(g) + t) == Match(g, t)
    {
      GroupShown(g, t);
    }
    forall g: seq<int>, t: string | ValidGroup(g)
      ensures Group(ShowGroup(g) + ("\n\n" + t)) == Match(g, "\n\n" + t)
    {
      GroupShown(g, "\n\n" + t);
    }
    forall g: seq<int>, t: string | ValidGroup(g)
      ensures BlankLine("\n\n" + (ShowGroup(g) + t)) == Match((), ShowGroup(g) + t)
    {
      var s := "\n\n" + (ShowGroup(g) + t);
      assert s[2..] == ShowGroup(g) + t;
    }
  }

  /** Printed groups are read back as themselves. */
  lemma ParseShowSource(groups: seq<seq<int>>)
    requires Printable(groups)
    ensures ParseSource(ShowGroups(groups)) == Ok(groups)
  {
    GroupsReadBack();
    ManyInterleaveAll(Group, BlankLine, false, ShowGroup, ValidGroup, "\n\n", groups);
  }

  /** Empty text is one elf carrying nothing. */
  lemma EmptySource()
    ensures ParseSource("") == Ok([[]])
    ensures CalculateTaskOne("") == Ok(0)
  {
    assert Long("") == NoMatch;
    assert Group("") == Match([], "");
    ManyFirst(Group, BlankLine, false, "", [], "");
    ManyRestStop(Group, BlankLine, false, [[]], "");
    assert Totals([[]]) == [0];
  }

  /** A line break at the very end is a separator with no number after it,
      which the grammar refuses. */
  lemma TrailingLineBreakFails(n: int)
    requires IsInt64(n)
    ensures ParseSource(ShowInt(n) + "\n").Err?
  {
    var s := ShowInt(n) + "\n";
    LongShown(n, "\n");
    assert Long("") == NoMatch;
    ManyFirst(Long, LineBreak, false, s, n, "\n");
    assert Group(s).Failure?;
  }

  /** A number too large for a `long` is an error, not the end of the
      elves' list: `Long` fails after reading its digits. */
  lemma OutOfRangeFails(n: int, rest: string)
    requires !IsInt64(n)
    requires rest == "" || !IsDigit(rest[0])
    ensures ParseSource(ShowInt(n) + rest).Err?
    ensures CalculateTaskOne(ShowInt(n) + rest).Err?
    ensures CalculateTaskTwo(ShowInt(n) + rest).Err?
  {
    LongOutOfRange(n, rest);
  }
}

=== FILE: day10.dfy ===
/** Day 10: a one-register CPU. `noop` takes one cycle, `addx V` takes two
    and adds V once both have passed. Part one adds up signal strengths at
    six cycles, part two draws a 40 by 6 screen whose pixel is lit when the
    register's three-wide sprite covers it. */
module Day10 {
  import opened Common

  datatype Instruction = Noop | Addx(value: int)

  /** One line of `ParseInput`: exactly `noop`, or `addx` followed by any
      character and an `int`. */
  function ParseLine(line: string): (r: Result<Instruction>)
    ensures r.Ok? && r.value.Noop? <==> line == "noop"
    ensures r.Ok? && r.value.Addx? ==> StartsWith(line, "addx") && |line| >= 5 && IsInt32(r.value.value)
  {
    if line == "noop" then Ok(Noop)
    else if StartsWith(line, "addx") then
      if |line| < 5 then Err("index out of range")
      else
        match ParseInt32(line[5..])
        case None => Err("input string was not in a correct format")
        case Some(v) => Ok(Addx(v))
    else Err("Invalid command: " + line)
  }

  function ShowLine(ins: Instruction): string
  {
    match ins
    case Noop => "noop"
    case Addx(v) => "addx " + ShowInt(v)
  }

  predicate Printable(ins: Instruction)
  {
    ins.Addx? ==> IsInt32(ins.value)
  }

  /** A printed instruction is read back as itself. */
  lemma ParseShowLine(ins: Instruction)
    requires Printable(ins)
    ensures ParseLine(ShowLine(ins)) == Ok(ins)
  {
    if ins.Addx? {
      var line := ShowLine(ins);
      assert line[..4] == "addx" && line[5..] == ShowInt(ins.value);
      ParseShowInt32(ins.value);
      ShowIntStart(ins.value);
      assert line != "noop" by {
        assert line[0] != "noop"[0];
      }
    }
  }

  /** Anything but `noop` and a well-formed `addx` is refused. */
  lemma ParseRefuses(line: string)
    requires line != "noop" && !StartsWith(line, "addx")
    ensures ParseLine(line).Err?
  {
  }

  lemma ShowLineOneLine(ins: Instruction)
    ensures '\n' !in ShowLine(ins)
  {
    if ins.Addx? {
      ShowIntWithout(ins.value, '\n');
    }
  }

  function ParseInput(source: string): (r: Result<seq<Instruction>>)
    ensures r.Ok? ==> |r.value| == |Split(source, '\n')|
  {
    ParseEachLine(source, ParseLine)
  }

  /** A printed program is read back as itself. */
  lemma ParseShowInput(program: seq<Instruction>)
    requires |program| > 0 && forall i :: 0 <= i < |program| ==> Printable(program[i])
    ensures ParseInput(Join(Map(program, ShowLine), '\n')) == Ok(program)
  {
    var lines := Map(program, ShowLine);
    forall i | 0 <= i < |lines|
      ensures '\n' !in lines[i] && ParseLine(lines[i]) == Ok(program[i])
    {
      ParseShowLine(program[i]);
      ShowLineOneLine(program[i]);
    }
    SplitJoin(lines, '\n');
    MapResultOk(lines, ParseLine, program);
  }

  // ---------------------------------------------------------------------
  // The register over time.

  function Cost(ins: Instruction): nat
  {
    if ins.Noop? then 1 else 2
  }

  /** The cycles a program takes. */
  function CycleCount(program: seq<Instruction>): nat
  {
    if |program| == 0 then 0
    else CycleCount(program[..|program| - 1]) + Cost(program[|program| - 1])
  }

  /** What an instruction adds to the register once it completes. */
  function Added(ins: Instruction): int
  {
    if ins.Addx? then ins.value else 0
  }

  /** The register after a program: 1 plus everything it added. */
  function RegisterAfter(program: seq<Instruction>): int
  {
    if |program| == 0 then 1
    else RegisterAfter(program[..|program| - 1]) + Added(program[|program| - 1])
  }

  /** The cycle count is one per `noop` and two per `addx`. */
  lemma {:induction false} CycleCountSplit(program: seq<Instruction>)
    ensures CycleCount(program) == |program| + CountWhere(program, (ins: Instruction) => ins.Addx?)
  {
    if |program| > 0 {
      var front := program[..|program| - 1];
      CycleCountSplit(front);
      assert program == front + [program[|program| - 1]];
      CountWhereAppend(front, [program[|program| - 1]], (ins: Instruction) => ins.Addx?);
    }
  }

  /** The cycle an instruction starts in. */
  function StartCycle(program: seq<Instruction>, j: int): int
    requires 0 <= j <= |program|
  {
    1 + CycleCount(program[..j])
  }

  /** The register during cycle `c` (counted from 1) of a program started
      with the register at `x`: an instruction's addition only shows once
      all its cycles have passed. */
  function RegisterFrom(program: seq<Instruction>, c: int, x: int): int
    decreases |program|
  {
    if |program| == 0 || c <= Cost(program[0]) then x
    else RegisterFrom(program[1..], c - Cost(program[0]), x + Added(program[0]))
  }

  /** The register during cycle `c` of a program, counted from 1. */
  function RegisterDuring(program: seq<Instruction>, c: int): int
  {
    RegisterFrom(program, c, 1)
  }

  /** One instruction further: it starts `Cost` cycles later and adds its
      value. */
  lemma StartStep(program: seq<Instruction>, i: int)
    requires 0 <= i < |program|
    ensures StartCycle(program, i + 1) == StartCycle(program, i) + Cost(program[i])
    ensures RegisterAfter(program[..i + 1]) == RegisterAfter(program[..i]) + Added(program[i])
  {
    assert program[..i + 1][..i] == program[..i];
  }

  /** From the start of instruction `i` on, the register runs as if the
      program began there with the register the earlier ones left. */
  lemma {:induction false} SkipInstructions(program: seq<Instruction>, i: int, c: int)
    requires 0 <= i <= |program| && c >= StartCycle(program, i)
    ensures RegisterDuring(program, c)
         == RegisterFrom(program[i..], c - StartCycle(program, i) + 1, RegisterAfter(program[..i]))
    decreases i
  {
    if i == 0 {
      assert program[0..] == program;
      assert program[..0] == [];
    } else {
      StartStep(program, i - 1);
      SkipInstructions(program, i - 1, c);
      assert program[i - 1..][1..] == program[i..];
    }
  }

  /** During every cycle an instruction takes, the register holds what the
      instructions before it left. */
  lemma DuringInstruction(program: seq<Instruction>, j: int, d: int)
    requires 0 <= j < |program| && 0 <= d < Cost(program[j])
    ensures RegisterDuring(program, StartCycle(program, j) + d) == RegisterAfter(program[..j])
  {
    SkipInstructions(program, j, StartCycle(program, j) + d);
  }

  /** `MakeHistory`: the register's value during each cycle the program
      runs, keyed from 1. */
  method MakeHistory(program: seq<Instruction>) returns (history: map<int, int>)
    ensures forall c :: c in history <==> 1 <= c <= CycleCount(program)
    ensures forall c :: c in history ==> history[c] == RegisterDuring(program, c)
  {
    history := map[];
    var cycle := 1;
    var register := 1;
    var i := 0;
    assert program[..0] == [];
    while i < |program|
      invariant 0 <= i <= |program|
      invariant cycle == StartCycle(program, i)
      invariant register == RegisterAfter(program[..i])
      invariant forall c :: c in history <==> 1 <= c < cycle
      invariant forall c :: c in history ==> history[c] == RegisterDuring(program, c)
      decreases |program| - i
    {
      StartStep(program, i);
      DuringInstruction(program, i, 0);
      match program[i] {
        case Noop =>
          history := history[cycle := register];
          cycle := cycle + 1;
        case Addx(v) =>
          DuringInstruction(program, i, 1);
          history := history[cycle := register];
          cycle := cycle + 1;
          history := history[cycle := register];
          cycle := cycle + 1;
          register := register + v;
      }
      i := i + 1;
    }
    assert program[..i] == program;
  }

  // ---------------------------------------------------------------------
  // Part one.

  /** The cycles whose signal strength is added up. */
  const Probes: seq<int> := [20, 60, 100, 140, 180, 220]

  /** `x * history[x]` for each probe, a missing cycle being an error. */
  function Strengths(history: map<int, int>, probes: seq<int>): (r: Result<seq<int>>)
    ensures r.Ok? <==> forall i :: 0 <= i < |probes| ==> probes[i] in history
    ensures r.Ok? ==> |r.value| == |probes|
    ensures r.Ok? ==> forall i :: 0 <= i < |probes| ==> r.value[i] == probes[i] * history[probes[i]]
  {
    if |probes| == 0 then Ok([])
    else if probes[0] !in history then Err("key not found")
    else
      match Strengths(history, probes[1..])
      case Err(e) =>
        assert exists i :: 1 <= i < |probes| && probes[i] !in history by {
          var i :| 0 <= i < |probes[1..]| && probes[1..][i] !in history;
          assert probes[i + 1] == probes[1..][i];
        }
        Err(e)
      case Ok(rest) => Ok([probes[0] * history[probes[0]]] + rest)
  }

  /** The signal strengths at the probed cycles: the cycle times the
      register during it. */
  function SignalStrengths(program: seq<Instruction>): (r: seq<int>)
    ensures |r| == |Probes|
    ensures forall i :: 0 <= i < |Probes| ==> r[i] == Probes[i] * RegisterDuring(program, Probes[i])
  {
    seq(|Probes|, i requires 0 <= i < |Probes| => Probes[i] * RegisterDuring(program, Probes[i]))
  }

  /** `CalculateTaskOne`: the sum of the signal strengths; it fails exactly
      when the program runs for fewer than 220 cycles. */
  method TaskOne(source: string) returns (r: Result<int>)
    ensures ParseInput(source).Err? ==> r.Err?
    ensures ParseInput(source).Ok? ==> (r.Ok? <==> CycleCount(ParseInput(source).value) >= 220)
    ensures r.Ok? ==> r.value == Sum(SignalStrengths(ParseInput(source).value))
  {
    match ParseInput(source)
    case Err(e) => return Err(e);
    case Ok(program) =>
      var history := MakeHistory(program);
      assert 220 in history <==> CycleCount(program) >= 220;
      match Strengths(history, Probes)
      case Err(e) =>
        return Err(e);
      case Ok(values) =>
        assert Probes[5] == 220;
        assert values == SignalStrengths(program);
        return Ok(Sum(values));
  }

  // ---------------------------------------------------------------------
  // Part two.

  /** The sprite's columns that lie on the screen. */
  function SpriteColumns(value: int): seq<int>
  {
    OnScreen([value - 1, value, value + 1])
  }

  /** `Where(c => c is >= 0 and < 40)`. */
  function OnScreen(cols: seq<int>): (r: seq<int>)
    ensures forall c :: c in r <==> c in cols && 0 <= c < 40
  {
    if |cols| == 0 then []
    else (if 0 <= cols[0] < 40 then [cols[0]] else []) + OnScreen(cols[1..])
  }

  /** The pixel being drawn is lit exactly when it is at most one column
      away from the register. */
  lemma PixelRule(value: int, col: int)
    requires 0 <= col < 40
    ensures col in SpriteColumns(value) <==> -1 <= value - col <= 1
  {
  }

  function PixelChar(lit: bool): char
  {
    if lit then '#' else '.'
  }

  /** `CalculateTaskTwo`: six rows of forty pixels, pixel `col` of row `row`
      drawn while cycle `40 * row + col + 1` runs; fewer than 240 cycles
      make the lookup fail. */
  method Draw(history: map<int, int>) returns (r: Result<seq<string>>)
    ensures r.Ok? <==> forall c :: 1 <= c <= 240 ==> c in history
    ensures r.Ok? ==> |r.value| == 6 && forall row :: 0 <= row < 6 ==> |r.value[row]| == 40
    ensures r.Ok? ==> forall row, col :: 0 <= row < 6 && 0 <= col < 40 ==>
      r.value[row][col] == PixelChar(-1 <= history[40 * row + col + 1] - col <= 1)
  {
    var rows: seq<string> := [];
    var row := 0;
    while row < 6
      invariant 0 <= row <= 6 && |rows| == row
      invariant forall c :: 1 <= c <= 40 * row ==> c in history
      invariant forall i :: 0 <= i < row ==> |rows[i]| == 40
      invariant forall i, col :: 0 <= i < row && 0 <= col < 40 ==>
        rows[i][col] == PixelChar(-1 <= history[40 * i + col + 1] - col <= 1)
    {
      var start := 40 * row;
      var line: string := "";
      var cycle := 0;
      while cycle < 40
        invariant 0 <= cycle <= 40 && |line| == cycle
        invariant forall c :: 1 <= c <= start + cycle ==> c in history
        invariant forall col :: 0 <= col < cycle ==>
          line[col] == PixelChar(-1 <= history[start + col + 1] - col <= 1)
      {
        if cycle + start + 1 !in history {
          return Err("key not found");
        }
        var value := history[cycle + start + 1];
        PixelRule(value, cycle);
        line := line + [PixelChar(cycle in SpriteColumns(value))];
        cycle := cycle + 1;
      }
      rows := rows + [line];
      row := row + 1;
    }
    return Ok(rows);
  }

  /** `CalculateTaskTwo`: the screen, drawable exactly when the program
      runs for at least 240 cycles. */
  method TaskTwo(source: string) returns (r: Result<seq<string>>)
    ensures ParseInput(source).Err? ==> r.Err?
    ensures ParseInput(source).Ok? ==> (r.Ok? <==> CycleCount(ParseInput(source).value) >= 240)
    ensures r.Ok? ==> |r.value| == 6 && forall row :: 0 <= row < 6 ==> |r.value[row]| == 40
    ensures r.Ok? ==> forall row, col :: 0 <= row < 6 && 0 <= col < 40 ==>
      r.value[row][col] == PixelChar(-1 <= RegisterDuring(ParseInput(source).value, 40 * row + col + 1) - col <= 1)
  {
    match ParseInput(source)
    case Err(e) => return Err(e);
    case Ok(program) =>
      var history := MakeHistory(program);
      assert 240 in history <==> CycleCount(program) >= 240;
      r := Draw(history);
  }
}

=== FILE: day11.dfy ===
/** Day 11: monkeys pass items around. Each monkey in turn inspects its
    items first to last: the worry level becomes `new = left op right`,
    is relieved (divided by three in part one, reduced modulo the least
    common multiple of all test divisors in part two), and the item goes
    to one of two monkeys depending on whether the level is divisible by
    the monkey's divisor. The answer is the product of the two largest
    inspection counts after 20 or 10000 rounds. Levels are unbounded
    integers, as `BigInteger` is. */
module Day11 {
  import opened Common
  import opened Parsing

  /** An operand of the operation: the old level or a constant. */
  datatype Operand = Old | Constant(value: int)

  datatype Operator = Add | Subtract | Multiply | Divide

  /** One monkey of the notes, as written. */
  datatype Monkey = Monkey(id: int, items: seq<int>, left: Operand, op: Operator, right: Operand,
                           divisor: int, ifTrue: int, ifFalse: int)

  // ---------------------------------------------------------------------
  // The grammar.

  /** The characters FParsec's `spaces` skips. */
  predicate IsSpace(c: char)
  {
    c == ' ' || c == '\t' || c == '\r' || c == '\n'
  }

  /** `WS`: skips any run of spaces, line breaks included. */
  function SkipSpaces(s: string): (r: string)
    ensures |r| <= |s|
    ensures r == "" || !IsSpace(r[0])
  {
    if |s| > 0 && IsSpace(s[0]) then SkipSpaces(s[1..]) else s
  }

  /** `Int`, widened to an unbounded integer. */
  function IntNumber(s: string): (r: Reply<int>)
    ensures r.Match? ==> |r.rest| < |s|
  {
    match Int(s)
    case Match(v, rest) => Match(v as int, rest)
    case NoMatch => NoMatch
    case Failure(m) => Failure(m)
  }

  function Comma(s: string): Reply<()>
  {
    Literal(", ", s)
  }

  /** `WS.AndR(StringP(caption)).AndR(WS)`: the text after a caption. */
  function AfterLabel(caption: string, s: string): Option<string>
  {
    match Literal(caption, SkipSpaces(s))
    case Match(_, rest) => Some(SkipSpaces(rest))
    case _ => None
  }

  /** A labelled number: `WS`, the caption, `WS`, `Int`. */
  function IntField(caption: string, s: string): Option<(int, string)>
  {
    match AfterLabel(caption, s)
    case None => None
    case Some(t) =>
      match IntNumber(t)
      case Match(v, rest) => Some((v, rest))
      case _ => None
  }

  /** `.AndL(Newline)`. */
  function LineEnd<T>(r: Option<(T, string)>): Option<(T, string)>
  {
    match r
    case Some((v, rest)) => if |rest| > 0 && rest[0] == '\n' then Some((v, rest[1..])) else None
    case None => None
  }

  /** `Monkey <id>:` and its line break. */
  function TitleLine(s: string): Option<(int, string)>
  {
    match IntField("Monkey", s)
    case Some((id, rest)) => if |rest| > 0 && rest[0] == ':' then LineEnd(Some((id, rest[1..]))) else None
    case None => None
  }

  /** `Starting items:` and a comma-separated list of numbers. */
  function ItemsLine(s: string): Option<(seq<int>, string)>
  {
    match AfterLabel("Starting items:", s)
    case None => None
    case Some(t) =>
      match Many(IntNumber, Comma, false, t)
      case Match(items, rest) => LineEnd(Some((items, rest)))
      case _ => None
  }

  /** `old` or a number. */
  function OperandParser(s: string): Option<(Operand, string)>
  {
    match Literal("old", s)
    case Match(_, rest) => Some((Old, rest))
    case _ =>
      match IntNumber(s)
      case Match(v, rest) => Some((Constant(v), rest))
      case _ => None
  }

  function OperatorParser(s: string): Option<(Operator, string)>
  {
    if |s| == 0 then None
    else if s[0] == '+' then Some((Add, s[1..]))
    else if s[0] == '-' then Some((Subtract, s[1..]))
    else if s[0] == '*' then Some((Multiply, s[1..]))
    else if s[0] == '/' then Some((Divide, s[1..]))
    else None
  }

  /** `Operation: new = <operand> <operator> <operand>`. */
  function OperationLine(s: string): Option<((Operand, Operator, Operand), string)>
  {
    match AfterLabel("Operation: new =", s)
    case None => None
    case Some(t) =>
      match OperandParser(t)
      case None => None
      case Some((left, t1)) =>
        match OperatorParser(SkipSpaces(t1))
        case None => None
        case Some((op, t2)) =>
          match OperandParser(SkipSpaces(t2))
          case None => None
          case Some((right, t3)) => LineEnd(Some(((left, op, right), t3)))
  }

  /** The six lines of one monkey. */
  function MonkeyFields(s: string): Option<(Monkey, string)>
  {
    match TitleLine(s)
    case None => None
    case Some((id, s1)) =>
      match ItemsLine(s1)
      case None => None
      case Some((items, s2)) =>
        match OperationLine(s2)
        case None => None
        case Some((operation, s3)) =>
          match Decision(s3)
          case None => None
          case Some((decision, rest)) =>
            Some((Monkey(id, items, operation.0, operation.1, operation.2, decision.0, decision.1, decision.2), rest))
  }

  /** The test line and the two throw lines: divisor, monkey when
      divisible, monkey otherwise. */
  function Decision(s: string): Option<((int, int, int), string)>
  {
    match LineEnd(IntField("Test: divisible by", s))
    case None => None
    case Some((divisor, s1)) =>
      match LineEnd(IntField("If true: throw to monkey", s1))
      case None => None
      case Some((ifTrue, s2)) =>
        match IntField("If false: throw to monkey", s2)
        case None => None
        case Some((ifFalse, rest)) => Some(((divisor, ifTrue, ifFalse), rest))
  }

  /** `monkeyParser`: text not starting with `Monkey` is no monkey; once
      that word is read, anything amiss is an error. */
  function MonkeyParser(s: string): (r: Reply<Monkey>)
    ensures r.NoMatch? <==> !Literal("Monkey", s).Match?
  {
    if !Literal("Monkey", s).Match? then NoMatch
    else
      match MonkeyFields(s)
      case Some((m, rest)) => Match(m, rest)
      case None => Failure("monkey expected")
  }

  /** `ParseInput`: one or more monkeys separated by blank lines. */
  function ParseInput(input: string): (r: Result<seq<Monkey>>)
    ensures r.Ok? ==> |r.value| >= 1
  {
    RunParser(Many1(MonkeyParser, Newlines, true, input))
  }

  // ---------------------------------------------------------------------
  // Printing the notes and reading them back.

  function ShowOperand(o: Operand): string
  {
    match o
    case Old => "old"
    case Constant(v) => ShowInt(v)
  }

  function ShowOperator(op: Operator): string
  {
    match op
    case Add => "+"
    case Subtract => "-"
    case Multiply => "*"
    case Divide => "/"
  }

  /** An indented caption, a space and a number. */
  function FieldText(pad: string, caption: string, v: int): string
  {
    pad + (caption + (" " + ShowInt(v)))
  }

  function ItemsText(items: seq<int>): string
  {
    "  " + ("Starting items:" + (" " + (Interleave(items, ShowInt, ", ") + "\n")))
  }

  function OperationText(left: Operand, op: Operator, right: Operand): string
  {
    "  " + ("Operation: new =" + (" " + (ShowOperand(left) + (" " + (ShowOperator(op) + (" " + (ShowOperand(right) + "\n")))))))
  }

  /** A monkey as the puzzle prints it. */
  function ShowMonkey(m: Monkey): string
  {
    FieldText("", "Monkey", m.id) + (":\n"
    + (ItemsText(m.items)
    + (OperationText(m.left, m.op, m.right)
    + DecisionText(m.divisor, m.ifTrue, m.ifFalse))))
  }

  function DecisionText(divisor: int, ifTrue: int, ifFalse: int): string
  {
    FieldText("  ", "Test: divisible by", divisor) + ("\n"
    + (FieldText("    ", "If true: throw to monkey", ifTrue) + ("\n"
    + FieldText("    ", "If false: throw to monkey", ifFalse))))
  }

  predicate ValidOperand(o: Operand)
  {
    o.Constant? ==> IsInt32(o.value)
  }

  /** A monkey the notes can describe: every number an `int`, and at least
      one starting item (an empty list leaves `WS` to swallow the line
      break the items line must end with). */
  predicate ValidMonkey(m: Monkey)
  {
    && IsInt32(m.id) && |m.items| >= 1 && AllValid(m.items, IsInt32)
    && ValidOperand(m.left) && ValidOperand(m.right)
    && IsInt32(m.divisor) && IsInt32(m.ifTrue) && IsInt32(m.ifFalse)
  }

  predicate AllSpaces(pad: string)
  {
    forall i :: 0 <= i < |pad| ==> IsSpace(pad[i])
  }

  lemma {:induction false} SkipSpacesShown(pad: string, rest: string)
    requires AllSpaces(pad)
    requires rest == "" || !IsSpace(rest[0])
    ensures SkipSpaces(pad + rest) == rest
  {
    if |pad| > 0 {
      assert (pad + rest)[1..] == pad[1..] + rest;
      SkipSpacesShown(pad[1..], rest);
    } else {
      assert pad + rest == rest;
    }
  }

  lemma AfterLabelShown(pad: string, caption: string, gap: string, x: string)
    requires AllSpaces(pad) && AllSpaces(gap)
    requires |caption| > 0 && !IsSpace(caption[0])
    requires x == "" || !IsSpace(x[0])
    ensures AfterLabel(caption, pad + (caption + (gap + x))) == Some(x)
  {
    SkipSpacesShown(pad, caption + (gap + x));
    LiteralShown(caption, gap + x);
    SkipSpacesShown(gap, x);
  }

  /** A printed number starts with a digit or a minus sign. */
  lemma NumberStart(v: int, rest: string)
    ensures !IsSpace((ShowInt(v) + rest)[0]) && (ShowInt(v) + rest)[0] != 'o'
  {
    ShowIntStart(v);
  }

  lemma IntFieldShown(pad: string, caption: string, v: int, rest: string)
    requires AllSpaces(pad)
    requires |caption| > 0 && !IsSpace(caption[0])
    requires IsInt32(v)
    requires rest == "" || !IsDigit(rest[0])
    ensures IntField(caption, FieldText(pad, caption, v) + rest) == Some((v, rest))
  {
    var x := ShowInt(v) + rest;
    assert FieldText(pad, caption, v) + rest == pad + (caption + (" " + x));
    NumberStart(v, rest);
    AfterLabelShown(pad, caption, " ", x);
    IntShown(v as Int32, rest);
  }

  /** What may follow the last item: the line break. */
  predicate ItemsEnd(t: string)
  {
    |t| > 0 && t[0] == '\n'
  }

  lemma NumbersReadBack()
    ensures ReadsBackWith(IntNumber, Comma, ShowInt, IsInt32, ", ", ItemsEnd)
  {
    forall x: int, t: string | IsInt32(x) && ItemsEnd(t)
      ensures IntNumber(ShowInt(x) + t) == Match(x, t)
    {
      IntShown(x as Int32, t);
    }
    forall x: int, t: string | IsInt32(x)
      ensures IntNumber(ShowInt(x) + (", " + t)) == Match(x, ", " + t)
    {
      IntShown(x as Int32, ", " + t);
    }
    forall x: int, t: string | IsInt32(x)
      ensures Comma(", " + (ShowInt(x) + t)) == Match((), ShowInt(x) + t)
    {
      LiteralShown(", ", ShowInt(x) + t);
    }
  }

  lemma ItemsShown(items: seq<int>, rest: string)
    requires |items| >= 1 && AllValid(items, IsInt32)
    ensures ItemsLine(ItemsText(items) + rest) == Some((items, rest))
  {
    var shown := Interleave(items, ShowInt, ", ");
    var x := shown + ("\n" + rest);
    assert ItemsText(items) + rest == "  " + ("Starting items:" + (" " + x));
    assert !IsSpace(x[0]) by {
      InterleaveFirst(items, ShowInt, ", ", "\n" + rest);
      NumberStart(items[0], if |items| == 1 then "\n" + rest else ", " + (Interleave(items[1..], ShowInt, ", ") + ("\n" + rest)));
    }
    AfterLabelShown("  ", "Starting items:", " ", x);
    NumbersReadBack();
    ManyInterleave(IntNumber, Comma, false, ShowInt, IsInt32, ", ", ItemsEnd, items, "\n" + rest);
  }

  lemma OperandShown(o: Operand, rest: string)
    requires ValidOperand(o)
    requires |rest| > 0 && (rest[0] == ' ' || rest[0] == '\n')
    ensures OperandParser(ShowOperand(o) + rest) == Some((o, rest))
  {
    match o
    case Old =>
      LiteralShown("old", rest);
    case Constant(v) =>
      NumberStart(v, rest);
      IntShown(v as Int32, rest);
  }

  lemma OperationShown(left: Operand, op: Operator, right: Operand, rest: string)
    requires ValidOperand(left) && ValidOperand(right)
    ensures OperationLine(OperationText(left, op, right) + rest) == Some(((left, op, right), rest))
  {
    var t3 := "\n" + rest;
    var t2 := " " + (ShowOperand(right) + t3);
    var t1 := " " + (ShowOperator(op) + t2);
    var t := ShowOperand(left) + t1;
    OperationCaptionShown(left, op, right, rest);
    OperandShown(left, t1);
    OperatorRead(op, t2);
    RightOperandRead(right, t3);
  }

  lemma OperationCaptionShown(left: Operand, op: Operator, right: Operand, rest: string)
    ensures AfterLabel("Operation: new =", OperationText(left, op, right) + rest)
         == Some(ShowOperand(left) + (" " + (ShowOperator(op) + (" " + (ShowOperand(right) + ("\n" + rest))))))
  {
    var t := ShowOperand(left) + (" " + (ShowOperator(op) + (" " + (ShowOperand(right) + ("\n" + rest)))));
    var p6 := ShowOperand(right) + "\n";
    var p5 := " " + p6;
    var p4 := ShowOperator(op) + p5;
    var p3 := " " + p4;
    var p2 := ShowOperand(left) + p3;
    var p1 := " " + p2;
    var p0 := "Operation: new =" + p1;
    Assoc(ShowOperand(right), "\n", rest);
    Assoc(" ", p6, rest);
    Assoc(ShowOperator(op), p5, rest);
    Assoc(" ", p4, rest);
    Assoc(ShowOperand(left), p3, rest);
    Assoc(" ", p2, rest);
    Assoc("Operation: new =", p1, rest);
    Assoc("  ", p0, rest);
    OperandStart(left, " " + (ShowOperator(op) + (" " + (ShowOperand(right) + ("\n" + rest)))));
    Indents();
    AfterLabelShown("  ", "Operation: new =", " ", t);
  }

  lemma OperatorRead(op: Operator, t2: string)
    ensures OperatorParser(SkipSpaces(" " + (ShowOperator(op) + t2))) == Some((op, t2))
  {
    Indents();
    assert AllSpaces(" ");
    SkipSpacesShown(" ", ShowOperator(op) + t2);
  }

  lemma RightOperandRead(right: Operand, t3: string)
    requires ValidOperand(right)
    requires |t3| > 0 && t3[0] == '\n'
    ensures OperandParser(SkipSpaces(" " + (ShowOperand(right) + t3))) == Some((right, t3))
  {
    OperandStart(right, t3);
    assert AllSpaces(" ");
    SkipSpacesShown(" ", ShowOperand(right) + t3);
    OperandShown(right, t3);
  }

  lemma OperandStart(o: Operand, rest: string)
    ensures |ShowOperand(o) + rest| > 0 && !IsSpace((ShowOperand(o) + rest)[0])
  {
    match o
    case Old =>
    case Constant(v) => NumberStart(v, rest);
  }

  lemma DecisionShown(divisor: int, ifTrue: int, ifFalse: int, rest: string)
    requires IsInt32(divisor) && IsInt32(ifTrue) && IsInt32(ifFalse)
    requires rest == "" || rest[0] == '\n'
    ensures Decision(DecisionText(divisor, ifTrue, ifFalse) + rest) == Some(((divisor, ifTrue, ifFalse), rest))
  {
    var s2 := FieldText("    ", "If false: throw to monkey", ifFalse) + rest;
    var s1 := FieldText("    ", "If true: throw to monkey", ifTrue) + ("\n" + s2);
    var s := FieldText("  ", "Test: divisible by", divisor) + ("\n" + s1);
    assert DecisionText(divisor, ifTrue, ifFalse) + rest == s;
    Indents();
    assert LineEnd(IntField("Test: divisible by", s)) == Some((divisor, s1)) by {
      IntFieldShown("  ", "Test: divisible by", divisor, "\n" + s1);
    }
    assert LineEnd(IntField("If true: throw to monkey", s1)) == Some((ifTrue, s2)) by {
      IntFieldShown("    ", "If true: throw to monkey", ifTrue, "\n" + s2);
    }
    assert IntField("If false: throw to monkey", s2) == Some((ifFalse, rest)) by {
      IntFieldShown("    ", "If false: throw to monkey", ifFalse, rest);
    }
  }

  lemma Assoc(a: string, b: string, c: string)
    ensures (a + b) + c == a + (b + c)
  {
  }

  lemma Indents()
    ensures AllSpaces("") && AllSpaces("  ") && AllSpaces("    ")
  {
  }

  lemma MonkeyShown(m: Monkey, rest: string)
    requires ValidMonkey(m)
    requires rest == "" || rest[0] == '\n'
    ensures MonkeyParser(ShowMonkey(m) + rest) == Match(m, rest)
  {
    var s1 := ItemsText(m.items) + (OperationText(m.left, m.op, m.right) + (DecisionText(m.divisor, m.ifTrue, m.ifFalse) + rest));
    var x := " " + ShowInt(m.id);
    ShowMonkeySplit(m, rest);
    FieldsShown(m, rest);
    LiteralShown("Monkey", x + (":\n" + s1));
  }

  /** The printed monkey, regrouped as the parser reads it. */
  lemma ShowMonkeySplit(m: Monkey, rest: string)
    ensures var d := DecisionText(m.divisor, m.ifTrue, m.ifFalse);
            var o := OperationText(m.left, m.op, m.right);
            var i := ItemsText(m.items);
            ShowMonkey(m) + rest == "Monkey" + ((" " + ShowInt(m.id)) + (":\n" + (i + (o + (d + rest)))))
  {
    var x := " " + ShowInt(m.id);
    var d := DecisionText(m.divisor, m.ifTrue, m.ifFalse);
    var o := OperationText(m.left, m.op, m.right);
    var i := ItemsText(m.items);
    assert FieldText("", "Monkey", m.id) == "Monkey" + x;
    Assoc(o, d, rest);
    Assoc(i, o + d, rest);
    Assoc(":\n", i + (o + d), rest);
    Assoc(x, ":\n" + (i + (o + d)), rest);
    Assoc("Monkey" + x, ":\n" + (i + (o + d)), rest);
    Assoc("Monkey", x, ":\n" + (i + (o + d)) + rest);
  }

  lemma FieldsShown(m: Monkey, rest: string)
    requires ValidMonkey(m)
    requires rest == "" || rest[0] == '\n'
    ensures var s3 := DecisionText(m.divisor, m.ifTrue, m.ifFalse) + rest;
            var s1 := ItemsText(m.items) + (OperationText(m.left, m.op, m.right) + s3);
            MonkeyFields("Monkey" + ((" " + ShowInt(m.id)) + (":\n" + s1))) == Some((m, rest))
  {
    var s3 := DecisionText(m.divisor, m.ifTrue, m.ifFalse) + rest;
    var s2 := OperationText(m.left, m.op, m.right) + s3;
    var s1 := ItemsText(m.items) + s2;
    var s := "Monkey" + ((" " + ShowInt(m.id)) + (":\n" + s1));
    TitleShown(m.id, s1);
    assert ItemsLine(s1) == Some((m.items, s2)) by {
      ItemsShown(m.items, s2);
    }
    assert OperationLine(s2) == Some(((m.left, m.op, m.right), s3)) by {
      OperationShown(m.left, m.op, m.right, s3);
    }
    assert Decision(s3) == Some(((m.divisor, m.ifTrue, m.ifFalse), rest)) by {
      DecisionShown(m.divisor, m.ifTrue, m.ifFalse, rest);
    }
    FieldsCompose(m, s, s1, s2, s3, rest);
  }

  lemma TitleShown(id: int, s1: string)
    requires IsInt32(id)
    ensures TitleLine("Monkey" + ((" " + ShowInt(id)) + (":\n" + s1))) == Some((id, s1))
  {
    var s := "Monkey" + ((" " + ShowInt(id)) + (":\n" + s1));
    Indents();
    assert s == FieldText("", "Monkey", id) + (":\n" + s1);
    IntFieldShown("", "Monkey", id, ":\n" + s1);
    assert (":\n" + s1)[1..] == "\n" + s1;
  }

  lemma FieldsCompose(m: Monkey, s: string, s1: string, s2: string, s3: string, rest: string)
    requires TitleLine(s) == Some((m.id, s1))
    requires ItemsLine(s1) == Some((m.items, s2))
    requires OperationLine(s2) == Some(((m.left, m.op, m.right), s3))
    requires Decision(s3) == Some(((m.divisor, m.ifTrue, m.ifFalse), rest))
    ensures MonkeyFields(s) == Some((m, rest))
  {
  }

  lemma MonkeysReadBack()
    ensures ReadsBackWith(MonkeyParser, Newlines, ShowMonkey, ValidMonkey, "\n\n", AtEnd)
  {
    forall m: Monkey, t: string | ValidMonkey(m) && AtEnd(t)
      ensures MonkeyParser(ShowMonkey(m) + t) == Match(m, t)
    {
      MonkeyShown(m, t);
    }
    forall m: Monkey, t: string | ValidMonkey(m)
      ensures MonkeyParser(ShowMonkey(m) + ("\n\n" + t)) == Match(m, "\n\n" + t)
    {
      MonkeyShown(m, "\n\n" + t);
    }
    forall m: Monkey, t: string | ValidMonkey(m)
      ensures Newlines("\n\n" + (ShowMonkey(m) + t)) == Match((), ShowMonkey(m) + t)
    {
      BlankLineBeforeMonkey(m, t);
    }
  }

  lemma BlankLineBeforeMonkey(m: Monkey, t: string)
    ensures Newlines("\n\n" + (ShowMonkey(m) + t)) == Match((), ShowMonkey(m) + t)
  {
    var head := FieldText("", "Monkey", m.id);
    assert head[0] == 'M';
    assert (ShowMonkey(m) + t)[0] == 'M';
    TwoNewlines(ShowMonkey(m) + t);
  }

  /** Monkeys printed with blank lines between them are read back as
      themselves. */
  lemma ParseShowMonkeys(monkeys: seq<Monkey>)
    requires |monkeys| >= 1 && AllValid(monkeys, ValidMonkey)
    ensures ParseInput(Interleave(monkeys, ShowMonkey, "\n\n")) == Ok(monkeys)
  {
    MonkeysMany1(monkeys);
    RunMatch(Many1(MonkeyParser, Newlines, true, Interleave(monkeys, ShowMonkey, "\n\n")), monkeys, "");
  }

  lemma MonkeysMany1(monkeys: seq<Monkey>)
    requires |monkeys| >= 1 && AllValid(monkeys, ValidMonkey)
    ensures Many1(MonkeyParser, Newlines, true, Interleave(monkeys, ShowMonkey, "\n\n")) == Match(monkeys, "")
  {
    MonkeysReadBack();
    ManyInterleaveAll(MonkeyParser, Newlines, true, ShowMonkey, ValidMonkey, "\n\n", monkeys);
  }

  // ---------------------------------------------------------------------
  // One inspection.

  /** The message of a division by zero. */
  const DivideByZero := "Attempted to divide by zero."

  /** The message of a throw to a monkey that does not exist. */
  const KeyNotFound := "The given key was not present in the dictionary."

  /** The message for a monkey throwing to itself (see `Pass`). */
  const ThrowsToItself := "a monkey throws to itself"

  function Value(o: Operand, level: int): int
  {
    match o
    case Old => level
    case Constant(v) => v
  }

  /** `GetOperation`: `BigInteger` arithmetic; division truncates and
      fails on a zero divisor. */
  function Apply(op: Operator, a: int, b: int): (r: Result<int>)
    ensures r.Err? <==> op == Divide && b == 0
  {
    match op
    case Add => Ok(a + b)
    case Subtract => Ok(a - b)
    case Multiply => Ok(a * b)
    case Divide => if b == 0 then Err(DivideByZero) else Ok(TDiv(a, b))
  }

  /** `Operation`: the new worry level, `operation(operand1(old),
      operand2(old))`. */
  function Operate(m: Monkey, level: int): Result<int>
  {
    Apply(m.op, Value(m.left, level), Value(m.right, level))
  }

  /** How the worry level is relieved after an inspection: divided by three
      (part one), reduced modulo the least common multiple of the divisors
      (part two), or kept as it is — the exact levels the reduction stands
      in for. */
  datatype Relief = Third | Modulo(lcm: int) | Keep

  function Adjust(relief: Relief, level: int): (r: Result<int>)
    ensures r.Err? <==> relief == Modulo(0)
    ensures relief.Modulo? && r.Ok? ==> Abs(r.value) < Abs(relief.lcm) && (level >= 0 ==> r.value >= 0)
  {
    match relief
    case Third => Ok(TDiv(level, 3))
    case Modulo(l) => if l == 0 then Err(DivideByZero) else Ok(TMod(level, l))
    case Keep => Ok(level)
  }

  /** `Test` and the choice of the receiving monkey: the truncating
      remainder is zero exactly when the divisor divides the level. */
  function Target(m: Monkey, level: int): (r: Result<int>)
    ensures r.Err? <==> m.divisor == 0
    ensures m.divisor != 0 ==> r == Ok(if level % m.divisor == 0 then m.ifTrue else m.ifFalse)
  {
    if m.divisor == 0 then Err(DivideByZero)
    else
      TModZeroIffDivides(level, m.divisor);
      if TMod(level, m.divisor) == 0 then Ok(m.ifTrue) else Ok(m.ifFalse)
  }

  /** What a monkey holds and how many items it has inspected. */
  datatype Holding = Holding(items: seq<int>, inspected: nat)

  /** The starting holdings of monkeys found by id. */
  predicate Matched(rules: map<int, Monkey>, holdings: map<int, Holding>)
  {
    rules.Keys == holdings.Keys
  }

  /** Where monkey `id` throws its first item, and the item's new level:
      an inspection works out the new level, relieves it and picks the
      receiver by the test. When the receiver is the monkey itself the
      source appends the item to the back of the very queue it is emptying
      and carries on, which may end or may loop forever; the model stops
      with an error there instead. */
  function Pass(rules: map<int, Monkey>, holdings: map<int, Holding>, id: int, relief: Relief): (r: Result<(int, int)>)
    requires Matched(rules, holdings) && id in holdings && |holdings[id].items| > 0
    ensures r.Ok? ==> r.value.0 in holdings && r.value.0 != id
  {
    var m := rules[id];
    match Operate(m, holdings[id].items[0])
    case Err(e) => Err(e)
    case Ok(level) =>
      match Adjust(relief, level)
      case Err(e) => Err(e)
      case Ok(adjusted) =>
        match Target(m, adjusted)
        case Err(e) => Err(e)
        case Ok(target) =>
          if target !in holdings then Err(KeyNotFound)
          else if target == id then Err(ThrowsToItself)
          else Ok((target, adjusted))
  }

  /** One round of the inner loop: monkey `id` takes its first item off
      the front of its queue, counts an inspection, and the item joins the
      back of the receiver's queue; nobody else changes. */
  function Throw(rules: map<int, Monkey>, holdings: map<int, Holding>, id: int, relief: Relief): (r: Result<map<int, Holding>>)
    requires Matched(rules, holdings) && id in holdings && |holdings[id].items| > 0
    ensures r.Ok? <==> Pass(rules, holdings, id, relief).Ok?
    ensures r.Err? ==> r.error == Pass(rules, holdings, id, relief).error
    ensures r.Ok? ==> r.value.Keys == holdings.Keys
    ensures r.Ok? ==> r.value[id] == Holding(holdings[id].items[1..], holdings[id].inspected + 1)
    ensures r.Ok? ==>
      var target := Pass(rules, holdings, id, relief).value.0;
      var level := Pass(rules, holdings, id, relief).value.1;
      && r.value[target] == Holding(holdings[target].items + [level], holdings[target].inspected)
      && forall k :: k in holdings && k != id && k != target ==> r.value[k] == holdings[k]
  {
    match Pass(rules, holdings, id, relief)
    case Err(e) => Err(e)
    case Ok((target, level)) =>
      var h := holdings[id];
      Ok(holdings[id := Holding(h.items[1..], h.inspected + 1)]
                 [target := Holding(holdings[target].items + [level], holdings[target].inspected)])
  }

  // ---------------------------------------------------------------------
  // Turns and rounds.

  /** `while (monkey.Items.Any())`: the monkey throws its items one by one
      until its queue is empty. */
  function Turn(rules: map<int, Monkey>, holdings: map<int, Holding>, id: int, relief: Relief): (r: Result<map<int, Holding>>)
    requires Matched(rules, holdings) && id in holdings
    ensures r.Ok? ==> r.value.Keys == holdings.Keys
    ensures r.Ok? ==> r.value[id] == Holding([], holdings[id].inspected + |holdings[id].items|)
    decreases |holdings[id].items|
  {
    if |holdings[id].items| == 0 then Ok(holdings)
    else
      match Throw(rules, holdings, id, relief)
      case Err(e) => Err(e)
      case Ok(next) => Turn(rules, next, id, relief)
  }

  /** One round: every monkey takes its turn, in the order of `keys`. */
  function Round(rules: map<int, Monkey>, holdings: map<int, Holding>, keys: seq<int>, relief: Relief): (r: Result<map<int, Holding>>)
    requires Matched(rules, holdings) && forall i :: 0 <= i < |keys| ==> keys[i] in holdings
    ensures r.Ok? ==> r.value.Keys == holdings.Keys
    decreases |keys|
  {
    if |keys| == 0 then Ok(holdings)
    else
      match Turn(rules, holdings, keys[0], relief)
      case Err(e) => Err(e)
      case Ok(next) => Round(rules, next, keys[1..], relief)
  }

  /** `rounds` rounds, the monkeys taking their turns in ascending order of
      their ids. */
  function Rounds(rules: map<int, Monkey>, holdings: map<int, Holding>, rounds: nat, relief: Relief): (r: Result<map<int, Holding>>)
    requires Matched(rules, holdings)
    ensures r.Ok? ==> r.value.Keys == holdings.Keys
  {
    if rounds == 0 then Ok(holdings)
    else
      match Round(rules, holdings, Ascending(rules.Keys), relief)
      case Err(e) => Err(e)
      case Ok(next) => Rounds(rules, next, rounds - 1, relief)
  }

  // ---------------------------------------------------------------------
  // Items are never lost or duplicated.

  /** The number of items the monkeys in `keys` hold. */
  function Total(holdings: map<int, Holding>, keys: seq<int>): nat
    requires forall i :: 0 <= i < |keys| ==> keys[i] in holdings
  {
    if |keys| == 0 then 0 else |holdings[keys[0]].items| + Total(holdings, keys[1..])
  }

  /** Moving one item from `source` to `target` changes no total over
      distinct monkeys holding both or neither. */
  lemma {:induction false} TotalMove(before: map<int, Holding>, after: map<int, Holding>, keys: seq<int>, source: int, target: int)
    requires forall i :: 0 <= i < |keys| ==> keys[i] in before && keys[i] in after
    requires NoRepeats(keys) && source != target
    requires source in before && source in after && target in before && target in after
    requires |after[source].items| + 1 == |before[source].items|
    requires |after[target].items| == |before[target].items| + 1
    requires forall k :: k in before && k in after && k != source && k != target ==> |after[k].items| == |before[k].items|
    ensures Total(after, keys) + (if source in keys then 1 else 0) == Total(before, keys) + (if target in keys then 1 else 0)
  {
    if |keys| > 0 {
      assert NoRepeats(keys[1..]) by {
        forall i, j | 0 <= i < j < |keys| - 1
          ensures keys[1..][i] != keys[1..][j]
        {
          assert keys[1..][i] == keys[i + 1] && keys[1..][j] == keys[j + 1];
        }
      }
      TotalMove(before, after, keys[1..], source, target);
      assert keys == [keys[0]] + keys[1..];
      assert keys[0] !in keys[1..] by {
        forall j | 0 <= j < |keys[1..]|
          ensures keys[1..][j] != keys[0]
        {
          assert keys[1..][j] == keys[j + 1];
        }
      }
    }
  }

  /** `keys` lists every monkey once. */
  predicate Enumerates(keys: seq<int>, holdings: map<int, Holding>)
  {
    && NoRepeats(keys)
    && (forall i :: 0 <= i < |keys| ==> keys[i] in holdings)
    && (forall k :: k in holdings ==> k in keys)
  }

  /** A throw keeps the number of items. */
  lemma ThrowConserves(rules: map<int, Monkey>, holdings: map<int, Holding>, id: int, relief: Relief, keys: seq<int>)
    requires Matched(rules, holdings) && id in holdings && |holdings[id].items| > 0
    requires Enumerates(keys, holdings)
    requires Throw(rules, holdings, id, relief).Ok?
    ensures Total(Throw(rules, holdings, id, relief).value, keys) == Total(holdings, keys)
  {
    var after := Throw(rules, holdings, id, relief).value;
    var target := Pass(rules, holdings, id, relief).value.0;
    TotalMove(holdings, after, keys, id, target);
  }

  /** A turn keeps the number of items. */
  lemma {:induction false} TurnConserves(rules: map<int, Monkey>, holdings: map<int, Holding>, id: int, relief: Relief, keys: seq<int>)
    requires Matched(rules, holdings) && id in holdings
    requires Enumerates(keys, holdings)
    requires Turn(rules, holdings, id, relief).Ok?
    ensures Total(Turn(rules, holdings, id, relief).value, keys) == Total(holdings, keys)
    decreases |holdings[id].items|
  {
    if |holdings[id].items| > 0 {
      var next := Throw(rules, holdings, id, relief).value;
      ThrowConserves(rules, holdings, id, relief, keys);
      TurnConserves(rules, next, id, relief, keys);
    }
  }

  /** A round keeps the number of items. */
  lemma {:induction false} RoundConserves(rules: map<int, Monkey>, holdings: map<int, Holding>, order: seq<int>, relief: Relief, keys: seq<int>)
    requires Matched(rules, holdings) && forall i :: 0 <= i < |order| ==> order[i] in holdings
    requires Enumerates(keys, holdings)
    requires Round(rules, holdings, order, relief).Ok?
    ensures Total(Round(rules, holdings, order, relief).value, keys) == Total(holdings, keys)
    decreases |order|
  {
    if |order| > 0 {
      var next := Turn(rules, holdings, order[0], relief).value;
      TurnConserves(rules, holdings, order[0], relief, keys);
      RoundConserves(rules, next, order[1..], relief, keys);
    }
  }

  /** Any number of rounds keeps the number of items the monkeys hold
      between them. */
  lemma {:induction false} RoundsConserve(rules: map<int, Monkey>, holdings: map<int, Holding>, rounds: nat, relief: Relief, keys: seq<int>)
    requires Matched(rules, holdings)
    requires Enumerates(keys, holdings)
    requires Rounds(rules, holdings, rounds, relief).Ok?
    ensures Total(Rounds(rules, holdings, rounds, relief).value, keys) == Total(holdings, keys)
  {
    if rounds > 0 {
      var next := Round(rules, holdings, Ascending(rules.Keys), relief).value;
      RoundConserves(rules, holdings, Ascending(rules.Keys), relief, keys);
      RoundsConserve(rules, next, rounds - 1, relief, keys);
    }
  }

  // ---------------------------------------------------------------------
  // Divisibility.

  /** Adding a multiple of `d` keeps the remainder. */
  lemma MultipleShift(x: int, d: int, k: int)
    requires d != 0
    ensures (x + k * d) % d == x % d
  {
    if d > 0 {
      ModAddMultiple(x, d, k);
    } else {
      ModNegDivisor(x + k * d, d);
      ModNegDivisor(x, d);
      assert k * d == (-k) * (-d);
      ModAddMultiple(x, -d, -k);
    }
  }

  lemma MultipleOf(d: int, k: int)
    requires d != 0
    ensures (k * d) % d == 0
  {
    MultipleShift(0, d, k);
  }

  /** A multiple of a multiple of `d` is a multiple of `d`. */
  lemma DividesTransitive(d: int, a: int, x: int)
    requires d != 0 && a != 0 && a % d == 0 && x % a == 0
    ensures x % d == 0
  {
    var p := a / d;
    var q := x / a;
    assert a == p * d;
    assert x == q * a;
    assert x == (q * p) * d;
    MultipleOf(d, q * p);
  }

  /** `BigInteger.GreatestCommonDivisor` on magnitudes, by Euclid. */
  function Gcd(a: nat, b: nat): (g: nat)
    ensures g == 0 <==> a == 0 && b == 0
    decreases b
  {
    if b == 0 then a else Gcd(b, a % b)
  }

  /** The greatest common divisor divides both numbers. */
  lemma {:induction false} GcdDivides(a: nat, b: nat)
    requires a != 0 || b != 0
    ensures a % Gcd(a, b) == 0 && b % Gcd(a, b) == 0
    decreases b
  {
    if b == 0 {
      MultipleOf(a, 1);
    } else {
      GcdDivides(b, a % b);
      var g := Gcd(a, b);
      var kb := b / g;
      var kr := (a % b) / g;
      var q := a / b;
      assert b == kb * g;
      assert a % b == kr * g;
      assert a == q * b + a % b;
      assert q * b == (q * kb) * g;
      assert a == (q * kb + kr) * g;
      MultipleOf(g, q * kb + kr);
    }
  }

  // ---------------------------------------------------------------------
  // The least common multiple of the divisors.

  /** The message LINQ gives when there is nothing to aggregate. */
  const NoElements := "Sequence contains no elements"

  /** One step of the aggregate: `a * b / gcd(a, b)`, which divides by
      zero when both are zero. */
  function LcmStep(a: int, b: int): (r: Result<int>)
    ensures r.Err? <==> a == 0 && b == 0
  {
    var g := Gcd(Abs(a), Abs(b));
    if g == 0 then Err(DivideByZero) else Ok(TDiv(a * b, g))
  }

  /** Dividing a product by a common divisor of both factors is exact. */
  lemma ExactQuotient(a: int, b: int, g: int)
    requires g != 0 && a % g == 0 && b % g == 0
    ensures TDiv(a * b, g) == a * (b / g)
    ensures TDiv(a * b, g) == (a / g) * b
  {
    var ka := a / g;
    var kb := b / g;
    assert a == ka * g && b == kb * g;
    assert a * b == (a * kb) * g by {
      assert a * b == a * (kb * g);
    }
    TDivExact(a * kb, g);
    assert a * kb == ka * b by {
      assert a * kb == (ka * g) * kb;
      assert ka * b == ka * (kb * g);
    }
  }

  lemma NonZeroProduct(a: int, b: int)
    requires a != 0 && b != 0
    ensures a * b != 0
  {
    AbsMulAtLeast(a, b);
  }

  /** The divisor of a step divides both numbers. */
  lemma StepDivisor(a: int, b: int)
    requires a != 0 || b != 0
    ensures Gcd(Abs(a), Abs(b)) > 0
    ensures a % Gcd(Abs(a), Abs(b)) == 0 && b % Gcd(Abs(a), Abs(b)) == 0
  {
    var g := Gcd(Abs(a), Abs(b));
    GcdDivides(Abs(a), Abs(b));
    ModNegDividend(a, g);
    ModNegDividend(b, g);
  }

  /** One step gives a common multiple, zero exactly when a number is. */
  lemma LcmStepMultiple(a: int, b: int)
    requires a != 0 || b != 0
    ensures var l := LcmStep(a, b).value;
            && (a != 0 ==> l % a == 0)
            && (b != 0 ==> l % b == 0)
            && (l == 0 <==> a == 0 || b == 0)
  {
    var g := Gcd(Abs(a), Abs(b));
    StepDivisor(a, b);
    ExactQuotient(a, b, g);
    var ka := a / g;
    var kb := b / g;
    LcmFactors(a, b, ka, kb, LcmStep(a, b).value);
  }

  lemma LcmFactors(a: int, b: int, ka: int, kb: int, l: int)
    requires l == a * kb && l == ka * b
    requires b != 0 ==> kb != 0
    ensures a != 0 ==> l % a == 0
    ensures b != 0 ==> l % b == 0
    ensures l == 0 <==> a == 0 || b == 0
  {
    if a != 0 {
      MultipleOf(a, kb);
    }
    if b != 0 {
      MultipleOf(b, ka);
    }
    if a != 0 && b != 0 {
      NonZeroProduct(a, kb);
    }
  }

  /** `divisors.Aggregate(...)`: the steps folded from the left. */
  function LcmOf(ds: seq<int>): Result<int>
  {
    if |ds| == 0 then Err(NoElements)
    else if |ds| == 1 then Ok(ds[0])
    else
      match LcmOf(ds[..|ds| - 1])
      case Err(e) => Err(e)
      case Ok(acc) => LcmStep(acc, ds[|ds| - 1])
  }

  /** Over numbers that occur once each, as in the source's set of
      divisors, the fold never divides by zero; it gives a common multiple
      of them all, zero exactly when one of them is zero. */
  lemma {:induction false} LcmOfDistinct(ds: seq<int>)
    requires |ds| > 0 && NoRepeats(ds)
    ensures LcmOf(ds).Ok?
    ensures LcmOf(ds).value == 0 <==> 0 in ds
    ensures forall i :: 0 <= i < |ds| && ds[i] != 0 ==> LcmOf(ds).value % ds[i] == 0
  {
    if |ds| > 1 {
      var init := ds[..|ds| - 1];
      var last := ds[|ds| - 1];
      assert ds == init + [last];
      assert NoRepeats(init) by {
        forall i, j | 0 <= i < j < |init|
          ensures init[i] != init[j]
        {
          assert init[i] == ds[i] && init[j] == ds[j];
        }
      }
      LcmOfDistinct(init);
      var acc := LcmOf(init).value;
      assert last !in init by {
        forall j | 0 <= j < |init|
          ensures init[j] != last
        {
          assert init[j] == ds[j];
        }
      }
      assert !(acc == 0 && last == 0);
      LcmStepMultiple(acc, last);
      var l := LcmOf(ds).value;
      assert l == LcmStep(acc, last).value;
      forall i | 0 <= i < |ds| && ds[i] != 0
        ensures l % ds[i] == 0
      {
        if i < |ds| - 1 {
          assert ds[i] == init[i];
          if acc != 0 {
            DividesTransitive(ds[i], acc, l);
          }
        }
      }
    }
  }

  /** Every monkey's divisor, in order. */
  function DivisorList(monkeys: seq<Monkey>): (r: seq<int>)
    ensures |r| == |monkeys|
    ensures forall i :: 0 <= i < |monkeys| ==> r[i] == monkeys[i].divisor
  {
    if |monkeys| == 0 then [] else DivisorList(monkeys[..|monkeys| - 1]) + [monkeys[|monkeys| - 1].divisor]
  }

  /** The set of divisors in order of first appearance: a `HashSet` that
      is only added to enumerates in insertion order. */
  function Divisors(monkeys: seq<Monkey>): seq<int>
  {
    Distinct(DivisorList(monkeys))
  }

  // ---------------------------------------------------------------------
  // Reducing modulo a common multiple changes no decision.

  predicate Congruent(a: int, b: int, l: int)
    requires l != 0
  {
    (a - b) % l == 0
  }

  lemma CongruentTrans(a: int, b: int, c: int, l: int)
    requires l != 0 && Congruent(a, b, l) && Congruent(b, c, l)
    ensures Congruent(a, c, l)
  {
    MultipleShift(a - b, l, (b - c) / l);
  }

  /** Sums, differences and products of congruent numbers are congruent. */
  lemma CongruentArith(a: int, a2: int, b: int, b2: int, l: int)
    requires l != 0 && Congruent(a, a2, l) && Congruent(b, b2, l)
    ensures Congruent(a + b, a2 + b2, l)
    ensures Congruent(a - b, a2 - b2, l)
    ensures Congruent(a * b, a2 * b2, l)
  {
    var p := CongruentFactor(a, a2, l);
    var q := CongruentFactor(b, b2, l);
    SumCongruent(a, a2, b, b2, l, p, q);
    ProductCongruent(a, a2, b, b2, l, p, q);
  }

  /** Congruent numbers differ by a multiple of the modulus. */
  lemma CongruentFactor(a: int, a2: int, l: int) returns (p: int)
    requires l != 0 && Congruent(a, a2, l)
    ensures a - a2 == p * l
  {
    p := (a - a2) / l;
  }

  lemma SumCongruent(a: int, a2: int, b: int, b2: int, l: int, p: int, q: int)
    requires l != 0 && a - a2 == p * l && b - b2 == q * l
    ensures ((a + b) - (a2 + b2)) % l == 0
    ensures ((a - b) - (a2 - b2)) % l == 0
  {
    assert (p + q) * l == p * l + q * l && (p - q) * l == p * l - q * l;
    MultipleOf(l, p + q);
    MultipleOf(l, p - q);
  }

  lemma ProductCongruent(a: int, a2: int, b: int, b2: int, l: int, p: int, q: int)
    requires l != 0 && a - a2 == p * l && b - b2 == q * l
    ensures (a * b - a2 * b2) % l == 0
  {
    assert a * (b - b2) == a * b - a * b2;
    assert b2 * (a - a2) == b2 * a - b2 * a2;
    assert a * (q * l) == (a * q) * l;
    assert b2 * (p * l) == (b2 * p) * l;
    assert (a * q + b2 * p) * l == (a * q) * l + (b2 * p) * l;
    var x := a * b - a2 * b2;
    assert x == a * (b - b2) + b2 * (a - a2);
    assert x == (a * q + b2 * p) * l;
    MultipleOf(l, a * q + b2 * p);
  }

  /** The truncating remainder is congruent to the number. */
  lemma ReduceCongruent(v: int, l: int)
    requires l != 0
    ensures Congruent(TMod(v, l), v, l)
  {
    assert TMod(v, l) - v == (-TDiv(v, l)) * l;
    MultipleOf(l, -TDiv(v, l));
  }

  /** Congruent numbers pass the same test, for any divisor of `l`. */
  lemma TestAgrees(x: int, y: int, l: int, d: int)
    requires l != 0 && d != 0 && l % d == 0 && Congruent(x, y, l)
    ensures x % d == 0 <==> y % d == 0
  {
    var p := (x - y) / l;
    var c := l / d;
    assert x - y == p * l && l == c * d;
    assert x == y + (p * c) * d;
    MultipleShift(y, d, p * c);
  }

  /** Every monkey's operation avoids division, and `l` is a non-zero
      common multiple of the divisors. */
  predicate Reducible(rules: map<int, Monkey>, l: int)
  {
    l != 0 && forall k :: k in rules ==>
      rules[k].op != Divide && (rules[k].divisor != 0 ==> l % rules[k].divisor == 0)
  }

  lemma OperateCongruent(m: Monkey, x: int, y: int, l: int)
    requires l != 0 && m.op != Divide && Congruent(x, y, l)
    ensures Operate(m, x).Ok? && Operate(m, y).Ok?
    ensures Congruent(Operate(m, x).value, Operate(m, y).value, l)
  {
    CongruentArith(Value(m.left, x), Value(m.left, y), Value(m.right, x), Value(m.right, y), l);
  }

  predicate HoldingAlike(a: Holding, b: Holding, l: int)
    requires l != 0
  {
    && |a.items| == |b.items|
    && a.inspected == b.inspected
    && forall i :: 0 <= i < |a.items| ==> Congruent(a.items[i], b.items[i], l)
  }

  /** The same monkeys, the same counts, and queues of congruent levels. */
  predicate Alike(h1: map<int, Holding>, h2: map<int, Holding>, l: int)
    requires l != 0
  {
    h1.Keys == h2.Keys && forall k :: k in h1 ==> HoldingAlike(h1[k], h2[k], l)
  }

  /** An inspection with reduced levels sends the item where the exact
      level would go, with a congruent level, and fails exactly when it
      would. */
  lemma PassAlike(rules: map<int, Monkey>, h1: map<int, Holding>, h2: map<int, Holding>, id: int, l: int)
    requires Reducible(rules, l) && Matched(rules, h1) && Alike(h1, h2, l)
    requires id in h1 && |h1[id].items| > 0
    ensures Pass(rules, h1, id, Modulo(l)).Ok? <==> Pass(rules, h2, id, Keep).Ok?
    ensures Pass(rules, h1, id, Modulo(l)).Err? ==> Pass(rules, h1, id, Modulo(l)).error == Pass(rules, h2, id, Keep).error
    ensures Pass(rules, h1, id, Modulo(l)).Ok? ==>
      && Pass(rules, h1, id, Modulo(l)).value.0 == Pass(rules, h2, id, Keep).value.0
      && Congruent(Pass(rules, h1, id, Modulo(l)).value.1, Pass(rules, h2, id, Keep).value.1, l)
  {
    var m := rules[id];
    var x := h1[id].items[0];
    var y := h2[id].items[0];
    assert HoldingAlike(h1[id], h2[id], l);
    OperateCongruent(m, x, y, l);
    var n1 := Operate(m, x).value;
    var n2 := Operate(m, y).value;
    ReduceCongruent(n1, l);
    CongruentTrans(TMod(n1, l), n1, n2, l);
    if m.divisor != 0 {
      TestAgrees(TMod(n1, l), n2, l, m.divisor);
    }
  }

  /** A throw keeps the holdings alike. */
  lemma ThrowAlike(rules: map<int, Monkey>, h1: map<int, Holding>, h2: map<int, Holding>, id: int, l: int)
    requires Reducible(rules, l) && Matched(rules, h1) && Alike(h1, h2, l)
    requires id in h1 && |h1[id].items| > 0
    ensures Throw(rules, h1, id, Modulo(l)).Ok? <==> Throw(rules, h2, id, Keep).Ok?
    ensures Throw(rules, h1, id, Modulo(l)).Err? ==> Throw(rules, h1, id, Modulo(l)).error == Throw(rules, h2, id, Keep).error
    ensures Throw(rules, h1, id, Modulo(l)).Ok? ==>
      Alike(Throw(rules, h1, id, Modulo(l)).value, Throw(rules, h2, id, Keep).value, l)
  {
    assert HoldingAlike(h1[id], h2[id], l);
    PassAlike(rules, h1, h2, id, l);
    if Throw(rules, h1, id, Modulo(l)).Ok? {
      var r1 := Throw(rules, h1, id, Modulo(l)).value;
      var r2 := Throw(rules, h2, id, Keep).value;
      var target := Pass(rules, h1, id, Modulo(l)).value.0;
      forall k | k in r1
        ensures HoldingAlike(r1[k], r2[k], l)
      {
        assert HoldingAlike(h1[k], h2[k], l);
        if k == id {
          assert forall i :: 0 <= i < |r1[k].items| ==> r1[k].items[i] == h1[k].items[i + 1];
          assert forall i :: 0 <= i < |r2[k].items| ==> r2[k].items[i] == h2[k].items[i + 1];
        } else if k == target {
          assert forall i :: 0 <= i < |h1[k].items| ==> r1[k].items[i] == h1[k].items[i];
          assert forall i :: 0 <= i < |h2[k].items| ==> r2[k].items[i] == h2[k].items[i];
        }
      }
    }
  }

  /** A turn keeps the holdings alike. */
  lemma {:induction false} TurnAlike(rules: map<int, Monkey>, h1: map<int, Holding>, h2: map<int, Holding>, id: int, l: int)
    requires Reducible(rules, l) && Matched(rules, h1) && Alike(h1, h2, l) && id in h1
    ensures Turn(rules, h1, id, Modulo(l)).Ok? <==> Turn(rules, h2, id, Keep).Ok?
    ensures Turn(rules, h1, id, Modulo(l)).Err? ==> Turn(rules, h1, id, Modulo(l)).error == Turn(rules, h2, id, Keep).error
    ensures Turn(rules, h1, id, Modulo(l)).Ok? ==>
      Alike(Turn(rules, h1, id, Modulo(l)).value, Turn(rules, h2, id, Keep).value, l)
    decreases |h1[id].items|
  {
    assert HoldingAlike(h1[id], h2[id], l);
    if |h1[id].items| > 0 {
      ThrowAlike(rules, h1, h2, id, l);
      if Throw(rules, h1, id, Modulo(l)).Ok? {
        TurnAlike(rules, Throw(rules, h1, id, Modulo(l)).value, Throw(rules, h2, id, Keep).value, id, l);
      }
    }
  }

  /** A round keeps the holdings alike. */
  lemma {:induction false} RoundAlike(rules: map<int, Monkey>, h1: map<int, Holding>, h2: map<int, Holding>, order: seq<int>, l: int)
    requires Reducible(rules, l) && Matched(rules, h1) && Alike(h1, h2, l)
    requires forall i :: 0 <= i < |order| ==> order[i] in h1
    ensures Round(rules, h1, order, Modulo(l)).Ok? <==> Round(rules, h2, order, Keep).Ok?
    ensures Round(rules, h1, order, Modulo(l)).Err? ==> Round(rules, h1, order, Modulo(l)).error == Round(rules, h2, order, Keep).error
    ensures Round(rules, h1, order, Modulo(l)).Ok? ==>
      Alike(Round(rules, h1, order, Modulo(l)).value, Round(rules, h2, order, Keep).value, l)
    decreases |order|
  {
    if |order| > 0 {
      TurnAlike(rules, h1, h2, order[0], l);
      if Turn(rules, h1, order[0], Modulo(l)).Ok? {
        RoundAlike(rules, Turn(rules, h1, order[0], Modulo(l)).value, Turn(rules, h2, order[0], Keep).value, order[1..], l);
      }
    }
  }

  /** Part two's reduction is faithful: with levels reduced modulo a common
      multiple of the divisors, any number of rounds fails exactly when
      the exact levels would, and leaves every monkey with the same count
      and a queue of congruent levels. */
  lemma {:induction false} RoundsAlike(rules: map<int, Monkey>, h1: map<int, Holding>, h2: map<int, Holding>, rounds: nat, l: int)
    requires Reducible(rules, l) && Matched(rules, h1) && Alike(h1, h2, l)
    ensures Rounds(rules, h1, rounds, Modulo(l)).Ok? <==> Rounds(rules, h2, rounds, Keep).Ok?
    ensures Rounds(rules, h1, rounds, Modulo(l)).Err? ==> Rounds(rules, h1, rounds, Modulo(l)).error == Rounds(rules, h2, rounds, Keep).error
    ensures Rounds(rules, h1, rounds, Modulo(l)).Ok? ==>
      Alike(Rounds(rules, h1, rounds, Modulo(l)).value, Rounds(rules, h2, rounds, Keep).value, l)
  {
    if rounds > 0 {
      var order := Ascending(rules.Keys);
      var r1, r2 := Round(rules, h1, order, Modulo(l)), Round(rules, h2, order, Keep);
      RoundAlike(rules, h1, h2, order, l);
      if r1.Ok? {
        RoundsAlike(rules, r1.value, r2.value, rounds - 1, l);
      }
    }
  }

  // ---------------------------------------------------------------------
  // Monkey business and the two parts.

  /** `OrderDescending().Take(2).Aggregate((x, y) => x * y)`: the product
      of the two largest counts, the only count when there is one. */
  function Business(counts: seq<int>): (r: Result<int>)
    ensures r.Err? <==> |counts| == 0
    ensures |counts| == 1 ==> r == Ok(counts[0])
  {
    if |counts| == 0 then Err(NoElements)
    else
      var d := OrderDescending(counts);
      if |d| == 1 then
        assert d[0] in multiset(counts);
        Ok(d[0])
      else Ok(d[0] * d[1])
  }

  /** The first of the descending counts is the largest. */
  lemma FirstIsLargest(counts: seq<int>)
    requires |counts| > 0
    ensures OrderDescending(counts)[0] == Max(counts)
  {
    var d := OrderDescending(counts);
    MaxOfDescending(d);
    MaxPermutation(d, counts);
  }

  /** After the largest, the rest of the descending counts are the others
      rearranged. */
  lemma RestAreOthers(counts: seq<int>, i: int)
    requires 0 <= i < |counts| && counts[i] == OrderDescending(counts)[0]
    ensures multiset(OrderDescending(counts)[1..]) == multiset(counts[..i] + counts[i + 1..])
  {
    var d := OrderDescending(counts);
    assert d == [d[0]] + d[1..];
    assert multiset(d[1..]) == multiset(d) - multiset{d[0]};
    RemoveAtMultiset(counts, i);
  }

  /** The second of a descending sequence is the largest of the others. */
  lemma SecondIsLargestOfRest(d: seq<int>, others: seq<int>)
    requires |d| >= 2 && Descending(d) && |others| == |d| - 1 && multiset(d[1..]) == multiset(others)
    ensures d[1] == Max(others)
  {
    var rest := d[1..];
    assert Descending(rest);
    MaxOfDescending(rest);
    MaxPermutation(rest, others);
  }

  /** The business is the largest count times the largest of the others:
      it does not depend on the order of the counts, and a tie for first
      place counts both monkeys. */
  lemma BusinessTopTwo(counts: seq<int>, i: int)
    requires |counts| >= 2 && 0 <= i < |counts| && counts[i] == Max(counts)
    ensures Business(counts) == Ok(counts[i] * Max(counts[..i] + counts[i + 1..]))
  {
    var d := OrderDescending(counts);
    FirstIsLargest(counts);
    RestAreOthers(counts, i);
    SecondIsLargestOfRest(d, counts[..i] + counts[i + 1..]);
  }

  /** The message of `ToDictionary` on a repeated id. */
  const DuplicateKey := "An item with the same key has already been added."

  /** Every monkey's id, in order. */
  function Ids(monkeys: seq<Monkey>): (r: seq<int>)
    ensures |r| == |monkeys|
    ensures forall i :: 0 <= i < |monkeys| ==> r[i] == monkeys[i].id
  {
    if |monkeys| == 0 then [] else Ids(monkeys[..|monkeys| - 1]) + [monkeys[|monkeys| - 1].id]
  }

  /** `ToDictionary(m => m.Index)`: the monkeys by id; two monkeys with the
      same id are an error. */
  function ToRules(monkeys: seq<Monkey>): (r: Result<map<int, Monkey>>)
    ensures r.Ok? <==> NoRepeats(Ids(monkeys))
    ensures r.Ok? ==> forall k :: k in r.value <==> k in Ids(monkeys)
  {
    if |monkeys| == 0 then Ok(map[])
    else
      var init := monkeys[..|monkeys| - 1];
      var last := monkeys[|monkeys| - 1];
      IdsSnoc(monkeys);
      match ToRules(init)
      case Err(e) => Err(e)
      case Ok(rules) =>
        if last.id in rules then Err(DuplicateKey)
        else
          Ok(rules[last.id := last])
  }

  /** Each monkey is found by its id. */
  lemma {:induction false} ToRulesFinds(monkeys: seq<Monkey>)
    requires ToRules(monkeys).Ok?
    ensures forall i :: 0 <= i < |monkeys| ==> ToRules(monkeys).value[monkeys[i].id] == monkeys[i]
  {
    if |monkeys| > 0 {
      var init := monkeys[..|monkeys| - 1];
      var last := monkeys[|monkeys| - 1];
      IdsSnoc(monkeys);
      ToRulesFinds(init);
      var rules := ToRules(init).value;
      assert last.id !in rules;
      assert ToRules(monkeys).value == rules[last.id := last];
      forall i | 0 <= i < |init|
        ensures ToRules(monkeys).value[monkeys[i].id] == monkeys[i]
      {
        assert monkeys[i] == init[i] && init[i].id in rules;
      }
    }
  }

  /** The ids of all monkeys are those of all but the last, then the
      last's; they repeat exactly when the earlier ones do or hold the
      last's. */
  lemma IdsSnoc(monkeys: seq<Monkey>)
    requires |monkeys| > 0
    ensures var init := monkeys[..|monkeys| - 1];
            var last := monkeys[|monkeys| - 1];
            && Ids(monkeys) == Ids(init) + [last.id]
            && (NoRepeats(Ids(monkeys)) <==> NoRepeats(Ids(init)) && last.id !in Ids(init))
  {
    var init := monkeys[..|monkeys| - 1];
    var last := monkeys[|monkeys| - 1];
    assert Ids(monkeys) == Ids(init) + [last.id];
    if last.id in Ids(init) {
      var j :| 0 <= j < |init| && Ids(init)[j] == last.id;
      assert Ids(monkeys)[j] == Ids(monkeys)[|monkeys| - 1];
    }
    if NoRepeats(Ids(monkeys)) {
      forall i, j | 0 <= i < j < |init|
        ensures Ids(init)[i] != Ids(init)[j]
      {
        assert Ids(init)[i] == Ids(monkeys)[i] && Ids(init)[j] == Ids(monkeys)[j];
      }
    }
  }

  /** Every monkey starts with its items and nothing inspected. */
  function Start(rules: map<int, Monkey>): (h: map<int, Holding>)
    ensures Matched(rules, h)
    ensures forall k :: k in h ==> h[k] == Holding(rules[k].items, 0)
  {
    map k | k in rules :: Holding(rules[k].items, 0)
  }

  /** The inspection counts of the monkeys in `keys`. */
  function Inspections(holdings: map<int, Holding>, keys: seq<int>): (r: seq<int>)
    requires forall i :: 0 <= i < |keys| ==> keys[i] in holdings
    ensures |r| == |keys|
    ensures forall i :: 0 <= i < |keys| ==> r[i] == holdings[keys[i]].inspected
  {
    if |keys| == 0 then [] else [holdings[keys[0]].inspected] + Inspections(holdings, keys[1..])
  }

  /** The rounds from the start, then the business. The source reads the
      counts in dictionary order; the business does not depend on the
      order (`BusinessTopTwo`), so ascending ids stand in for it. */
  function Simulate(rules: map<int, Monkey>, rounds: nat, relief: Relief): Result<int>
  {
    match Rounds(rules, Start(rules), rounds, relief)
    case Err(e) => Err(e)
    case Ok(final) => Business(Inspections(final, Ascending(final.Keys)))
  }

  /** `CalculateTask`: the monkeys by id, the least common multiple of the
      divisors (worked out in both parts), then the rounds with division
      by three in part one and reduction modulo the multiple in part two.
      Repeated ids and an empty list are errors; for monkeys without
      division and zero divisors part two is the exact simulation. */
  function Calculate(monkeys: seq<Monkey>, rounds: nat, partOne: bool): (r: Result<int>)
    ensures !NoRepeats(Ids(monkeys)) || |monkeys| == 0 ==> r.Err?
    ensures partOne && r.Ok? ==> r == Simulate(ToRules(monkeys).value, rounds, Third)
    ensures !partOne && ToRules(monkeys).Ok? && Exactly(monkeys) ==> r == Simulate(ToRules(monkeys).value, rounds, Keep)
  {
    match ToRules(monkeys)
    case Err(e) => Err(e)
    case Ok(rules) =>
      if !partOne && Exactly(monkeys) then
        PartTwoExact(monkeys, rules, rounds);
        CalculateWith(monkeys, rules, rounds, partOne)
      else
        CalculateWith(monkeys, rules, rounds, partOne)
  }

  /** `Calculate` once the monkeys are found by id. */
  function CalculateWith(monkeys: seq<Monkey>, rules: map<int, Monkey>, rounds: nat, partOne: bool): (r: Result<int>)
    ensures |monkeys| == 0 ==> r.Err?
  {
    match LcmOf(Divisors(monkeys))
    case Err(e) => Err(e)
    case Ok(lcm) => Simulate(rules, rounds, if partOne then Third else Modulo(lcm))
  }

  /** `CalculateTaskOne`: 20 rounds, levels divided by three. */
  function TaskOne(input: string): (r: Result<int>)
    ensures r.Ok? ==> ParseInput(input).Ok? && ToRules(ParseInput(input).value).Ok?
    ensures r.Ok? ==> r == Simulate(ToRules(ParseInput(input).value).value, 20, Third)
  {
    match ParseInput(input)
    case Err(e) => Err(e)
    case Ok(monkeys) => Calculate(monkeys, 20, true)
  }

  /** `CalculateTaskTwo`: 10000 rounds, levels reduced modulo the least
      common multiple, which gives what exact levels would. */
  function TaskTwo(input: string): (r: Result<int>)
    ensures r.Ok? ==> ParseInput(input).Ok? && ToRules(ParseInput(input).value).Ok?
    ensures ParseInput(input).Ok? && ToRules(ParseInput(input).value).Ok? && Exactly(ParseInput(input).value) ==>
      r == Simulate(ToRules(ParseInput(input).value).value, 10000, Keep)
  {
    match ParseInput(input)
    case Err(e) => Err(e)
    case Ok(monkeys) => Calculate(monkeys, 10000, false)
  }

  /** A non-zero common multiple of the non-zero divisors is a reduction
      modulus for monkeys that avoid division. */
  lemma DivisorsReducible(ds: seq<int>, rules: map<int, Monkey>, l: int)
    requires l != 0 && forall d :: d in ds && d != 0 ==> l % d == 0
    requires forall k :: k in rules ==> rules[k].op != Divide && rules[k].divisor in ds
    ensures Reducible(rules, l)
  {
    forall k | k in rules
      ensures rules[k].divisor != 0 ==> l % rules[k].divisor == 0
    {
      assert rules[k].divisor in ds;
    }
  }

  lemma LcmDividesMembers(ds: seq<int>)
    requires |ds| > 0 && NoRepeats(ds)
    ensures LcmOf(ds).Ok? && (LcmOf(ds).value == 0 <==> 0 in ds)
    ensures forall d :: d in ds && d != 0 ==> LcmOf(ds).value % d == 0
  {
    LcmOfDistinct(ds);
    forall d | d in ds && d != 0
      ensures LcmOf(ds).value % d == 0
    {
      var i :| 0 <= i < |ds| && ds[i] == d;
    }
  }

  /** The monkeys' divisors: non-zero when every monkey's is, and every
      rule's is among them. */
  lemma RulesDivisors(monkeys: seq<Monkey>, rules: map<int, Monkey>)
    requires ToRules(monkeys) == Ok(rules) && |monkeys| > 0
    requires Exactly(monkeys)
    ensures |Divisors(monkeys)| > 0 && 0 !in Divisors(monkeys)
    ensures forall k :: k in rules ==> rules[k].op != Divide && rules[k].divisor in Divisors(monkeys)
  {
    var all := DivisorList(monkeys);
    assert all[0] in Divisors(monkeys);
    forall i | 0 <= i < |all|
      ensures all[i] != 0
    {
    }
    forall k | k in rules
      ensures rules[k].op != Divide && rules[k].divisor in Divisors(monkeys)
    {
      var i :| 0 <= i < |monkeys| && Ids(monkeys)[i] == k;
      ToRulesFinds(monkeys);
      assert rules[k] == monkeys[i];
      assert all[i] in Divisors(monkeys);
    }
  }

  /** No monkey divides, and every divisor is non-zero: then the levels
      part two reduces stand for the exact ones. */
  predicate Exactly(monkeys: seq<Monkey>)
  {
    forall i :: 0 <= i < |monkeys| ==> monkeys[i].op != Divide && monkeys[i].divisor != 0
  }

  /** The multiple part two reduces by is a reduction modulus. */
  lemma PartTwoModulus(monkeys: seq<Monkey>, rules: map<int, Monkey>) returns (l: int)
    requires ToRules(monkeys) == Ok(rules) && Exactly(monkeys)
    requires LcmOf(Divisors(monkeys)).Ok?
    ensures LcmOf(Divisors(monkeys)) == Ok(l) && Reducible(rules, l)
  {
    assert |monkeys| > 0;
    RulesDivisors(monkeys, rules);
    l := LcmOf(Divisors(monkeys)).value;
    LcmDividesMembers(Divisors(monkeys));
    DivisorsReducible(Divisors(monkeys), rules, l);
  }

  /** With monkeys whose divisors are all non-zero, the multiple can only
      fail to exist when there are no monkeys. */
  lemma DivisorsLcm(monkeys: seq<Monkey>)
    requires Exactly(monkeys)
    ensures |monkeys| > 0 ==> LcmOf(Divisors(monkeys)).Ok?
  {
    if |monkeys| > 0 {
      var all := DivisorList(monkeys);
      assert all[0] in Divisors(monkeys);
      LcmOfDistinct(Divisors(monkeys));
    }
  }

  /** Rounds among no monkeys change nothing. */
  lemma {:induction false} RoundsOfNobody(rounds: nat, relief: Relief)
    ensures Rounds(map[], map[], rounds, relief) == Ok(map[])
  {
    if rounds > 0 {
      assert Ascending({}) == [];
      RoundsOfNobody(rounds - 1, relief);
    }
  }

  /** Without monkeys both ways of computing part two fail alike. */
  lemma NoMonkeys(rounds: nat)
    ensures CalculateWith([], map[], rounds, false) == Simulate(map[], rounds, Keep)
  {
    assert Start(map[]) == map[];
    RoundsOfNobody(rounds, Keep);
    assert Ascending({}) == [];
    assert Divisors([]) == [];
  }

  /** Alike holdings give the same business. */
  lemma AlikeBusiness(f1: map<int, Holding>, f2: map<int, Holding>, l: int)
    requires l != 0 && Alike(f1, f2, l)
    ensures Business(Inspections(f1, Ascending(f1.Keys))) == Business(Inspections(f2, Ascending(f2.Keys)))
  {
    var keys := Ascending(f1.Keys);
    assert f1.Keys == f2.Keys;
    AscendingMembers(f1.Keys);
    SameInspections(f1, f2, keys, l);
  }

  lemma {:induction false} SameInspections(f1: map<int, Holding>, f2: map<int, Holding>, keys: seq<int>, l: int)
    requires l != 0 && Alike(f1, f2, l)
    requires forall i :: 0 <= i < |keys| ==> keys[i] in f1
    ensures Inspections(f1, keys) == Inspections(f2, keys)
  {
    if |keys| > 0 {
      var k := keys[0];
      assert k in f1;
      assert HoldingAlike(f1[k], f2[k], l);
      SameInspections(f1, f2, keys[1..], l);
    }
  }

  /** Reducing modulo a reduction modulus gives the same answer as
      keeping every level. */
  lemma SimulateAlike(rules: map<int, Monkey>, rounds: nat, l: int)
    requires Reducible(rules, l)
    ensures Simulate(rules, rounds, Modulo(l)) == Simulate(rules, rounds, Keep)
  {
    var start := Start(rules);
    RoundsAlike(rules, start, start, rounds, l);
    if Rounds(rules, start, rounds, Modulo(l)).Ok? {
      AlikeBusiness(Rounds(rules, start, rounds, Modulo(l)).value, Rounds(rules, start, rounds, Keep).value, l);
    }
  }

  /** How part two unfolds once the monkeys are found by id and the
      multiple is known. */
  lemma CalculatePartTwo(monkeys: seq<Monkey>, rounds: nat, rules: map<int, Monkey>, l: int)
    requires ToRules(monkeys) == Ok(rules) && LcmOf(Divisors(monkeys)) == Ok(l)
    ensures CalculateWith(monkeys, rules, rounds, false) == Simulate(rules, rounds, Modulo(l))
  {
  }

  /** Part two computes what the exact worry levels would give: for
      monkeys with distinct ids, non-zero divisors and no division in
      their operations, reducing modulo the least common multiple gives
      the same answer, or the same failure, as keeping every level. */
  lemma PartTwoExact(monkeys: seq<Monkey>, rules: map<int, Monkey>, rounds: nat)
    requires ToRules(monkeys) == Ok(rules) && Exactly(monkeys)
    ensures CalculateWith(monkeys, rules, rounds, false) == Simulate(rules, rounds, Keep)
  {
    if LcmOf(Divisors(monkeys)).Ok? {
      var l := PartTwoModulus(monkeys, rules);
      CalculatePartTwo(monkeys, rounds, rules, l);
      ReducedIsExact(CalculateWith(monkeys, rules, rounds, false), rules, rounds, l);
    } else {
      DivisorsLcm(monkeys);
      NoMonkeys(rounds);
    }
  }

  lemma ReducedIsExact(answer: Result<int>, rules: map<int, Monkey>, rounds: nat, l: int)
    requires Reducible(rules, l) && answer == Simulate(rules, rounds, Modulo(l))
    ensures answer == Simulate(rules, rounds, Keep)
  {
    SimulateAlike(rules, rounds, l);
  }
}

=== FILE: day12.dfy ===
/** Day 12 (newer tree): the shortest climb on a height map. The search runs
    backwards from the best signal `E`, one layer of cells per step: a step
    may go down at most one unit of height when read backwards (up at most
    one when climbing). Part one stops at the first layer holding the start
    `S`; part two at the first layer holding a cell of height 1.

    Each step excludes only the cells of the layer it starts from (the
    source builds the new visited set from the new layer alone), so a layer
    may hold cells seen two layers earlier; the first layer that reaches a
    cell is still its distance. */
module Day12 {
  import opened Common

  datatype Position = Position(row: int, col: int)

  /** The parsed map: heights by row and column, the start and the end. */
  datatype Grid = Grid(heights: seq<seq<int>>, rows: nat, cols: nat, start: Position, finish: Position)

  predicate InBounds(g: Grid, p: Position)
  {
    0 <= p.row < g.rows && 0 <= p.col < g.cols
  }

  predicate WellFormed(g: Grid)
  {
    && |g.heights| == g.rows
    && (forall r :: 0 <= r < g.rows ==> |g.heights[r]| == g.cols)
    && InBounds(g, g.start) && InBounds(g, g.finish)
  }

  function HeightAt(g: Grid, p: Position): int
    requires WellFormed(g) && InBounds(g, p)
  {
    g.heights[p.row][p.col]
  }

  // ---------------------------------------------------------------------
  // Parsing the map.

  /** `(int) ch - (int) 'a' + 1`, with `S` read as `a` and `E` as `z`. */
  function Height(ch: char): (h: int)
    ensures ch == 'S' ==> h == 1
    ensures ch == 'E' ==> h == 26
    ensures 'a' <= ch <= 'z' ==> 1 <= h <= 26 && h == Height(ch) && (ch as int) - ('a' as int) + 1 == h
  {
    if ch == 'S' then 1
    else if ch == 'E' then 26
    else (ch as int) - ('a' as int) + 1
  }

  /** The last column of `row[..cols]` holding `ch`. */
  function LastInRow(row: string, ch: char, cols: nat): (r: Option<nat>)
    requires cols <= |row|
    ensures r.Some? ==> r.value < cols && row[r.value] == ch
    ensures r.Some? ==> forall c :: r.value < c < cols ==> row[c] != ch
    ensures r.None? ==> forall c :: 0 <= c < cols ==> row[c] != ch
  {
    if cols == 0 then None
    else if row[cols - 1] == ch then Some(cols - 1)
    else LastInRow(row, ch, cols - 1)
  }

  /** The last cell in reading order of the first `rows` lines holding
      `ch`: the source overwrites its position on every sighting. */
  function LastIn(lines: seq<string>, rows: nat, ch: char, cols: nat): (r: Option<Position>)
    requires rows <= |lines| && forall i :: 0 <= i < |lines| ==> cols <= |lines[i]|
    ensures r.Some? ==> 0 <= r.value.row < rows && 0 <= r.value.col < cols && lines[r.value.row][r.value.col] == ch
    ensures r.Some? ==> forall i, c :: 0 <= i < rows && 0 <= c < cols && (i > r.value.row || (i == r.value.row && c > r.value.col)) ==> lines[i][c] != ch
    ensures r.None? ==> forall i, c :: 0 <= i < rows && 0 <= c < cols ==> lines[i][c] != ch
  {
    if rows == 0 then None
    else
      match LastInRow(lines[rows - 1], ch, cols)
      case Some(c) => Some(Position(rows - 1, c))
      case None => LastIn(lines, rows - 1, ch, cols)
  }

  /** `ParseInput` on the non-empty lines: the width is the first line's;
      a shorter line, no line at all, or a missing `S` or `E` fails. */
  function ParseGrid(lines: seq<string>): (r: Result<Grid>)
    ensures r.Ok? ==> WellFormed(r.value) && r.value.rows == |lines| && r.value.cols == |lines[0]|
    ensures r.Ok? ==> forall i :: 0 <= i < |lines| ==> |lines[0]| <= |lines[i]|
    ensures r.Ok? ==> forall i, c :: 0 <= i < |lines| && 0 <= c < |lines[0]| ==> r.value.heights[i][c] == Height(lines[i][c])
    ensures r.Ok? ==> lines[r.value.start.row][r.value.start.col] == 'S' && lines[r.value.finish.row][r.value.finish.col] == 'E'
    ensures r.Ok? ==> HeightAt(r.value, r.value.start) == 1 && HeightAt(r.value, r.value.finish) == 26
    ensures r.Ok? ==> r.value.start != r.value.finish
    ensures r.Err? <==> (|lines| == 0 || (exists i :: 0 <= i < |lines| && |lines[i]| < |lines[0]|)
                         || (forall i, c :: 0 <= i < |lines| && 0 <= c < |lines[0]| ==> lines[i][c] != 'S')
                         || (forall i, c :: 0 <= i < |lines| && 0 <= c < |lines[0]| ==> lines[i][c] != 'E'))
  {
    if |lines| == 0 then Err("Index was outside the bounds of the array.")
    else
      var cols := |lines[0]|;
      if exists i :: 0 <= i < |lines| && |lines[i]| < cols then Err("Index was outside the bounds of the array.")
      else
        var heights := seq(|lines|, i requires 0 <= i < |lines| =>
          seq(cols, c requires 0 <= c < cols => Height(lines[i][c])));
        match (LastIn(lines, |lines|, 'S', cols), LastIn(lines, |lines|, 'E', cols))
        case (Some(s), Some(e)) => Ok(Grid(heights, |lines|, cols, s, e))
        case _ => Err("Failed to find start ir finish")
  }

  // ---------------------------------------------------------------------
  // Moves.

  /** A backwards step from `p` to `q`: orthogonal, inside the map, and at
      most one unit down. */
  predicate Move(g: Grid, p: Position, q: Position)
    requires WellFormed(g)
  {
    && InBounds(g, p) && InBounds(g, q)
    && Abs(p.row - q.row) + Abs(p.col - q.col) == 1
    && HeightAt(g, p) - HeightAt(g, q) <= 1
  }

  /** `GetNextPositions`: right, left, down and up, kept when they are
      moves. */
  function NextPositions(g: Grid, p: Position): (r: seq<Position>)
    requires WellFormed(g) && InBounds(g, p)
    ensures forall q :: q in r <==> Move(g, p, q)
    ensures NoRepeats(r)
  {
    var right := Position(p.row, p.col + 1);
    var left := Position(p.row, p.col - 1);
    var down := Position(p.row + 1, p.col);
    var up := Position(p.row - 1, p.col);
    (if Move(g, p, right) then [right] else [])
      + (if Move(g, p, left) then [left] else [])
      + (if Move(g, p, down) then [down] else [])
      + (if Move(g, p, up) then [up] else [])
  }

  // ---------------------------------------------------------------------
  // Routes and steps.

  function End(route: seq<Position>): Position
    requires |route| > 0
  {
    route[|route| - 1]
  }

  /** A route from the end of the climb, every step a move. */
  predicate Route(g: Grid, route: seq<Position>)
    requires WellFormed(g)
  {
    && |route| > 0 && route[0] == g.finish
    && forall i :: 0 < i < |route| ==> Move(g, route[i - 1], route[i])
  }

  /** The cells the routes end at. */
  function Ends(routes: seq<seq<Position>>): set<Position>
    requires forall k :: 0 <= k < |routes| ==> |routes[k]| > 0
  {
    set k | 0 <= k < |routes| :: End(routes[k])
  }

  /** The ends of two lists of routes, put together. */
  lemma EndsAppend(a: seq<seq<Position>>, b: seq<seq<Position>>)
    requires forall k :: 0 <= k < |a| ==> |a[k]| > 0
    requires forall k :: 0 <= k < |b| ==> |b[k]| > 0
    ensures Ends(a + b) == Ends(a) + Ends(b)
  {
    var ab := a + b;
    forall p | p in Ends(ab) ensures p in Ends(a) + Ends(b) {
      var k :| 0 <= k < |ab| && End(ab[k]) == p;
      if k < |a| { assert ab[k] == a[k]; } else { assert ab[k] == b[k - |a|]; }
    }
    forall p | p in Ends(a) + Ends(b) ensures p in Ends(ab) {
      if p in Ends(a) {
        var k :| 0 <= k < |a| && End(a[k]) == p;
        assert ab[k] == a[k];
      } else {
        var k :| 0 <= k < |b| && End(b[k]) == p;
        assert ab[|a| + k] == b[k];
      }
    }
  }

  lemma EndsSingle(route: seq<Position>)
    requires |route| > 0
    ensures Ends([route]) == {End(route)}
  {
    assert [route][0] == route;
  }

  /** The routes end at distinct cells. */
  predicate DistinctEnds(routes: seq<seq<Position>>)
    requires forall k :: 0 <= k < |routes| ==> |routes[k]| > 0
  {
    forall i, j :: 0 <= i < j < |routes| ==> End(routes[i]) != End(routes[j])
  }

  /** `Step`: its number, the cells its routes end at, the routes, and the
      cells the next step must not revisit. */
  datatype Step = Step(number: nat, finishes: set<Position>, routes: seq<seq<Position>>, visited: set<Position>)

  /** The inner `foreach` of `NextStep` for one route: every next cell not
      visited before and not yet reached in this step extends a copy of the
      route. */
  function Extend(route: seq<Position>, nexts: seq<Position>, last: set<Position>, seen: set<Position>)
    : (r: (set<Position>, seq<seq<Position>>))
    ensures r.0 == seen + Fresh(nexts, last)
    ensures Grown(route, nexts, last, seen, r.1)
    ensures DistinctEnds(r.1) && Ends(r.1) == r.0 - seen
  {
    if |nexts| == 0 then (seen, [])
    else
      var q := nexts[0];
      FreshSplit(nexts, last);
      if q in last || q in seen then
        var r := Extend(route, nexts[1..], last, seen);
        GrownSkip(route, nexts, last, seen, r.1);
        r
      else
        var (s, rs) := Extend(route, nexts[1..], last, seen + {q});
        ExtendTaken(route, nexts, last, seen, s, rs);
        (s, [route + [q]] + rs)
  }

  /** The next cells the step does not exclude. */
  function Fresh(nexts: seq<Position>, last: set<Position>): set<Position>
  {
    set q | q in nexts && q !in last
  }

  lemma FreshSplit(nexts: seq<Position>, last: set<Position>)
    requires |nexts| > 0
    ensures Fresh(nexts, last) == Fresh(nexts[1..], last) + (if nexts[0] in last then {} else {nexts[0]})
  {
  }

  /** Every route of `extended` is `route` followed by a next cell that is
      neither excluded nor seen. */
  predicate Grown(route: seq<Position>, nexts: seq<Position>, last: set<Position>, seen: set<Position>, extended: seq<seq<Position>>)
  {
    forall k :: 0 <= k < |extended| ==>
      && |extended[k]| == |route| + 1 && extended[k][..|route|] == route
      && End(extended[k]) in nexts && End(extended[k]) !in last && End(extended[k]) !in seen
  }

  lemma GrownSkip(route: seq<Position>, nexts: seq<Position>, last: set<Position>, seen: set<Position>, extended: seq<seq<Position>>)
    requires |nexts| > 0 && Grown(route, nexts[1..], last, seen, extended)
    ensures Grown(route, nexts, last, seen, extended)
  {
    assert forall x :: x in nexts[1..] ==> x in nexts;
  }

  /** Taking the first next cell puts one route in front of the rest. */
  lemma ExtendTaken(route: seq<Position>, nexts: seq<Position>, last: set<Position>, seen: set<Position>,
                    s: set<Position>, rs: seq<seq<Position>>)
    requires |nexts| > 0 && nexts[0] !in last && nexts[0] !in seen
    requires Grown(route, nexts[1..], last, seen + {nexts[0]}, rs)
    requires DistinctEnds(rs) && Ends(rs) == s - (seen + {nexts[0]})
    requires seen + {nexts[0]} <= s
    ensures Grown(route, nexts, last, seen, [route + [nexts[0]]] + rs)
    ensures DistinctEnds([route + [nexts[0]]] + rs) && Ends([route + [nexts[0]]] + rs) == s - seen
  {
    var q := nexts[0];
    var r := [route + [q]] + rs;
    assert forall k :: 1 <= k < |r| ==> r[k] == rs[k - 1];
    assert forall x :: x in nexts[1..] ==> x in nexts;
    EndsAppend([route + [q]], rs);
    EndsSingle(route + [q]);
    assert End(route + [q]) == q;
  }

  /** Every route of `next` is a route of `routes` followed by one move
      to a cell outside `last`. */
  predicate Extends(g: Grid, routes: seq<seq<Position>>, last: set<Position>, next: seq<seq<Position>>)
    requires WellFormed(g)
  {
    forall k :: 0 <= k < |next| ==>
      && |next[k]| > 1 && next[k][..|next[k]| - 1] in routes
      && Move(g, End(next[k][..|next[k]| - 1]), End(next[k])) && End(next[k]) !in last
  }

  /** Every move from the end of a route to a cell outside `last` lands in
      `reached`. */
  ghost predicate Complete(g: Grid, routes: seq<seq<Position>>, last: set<Position>, reached: set<Position>)
    requires WellFormed(g)
    requires forall k :: 0 <= k < |routes| ==> |routes[k]| > 0
  {
    forall k, q :: 0 <= k < |routes| && Move(g, End(routes[k]), q) && q !in last ==> q in reached
  }

  /** The outer `foreach` of `NextStep`, route by route in order. */
  function Expand(g: Grid, routes: seq<seq<Position>>, last: set<Position>, seen: set<Position>)
    : (r: (set<Position>, seq<seq<Position>>))
    requires WellFormed(g)
    requires forall k :: 0 <= k < |routes| ==> |routes[k]| > 0 && InBounds(g, End(routes[k]))
    ensures seen <= r.0 && Extends(g, routes, last, r.1)
    ensures forall k :: 0 <= k < |r.1| ==> |r.1[k]| > 0
    ensures DistinctEnds(r.1) && Ends(r.1) == r.0 - seen
    ensures Complete(g, routes, last, r.0)
  {
    if |routes| == 0 then (seen, [])
    else
      var route := routes[0];
      var nexts := NextPositions(g, End(route));
      var (s1, rs1) := Extend(route, nexts, last, seen);
      ExtendMoves(g, routes, last, seen, rs1, nexts);
      var (s2, rs2) := Expand(g, routes[1..], last, s1);
      ExtendsLater(g, routes, last, rs2);
      ExtendsAppend(g, routes, last, rs1, rs2);
      JoinEnds(rs1, rs2, seen, s1, s2);
      CompleteJoin(g, routes, last, nexts, s1, s2);
      (s2, rs1 + rs2)
  }

  /** The routes the first route is extended to end one move further. */
  lemma ExtendMoves(g: Grid, routes: seq<seq<Position>>, last: set<Position>, seen: set<Position>,
                    extended: seq<seq<Position>>, nexts: seq<Position>)
    requires WellFormed(g) && |routes| > 0 && |routes[0]| > 0 && InBounds(g, End(routes[0]))
    requires forall q :: q in nexts <==> Move(g, End(routes[0]), q)
    requires Grown(routes[0], nexts, last, seen, extended)
    ensures Extends(g, routes, last, extended)
  {
  }

  lemma ExtendsLater(g: Grid, routes: seq<seq<Position>>, last: set<Position>, next: seq<seq<Position>>)
    requires WellFormed(g) && |routes| > 0 && Extends(g, routes[1..], last, next)
    ensures Extends(g, routes, last, next)
  {
    assert forall x :: x in routes[1..] ==> x in routes;
  }

  lemma ExtendsAppend(g: Grid, routes: seq<seq<Position>>, last: set<Position>, a: seq<seq<Position>>, b: seq<seq<Position>>)
    requires WellFormed(g) && Extends(g, routes, last, a) && Extends(g, routes, last, b)
    ensures Extends(g, routes, last, a + b)
  {
    var r := a + b;
    assert forall k :: 0 <= k < |a| ==> r[k] == a[k];
    assert forall k :: |a| <= k < |r| ==> r[k] == b[k - |a|];
  }

  /** Routes ending at new cells of two successive stretches end at
      distinct cells. */
  lemma JoinEnds(a: seq<seq<Position>>, b: seq<seq<Position>>, seen: set<Position>, s1: set<Position>, s2: set<Position>)
    requires forall k :: 0 <= k < |a| ==> |a[k]| > 0
    requires forall k :: 0 <= k < |b| ==> |b[k]| > 0
    requires DistinctEnds(a) && Ends(a) == s1 - seen && seen <= s1
    requires DistinctEnds(b) && Ends(b) == s2 - s1 && s1 <= s2
    ensures DistinctEnds(a + b) && Ends(a + b) == s2 - seen
  {
    var r := a + b;
    EndsAppend(a, b);
    assert forall k :: 0 <= k < |a| ==> r[k] == a[k];
    assert forall k :: |a| <= k < |r| ==> r[k] == b[k - |a|];
    assert forall k :: 0 <= k < |a| ==> End(r[k]) in s1 - seen;
    assert forall k :: |a| <= k < |r| ==> End(r[k]) in s2 - s1;
  }

  lemma CompleteJoin(g: Grid, routes: seq<seq<Position>>, last: set<Position>, nexts: seq<Position>, s1: set<Position>, s2: set<Position>)
    requires WellFormed(g) && |routes| > 0
    requires forall k :: 0 <= k < |routes| ==> |routes[k]| > 0
    requires forall q :: Move(g, End(routes[0]), q) ==> q in nexts
    requires Fresh(nexts, last) <= s1 <= s2
    requires Complete(g, routes[1..], last, s2)
    ensures Complete(g, routes, last, s2)
  {
    forall k, q | 0 <= k < |routes| && Move(g, End(routes[k]), q) && q !in last
      ensures q in s2
    {
      if k > 0 { assert routes[k] == routes[1..][k - 1]; }
    }
  }

  /** `NextStep`: the routes of the next layer, and its cells as both the
      finishes and the visited set. */
  function NextStep(g: Grid, step: Step): (r: Step)
    requires WellFormed(g)
    requires forall k :: 0 <= k < |step.routes| ==> |step.routes[k]| > 0 && InBounds(g, End(step.routes[k]))
    ensures r.number == step.number + 1
    ensures forall k :: 0 <= k < |r.routes| ==> |r.routes[k]| > 0
    ensures r.finishes == Ends(r.routes) && r.visited == r.finishes && DistinctEnds(r.routes)
    ensures forall p :: p in r.finishes ==> p !in step.visited
  {
    var (seen, routes) := Expand(g, step.routes, step.visited, {});
    Step(step.number + 1, Ends(routes), routes, seen)
  }

  /** Each new route is an old route plus one move to a cell the step does
      not exclude, and every such move is taken by some new route. */
  lemma NextStepMoves(g: Grid, step: Step)
    requires WellFormed(g)
    requires forall k :: 0 <= k < |step.routes| ==> |step.routes[k]| > 0 && InBounds(g, End(step.routes[k]))
    ensures Extends(g, step.routes, step.visited, NextStep(g, step).routes)
    ensures Complete(g, step.routes, step.visited, NextStep(g, step).finishes)
  {
  }

  /** The first step: the one route holding only the end. */
  function FirstStep(g: Grid): (r: Step)
    ensures forall k :: 0 <= k < |r.routes| ==> |r.routes[k]| > 0
    ensures r.finishes == Ends(r.routes)
  {
    var routes := [[g.finish]];
    assert routes[0] == [g.finish] && End(routes[0]) == g.finish;
    assert Ends(routes) == {g.finish};
    Step(0, {g.finish}, routes, {g.finish})
  }

  /** A step after `k` moves: routes of `k` moves, whose ends are both the
      finishes and the visited set. */
  predicate LayerShape(g: Grid, k: nat, s: Step)
    requires WellFormed(g)
  {
    && s.number == k
    && (forall i :: 0 <= i < |s.routes| ==> Route(g, s.routes[i]) && |s.routes[i]| == k + 1)
    && s.finishes == Ends(s.routes) && s.visited == s.finishes
  }

  /** A route ends inside the map. */
  lemma RouteEnds(g: Grid, k: nat, s: Step)
    requires WellFormed(g) && LayerShape(g, k, s)
    ensures forall i :: 0 <= i < |s.routes| ==> |s.routes[i]| > 0 && InBounds(g, End(s.routes[i]))
  {
    forall i | 0 <= i < |s.routes|
      ensures |s.routes[i]| > 0 && InBounds(g, End(s.routes[i]))
    {
      var route := s.routes[i];
      if |route| > 1 {
        assert Move(g, route[|route| - 2], route[|route| - 1]);
      }
    }
  }

  /** The step after `k` calls of `NextStep`. */
  function Layer(g: Grid, k: nat): (r: Step)
    requires WellFormed(g)
    ensures LayerShape(g, k, r)
  {
    if k == 0 then FirstStep(g)
    else
      var before := Layer(g, k - 1);
      RouteEnds(g, k - 1, before);
      var r := NextStep(g, before);
      NextStepMoves(g, before);
      LayerRoutes(g, before, r, k);
      r
  }

  /** Extending routes of `k - 1` moves by one move gives routes of `k`
      moves. */
  lemma LayerRoutes(g: Grid, before: Step, after: Step, k: nat)
    requires WellFormed(g) && k > 0 && LayerShape(g, k - 1, before)
    requires Extends(g, before.routes, before.visited, after.routes)
    requires forall i :: 0 <= i < |after.routes| ==> |after.routes[i]| > 0
    requires after.number == k && after.finishes == Ends(after.routes) && after.visited == after.finishes
    ensures LayerShape(g, k, after)
  {
    var routes := after.routes;
    forall i | 0 <= i < |routes|
      ensures Route(g, routes[i]) && |routes[i]| == k + 1
    {
      var prefix := routes[i][..|routes[i]| - 1];
      assert prefix in before.routes;
      RouteSnoc(g, prefix, End(routes[i]));
      assert routes[i] == prefix + [End(routes[i])];
    }
  }

  /** A route followed by a move is a route. */
  lemma RouteSnoc(g: Grid, route: seq<Position>, p: Position)
    requires WellFormed(g) && Route(g, route) && Move(g, End(route), p)
    ensures Route(g, route + [p])
  {
    var r := route + [p];
    forall i | 0 < i < |r| ensures Move(g, r[i - 1], r[i]) {
      if i < |route| { assert r[i - 1] == route[i - 1] && r[i] == route[i]; }
    }
  }

  /** A cell reached by a route of `m` moves is in some layer up to `m`: a
      cell one move past layer `j` is either in layer `j` itself (which the
      step excludes) or in layer `j + 1`. */
  lemma {:induction false} Covered(g: Grid, route: seq<Position>) returns (j: nat)
    requires WellFormed(g) && Route(g, route)
    ensures j < |route| && End(route) in Layer(g, j).finishes
  {
    if |route| == 1 {
      j := 0;
    } else {
      var prefix := route[..|route| - 1];
      assert Route(g, prefix);
      var i := Covered(g, prefix);
      assert Move(g, End(prefix), End(route));
      var layer := Layer(g, i);
      RouteEnds(g, i, layer);
      StepCovers(g, layer, End(prefix), End(route));
      j := if End(route) in layer.visited then i else i + 1;
    }
  }

  /** A cell one move past a step's finishes is visited or is reached by
      the next step. */
  lemma StepCovers(g: Grid, step: Step, q: Position, p: Position)
    requires WellFormed(g)
    requires forall k :: 0 <= k < |step.routes| ==> |step.routes[k]| > 0 && InBounds(g, End(step.routes[k]))
    requires step.finishes == Ends(step.routes) && q in step.finishes && Move(g, q, p)
    ensures p in step.visited || p in NextStep(g, step).finishes
  {
    var k :| 0 <= k < |step.routes| && End(step.routes[k]) == q;
    NextStepMoves(g, step);
  }

  // ---------------------------------------------------------------------
  // Stopping.

  /** Some route of exactly `m` moves ends at `p`. */
  ghost predicate Reachable(g: Grid, p: Position, m: nat)
    requires WellFormed(g)
  {
    exists route :: Route(g, route) && |route| == m + 1 && End(route) == p
  }

  /** The `while (true)` loop from layer `k` on: the first layer among
      `layers` that meets `target`. The source loops forever when none does;
      here the search gives up after layer `limit`. */
  function Search(layers: nat -> set<Position>, target: set<Position>, k: nat, limit: nat): (r: Result<nat>)
    ensures r.Ok? ==> k <= r.value <= limit && layers(r.value) * target != {}
    ensures r.Ok? ==> forall j :: k <= j < r.value ==> layers(j) * target == {}
    ensures r.Err? ==> forall j :: k <= j <= limit ==> layers(j) * target == {}
    decreases limit - k
  {
    if k > limit then Err("the search never ends")
    else if layers(k) * target != {} then Ok(k)
    else Search(layers, target, k + 1, limit)
  }

  /** The finishes of every layer. */
  function Finishes(g: Grid): nat -> set<Position>
    requires WellFormed(g)
  {
    (k: nat) => Layer(g, k).finishes
  }

  /** The search's answer is the fewest moves from the end to a target
      cell, and a failed search means no target cell is within `limit`
      moves; the end itself is not a target. */
  lemma SearchShortest(g: Grid, target: set<Position>, limit: nat)
    requires WellFormed(g) && g.finish !in target
    ensures Search(Finishes(g), target, 1, limit).Ok? ==> exists p :: p in target && Reachable(g, p, Search(Finishes(g), target, 1, limit).value)
    ensures Search(Finishes(g), target, 1, limit).Ok? ==> forall p, m :: p in target && 1 <= m < Search(Finishes(g), target, 1, limit).value ==> !Reachable(g, p, m)
    ensures Search(Finishes(g), target, 1, limit).Err? ==> forall p, m :: p in target && 1 <= m <= limit ==> !Reachable(g, p, m)
  {
    if Search(Finishes(g), target, 1, limit).Ok? {
      SearchFound(g, target, limit);
    }
    SearchMissesAll(g, target, limit);
  }

  lemma SearchMissesAll(g: Grid, target: set<Position>, limit: nat)
    requires WellFormed(g) && g.finish !in target
    ensures forall p, m :: p in target && 1 <= m <= limit && (Search(Finishes(g), target, 1, limit).Err? || m < Search(Finishes(g), target, 1, limit).value)
              ==> !Reachable(g, p, m)
  {
    forall p, m | p in target && 1 <= m <= limit && (Search(Finishes(g), target, 1, limit).Err? || m < Search(Finishes(g), target, 1, limit).value)
      ensures !Reachable(g, p, m)
    {
      SearchMisses(g, target, limit, p, m);
    }
  }

  /** The layer the search stops at holds a target cell. */
  lemma SearchFound(g: Grid, target: set<Position>, limit: nat)
    requires WellFormed(g) && Search(Finishes(g), target, 1, limit).Ok?
    ensures exists p :: p in target && Reachable(g, p, Search(Finishes(g), target, 1, limit).value)
  {
    var n := Search(Finishes(g), target, 1, limit).value;
    var p :| p in Finishes(g)(n) * target;
    LayerReachable(g, n, p);
  }

  /** No target cell is fewer moves away than the layer the search stops
      at, nor within `limit` moves when it fails. */
  lemma SearchMisses(g: Grid, target: set<Position>, limit: nat, p: Position, m: nat)
    requires WellFormed(g) && g.finish !in target && p in target && 1 <= m <= limit
    requires Search(Finishes(g), target, 1, limit).Err? || m < Search(Finishes(g), target, 1, limit).value
    ensures !Reachable(g, p, m)
  {
    if Reachable(g, p, m) {
      SearchReaches(g, target, limit, p, m);
    }
  }

  /** A target cell `m` moves away stops the search by layer `m`. */
  lemma SearchReaches(g: Grid, target: set<Position>, limit: nat, p: Position, m: nat)
    requires WellFormed(g) && g.finish !in target
    requires p in target && 1 <= m <= limit && Reachable(g, p, m)
    ensures Search(Finishes(g), target, 1, limit).Ok? && Search(Finishes(g), target, 1, limit).value <= m
  {
    var route :| Route(g, route) && |route| == m + 1 && End(route) == p;
    var j := Covered(g, route);
    assert Layer(g, 0).finishes == {g.finish};
    assert p in Finishes(g)(j) * target;
  }

  /** Every cell of layer `k` ends a route of `k` moves. */
  lemma LayerReachable(g: Grid, k: nat, p: Position)
    requires WellFormed(g) && p in Layer(g, k).finishes
    ensures Reachable(g, p, k)
  {
    var layer := Layer(g, k);
    var i :| 0 <= i < |layer.routes| && End(layer.routes[i]) == p;
    assert Route(g, layer.routes[i]);
  }

  /** `CalculateTaskOne`: the first layer holding the start, which is the
      fewest moves between start and summit whenever the two differ. */
  function PartOne(g: Grid, limit: nat): (r: Result<nat>)
    requires WellFormed(g)
    ensures r.Ok? ==> 1 <= r.value <= limit && Reachable(g, g.start, r.value)
    ensures g.start != g.finish && r.Ok? ==> forall m :: 1 <= m < r.value ==> !Reachable(g, g.start, m)
    ensures g.start != g.finish && r.Err? ==> forall m :: 1 <= m <= limit ==> !Reachable(g, g.start, m)
  {
    if g.start != g.finish then
      SearchShortest(g, {g.start}, limit);
      Search(Finishes(g), {g.start}, 1, limit)
    else
      if Search(Finishes(g), {g.start}, 1, limit).Ok? then
        SearchFound(g, {g.start}, limit);
        Search(Finishes(g), {g.start}, 1, limit)
      else
        Search(Finishes(g), {g.start}, 1, limit)
  }

  /** The cells of height 1. */
  function Lowest(g: Grid): (r: set<Position>)
    requires WellFormed(g)
    ensures forall p :: p in r <==> InBounds(g, p) && HeightAt(g, p) == 1
  {
    set r, c | 0 <= r < g.rows && 0 <= c < g.cols && g.heights[r][c] == 1 :: Position(r, c)
  }

  /** `CalculateTaskTwo`: the first layer holding a cell of height 1, which
      is the fewest moves from the summit down to any such cell whenever the
      summit itself is higher. */
  function PartTwo(g: Grid, limit: nat): (r: Result<nat>)
    requires WellFormed(g)
    ensures r.Ok? ==> 1 <= r.value <= limit && exists p :: p in Lowest(g) && Reachable(g, p, r.value)
    ensures HeightAt(g, g.finish) != 1 && r.Ok? ==> forall p, m :: p in Lowest(g) && 1 <= m < r.value ==> !Reachable(g, p, m)
    ensures HeightAt(g, g.finish) != 1 && r.Err? ==> forall p, m :: p in Lowest(g) && 1 <= m <= limit ==> !Reachable(g, p, m)
  {
    if HeightAt(g, g.finish) != 1 then
      SearchShortest(g, Lowest(g), limit);
      Search(Finishes(g), Lowest(g), 1, limit)
    else
      if Search(Finishes(g), Lowest(g), 1, limit).Ok? then
        SearchFound(g, Lowest(g), limit);
        Search(Finishes(g), Lowest(g), 1, limit)
      else
        Search(Finishes(g), Lowest(g), 1, limit)
  }

  /** On a parsed map, part one is the fewest moves from `E` to `S`, and
      part two the fewest from `E` to any cell of height 1. */
  lemma PartsShortest(lines: seq<string>, limit: nat)
    requires ParseGrid(lines).Ok?
    ensures var g := ParseGrid(lines).value;
      && (PartOne(g, limit).Ok? ==>
            Reachable(g, g.start, PartOne(g, limit).value)
            && forall m :: 1 <= m < PartOne(g, limit).value ==> !Reachable(g, g.start, m))
      && (PartTwo(g, limit).Ok? ==>
            (exists p :: p in Lowest(g) && Reachable(g, p, PartTwo(g, limit).value))
            && forall p, m :: p in Lowest(g) && 1 <= m < PartTwo(g, limit).value ==> !Reachable(g, p, m))
  {
    var g := ParseGrid(lines).value;
    SearchShortest(g, {g.start}, limit);
    SearchShortest(g, Lowest(g), limit);
  }
}

=== FILE: day13.dfy ===
/** Day 13 (older tree): distress-signal packets. A packet is an integer or
    a list of packets; `IsLowerThan` compares two packets three ways
    (`Some(true)` right order, `Some(false)` wrong order, `None` undecided),
    `Show` prints a packet the way `ToString` does. */
module Day13 {
  import opened Common
  import opened Parsing

  datatype Packet = Number(value: Int32) | List(items: seq<Packet>)

  /** Number of constructors in a packet; the comparison recurses on it. */
  function Size(p: Packet): (n: nat)
    ensures n >= 1
  {
    match p
    case Number(_) => 1
    case List(items) => 1 + SizeOfAll(items)
  }

  function SizeOfAll(ps: seq<Packet>): nat
  {
    if |ps| == 0 then 0 else Size(ps[0]) + SizeOfAll(ps[1..])
  }

  /** The three-valued comparison. An integer met by a list is compared as
      the one-element list holding it; lists compare element by element and
      the shorter list wins a tie. */
  function IsLowerThan(a: Packet, b: Packet): Option<bool>
    decreases Size(a) + Size(b), 0
  {
    match (a, b)
    case (Number(x), Number(y)) =>
      if x < y then Some(true) else if x == y then None else Some(false)
    case (Number(_), List(ys)) => SizeOfSingleton(a); CompareLists([a], ys)
    case (List(xs), Number(_)) => SizeOfSingleton(b); CompareLists(xs, [b])
    case (List(xs), List(ys)) => CompareLists(xs, ys)
  }

  lemma SizeOfSingleton(p: Packet)
    ensures SizeOfAll([p]) == Size(p)
  {
    assert [p][1..] == [];
  }

  /** `IsLowerThan` on two `ListElement`s given by their element arrays. */
  function CompareLists(xs: seq<Packet>, ys: seq<Packet>): Option<bool>
    decreases SizeOfAll(xs) + SizeOfAll(ys), 1
  {
    if |xs| == 0 && |ys| == 0 then None
    else if |ys| == 0 then Some(false)
    else if |xs| == 0 then Some(true)
    else
      match IsLowerThan(xs[0], ys[0])
      case Some(r) => Some(r)
      case None => CompareLists(xs[1..], ys[1..])
  }

  /** The answer with the two arguments swapped. */
  function Flip(o: Option<bool>): Option<bool>
  {
    match o
    case Some(b) => Some(!b)
    case None => None
  }

  // ---------------------------------------------------------------------
  // The rules of the comparison, one case at a time.

  lemma NumberOrder(x: Int32, y: Int32)
    ensures IsLowerThan(Number(x), Number(y)) == Some(true) <==> x < y
    ensures IsLowerThan(Number(x), Number(y)) == None <==> x == y
    ensures IsLowerThan(Number(x), Number(y)) == Some(false) <==> x > y
  {
  }

  /** An integer facing a list, on either side, is the singleton list. */
  lemma NumberAgainstList(x: Int32, ys: seq<Packet>)
    ensures IsLowerThan(Number(x), List(ys)) == IsLowerThan(List([Number(x)]), List(ys))
    ensures IsLowerThan(List(ys), Number(x)) == IsLowerThan(List(ys), List([Number(x)]))
  {
  }

  lemma EmptyLists(ys: seq<Packet>)
    ensures IsLowerThan(List([]), List([])) == None
    ensures |ys| > 0 ==> IsLowerThan(List(ys), List([])) == Some(false)
    ensures |ys| > 0 ==> IsLowerThan(List([]), List(ys)) == Some(true)
  {
  }

  /** Non-empty lists: the heads decide unless they tie, then the tails do. */
  lemma Lexicographic(x: Packet, xs: seq<Packet>, y: Packet, ys: seq<Packet>)
    ensures IsLowerThan(x, y).Some? ==>
      IsLowerThan(List([x] + xs), List([y] + ys)) == IsLowerThan(x, y)
    ensures IsLowerThan(x, y).None? ==>
      IsLowerThan(List([x] + xs), List([y] + ys)) == IsLowerThan(List(xs), List(ys))
  {
    assert ([x] + xs)[1..] == xs;
    assert ([y] + ys)[1..] == ys;
  }

  // ---------------------------------------------------------------------
  // The algebra the sort comparator relies on.

  /** Every packet is undecided against itself. */
  lemma {:induction false} Reflexive(p: Packet)
    ensures IsLowerThan(p, p) == None
    decreases Size(p), 0
  {
    match p
    case Number(_) =>
    case List(xs) => ReflexiveLists(xs);
  }

  lemma {:induction false} ReflexiveLists(xs: seq<Packet>)
    ensures CompareLists(xs, xs) == None
    decreases SizeOfAll(xs), 1
  {
    if |xs| > 0 {
      Reflexive(xs[0]);
      ReflexiveLists(xs[1..]);
    }
  }

  /** Swapping the arguments swaps a decided answer and keeps a tie. */
  lemma {:induction false} Antisymmetric(a: Packet, b: Packet)
    ensures IsLowerThan(b, a) == Flip(IsLowerThan(a, b))
    decreases Size(a) + Size(b), 0
  {
    match (a, b)
    case (Number(_), Number(_)) =>
    case (Number(_), List(ys)) => SizeOfSingleton(a); AntisymmetricLists([a], ys);
    case (List(xs), Number(_)) => SizeOfSingleton(b); AntisymmetricLists(xs, [b]);
    case (List(xs), List(ys)) => AntisymmetricLists(xs, ys);
  }

  lemma {:induction false} AntisymmetricLists(xs: seq<Packet>, ys: seq<Packet>)
    ensures CompareLists(ys, xs) == Flip(CompareLists(xs, ys))
    decreases SizeOfAll(xs) + SizeOfAll(ys), 1
  {
    if |xs| > 0 && |ys| > 0 {
      Antisymmetric(xs[0], ys[0]);
      AntisymmetricLists(xs[1..], ys[1..]);
    }
  }

  /** The comparison says anything but the wrong order. */
  predicate NotAfter(o: Option<bool>)
  {
    o != Some(false)
  }

  /** Two answers that are not the wrong order, chained: a tie when both
      tie, otherwise the right order. */
  function Chain(o1: Option<bool>, o2: Option<bool>): Option<bool>
  {
    if o1.None? && o2.None? then None else Some(true)
  }

  /** The element list a packet is compared by when it meets a list. */
  function Elements(p: Packet): seq<Packet>
  {
    match p
    case Number(_) => [p]
    case List(items) => items
  }

  /** Every comparison is the comparison of the element lists, even that of
      two integers. */
  lemma Promote(a: Packet, b: Packet)
    ensures IsLowerThan(a, b) == CompareLists(Elements(a), Elements(b))
  {
    if a.Number? && b.Number? {
      assert [a][1..] == [] && [b][1..] == [];
    }
  }

  lemma ElementsSize(p: Packet)
    ensures SizeOfAll(Elements(p)) <= Size(p)
    ensures p.List? ==> SizeOfAll(Elements(p)) < Size(p)
  {
    if p.Number? {
      SizeOfSingleton(p);
    }
  }

  /** The comparison is transitive: right order or tie twice over is right
      order, unless both steps tie. */
  lemma {:induction false} Transitive(a: Packet, b: Packet, c: Packet)
    requires NotAfter(IsLowerThan(a, b)) && NotAfter(IsLowerThan(b, c))
    ensures IsLowerThan(a, c) == Chain(IsLowerThan(a, b), IsLowerThan(b, c))
    decreases Size(a) + Size(b) + Size(c), 0
  {
    if !(a.Number? && b.Number? && c.Number?) {
      Promote(a, b);
      Promote(b, c);
      Promote(a, c);
      ElementsSize(a);
      ElementsSize(b);
      ElementsSize(c);
      TransitiveLists(Elements(a), Elements(b), Elements(c));
    }
  }

  lemma {:induction false} TransitiveLists(xs: seq<Packet>, ys: seq<Packet>, zs: seq<Packet>)
    requires NotAfter(CompareLists(xs, ys)) && NotAfter(CompareLists(ys, zs))
    ensures CompareLists(xs, zs) == Chain(CompareLists(xs, ys), CompareLists(ys, zs))
    decreases SizeOfAll(xs) + SizeOfAll(ys) + SizeOfAll(zs), 1
  {
    if |xs| > 0 && |ys| > 0 && |zs| > 0 {
      Transitive(xs[0], ys[0], zs[0]);
      if IsLowerThan(xs[0], ys[0]).None? && IsLowerThan(ys[0], zs[0]).None? {
        TransitiveLists(xs[1..], ys[1..], zs[1..]);
      }
    }
  }

  // ---------------------------------------------------------------------
  // `ToString` and the packet grammar it is read back with.

  /** `ToString`: decimal integers, lists as `[` comma-joined `]`. */
  function Show(p: Packet): string
  {
    match p
    case Number(v) => ShowInt(v as int)
    case List(items) => "[" + ShowAll(items) + "]"
  }

  function ShowAll(items: seq<Packet>): string
  {
    if |items| == 0 then ""
    else if |items| == 1 then Show(items[0])
    else Show(items[0]) + "," + ShowAll(items[1..])
  }

  /** The element grammar's integer. */
  function ParseNumber(s: string): (r: Option<(Packet, string)>)
    ensures r.Some? ==> |r.value.1| < |s|
  {
    match Int(s)
    case Match(v, rest) => Some((Number(v), rest))
    case _ => None
  }

  /** One packet at the front of `s`, and the text after it. */
  function ParseElement(s: string): (r: Option<(Packet, string)>)
    ensures r.Some? ==> |r.value.1| < |s|
    decreases |s|, 0
  {
    if |s| > 0 && s[0] == '[' then
      if |s| > 1 && s[1] == ']' then Some((List([]), s[2..]))
      else
        match ParseElements(s[1..])
        case None => None
        case Some((ps, rest)) =>
          if |rest| > 0 && rest[0] == ']' then Some((List(ps), rest[1..])) else None
    else ParseNumber(s)
  }

  /** One or more packets separated by commas. */
  function ParseElements(s: string): (r: Option<(seq<Packet>, string)>)
    ensures r.Some? ==> |r.value.1| < |s|
    decreases |s|, 1
  {
    match ParseElement(s)
    case None => None
    case Some((p, rest)) =>
      if |rest| > 0 && rest[0] == ',' then
        match ParseElements(rest[1..])
        case None => None
        case Some((ps, rest2)) => Some(([p] + ps, rest2))
      else Some(([p], rest))
  }

  /** Text that may follow a packet inside the grammar. */
  predicate Delimited(rest: string)
  {
    |rest| == 0 || rest[0] == ',' || rest[0] == ']' || rest[0] == '\n'
  }

  /** Reading back what `ToString` printed gives the packet and leaves the
      text after it. */
  lemma {:induction false} ParseShow(p: Packet, rest: string)
    requires Delimited(rest)
    ensures ParseElement(Show(p) + rest) == Some((p, rest))
    decreases p, 1
  {
    match p
    case Number(v) =>
      IntShown(v, rest);
      ShowIntStart(v as int);
    case List(items) =>
      var s := Show(p) + rest;
      if |items| == 0 {
        assert Show(p) == "[" + "" + "]" == "[]";
        assert s == "[]" + rest;
        assert s[2..] == rest;
      } else {
        var body := ShowAll(items) + ("]" + rest);
        Bracketed(ShowAll(items), rest);
        ParseShowAll(items, "]" + rest);
        ShowAllStart(items);
        ListStep(s, items, rest);
      }
  }

  lemma Bracketed(body: string, rest: string)
    ensures "[" + body + "]" + rest == "[" + (body + ("]" + rest))
    ensures ("[" + (body + ("]" + rest)))[1..] == body + ("]" + rest)
  {
  }

  lemma CommaAfter(first: string, more: string, rest: string)
    ensures first + "," + more + rest == first + ("," + more + rest)
    ensures ("," + more + rest)[1..] == more + rest
  {
  }

  /** A list whose elements parse up to its closing bracket. */
  lemma ListStep(s: string, items: seq<Packet>, rest: string)
    requires |s| > 1 && s[0] == '[' && s[1] != ']'
    requires ParseElements(s[1..]) == Some((items, "]" + rest))
    ensures ParseElement(s) == Some((List(items), rest))
  {
    assert ("]" + rest)[1..] == rest;
  }

  lemma ShowStartsWithoutClose(p: Packet)
    ensures |Show(p)| > 0 && Show(p)[0] != ']'
  {
    match p
    case Number(v) => ShowIntStart(v as int);
    case List(_) =>
  }

  /** The elements of a non-empty list are printed starting with the
      first, which does not start with a closing bracket. */
  lemma ShowAllStart(items: seq<Packet>)
    requires |items| > 0
    ensures |ShowAll(items)| > 0 && ShowAll(items)[0] != ']'
  {
    ShowStartsWithoutClose(items[0]);
  }

  /** An element, a comma and more elements. */
  lemma ElementsStep(s: string, p: Packet, tail: string, ps: seq<Packet>, rest: string)
    requires ParseElement(s) == Some((p, tail))
    requires |tail| > 0 && tail[0] == ','
    requires ParseElements(tail[1..]) == Some((ps, rest))
    ensures ParseElements(s) == Some(([p] + ps, rest))
  {
  }

  /** A last element, then the closing bracket. */
  lemma ElementsLast(s: string, p: Packet, rest: string)
    requires ParseElement(s) == Some((p, rest))
    requires |rest| > 0 && rest[0] == ']'
    ensures ParseElements(s) == Some(([p], rest))
  {
  }

  lemma {:induction false} ParseShowAll(items: seq<Packet>, rest: string)
    requires |items| > 0
    requires |rest| > 0 && rest[0] == ']'
    ensures ParseElements(ShowAll(items) + rest) == Some((items, rest))
    decreases items, 0
  {
    var s := ShowAll(items) + rest;
    if |items| == 1 {
      ParseShow(items[0], rest);
      ElementsLast(s, items[0], rest);
      assert items == [items[0]];
    } else {
      var tail := "," + ShowAll(items[1..]) + rest;
      CommaAfter(Show(items[0]), ShowAll(items[1..]), rest);
      ParseShow(items[0], tail);
      ParseShowAll(items[1..], rest);
      ElementsStep(s, items[0], tail, items[1..], rest);
      assert [items[0]] + items[1..] == items;
    }
  }

  /** A packet alone on its line is read back whole. */
  lemma ParseShowWhole(p: Packet)
    ensures ParseElement(Show(p)) == Some((p, ""))
  {
    ParseShow(p, "");
    assert Show(p) + "" == Show(p);
  }

  // ---------------------------------------------------------------------
  // The puzzle input: pairs of packets on consecutive lines, pairs separated
  // by blank lines.

  /** Text a packet starts: an opening bracket, or a number's digits after
      an optional sign. */
  predicate StartsElement(s: string)
  {
    (|s| > 0 && s[0] == '[') || SignedDigits(s).Match?
  }

  /** `element` as FParsec runs it: text that starts no packet fails
      without consuming input; once a bracket or a number's digits are
      read, anything amiss (an unclosed list, a number out of the range of
      `int`) is an error. */
  function Element(s: string): (r: Reply<Packet>)
    ensures r.Match? <==> ParseElement(s).Some?
    ensures r.Match? ==> (r.value, r.rest) == ParseElement(s).value
    ensures r.NoMatch? <==> !StartsElement(s)
  {
    match ParseElement(s)
    case Some((p, rest)) => Match(p, rest)
    case None => if StartsElement(s) then Failure("packet expected") else NoMatch
  }

  /** `pairParser`: two packets on consecutive lines. Text that starts no
      packet is no pair; once the first packet is read, a missing line
      break, a blank second line or a bad second packet is an error. */
  function ParsePair(s: string): (r: Reply<(Packet, Packet)>)
    ensures r.Match? ==> |r.rest| < |s|
    ensures r.NoMatch? <==> !StartsElement(s)
  {
    match Element(s)
    case NoMatch => NoMatch
    case Failure(m) => Failure(m)
    case Match(first, rest) =>
      if |rest| >= 1 && rest[0] == '\n' && !(|rest| >= 2 && rest[1] == '\n') then
        match Element(rest[1..])
        case Match(second, rest2) => Match((first, second), rest2)
        case _ => Failure("packet expected")
      else Failure("newline expected")
  }

  /** `ParseInput`: `Many1(pairParser, sep: Many1(Newline), canEndWithSep:
      true)`, the pairs separated by runs of line breaks, with line breaks
      allowed at the end. */
  function ParseInput(s: string): (r: Result<seq<(Packet, Packet)>>)
    ensures r.Ok? ==> |r.value| >= 1
  {
    RunParser(Many1(ParsePair, Newlines, true, s))
  }

  function ShowPair(pair: (Packet, Packet)): string
  {
    Show(pair.0) + "\n" + Show(pair.1)
  }

  /** Pairs as the puzzle prints them: blank lines between, one final line
      break. */
  function ShowInput(pairs: seq<(Packet, Packet)>): string
    requires |pairs| > 0
  {
    if |pairs| == 1 then ShowPair(pairs[0]) + "\n"
    else ShowPair(pairs[0]) + "\n\n" + ShowInput(pairs[1..])
  }

  lemma ShowFirst(p: Packet)
    ensures |Show(p)| > 0 && Show(p)[0] != '\n' && Show(p)[0] != ']'
  {
    ShowStartsWithoutClose(p);
    if p.Number? {
      ShowIntStart(p.value as int);
    }
  }

  lemma PairStep(s: string, first: Packet, tail: string, second: Packet, rest: string)
    requires ParseElement(s) == Some((first, tail))
    requires |tail| >= 2 && tail[0] == '\n' && tail[1] != '\n'
    requires ParseElement(tail[1..]) == Some((second, rest))
    ensures ParsePair(s) == Match((first, second), rest)
  {
    assert Element(s) == Match(first, tail);
    assert Element(tail[1..]) == Match(second, rest);
  }

  lemma FirstShown(pair: (Packet, Packet), rest: string)
    ensures ParseElement(ShowPair(pair) + rest) == Some((pair.0, "\n" + Show(pair.1) + rest))
  {
    var tail := "\n" + Show(pair.1) + rest;
    assert ShowPair(pair) + rest == Show(pair.0) + tail;
    ParseShow(pair.0, tail);
  }

  lemma SecondShown(p: Packet, rest: string)
    requires |rest| > 0 && rest[0] == '\n'
    ensures ParseElement(("\n" + Show(p) + rest)[1..]) == Some((p, rest))
  {
    assert ("\n" + Show(p) + rest)[1..] == Show(p) + rest;
    ParseShow(p, rest);
  }

  /** A printed pair followed by a line break is read back. */
  lemma ParseShowPair(pair: (Packet, Packet), rest: string)
    requires |rest| > 0 && rest[0] == '\n'
    ensures ParsePair(ShowPair(pair) + rest) == Match(pair, rest)
  {
    var tail := "\n" + Show(pair.1) + rest;
    FirstShown(pair, rest);
    SecondShown(pair.1, rest);
    ShowFirst(pair.1);
    assert tail[1] == Show(pair.1)[0];
    PairStep(ShowPair(pair) + rest, pair.0, tail, pair.1, rest);
  }

  /** What follows the first pair in `ShowInput(pairs)`. */
  function InputTail(pairs: seq<(Packet, Packet)>): string
    requires |pairs| > 0
  {
    if |pairs| == 1 then "\n" else "\n\n" + ShowInput(pairs[1..])
  }

  lemma ShowInputHead(pairs: seq<(Packet, Packet)>)
    requires |pairs| > 0
    ensures ShowInput(pairs) == ShowPair(pairs[0]) + InputTail(pairs)
    ensures |InputTail(pairs)| > 0 && InputTail(pairs)[0] == '\n'
  {
  }

  /** The blank line before a printed pair is one separator. */
  lemma BlankLineBeforePair(pair: (Packet, Packet), rest: string)
    ensures Newlines("\n\n" + (ShowPair(pair) + rest)) == Match((), ShowPair(pair) + rest)
  {
    ShowFirst(pair.0);
    assert (ShowPair(pair) + rest)[0] == Show(pair.0)[0];
    TwoNewlines(ShowPair(pair) + rest);
  }

  /** The final line break ends the list: it is a separator with no pair
      after it, which `canEndWithSep` allows. */
  lemma LastLineBreak(acc: seq<(Packet, Packet)>)
    ensures ManyRest(ParsePair, Newlines, true, acc, "\n") == Match(acc, "")
  {
    assert NewlineRun("\n") == 1;
    assert "\n"[1..] == "";
    assert Newlines("\n") == Match((), "");
    assert !StartsElement("");
  }

  /** What follows the first printed pair reads back as the other pairs. */
  lemma {:induction false} TailPairs(acc: seq<(Packet, Packet)>, pairs: seq<(Packet, Packet)>)
    requires |pairs| > 0
    ensures ManyRest(ParsePair, Newlines, true, acc, InputTail(pairs)) == Match(acc + pairs[1..], "")
    decreases |pairs|
  {
    if |pairs| == 1 {
      LastLineBreak(acc);
      assert acc + pairs[1..] == acc;
    } else {
      var more := pairs[1..];
      var tail := InputTail(more);
      ShowInputHead(more);
      PairAfterBlankLine(acc, more[0], tail);
      TailPairs(acc + [more[0]], more);
      assert acc + [more[0]] + more[1..] == acc + pairs[1..];
    }
  }

  /** One round of the list: the blank line, then a printed pair. */
  lemma PairAfterBlankLine(acc: seq<(Packet, Packet)>, pair: (Packet, Packet), tail: string)
    requires |tail| > 0 && tail[0] == '\n'
    ensures ManyRest(ParsePair, Newlines, true, acc, "\n\n" + (ShowPair(pair) + tail))
         == ManyRest(ParsePair, Newlines, true, acc + [pair], tail)
  {
    BlankLineBeforePair(pair, tail);
    ParseShowPair(pair, tail);
    ManyRestStep(ParsePair, Newlines, true, acc, "\n\n" + (ShowPair(pair) + tail), ShowPair(pair) + tail, pair, tail);
  }

  /** The first printed pair is read, leaving the rest of the input. */
  lemma FirstPairShown(pairs: seq<(Packet, Packet)>)
    requires |pairs| > 0
    ensures ParsePair(ShowInput(pairs)) == Match(pairs[0], InputTail(pairs))
  {
    ShowInputHead(pairs);
    ParseShowPair(pairs[0], InputTail(pairs));
  }

  /** Reading back printed pairs gives the same pairs. */
  lemma ParseShowInput(pairs: seq<(Packet, Packet)>)
    requires |pairs| > 0
    ensures ParseInput(ShowInput(pairs)) == Ok(pairs)
  {
    FirstPairShown(pairs);
    ManyFirst(ParsePair, Newlines, true, ShowInput(pairs), pairs[0], InputTail(pairs));
    TailPairs([pairs[0]], pairs);
    assert [pairs[0]] + pairs[1..] == pairs;
  }

  /** A packet at the end of the text, or before a blank line, has no
      partner: the pair it starts is an error. */
  lemma LonePacket(q: Packet, t: string)
    requires t == "" || t == "\n" || (|t| >= 2 && t[0] == '\n' && t[1] == '\n')
    ensures ParsePair(Show(q) + t).Failure?
  {
    ParseShow(q, t);
    assert Element(Show(q) + t) == Match(q, t);
    if t == "\n" {
      assert !StartsElement(t[1..]);
    }
  }

  /** A packet with no partner on the next line is an error, not the end of
      the input: after a pair and a blank line, a lone packet at the end,
      or one followed by a blank line, makes the whole parse fail. */
  lemma LonePacketFails(pair: (Packet, Packet), q: Packet, t: string)
    requires t == "" || t == "\n" || (|t| >= 2 && t[0] == '\n' && t[1] == '\n')
    ensures ParseInput(ShowPair(pair) + ("\n\n" + (Show(q) + t))).Err?
  {
    var after := Show(q) + t;
    ParseShowPair(pair, "\n\n" + after);
    ManyFirst(ParsePair, Newlines, true, ShowPair(pair) + ("\n\n" + after), pair, "\n\n" + after);
    ShowFirst(q);
    assert after[0] == Show(q)[0];
    TwoNewlines(after);
    LonePacket(q, t);
  }

  // ---------------------------------------------------------------------
  // Part one: indices of the pairs in the right order.

  /** A pair counts when the comparison says right order or stays undecided. */
  predicate InRightOrder(pair: (Packet, Packet))
  {
    IsLowerThan(pair.0, pair.1).GetOr(true)
  }

  /** The 1-based indices, from `first` on, of the pairs in the right order. */
  function RightOrderIndices(pairs: seq<(Packet, Packet)>, first: nat): seq<int>
  {
    if |pairs| == 0 then []
    else (if InRightOrder(pairs[0]) then [first] else []) + RightOrderIndices(pairs[1..], first + 1)
  }

  /** An index is listed exactly when its pair is in the right order. */
  lemma {:induction false} RightOrderIndicesExact(pairs: seq<(Packet, Packet)>, first: nat, k: int)
    ensures k in RightOrderIndices(pairs, first) <==>
      first <= k < first + |pairs| && InRightOrder(pairs[k - first])
  {
    if |pairs| > 0 {
      RightOrderIndicesExact(pairs[1..], first + 1, k);
      if first < k < first + |pairs| {
        assert pairs[1..][k - (first + 1)] == pairs[k - first];
      }
    }
  }

  lemma {:induction false} RightOrderIndicesSnoc(pairs: seq<(Packet, Packet)>, first: nat)
    requires |pairs| > 0
    ensures RightOrderIndices(pairs, first) ==
      RightOrderIndices(pairs[..|pairs| - 1], first) +
      (if InRightOrder(pairs[|pairs| - 1]) then [first + |pairs| - 1] else [])
  {
    if |pairs| > 1 {
      RightOrderIndicesSnoc(pairs[1..], first + 1);
      assert pairs[1..][..|pairs| - 2] == pairs[..|pairs| - 1][1..];
    }
  }

  /** `CalculateTaskOne`: the sum of the 1-based indices of the pairs in the
      right order. */
  method PartOne(pairs: seq<(Packet, Packet)>) returns (sum: int)
    ensures sum == Sum(RightOrderIndices(pairs, 1))
  {
    sum := 0;
    var i := 0;
    while i < |pairs|
      invariant 0 <= i <= |pairs|
      invariant sum == Sum(RightOrderIndices(pairs[..i], 1))
    {
      RightOrderIndicesSnoc(pairs[..i + 1], 1);
      assert pairs[..i + 1][..i] == pairs[..i];
      var index := i + 1;
      if InRightOrder(pairs[i]) {
        SumAppend(RightOrderIndices(pairs[..i], 1), [index]);
        sum := sum + index;
      } else {
        assert RightOrderIndices(pairs[..i], 1) + [] == RightOrderIndices(pairs[..i], 1);
      }
      i := i + 1;
    }
    assert pairs[..i] == pairs;
  }

  // ---------------------------------------------------------------------
  // Part two: where the divider packets land once everything is sorted.

  const Divider2: Packet := List([List([Number(2)])])
  const Divider6: Packet := List([List([Number(6)])])

  predicate LowerThan(a: Packet, b: Packet)
  {
    IsLowerThan(a, b) == Some(true)
  }

  /** A sequence ordered by the comparator: no later packet is lower than an
      earlier one. `List.Sort` returns some such arrangement of its input. */
  predicate Ordered(s: seq<Packet>)
  {
    forall i, j :: 0 <= i < j < |s| ==> !LowerThan(s[j], s[i])
  }

  /** Strict order is transitive. */
  lemma LowerThanTransitive(a: Packet, b: Packet, c: Packet)
    requires LowerThan(a, b) && LowerThan(b, c)
    ensures LowerThan(a, c)
  {
    Transitive(a, b, c);
  }

  /** `x` placed in front of the first packet it is lower than. */
  function Insert(x: Packet, s: seq<Packet>): (r: seq<Packet>)
    ensures multiset(r) == multiset(s) + multiset{x}
  {
    if |s| == 0 then [x]
    else if LowerThan(x, s[0]) then [x] + s
    else
      assert s == [s[0]] + s[1..];
      [s[0]] + Insert(x, s[1..])
  }

  lemma {:induction false} InsertOrdered(x: Packet, s: seq<Packet>)
    requires Ordered(s)
    ensures Ordered(Insert(x, s))
  {
    if |s| > 0 {
      if LowerThan(x, s[0]) {
        InsertFront(x, s);
      } else {
        InsertOrdered(x, s[1..]);
        InsertBehind(x, s, Insert(x, s[1..]));
      }
    }
  }

  /** A packet lower than the first of an ordered sequence may go first. */
  lemma InsertFront(x: Packet, s: seq<Packet>)
    requires Ordered(s) && |s| > 0 && LowerThan(x, s[0])
    ensures Ordered([x] + s)
  {
    Antisymmetric(x, s[0]);
    forall k | 0 <= k < |s|
      ensures !LowerThan(s[k], x)
    {
      if LowerThan(s[k], x) {
        LowerThanTransitive(s[k], x, s[0]);
      }
    }
    var r := [x] + s;
    assert forall j :: 1 <= j < |r| ==> r[j] == s[j - 1];
  }

  /** The first packet of an ordered sequence may stay in front of the rest
      with `x` inserted, when `x` is not lower than it. */
  lemma InsertBehind(x: Packet, s: seq<Packet>, rest: seq<Packet>)
    requires Ordered(s) && |s| > 0 && !LowerThan(x, s[0])
    requires multiset(rest) == multiset(s[1..]) + multiset{x} && Ordered(rest)
    ensures Ordered([s[0]] + rest)
  {
    forall j | 0 <= j < |rest|
      ensures !LowerThan(rest[j], s[0])
    {
      assert rest[j] in multiset(s[1..]) + multiset{x};
      if rest[j] != x {
        var k :| 0 <= k < |s[1..]| && s[1..][k] == rest[j];
        assert s[k + 1] == rest[j];
      }
    }
    var r := [s[0]] + rest;
    assert forall j :: 1 <= j < |r| ==> r[j] == rest[j - 1];
  }

  /** `List.Sort` with the comparator: an arrangement of the same packets in
      which no packet comes after one it is lower than. */
  function Sort(s: seq<Packet>): (r: seq<Packet>)
    ensures multiset(r) == multiset(s)
    ensures Ordered(r)
  {
    if |s| == 0 then []
    else
      assert s == [s[0]] + s[1..];
      InsertOrdered(s[0], Sort(s[1..]));
      Insert(s[0], Sort(s[1..]))
  }

  /** `IndexOf`: the first position of `x`, or -1. */
  function IndexOf(s: seq<Packet>, x: Packet): (k: int)
    ensures -1 <= k < |s|
    ensures k >= 0 ==> s[k] == x && forall i :: 0 <= i < k ==> s[i] != x
    ensures k == -1 ==> x !in s
  {
    if |s| == 0 then -1
    else if s[0] == x then 0
    else
      var k := IndexOf(s[1..], x);
      if k == -1 then -1 else k + 1
  }

  /** The packets lower than `d`, as a filter. */
  function Below(d: Packet): Packet -> bool
  {
    x => LowerThan(x, d)
  }

  /** How many packets of `s` are lower than `d`. */
  function CountLower(s: seq<Packet>, d: Packet): nat
  {
    CountWhere(s, Below(d))
  }

  /** `CalculateTaskTwo`'s answer, stated without the sort: each divider's
      1-based position is one more than the number of packets below it. */
  function DecoderKey(packets: seq<Packet>): int
  {
    (CountLower(packets, Divider2) + 1) * (CountLower(packets, Divider6) + 2)
  }

  /** In an ordered sequence where nothing ties with `d`, the packets before
      the first `d` are exactly the ones lower than it. */
  lemma {:induction false} PositionIsCountLower(s: seq<Packet>, d: Packet, k: nat)
    requires Ordered(s)
    requires k < |s| && s[k] == d
    requires forall i :: 0 <= i < k ==> s[i] != d
    requires forall i :: 0 <= i < k ==> IsLowerThan(s[i], d).Some?
    ensures CountLower(s, d) == k
  {
    assert s == s[..k] + [d] + s[k + 1..];
    Reflexive(d);
    forall i | 0 <= i < k
      ensures LowerThan(s[..k][i], d)
    {
      Antisymmetric(s[i], d);
    }
    var after := s[k + 1..];
    forall j | 0 <= j < |after|
      ensures !LowerThan(after[j], d)
    {
      assert after[j] == s[k + 1 + j];
    }
    CountAllLower(s[..k], d);
    CountNoneLower(after, d);
    CountWhereAppend(s[..k] + [d], s[k + 1..], Below(d));
    CountWhereAppend(s[..k], [d], Below(d));
  }

  lemma {:induction false} CountAllLower(s: seq<Packet>, d: Packet)
    requires forall i :: 0 <= i < |s| ==> LowerThan(s[i], d)
    ensures CountLower(s, d) == |s|
  {
    if |s| > 0 {
      CountAllLower(s[1..], d);
    }
  }

  lemma {:induction false} CountNoneLower(s: seq<Packet>, d: Packet)
    requires forall i :: 0 <= i < |s| ==> !LowerThan(s[i], d)
    ensures CountLower(s, d) == 0
  {
    if |s| > 0 {
      CountNoneLower(s[1..], d);
    }
  }

  lemma ElementOrigin(packets: seq<Packet>, sorted: seq<Packet>, i: int)
    requires multiset(sorted) == multiset(packets + [Divider2, Divider6])
    requires 0 <= i < |sorted|
    ensures sorted[i] == Divider2 || sorted[i] == Divider6 ||
      exists m :: 0 <= m < |packets| && packets[m] == sorted[i]
  {
    var all := packets + [Divider2, Divider6];
    assert sorted[i] in multiset(all);
    var m :| 0 <= m < |all| && all[m] == sorted[i];
    if m < |packets| {
      assert all[m] == packets[m];
    } else if m == |packets| {
      assert all[m] == Divider2;
    } else {
      assert all[m] == Divider6;
    }
  }

  lemma DividersCompare()
    ensures IsLowerThan(Divider2, Divider6) == Some(true)
    ensures IsLowerThan(Divider6, Divider2) == Some(false)
    ensures CountLower([Divider2, Divider6], Divider2) == 0
    ensures CountLower([Divider2, Divider6], Divider6) == 1
  {
    Reflexive(Divider2);
    Reflexive(Divider6);
    assert IsLowerThan(List([Number(2)]), List([Number(6)])) == Some(true);
    assert IsLowerThan(List([Number(6)]), List([Number(2)])) == Some(false);
    assert !Below(Divider2)(Divider2) && !Below(Divider2)(Divider6);
    assert Below(Divider6)(Divider2) && !Below(Divider6)(Divider6);
    assert [Divider2, Divider6][1..] == [Divider6];
    assert [Divider6][1..] == [];
    assert CountWhere([Divider6], Below(Divider2)) == 0;
    assert CountWhere([Divider6], Below(Divider6)) == 0;
  }

  /** The position of one divider in an ordered arrangement is the number of
      original packets below it, plus the other divider if that one is lower. */
  lemma DividerPosition(packets: seq<Packet>, sorted: seq<Packet>, d: Packet)
    requires d == Divider2 || d == Divider6
    requires multiset(sorted) == multiset(packets + [Divider2, Divider6])
    requires Ordered(sorted)
    requires forall i :: 0 <= i < |packets| ==> IsLowerThan(packets[i], d).Some?
    ensures IndexOf(sorted, d) == CountLower(packets, d) + CountLower([Divider2, Divider6], d)
  {
    var all := packets + [Divider2, Divider6];
    assert d in multiset(all);
    var k := IndexOf(sorted, d);
    DividersCompare();
    forall i | 0 <= i < k
      ensures IsLowerThan(sorted[i], d).Some?
    {
      ElementOrigin(packets, sorted, i);
    }
    PositionIsCountLower(sorted, d, k);
    CountWherePermutation(sorted, all, Below(d));
    CountWhereAppend(packets, [Divider2, Divider6], Below(d));
  }

  /** The product of the dividers' 1-based positions. */
  function DividerProduct(sorted: seq<Packet>): int
  {
    (IndexOf(sorted, Divider2) + 1) * (IndexOf(sorted, Divider6) + 1)
  }

  /** Once the packets and the two dividers are arranged in any order the
      comparator accepts, the product of the dividers' 1-based positions is
      the decoder key, provided no packet ties with a divider. */
  lemma AnyOrderDecoderKey(packets: seq<Packet>, sorted: seq<Packet>)
    requires multiset(sorted) == multiset(packets + [Divider2, Divider6])
    requires Ordered(sorted)
    requires forall i :: 0 <= i < |packets| ==> IsLowerThan(packets[i], Divider2).Some?
    requires forall i :: 0 <= i < |packets| ==> IsLowerThan(packets[i], Divider6).Some?
    ensures DividerProduct(sorted) == DecoderKey(packets)
  {
    DividersCompare();
    DividerPosition(packets, sorted, Divider2);
    DividerPosition(packets, sorted, Divider6);
  }

  /** The packets of the pairs, each pair's first packet before its second. */
  function AllPackets(pairs: seq<(Packet, Packet)>): (r: seq<Packet>)
    ensures |r| == 2 * |pairs|
    ensures forall i :: 0 <= i < |pairs| ==> r[2 * i] == pairs[i].0 && r[2 * i + 1] == pairs[i].1
  {
    if |pairs| == 0 then []
    else [pairs[0].0, pairs[0].1] + AllPackets(pairs[1..])
  }

  /** No packet ties with either divider. */
  predicate NoTies(packets: seq<Packet>)
  {
    forall i :: 0 <= i < |packets| ==>
      IsLowerThan(packets[i], Divider2).Some? && IsLowerThan(packets[i], Divider6).Some?
  }

  lemma SortedDecoderKey(packets: seq<Packet>)
    ensures NoTies(packets) ==>
      DividerProduct(Sort(packets + [Divider2, Divider6])) == DecoderKey(packets)
  {
    if NoTies(packets) {
      var all := packets + [Divider2, Divider6];
      var sorted := Sort(all);
      assert multiset(sorted) == multiset(all) && Ordered(sorted);
      AnyOrderDecoderKey(packets, sorted);
    }
  }

  /** `CalculateTaskTwo`: every packet and the two dividers sorted, the
      dividers' 1-based positions multiplied; without ties it is the
      decoder key, which does not depend on the sort. */
  function PartTwo(pairs: seq<(Packet, Packet)>): (r: int)
    ensures NoTies(AllPackets(pairs)) ==> r == DecoderKey(AllPackets(pairs))
  {
    SortedDecoderKey(AllPackets(pairs));
    DividerProduct(Sort(AllPackets(pairs) + [Divider2, Divider6]))
  }
}

=== FILE: day14.dfy ===
/** Day 14: sand pouring from (500, 0) into a cave of rock paths. Each
    grain falls straight down, else down-left, else down-right, and comes
    to rest where none of the three is free. Part one counts the grains
    that rest before one falls below the lowest rock; part two adds a floor
    two rows below the lowest rock and counts the grains until the source
    itself is covered. Y grows downwards. */
module Day14 {
  import opened Common
  import opened Parsing

  datatype Point = Point(x: int, y: int)

  /** Where every grain starts. */
  const Source: Point := Point(500, 0)

  // ---------------------------------------------------------------------
  // The grammar: `x,y` points joined by ` -> ` form a path; paths are
  // separated by line breaks, and the text may end with line breaks.

  function PointParser(s: string): (r: Reply<Point>)
    ensures r.Match? ==> |r.rest| < |s|
  {
    match Int(s)
    case Match(x, afterX) =>
      (match Literal(",", afterX)
       case Match(_, afterComma) =>
         (match Int(afterComma)
          case Match(y, rest) => Match(Point(x as int, y as int), rest)
          case _ => Failure("integer expected"))
       case _ => Failure("',' expected"))
    case Failure(m) => Failure(m)
    case NoMatch => NoMatch
  }

  function Arrow(s: string): Reply<()>
  {
    Literal(" -> ", s)
  }

  function PathParser(s: string): (r: Reply<seq<Point>>)
  {
    Many1(PointParser, Arrow, false, s)
  }

  /** The paths of the input, as written. */
  function ParsePaths(input: string): (r: Result<seq<seq<Point>>>)
    ensures r.Ok? ==> |r.value| >= 1 && forall i :: 0 <= i < |r.value| ==> |r.value[i]| >= 1
  {
    var reply := Many1(PathParser, Newlines, true, input);
    if reply.Match? then
      assert forall i :: 0 <= i < |reply.value| ==> |reply.value[i]| >= 1 by {
        ManyPathsNonEmpty(input);
      }
      Ok(reply.value)
    else RunParser(reply)
  }

  lemma ManyPathsNonEmpty(input: string)
    requires Many1(PathParser, Newlines, true, input).Match?
    ensures var ps := Many1(PathParser, Newlines, true, input).value;
            |ps| >= 1 && forall i :: 0 <= i < |ps| ==> |ps[i]| >= 1
  {
    var first := PathParser(input);
    ManyRestNonEmpty([first.value], first.rest);
  }

  lemma {:induction false} ManyRestNonEmpty(acc: seq<seq<Point>>, s: string)
    requires forall i :: 0 <= i < |acc| ==> |acc[i]| >= 1
    ensures var r := ManyRest(PathParser, Newlines, true, acc, s);
            r.Match? ==> forall i :: 0 <= i < |r.value| ==> |r.value[i]| >= 1
    decreases |s|
  {
    match Newlines(s)
    case NoMatch =>
    case Failure(_) =>
    case Match(_, afterSep) =>
      match PathParser(afterSep)
      case NoMatch =>
      case Failure(_) =>
      case Match(x, rest) =>
        if |rest| < |s| {
          ManyRestNonEmpty(acc + [x], rest);
        }
  }

  function ShowPoint(p: Point): string
  {
    ShowInt(p.x) + "," + ShowInt(p.y)
  }

  function ShowPath(path: seq<Point>): string
  {
    Interleave(path, ShowPoint, " -> ")
  }

  /** Points whose coordinates are `int`s. */
  predicate ValidPoint(p: Point)
  {
    IsInt32(p.x) && IsInt32(p.y)
  }

  predicate ValidPath(path: seq<Point>)
  {
    |path| >= 1 && AllValid(path, ValidPoint)
  }

  /** What may follow the last point of a path: a line break or the end. */
  predicate PathEnd(t: string)
  {
    t == "" || t[0] == '\n'
  }

  lemma PointShown(p: Point, rest: string)
    requires ValidPoint(p)
    requires rest == "" || !IsDigit(rest[0])
    ensures PointParser(ShowPoint(p) + rest) == Match(p, rest)
  {
    var s := ShowPoint(p) + rest;
    var afterX := "," + ShowInt(p.y) + rest;
    assert s == ShowInt(p.x) + afterX;
    IntShown(p.x as Int32, afterX);
    assert afterX == "," + (ShowInt(p.y) + rest);
    LiteralShown(",", ShowInt(p.y) + rest);
    IntShown(p.y as Int32, rest);
  }

  lemma PointsReadBack()
    ensures ReadsBackWith(PointParser, Arrow, ShowPoint, ValidPoint, " -> ", PathEnd)
  {
    forall t: string | PathEnd(t)
      ensures Arrow(t) == NoMatch
    {
    }
    forall p: Point, t: string | ValidPoint(p) && PathEnd(t)
      ensures PointParser(ShowPoint(p) + t) == Match(p, t)
    {
      PointShown(p, t);
    }
    forall p: Point, t: string | ValidPoint(p)
      ensures PointParser(ShowPoint(p) + (" -> " + t)) == Match(p, " -> " + t)
    {
      PointShown(p, " -> " + t);
    }
    forall p: Point, t: string | ValidPoint(p)
      ensures Arrow(" -> " + (ShowPoint(p) + t)) == Match((), ShowPoint(p) + t)
    {
      LiteralShown(" -> ", ShowPoint(p) + t);
    }
  }

  lemma PathShown(path: seq<Point>, rest: string)
    requires ValidPath(path) && PathEnd(rest)
    ensures PathParser(ShowPath(path) + rest) == Match(path, rest)
  {
    PointsReadBack();
    ManyInterleave(PointParser, Arrow, false, ShowPoint, ValidPoint, " -> ", PathEnd, path, rest);
  }

  lemma PathsReadBack()
    ensures ReadsBackWith(PathParser, Newlines, ShowPath, ValidPath, "\n", AtEnd)
  {
    forall path: seq<Point>, t: string | ValidPath(path) && AtEnd(t)
      ensures PathParser(ShowPath(path) + t) == Match(path, t)
    {
      PathShown(path, t);
    }
    forall path: seq<Point>, t: string | ValidPath(path)
      ensures PathParser(ShowPath(path) + ("\n" + t)) == Match(path, "\n" + t)
    {
      PathShown(path, "\n" + t);
    }
    forall path: seq<Point>, t: string | ValidPath(path)
      ensures Newlines("\n" + (ShowPath(path) + t)) == Match((), ShowPath(path) + t)
    {
      NewlineBeforePath(path, t);
    }
  }

  /** A printed path starts with a digit or a sign, so a line break before
      it is a single one. */
  lemma NewlineBeforePath(path: seq<Point>, t: string)
    requires |path| >= 1
    ensures Newlines("\n" + (ShowPath(path) + t)) == Match((), ShowPath(path) + t)
  {
    var after := ShowPath(path) + t;
    var s := "\n" + after;
    PathStart(path);
    assert after[0] == ShowPath(path)[0];
    assert s[1..] == after;
    assert NewlineRun(after) == 0;
    assert NewlineRun(s) == 1 + NewlineRun(s[1..]);
  }

  lemma PathStart(path: seq<Point>)
    requires |path| >= 1
    ensures |ShowPath(path)| > 0 && ShowPath(path)[0] != '\n'
  {
    PointStart(path[0]);
    InterleaveStarts(path, ShowPoint, " -> ");
  }

  lemma PointStart(p: Point)
    ensures |ShowPoint(p)| > 0 && ShowPoint(p)[0] != '\n'
  {
    ShowIntStart(p.x);
    assert ShowPoint(p) == ShowInt(p.x) + ("," + ShowInt(p.y));
  }

  lemma InterleaveStarts<T>(items: seq<T>, show: T -> string, sepText: string)
    requires |items| >= 1
    ensures |show(items[0])| <= |Interleave(items, show, sepText)|
    ensures Interleave(items, show, sepText)[..|show(items[0])|] == show(items[0])
  {
  }

  /** Paths printed one per line are read back as themselves. */
  lemma ParseShowPaths(paths: seq<seq<Point>>)
    requires |paths| >= 1 && AllValid(paths, ValidPath)
    ensures ParsePaths(Interleave(paths, ShowPath, "\n")) == Ok(paths)
  {
    PathsReadBack();
    ManyInterleaveAll(PathParser, Newlines, true, ShowPath, ValidPath, "\n", paths);
  }

  // ---------------------------------------------------------------------
  // From paths to rock cells.

  /** The cells from `a` towards `b`, `b` itself left out. A path whose two
      ends share their column runs along the column; any other is walked
      along the row of `a`, however far `b` is above or below it. */
  function Segment(a: Point, b: Point): (r: seq<Point>)
  {
    if a.x == b.x then
      var direction := if a.y < b.y then 1 else -1;
      seq(Abs(a.y - b.y), i => Point(a.x, a.y + i * direction))
    else
      var direction := if a.x < b.x then 1 else -1;
      seq(Abs(a.x - b.x), i => Point(a.x + i * direction, a.y))
  }

  /** `p` lies on the straight line from `a` to `b`, ends included, for
      ends sharing a column or a row. */
  predicate OnLine(a: Point, b: Point, p: Point)
  {
    || (a.x == b.x && p.x == a.x && Min2(a.y, b.y) <= p.y <= Max2(a.y, b.y))
    || (a.y == b.y && p.y == a.y && Min2(a.x, b.x) <= p.x <= Max2(a.x, b.x))
  }

  /** A segment and its far end cover exactly the straight line between
      the two ends. */
  lemma SegmentCovers(a: Point, b: Point, p: Point)
    requires a.x == b.x || a.y == b.y
    ensures p in Segment(a, b) + [b] <==> OnLine(a, b, p)
  {
    var s := Segment(a, b);
    if a.x == b.x {
      var direction := if a.y < b.y then 1 else -1;
      if OnLine(a, b, p) && p != b {
        var i := if a.y < b.y then p.y - a.y else a.y - p.y;
        assert s[i] == p;
      }
    } else {
      var direction := if a.x < b.x then 1 else -1;
      if OnLine(a, b, p) && p != b {
        var i := if a.x < b.x then p.x - a.x else a.x - p.x;
        assert s[i] == p;
      }
    }
  }

  /** The cells of the first segments, for every pair of consecutive
      points. */
  function Segments(path: seq<Point>): (r: seq<Point>)
  {
    if |path| < 2 then [] else Segment(path[0], path[1]) + Segments(path[1..])
  }

  /** One path's rock: its segments and its last point. */
  function Expand(path: seq<Point>): (r: seq<Point>)
    requires |path| >= 1
  {
    Segments(path) + [Last(path)]
  }

  /** Every segment of the path runs along a column or a row. */
  predicate Straight(path: seq<Point>)
  {
    forall i :: 0 <= i < |path| - 1 ==> path[i].x == path[i + 1].x || path[i].y == path[i + 1].y
  }

  /** `p` is on one of the path's lines. */
  predicate OnPath(path: seq<Point>, p: Point)
  {
    exists i :: 0 <= i < |path| - 1 && OnLine(path[i], path[i + 1], p)
  }

  /** For a path of straight lines the rock is exactly the cells on the
      lines (or the single point of a one-point path). */
  lemma {:induction false} ExpandCovers(path: seq<Point>, p: Point)
    requires |path| >= 1 && Straight(path)
    ensures p in Expand(path) <==> OnPath(path, p) || (|path| == 1 && p == path[0])
  {
    if |path| >= 2 {
      var tail := path[1..];
      forall i | 0 <= i < |tail| - 1
        ensures tail[i].x == tail[i + 1].x || tail[i].y == tail[i + 1].y
      {
        assert tail[i] == path[i + 1] && tail[i + 1] == path[i + 2];
      }
      ExpandCovers(tail, p);
      SegmentCovers(path[0], path[1], p);
      assert Expand(path) == Segment(path[0], path[1]) + Expand(tail);
      if OnPath(tail, p) {
        var i :| 0 <= i < |tail| - 1 && OnLine(tail[i], tail[i + 1], p);
        assert OnLine(path[i + 1], path[i + 2], p);
      }
      if OnPath(path, p) {
        var i :| 0 <= i < |path| - 1 && OnLine(path[i], path[i + 1], p);
        if i > 0 {
          assert OnLine(tail[i - 1], tail[i], p);
        }
      }
      if |tail| == 1 && p == tail[0] {
        assert p == path[1];
        assert OnLine(path[0], path[1], p);
      }
      if p in Segment(path[0], path[1]) {
        assert OnLine(path[0], path[1], p);
      }
      if p == path[1] {
        assert OnLine(path[0], path[1], p);
      }
    }
  }

  /** `SelectMany` over the paths. */
  function Rocks(paths: seq<seq<Point>>): (r: seq<Point>)
    requires forall i :: 0 <= i < |paths| ==> |paths[i]| >= 1
  {
    if |paths| == 0 then [] else Expand(paths[0]) + Rocks(paths[1..])
  }

  /** Every path's last point is rock, so there is rock whenever there is a
      path. */
  lemma {:induction false} RocksHoldEnds(paths: seq<seq<Point>>)
    requires forall i :: 0 <= i < |paths| ==> |paths[i]| >= 1
    ensures forall i :: 0 <= i < |paths| ==> Last(paths[i]) in Rocks(paths)
  {
    if |paths| > 0 {
      var tail := paths[1..];
      RocksHoldEnds(tail);
      assert Rocks(paths) == Expand(paths[0]) + Rocks(tail);
      forall i | 0 <= i < |paths|
        ensures Last(paths[i]) in Rocks(paths)
      {
        if i > 0 {
          assert paths[i] == tail[i - 1];
        }
      }
    }
  }

  function Last(path: seq<Point>): Point
    requires |path| >= 1
  {
    path[|path| - 1]
  }

  /** `ParseInput`: the rock cells, in path order. */
  function ParseInput(input: string): (r: Result<seq<Point>>)
    ensures r.Ok? ==> |r.value| >= 1
  {
    match ParsePaths(input)
    case Err(e) => Err(e)
    case Ok(paths) =>
      RocksHoldEnds(paths);
      Ok(Rocks(paths))
  }

  /** The rock cells as a set: the `HashSet` the pour starts from. */
  function RockSet(rocks: seq<Point>): (r: set<Point>)
    ensures forall p :: p in r <==> p in rocks
  {
    set p | p in rocks
  }

  /** The lowest rock's row: `rocks.Select(r => r.Y).Max()`. */
  function Lowest(rocks: seq<Point>): (m: int)
    requires |rocks| >= 1
    ensures forall i :: 0 <= i < |rocks| ==> rocks[i].y <= m
    ensures exists i :: 0 <= i < |rocks| && rocks[i].y == m
  {
    var ys := Map(rocks, (p: Point) => p.y);
    assert forall i :: 0 <= i < |rocks| ==> ys[i] == rocks[i].y;
    Max(ys)
  }

  // ---------------------------------------------------------------------
  // The fall of one grain.

  function Below(p: Point): Point { Point(p.x, p.y + 1) }
  function BelowLeft(p: Point): Point { Point(p.x - 1, p.y + 1) }
  function BelowRight(p: Point): Point { Point(p.x + 1, p.y + 1) }

  /** The fall rule: straight down if free, else down-left if free, else
      down-right if free; `None` when the grain comes to rest. A grain only
      moves into a free cell one row lower and at most one column aside,
      preferring down to down-left and both to down-right, and rests
      exactly when all three cells below are taken. */
  function Next(occupied: set<Point>, p: Point): (r: Option<Point>)
    ensures r.Some? ==> r.value !in occupied && r.value.y == p.y + 1 && Abs(r.value.x - p.x) <= 1
    ensures r.None? <==> Below(p) in occupied && BelowLeft(p) in occupied && BelowRight(p) in occupied
    ensures r == Some(BelowLeft(p)) ==> Below(p) in occupied
    ensures r == Some(BelowRight(p)) ==> Below(p) in occupied && BelowLeft(p) in occupied
  {
    if Below(p) !in occupied then Some(Below(p))
    else if BelowLeft(p) !in occupied then Some(BelowLeft(p))
    else if BelowRight(p) !in occupied then Some(BelowRight(p))
    else None
  }

  /** The cone below the source a grain can reach: no further aside than
      down. */
  predicate InCone(p: Point)
  {
    0 <= p.y && Abs(p.x - Source.x) <= p.y
  }

  /** Where a grain at `p` ends in part one: the first cell where it rests,
      or the first cell below the lowest rock. */
  function SettleAbyss(occupied: set<Point>, p: Point, lowest: int): (q: Point)
    requires InCone(p)
    ensures InCone(q) && q.y >= p.y
    ensures p.y <= lowest + 1 ==> q.y <= lowest + 1
    ensures q.y <= lowest ==> Next(occupied, q).None?
    ensures q.y > lowest ==> q.y == Max2(p.y, lowest + 1)
    ensures q != p ==> q !in occupied
    decreases lowest + 1 - p.y
  {
    if p.y > lowest then p
    else
      match Next(occupied, p)
      case None => p
      case Some(n) =>
        SettleAbyss(occupied, n, lowest)
  }

  /** Where a grain at `p` ends in part two: the first cell where it rests,
      the row just above the floor included. */
  function SettleFloor(occupied: set<Point>, p: Point, floor: int): (q: Point)
    requires InCone(p) && p.y <= floor - 1
    ensures InCone(q) && p.y <= q.y <= floor - 1
    ensures q.y == floor - 1 || Next(occupied, q).None?
    ensures q != p ==> q !in occupied
    decreases floor - 1 - p.y
  {
    if p.y == floor - 1 then p
    else
      match Next(occupied, p)
      case None => p
      case Some(n) =>
        SettleFloor(occupied, n, floor)
  }

  /** A grain above the lowest rock that can still move ends where the
      grain one step further on ends. */
  lemma SettleAbyssStep(occupied: set<Point>, p: Point, n: Point, lowest: int)
    requires InCone(p) && p.y <= lowest && Next(occupied, p) == Some(n)
    ensures InCone(n) && n.y == p.y + 1
    ensures SettleAbyss(occupied, p, lowest) == SettleAbyss(occupied, n, lowest)
  {
  }

  /** A grain above the floor that can still move ends where the grain
      one step further on ends. */
  lemma SettleFloorStep(occupied: set<Point>, p: Point, n: Point, floor: int)
    requires InCone(p) && p.y < floor - 1 && Next(occupied, p) == Some(n)
    ensures InCone(n) && n.y == p.y + 1
    ensures SettleFloor(occupied, p, floor) == SettleFloor(occupied, n, floor)
  {
  }

  /** A grain below the lowest rock, or one that cannot move, stays. */
  lemma SettleAbyssRests(occupied: set<Point>, p: Point, lowest: int)
    requires InCone(p) && (p.y > lowest || Next(occupied, p).None?)
    ensures SettleAbyss(occupied, p, lowest) == p
  {
  }

  // ---------------------------------------------------------------------
  // Pouring.

  /** The cells of the cone down to row `bottom`: every cell a grain can
      rest in. */
  function Cone(bottom: int): set<Point>
  {
    set x: int, y: int | 0 <= y <= bottom && Source.x - y <= x <= Source.x + y :: Point(x, y)
  }

  lemma InConeBelow(p: Point, bottom: int)
    requires InCone(p) && p.y <= bottom
    ensures p in Cone(bottom)
  {
    assert p == Point(p.x, p.y);
  }

  /** Resting one more grain in a free cell of the cone leaves one free
      cell fewer. */
  lemma FreeShrinks(occupied: set<Point>, q: Point, bottom: int)
    requires q in Cone(bottom) && q !in occupied
    ensures |Cone(bottom) - (occupied + {q})| < |Cone(bottom) - occupied|
  {
    assert Cone(bottom) - occupied == (Cone(bottom) - (occupied + {q})) + {q};
  }

  /** How pouring ends: the grains that came to rest and the cells taken
      then. */
  datatype Outcome = Outcome(units: nat, occupied: set<Point>)

  /** Adds the grain that came to rest before the rest of the pour. */
  function OneMore(r: Result<Outcome>): Result<Outcome>
  {
    match r
    case Err(e) => Err(e)
    case Ok(o) => Ok(Outcome(o.units + 1, o.occupied))
  }

  /** The message for a pour that would go on for ever. */
  const Endless := "the loop never ends"

  /** Part one from the cells taken so far. A grain that rests at the
      source while the source is already taken leaves everything as it
      was, so every later grain does the same and the loop never ends. */
  function PourAbyss(occupied: set<Point>, lowest: int): (r: Result<Outcome>)
    ensures r.Ok? ==> occupied <= r.value.occupied
    ensures r.Ok? ==> |r.value.occupied| == |occupied| + r.value.units
    ensures r.Ok? ==> SettleAbyss(r.value.occupied, Source, lowest).y > lowest
    ensures r.Err? ==> r.error == Endless
    decreases |Cone(lowest) - occupied|
  {
    var q := SettleAbyss(occupied, Source, lowest);
    if q.y > lowest then Ok(Outcome(0, occupied))
    else if q in occupied then Err(Endless)
    else
      InConeBelow(q, lowest);
      FreeShrinks(occupied, q, lowest);
      var r := PourAbyss(occupied + {q}, lowest);
      OneMore(r)
  }

  /** Part two from the cells taken so far, with the floor at row `floor`.
      With the floor above the source nothing stops a grain, which falls
      for ever. */
  function PourFloor(occupied: set<Point>, floor: int): (r: Result<Outcome>)
    ensures r.Ok? ==> occupied <= r.value.occupied
    ensures r.Ok? ==> |r.value.occupied| == |occupied| + r.value.units
    ensures r.Ok? ==> Source in r.value.occupied
    ensures r.Err? <==> Source !in occupied && floor < 1
    decreases |Cone(floor - 1) - occupied|
  {
    if Source in occupied then Ok(Outcome(0, occupied))
    else if floor < 1 then Err(Endless)
    else
      var q := SettleFloor(occupied, Source, floor);
      InConeBelow(q, floor - 1);
      FreeShrinks(occupied, q, floor - 1);
      OneMore(PourFloor(occupied + {q}, floor))
  }

  /** One grain of part two: it rests on a free cell of the cone, and the
      pour goes on from there. */
  lemma PourFloorStep(occupied: set<Point>, floor: int)
    requires Source !in occupied && floor >= 1
    ensures var q := SettleFloor(occupied, Source, floor);
            && |Cone(floor - 1) - (occupied + {q})| < |Cone(floor - 1) - occupied|
            && PourFloor(occupied, floor) == OneMore(PourFloor(occupied + {q}, floor))
  {
    var q := SettleFloor(occupied, Source, floor);
    InConeBelow(q, floor - 1);
    FreeShrinks(occupied, q, floor - 1);
  }

  /** The loop of part two fails as soon as it finds the floor above the
      source. */
  lemma PourFloorEndless(occupied: set<Point>, floor: int, units: nat)
    requires Source !in occupied && floor < 1
    ensures OneMoreTimes(PourFloor(occupied, floor), units).Err?
  {
  }

  /** One more grain of part two, as the loop counts it. */
  lemma PourFloorMore(occupied: set<Point>, floor: int, units: nat)
    requires Source !in occupied && floor >= 1
    ensures var q := SettleFloor(occupied, Source, floor);
            && |Cone(floor - 1) - (occupied + {q})| < |Cone(floor - 1) - occupied|
            && OneMoreTimes(PourFloor(occupied + {q}, floor), units + 1) == OneMoreTimes(PourFloor(occupied, floor), units)
  {
    var q := SettleFloor(occupied, Source, floor);
    PourFloorStep(occupied, floor);
    OneMoreShift(PourFloor(occupied + {q}, floor), units);
  }

  /** With the source covered, the pour is over. */
  lemma PourFloorDone(occupied: set<Point>, floor: int, units: nat)
    requires Source in occupied
    ensures PourFloor(occupied, floor) == Ok(Outcome(0, occupied))
    ensures OneMoreTimes(PourFloor(occupied, floor), units) == Ok(Outcome(units, occupied))
  {
  }

  /** The grains a full pour counts all rest in the cone, on cells no
      rock took. */
  lemma {:induction false} PourFloorInCone(occupied: set<Point>, floor: int)
    requires PourFloor(occupied, floor).Ok?
    ensures PourFloor(occupied, floor).value.occupied - occupied <= Cone(floor - 1)
    decreases |Cone(floor - 1) - occupied|
  {
    if Source !in occupied {
      var q := SettleFloor(occupied, Source, floor);
      PourFloorStep(occupied, floor);
      PourFloorInCone(occupied + {q}, floor);
      InConeBelow(q, floor - 1);
    }
  }

  // ---------------------------------------------------------------------
  // The two parts.

  /** The fall of one grain in part one, as the inner loop takes it. */
  method DropAbyss(occupied: set<Point>, lowest: int) returns (position: Point)
    ensures position == SettleAbyss(occupied, Source, lowest)
  {
    ghost var target := SettleAbyss(occupied, Source, lowest);
    position := Source;
    while true
      invariant InCone(position)
      invariant SettleAbyss(occupied, position, lowest) == target
      decreases lowest + 1 - position.y
    {
      if position.y > lowest {
        SettleAbyssRests(occupied, position, lowest);
        return;
      }
      var nextBelow := Point(position.x, position.y + 1);
      if nextBelow !in occupied {
        SettleAbyssStep(occupied, position, nextBelow, lowest);
        position := nextBelow;
        continue;
      }
      var nextBelowLeft := Point(position.x - 1, position.y + 1);
      if nextBelowLeft !in occupied {
        SettleAbyssStep(occupied, position, nextBelowLeft, lowest);
        position := nextBelowLeft;
        continue;
      }
      var nextBelowRight := Point(position.x + 1, position.y + 1);
      if nextBelowRight !in occupied {
        SettleAbyssStep(occupied, position, nextBelowRight, lowest);
        position := nextBelowRight;
        continue;
      }
      SettleAbyssRests(occupied, position, lowest);
      return;
    }
  }

  /** The outer loop of part one: grains rest until one falls below the
      lowest rock; that grain is not counted. */
  method RunAbyss(rocks: set<Point>, lowest: int) returns (r: Result<nat>)
    ensures var pour := PourAbyss(rocks, lowest);
            (r.Ok? <==> pour.Ok?) && (r.Ok? ==> r.value == pour.value.units)
  {
    var occupied := rocks;
    var units := 0;
    while true
      invariant OneMoreTimes(PourAbyss(occupied, lowest), units) == PourAbyss(rocks, lowest)
      decreases |Cone(lowest) - occupied|
    {
      var position := DropAbyss(occupied, lowest);
      if position.y > lowest {
        return Ok(units);
      }
      if position in occupied {
        return Err(Endless);
      }
      InConeBelow(position, lowest);
      FreeShrinks(occupied, position, lowest);
      OneMoreShift(PourAbyss(occupied + {position}, lowest), units);
      occupied := occupied + {position};
      units := units + 1;
    }
  }

  /** `CalculateTaskOne`: part one's count of resting grains. */
  method TaskOne(source: string) returns (r: Result<nat>)
    ensures ParseInput(source).Err? ==> r.Err?
    ensures ParseInput(source).Ok? ==>
      var rocks := ParseInput(source).value;
      var pour := PourAbyss(RockSet(rocks), Lowest(rocks));
      (r.Ok? <==> pour.Ok?) && (r.Ok? ==> r.value == pour.value.units)
  {
    var parsed := ParseInput(source);
    if parsed.Err? {
      return Err(parsed.error);
    }
    r := RunAbyss(RockSet(parsed.value), Lowest(parsed.value));
  }

  /** `units` grains counted before the rest of the pour. */
  function OneMoreTimes(r: Result<Outcome>, units: nat): Result<Outcome>
  {
    match r
    case Err(e) => Err(e)
    case Ok(o) => Ok(Outcome(o.units + units, o.occupied))
  }

  lemma OneMoreShift(r: Result<Outcome>, units: nat)
    ensures OneMoreTimes(OneMore(r), units) == OneMoreTimes(r, units + 1)
  {
  }

  /** The fall of one grain in part two, as the inner loop takes it. */
  method DropFloor(occupied: set<Point>, floor: int) returns (position: Point)
    requires floor >= 1
    ensures position == SettleFloor(occupied, Source, floor)
  {
    position := Source;
    while true
      invariant InCone(position) && position.y <= floor - 1
      invariant SettleFloor(occupied, position, floor) == SettleFloor(occupied, Source, floor)
      decreases floor - 1 - position.y
    {
      if position.y == floor - 1 {
        return;
      }
      var nextBelow := Point(position.x, position.y + 1);
      if nextBelow !in occupied {
        SettleFloorStep(occupied, position, nextBelow, floor);
        position := nextBelow;
        continue;
      }
      var nextBelowLeft := Point(position.x - 1, position.y + 1);
      if nextBelowLeft !in occupied {
        SettleFloorStep(occupied, position, nextBelowLeft, floor);
        position := nextBelowLeft;
        continue;
      }
      var nextBelowRight := Point(position.x + 1, position.y + 1);
      if nextBelowRight !in occupied {
        SettleFloorStep(occupied, position, nextBelowRight, floor);
        position := nextBelowRight;
        continue;
      }
      return;
    }
  }

  /** The outer loop of part two: grains rest until the source is
      covered. */
  method RunFloor(rocks: set<Point>, floor: int) returns (r: Result<nat>)
    ensures var pour := PourFloor(rocks, floor);
            (r.Ok? <==> pour.Ok?) && (r.Ok? ==> r.value == pour.value.units)
  {
    ghost var pour := PourFloor(rocks, floor);
    var occupied := rocks;
    var units := 0;
    while Source !in occupied
      invariant OneMoreTimes(PourFloor(occupied, floor), units) == pour
      decreases |Cone(floor - 1) - occupied|
    {
      if floor < 1 {
        PourFloorEndless(occupied, floor, units);
        return Err(Endless);
      }
      var position := DropFloor(occupied, floor);
      PourFloorMore(occupied, floor, units);
      occupied := occupied + {position};
      units := units + 1;
    }
    PourFloorDone(occupied, floor, units);
    assert pour == Ok(Outcome(units, occupied));
    return Ok(units);
  }

  /** `CalculateTaskTwo`: the floor lies two rows below the lowest rock;
      part two's count of resting grains. */
  method TaskTwo(source: string) returns (r: Result<nat>)
    ensures ParseInput(source).Err? ==> r.Err?
    ensures ParseInput(source).Ok? ==>
      var rocks := ParseInput(source).value;
      var pour := PourFloor(RockSet(rocks), Lowest(rocks) + 2);
      (r.Ok? <==> pour.Ok?) && (r.Ok? ==> r.value == pour.value.units)
  {
    var parsed := ParseInput(source);
    if parsed.Err? {
      return Err(parsed.error);
    }
    r := RunFloor(RockSet(parsed.value), Lowest(parsed.value) + 2);
  }
}

=== FILE: day15.dfy ===
/** Day 15 (newer tree): sensors and beacons. Each sensor knows the beacon
    closest to it in Manhattan distance, so no other beacon lies within
    that distance. Part one counts the positions on row `y` where a beacon
    cannot be; part two finds the one position in the square
    `[0, limit]²` that no sensor covers and reports its tuning frequency.

    The sensors are taken as parsed. The parallel loops of the source are
    modelled one row (part two) or one offset (part one) at a time. */
module Day15 {
  import opened Common

  datatype Point = Point(x: int, y: int)

  /** A sensor and the beacon closest to it. */
  datatype Sensor = Sensor(position: Point, closest: Point)

  /** The columns `from..to` of one row, both included. */
  datatype Pair = Pair(from: int, to: int)

  /** `Point.DistanceTo`: the Manhattan distance. */
  function Distance(a: Point, b: Point): nat
  {
    Abs(a.x - b.x) + Abs(a.y - b.y)
  }

  /** A metric: symmetric, zero exactly between equal points, and obeying
      the triangle inequality. */
  lemma DistanceMetric(a: Point, b: Point, c: Point)
    ensures Distance(a, b) == Distance(b, a)
    ensures Distance(a, b) == 0 <==> a == b
    ensures Distance(a, c) <= Distance(a, b) + Distance(b, c)
  {
  }

  /** `Sensor.Distance`: how far the sensor sees, the distance to its
      closest beacon. */
  function Radius(s: Sensor): nat
  {
    Distance(s.position, s.closest)
  }

  /** `IsCloseToAny`: some sensor is at least as close to `p` as to its
      own beacon. */
  function IsCloseToAny(p: Point, sensors: seq<Sensor>): (r: bool)
    ensures r <==> exists i :: 0 <= i < |sensors| && Distance(sensors[i].position, p) <= Radius(sensors[i])
  {
    if |sensors| == 0 then false
    else if Distance(sensors[0].position, p) <= Radius(sensors[0]) then true
    else
      assert forall i :: 1 <= i < |sensors| ==> sensors[i] == sensors[1..][i - 1];
      IsCloseToAny(p, sensors[1..])
  }

  /** `IsFarFromAny`: every sensor is closer to its own beacon than to
      `p`. */
  function IsFarFromAny(p: Point, sensors: seq<Sensor>): (r: bool)
    ensures r <==> forall i :: 0 <= i < |sensors| ==> Distance(sensors[i].position, p) > Radius(sensors[i])
  {
    if |sensors| == 0 then true
    else if Distance(sensors[0].position, p) > Radius(sensors[0]) then
      assert forall i :: 1 <= i < |sensors| ==> sensors[i] == sensors[1..][i - 1];
      IsFarFromAny(p, sensors[1..])
    else false
  }

  /** The two predicates are each other's negation. */
  lemma FarIffNotClose(p: Point, sensors: seq<Sensor>)
    ensures IsFarFromAny(p, sensors) <==> !IsCloseToAny(p, sensors)
  {
  }

  /** Every sensor's own beacon is close to it. */
  lemma BeaconsAreClose(sensors: seq<Sensor>, i: int)
    requires 0 <= i < |sensors|
    ensures IsCloseToAny(sensors[i].closest, sensors)
  {
  }

  // ---------------------------------------------------------------------
  // Part one.

  function Beacons(sensors: seq<Sensor>): (r: set<Point>)
    ensures forall p :: p in r <==> exists i :: 0 <= i < |sensors| && sensors[i].closest == p
  {
    set i | 0 <= i < |sensors| :: sensors[i].closest
  }

  /** `maxCoords`: ten times the largest coordinate of any sensor or
      beacon. */
  function Reach(sensors: seq<Sensor>): int
    requires |sensors| > 0
  {
    var xs := seq(|sensors|, i requires 0 <= i < |sensors| => sensors[i].position.x);
    var ys := seq(|sensors|, i requires 0 <= i < |sensors| => sensors[i].position.y);
    var bxs := seq(|sensors|, i requires 0 <= i < |sensors| => sensors[i].closest.x);
    var bys := seq(|sensors|, i requires 0 <= i < |sensors| => sensors[i].closest.y);
    Max([Max(xs), Max(ys), Max(bxs), Max(bys)]) * 10
  }

  /** Whether part one adds `p` to its bag: not a known beacon, and close
      to some sensor. */
  predicate Counted(p: Point, sensors: seq<Sensor>)
  {
    p !in Beacons(sensors) && IsCloseToAny(p, sensors)
  }

  /** What looking at one point adds to a bag kept by `keep`. */
  function Look(p: Point, keep: Point -> bool): (r: seq<Point>)
    ensures keep(p) ==> r == [p]
    ensures !keep(p) ==> r == []
  {
    if keep(p) then [p] else []
  }

  /** What the iterations `i = 0 .. n-1` add to the bag, each looking at
      `(i, y)` and then `(-i, y)`. At `i = 0` both are the same point. */
  function Bag(y: int, keep: Point -> bool, n: nat): (r: seq<Point>)
    ensures forall k :: 0 <= k < |r| ==> keep(r[k]) && r[k].y == y
    ensures forall k :: 0 <= k < |r| ==> -(n as int) < r[k].x < n
    ensures |r| <= 2 * n
  {
    if n == 0 then []
    else
      var i := n - 1;
      Bag(y, keep, i) + Look(Point(i, y), keep) + Look(Point(-i, y), keep)
  }

  /** Every kept point of the row within `n` of the origin is in the bag. */
  lemma {:induction false} BagComplete(y: int, keep: Point -> bool, n: nat, x: int)
    requires -(n as int) < x < n && keep(Point(x, y))
    ensures Point(x, y) in Bag(y, keep, n)
  {
    var i := n - 1;
    var before := Bag(y, keep, i);
    var here := Look(Point(i, y), keep);
    var there := Look(Point(-i, y), keep);
    assert Bag(y, keep, n) == before + here + there;
    if x == i {
      assert (before + here + there)[|before|] == Point(x, y);
    } else if x == -i {
      assert (before + here + there)[|before| + |here|] == Point(x, y);
    } else {
      BagComplete(y, keep, i, x);
      var k :| 0 <= k < |before| && before[k] == Point(x, y);
      assert (before + here + there)[k] == Point(x, y);
    }
  }

  /** The bag holds `(0, y)` twice when it is kept at all. */
  lemma {:induction false} OriginTwice(y: int, keep: Point -> bool, n: nat)
    requires n > 0 && keep(Point(0, y))
    ensures multiset(Bag(y, keep, n))[Point(0, y)] >= 2
  {
    var i := n - 1;
    var before := Bag(y, keep, i);
    var added := Look(Point(i, y), keep) + Look(Point(-i, y), keep);
    assert Bag(y, keep, n) == before + added;
    assert multiset(Bag(y, keep, n)) == multiset(before) + multiset(added);
    if n > 1 {
      OriginTwice(y, keep, i);
    }
  }

  /** A bag with one entry per position: `(-i, y)` is looked at only when it
      differs from `(i, y)`. */
  function Positions(y: int, keep: Point -> bool, n: nat): (r: seq<Point>)
    ensures forall k :: 0 <= k < |r| ==> keep(r[k]) && r[k].y == y && -(n as int) < r[k].x < n
    ensures NoRepeats(r)
  {
    if n == 0 then []
    else
      var i := n - 1;
      var before := Positions(y, keep, i);
      var added := Look(Point(i, y), keep) + (if i == 0 then [] else Look(Point(-i, y), keep));
      FreshRing(before, added, i);
      before + added
  }

  /** Appending points of the ring `|x| == i` to points strictly inside it
      keeps every point once. */
  lemma FreshRing(before: seq<Point>, added: seq<Point>, i: nat)
    requires NoRepeats(before) && forall k :: 0 <= k < |before| ==> -(i as int) < before[k].x < i
    requires |added| <= 2 && forall k :: 0 <= k < |added| ==> added[k].x == i || added[k].x == -(i as int)
    requires |added| == 2 ==> added[0] != added[1]
    ensures NoRepeats(before + added)
  {
    var r := before + added;
    forall a, b | 0 <= a < b < |r|
      ensures r[a] != r[b]
    {
      if b >= |before| && a < |before| {
        assert r[b] == added[b - |before|];
      }
    }
  }

  /** The bag without the doubled origin: its points are those of the bag,
      each once, and the bag is exactly one longer when the origin is
      kept. */
  lemma {:induction false} PositionsOfBag(y: int, keep: Point -> bool, n: nat)
    ensures forall p :: p in Positions(y, keep, n) <==> p in Bag(y, keep, n)
    ensures |Bag(y, keep, n)| == |Positions(y, keep, n)| + (if n > 0 && keep(Point(0, y)) then 1 else 0)
  {
    if n > 0 {
      PositionsOfBag(y, keep, n - 1);
    }
  }

  /** How many offsets `Parallel.For(0, maxCoords)` runs. */
  function Offsets(sensors: seq<Sensor>): nat
    requires |sensors| > 0
  {
    var n := Reach(sensors);
    if n < 0 then 0 else n
  }

  /** Part one's filter. */
  function Kept(sensors: seq<Sensor>): Point -> bool
  {
    p => Counted(p, sensors)
  }

  /** `CalculateTaskOne`: the size of the bag, whose points are all close
      to a sensor and none a beacon; with no sensors `Max` fails. */
  function PartOne(y: int, sensors: seq<Sensor>): (r: Result<nat>)
    ensures r.Err? <==> |sensors| == 0
    ensures r.Ok? ==> r.value <= 2 * Offsets(sensors)
    ensures r.Ok? ==> forall p :: p in Bag(y, Kept(sensors), Offsets(sensors)) ==>
      p !in Beacons(sensors) && IsCloseToAny(p, sensors)
  {
    if |sensors| == 0 then Err("Sequence contains no elements")
    else Ok(|Bag(y, Kept(sensors), Offsets(sensors))|)
  }

  /** `CalculateTaskOne` counting each position once: the number of
      distinct points in the bag. */
  function PartOneCorrected(y: int, sensors: seq<Sensor>): (r: Result<nat>)
    ensures r.Err? <==> |sensors| == 0
    ensures r.Ok? ==> r.value == |set p | p in Bag(y, Kept(sensors), Offsets(sensors))|
  {
    if |sensors| == 0 then Err("Sequence contains no elements")
    else
      DistinctPositions(y, Kept(sensors), Offsets(sensors));
      Ok(|Positions(y, Kept(sensors), Offsets(sensors))|)
  }

  /** The once-per-position bag is as long as the bag has distinct
      points. */
  lemma DistinctPositions(y: int, keep: Point -> bool, n: nat)
    ensures |Positions(y, keep, n)| == |set p | p in Bag(y, keep, n)|
  {
    var positions := Positions(y, keep, n);
    NoRepeatsCardinality(positions);
    PositionsOfBag(y, keep, n);
    assert (set p | p in positions) == set p | p in Bag(y, keep, n);
  }

  /** The source's count differs from the corrected one exactly by the
      doubled origin. */
  lemma PartOneOffByOne(y: int, sensors: seq<Sensor>)
    requires |sensors| > 0 && Offsets(sensors) > 0
    ensures PartOne(y, sensors).value == PartOneCorrected(y, sensors).value + (if Counted(Point(0, y), sensors) then 1 else 0)
  {
    PositionsOfBag(y, Kept(sensors), Offsets(sensors));
  }

  // ---------------------------------------------------------------------
  // Part two: one row.

  /** The columns of row `y` within `[0, limit]` that a sensor covers, or
      nothing when the row is beyond its reach. */
  function RowRange(s: Sensor, y: int, limit: int): Option<Pair>
  {
    var height := Abs(s.position.y - y);
    if height > Radius(s) then None
    else
      var horizontal := Radius(s) - height;
      Some(Pair(Max2(s.position.x - horizontal, 0), Min2(s.position.x + horizontal, limit)))
  }

  predicate InPair(x: int, p: Pair)
  {
    p.from <= x <= p.to
  }

  /** A column in `[0, limit]` is in the sensor's range exactly when the
      sensor is at least as close to it as to its beacon. */
  lemma RowRangeCovers(s: Sensor, y: int, limit: int, x: int)
    requires 0 <= x <= limit
    ensures RowRange(s, y, limit).Some? && InPair(x, RowRange(s, y, limit).value)
      <==> Distance(s.position, Point(x, y)) <= Radius(s)
  {
  }

  /** The ranges of all sensors that reach row `y`, in sensor order. */
  function RowRanges(sensors: seq<Sensor>, y: int, limit: int): (r: seq<Pair>)
    ensures forall p :: p in r ==> exists i :: 0 <= i < |sensors| && RowRange(sensors[i], y, limit) == Some(p)
    ensures forall i :: 0 <= i < |sensors| && RowRange(sensors[i], y, limit).Some? ==> RowRange(sensors[i], y, limit).value in r
  {
    if |sensors| == 0 then []
    else
      var rest := RowRanges(sensors[1..], y, limit);
      assert forall i :: 1 <= i < |sensors| ==> sensors[i] == sensors[1..][i - 1];
      match RowRange(sensors[0], y, limit)
      case None => rest
      case Some(p) => [p] + rest
  }

  /** Some range holds column `x`. */
  predicate Covers(ranges: seq<Pair>, x: int)
  {
    exists p :: p in ranges && InPair(x, p)
  }

  /** Within `[0, limit]`, the ranges of a row cover exactly the columns
      close to some sensor. */
  lemma RowRangesCover(sensors: seq<Sensor>, y: int, limit: int, x: int)
    requires 0 <= x <= limit
    ensures Covers(RowRanges(sensors, y, limit), x) <==> IsCloseToAny(Point(x, y), sensors)
  {
    var ranges := RowRanges(sensors, y, limit);
    if Covers(ranges, x) {
      var p :| p in ranges && InPair(x, p);
      var i :| 0 <= i < |sensors| && RowRange(sensors[i], y, limit) == Some(p);
      RowRangeCovers(sensors[i], y, limit, x);
    }
    if IsCloseToAny(Point(x, y), sensors) {
      var i :| 0 <= i < |sensors| && Distance(sensors[i].position, Point(x, y)) <= Radius(sensors[i]);
      RowRangeCovers(sensors[i], y, limit, x);
      assert RowRange(sensors[i], y, limit).value in ranges;
    }
  }

  function From(p: Pair): int
  {
    p.from
  }

  /** The `while (x <= limit)` loop over the ranges ordered by `From`: `x`
      jumps past the first range while it is inside it, and the first range
      is dropped otherwise; running out of ranges reports `x`. It finds the
      least column of `[0, limit]` that no range covers. */
  method Sweep(ranges: seq<Pair>, limit: int) returns (found: bool, x: int)
    requires SortedBy(ranges, From)
    ensures found ==> 0 <= x <= limit && !Covers(ranges, x)
    ensures found ==> forall c :: 0 <= c < x ==> Covers(ranges, c)
    ensures !found ==> forall c :: 0 <= c <= limit ==> Covers(ranges, c)
  {
    x := 0;
    found := false;
    var k := 0;
    while x <= limit
      invariant 0 <= k <= |ranges| && 0 <= x
      invariant forall c :: 0 <= c < x ==> Covers(ranges, c)
      invariant forall j :: 0 <= j < k ==> ranges[j].to < x || x < ranges[j].from
      invariant forall j :: 0 <= j < k && x < ranges[j].from ==> forall j2 :: k <= j2 < |ranges| ==> x < ranges[j2].from
      decreases limit + 1 - x, |ranges| - k
    {
      if k == |ranges| {
        found := true;
        return;
      }
      var range := ranges[k];
      if x >= range.from && x <= range.to {
        forall c | x <= c <= range.to
          ensures Covers(ranges, c)
        {
          assert range in ranges && InPair(c, range);
        }
        x := range.to + 1;
        continue;
      }
      k := k + 1;
    }
  }

  /** One iteration of part two's `Parallel.For`: the row's ranges, ordered
      by `From` (LINQ `OrderBy`), swept. A column is reported exactly when
      the row has one that no sensor covers, and it is the least. */
  method ScanRow(sensors: seq<Sensor>, y: int, limit: int) returns (found: bool, x: int)
    ensures found ==> 0 <= x <= limit && IsFarFromAny(Point(x, y), sensors)
    ensures found ==> forall c :: 0 <= c < x ==> IsCloseToAny(Point(c, y), sensors)
    ensures !found ==> forall c :: 0 <= c <= limit ==> IsCloseToAny(Point(c, y), sensors)
  {
    var ranges := RowRanges(sensors, y, limit);
    var sorted := SortBy(ranges, From);
    found, x := Sweep(sorted, limit);
    assert forall c :: Covers(sorted, c) <==> Covers(ranges, c) by {
      assert forall p :: p in sorted <==> p in ranges by {
        assert forall p :: p in sorted <==> p in multiset(sorted);
        assert forall p :: p in ranges <==> p in multiset(ranges);
      }
    }
    forall c | 0 <= c <= limit
      ensures Covers(sorted, c) <==> IsCloseToAny(Point(c, y), sensors)
    {
      RowRangesCover(sensors, y, limit, c);
    }
    if found {
      FarIffNotClose(Point(x, y), sensors);
    }
  }

  /** The tuning frequency of a point. */
  function Tuning(p: Point): int
  {
    p.x * 4000000 + p.y
  }

  /** The frequency gives the point back for coordinates in
      `[0, 4000000)`. */
  lemma TuningDecodes(p: Point)
    requires 0 <= p.x && 0 <= p.y < 4000000
    ensures Tuning(p) / 4000000 == p.x && Tuning(p) % 4000000 == p.y
  {
  }

  /** `CalculateTaskTwo` with the rows taken in order: the first row with an
      uncovered column gives the answer; with none, `result.Value` fails. */
  method PartTwo(sensors: seq<Sensor>, limit: int) returns (r: Result<int>)
    ensures r.Ok? <==> exists x, y :: 0 <= x <= limit && 0 <= y <= limit && IsFarFromAny(Point(x, y), sensors)
    ensures r.Ok? ==> exists x, y :: 0 <= x <= limit && 0 <= y <= limit && IsFarFromAny(Point(x, y), sensors) && r.value == Tuning(Point(x, y))
  {
    var y := 0;
    while y <= limit
      invariant 0 <= y <= Max2(limit + 1, 0)
      invariant forall c, row :: 0 <= c <= limit && 0 <= row < y ==> IsCloseToAny(Point(c, row), sensors)
    {
      var found, x := ScanRow(sensors, y, limit);
      if found {
        return Ok(Tuning(Point(x, y)));
      }
      y := y + 1;
    }
    r := Err("Nullable object must have a value.");
    forall x, row | 0 <= x <= limit && 0 <= row <= limit
      ensures !IsFarFromAny(Point(x, row), sensors)
    {
      FarIffNotClose(Point(x, row), sensors);
    }
  }
}

=== FILE: day17.dfy ===
/** Day 17 (newer tree): rocks falling into a chamber seven units wide.
    Each rock appears two units from the left wall with its bottom three
    units above the highest stored rock, is pushed sideways by the next jet
    of gas, falls one unit, and repeats until it cannot fall; its cells are
    then stored. Each column keeps only the 30 rows stored into it most
    recently, and a forgotten cell counts as free. The answer is the
    highest stored row. */
module Day17 {
  import opened Common

  datatype Direction = Left | Right

  /** A cell: row 1 is the lowest above the floor, column 0 the left wall's
      neighbour. */
  datatype Point = Point(row: int, col: int)

  const Width := 7

  /** Rows each column remembers. */
  const ListLength := 30

  /** The loop stops after this many rocks have fallen (`step > 100000`). */
  const StepCap := 100000

  /** The five shapes, in the order they fall, each with its lowest row at
      row 0 and its leftmost column at column 0. */
  const Figures: seq<seq<Point>> := [
    [Point(0, 0), Point(0, 1), Point(0, 2), Point(0, 3)],
    [Point(1, 0), Point(0, 1), Point(1, 1), Point(2, 1), Point(1, 2)],
    [Point(0, 0), Point(0, 1), Point(0, 2), Point(1, 2), Point(2, 2)],
    [Point(0, 0), Point(1, 0), Point(2, 0), Point(3, 0)],
    [Point(0, 0), Point(1, 0), Point(0, 1), Point(1, 1)]
  ]

  // ---------------------------------------------------------------------
  // The endless inputs.

  /** `ParseInput`: the trimmed text, `<` as a push to the left and any
      other character as a push to the right. */
  function ParseJets(input: string): (r: seq<Direction>)
    ensures |r| == |Trim(input)|
    ensures forall i :: 0 <= i < |r| ==> (r[i] == Left <==> Trim(input)[i] == '<')
  {
    Map(Trim(input), (ch: char) => if ch == '<' then Left else Right)
  }

  /** The `j`-th jet of the endlessly repeated pattern. */
  function JetAt(jets: seq<Direction>, j: nat): Direction
    requires |jets| > 0
  {
    jets[j % |jets|]
  }

  /** The `k`-th rock of the endlessly repeated shapes (`GetFigures`). */
  function Shape(k: nat): (r: seq<Point>)
    ensures 0 < |r| <= 5
    ensures forall i :: 0 <= i < |r| ==> 0 <= r[i].row <= 3 && 0 <= r[i].col <= 3
    ensures NoRepeats(r)
  {
    Figures[k % 5]
  }

  /** The jets and the shapes both repeat. */
  lemma Cycles(jets: seq<Direction>, j: nat, k: nat)
    requires |jets| > 0
    ensures JetAt(jets, j + |jets|) == JetAt(jets, j)
    ensures Shape(k + 5) == Shape(k)
    ensures Shape(k) == Figures[k % 5] && JetAt(jets, j) == jets[j % |jets|]
  {
    ModAddMultiple(j, |jets|, 1);
    ModAddMultiple(k, 5, 1);
  }

  /** `Take`: the items up to and including the one whose count reaches
      `count`; a count below one is never reached. */
  function Take<T>(s: seq<T>, count: int, index: nat): (r: seq<T>)
    decreases |s|
  {
    if |s| == 0 then []
    else if index + 1 == count then [s[0]]
    else [s[0]] + Take(s[1..], count, index + 1)
  }

  /** The items `Take` yields from the start: the first `count` when
      `count` is at least one, otherwise all of them. */
  lemma {:induction false} TakePrefix<T>(s: seq<T>, count: int, index: nat)
    ensures index < count ==> Take(s, count, index) == s[..Min2(count - index, |s|)]
    ensures count <= index ==> Take(s, count, index) == s
    decreases |s|
  {
    if |s| > 0 && index + 1 != count {
      TakePrefix(s[1..], count, index + 1);
      if index < count {
        assert s[..Min2(count - index, |s|)] == [s[0]] + s[1..][..Min2(count - index - 1, |s| - 1)];
      } else {
        assert s == [s[0]] + s[1..];
      }
    }
  }

  /** The rocks that fall: the loop over `Take(GetFigures(), steps)` also
      stops once `step` exceeds `StepCap`, so at most `StepCap + 1` rocks
      fall. */
  function Processed(steps: int): (n: nat)
    ensures 1 <= steps <= StepCap + 1 ==> n == steps
    ensures (steps < 1 || steps > StepCap + 1) ==> n == StepCap + 1
  {
    var stream := seq(StepCap + 1, (i: int) => i);
    TakePrefix(stream, steps, 0);
    |Take(stream, steps, 0)|
  }

  // ---------------------------------------------------------------------
  // Moving a rock.

  /** The stored rows of each column, oldest first. */
  type Columns = c: seq<seq<int>> | |c| == Width witness [[], [], [], [], [], [], []]

  /** `CheckCondition`: inside the walls, above the floor, and not a
      remembered cell. */
  predicate Free(columns: Columns, p: Point)
  {
    0 <= p.col < Width && p.row > 0 && p.row !in columns[p.col]
  }

  predicate AllFree(columns: Columns, figure: seq<Point>)
  {
    forall i :: 0 <= i < |figure| ==> Free(columns, figure[i])
  }

  /** A rock in flight: its shape moved `row` rows up and `col` columns
      right. The source keeps the moved cells; the offset determines
      them. */
  datatype Rock = Rock(shape: seq<Point>, row: int, col: int)

  /** The cells a rock covers. */
  function Cells(rock: Rock): (r: seq<Point>)
    ensures |r| == |rock.shape|
    ensures forall i :: 0 <= i < |r| ==> r[i] == Point(rock.shape[i].row + rock.row, rock.shape[i].col + rock.col)
  {
    seq(|rock.shape|, i requires 0 <= i < |rock.shape| => Point(rock.shape[i].row + rock.row, rock.shape[i].col + rock.col))
  }

  function Moved(rock: Rock, dr: int, dc: int): Rock
  {
    Rock(rock.shape, rock.row + dr, rock.col + dc)
  }

  /** `Move`: the moved rock and success when every moved cell is free;
      the rock where it was and failure when some moved cell is not. */
  function Move(rock: Rock, dr: int, dc: int, columns: Columns): (r: (bool, Rock))
    ensures r.0 ==> AllFree(columns, Cells(r.1))
    ensures r.0 ==> r.1.shape == rock.shape && r.1.row == rock.row + dr && r.1.col == rock.col + dc
    ensures !r.0 ==> r.1 == rock
    ensures !r.0 <==> exists i :: 0 <= i < |rock.shape| && !Free(columns, Cells(Moved(rock, dr, dc))[i])
  {
    var moved := Moved(rock, dr, dc);
    if AllFree(columns, Cells(moved)) then (true, moved) else (false, rock)
  }

  /** A rock is never moved onto a cell that is not free. */
  lemma MoveKeepsFree(rock: Rock, dr: int, dc: int, columns: Columns)
    ensures AllFree(columns, Cells(rock)) ==> AllFree(columns, Cells(Move(rock, dr, dc, columns).1))
  {
  }

  /** Where shape `k` appears: `bottom + 4` rows up and two columns right,
      when it fits there. */
  function Spawn(k: nat, bottom: int, columns: Columns): Rock
  {
    Move(Rock(Shape(k), 0, 0), bottom + 4, 2, columns).1
  }

  /** Above every remembered cell, a shape always fits where it appears. */
  lemma SpawnFits(k: nat, bottom: int, columns: Columns)
    requires bottom >= 0
    requires forall c, x :: 0 <= c < Width && x in columns[c] ==> x <= bottom
    ensures Spawn(k, bottom, columns) == Rock(Shape(k), bottom + 4, 2)
    ensures AllFree(columns, Cells(Spawn(k, bottom, columns)))
  {
    var moved := Rock(Shape(k), bottom + 4, 2);
    var cells := Cells(moved);
    forall i | 0 <= i < |cells| ensures Free(columns, cells[i]) {
      assert cells[i].row > bottom;
    }
  }

  /** The push of one jet: a column to the left or to the right. */
  function Delta(d: Direction): int
  {
    if d == Left then -1 else 1
  }

  /** The height of a rock's first cell, at least zero: falling one row
      lowers it. */
  function Altitude(rock: Rock): nat
  {
    if |rock.shape| == 0 || rock.shape[0].row + rock.row < 0 then 0 else rock.shape[0].row + rock.row
  }

  /** The `while (true)` loop for one rock from jet `j` on: push, then
      fall, until the fall fails. Gives the next jet and where the rock
      rests: never higher than it started, on free cells when it started on
      free cells, and unable to fall further. */
  function Fall(columns: Columns, jets: seq<Direction>, j: nat, rock: Rock): (r: (nat, Rock))
    requires |jets| > 0 && |rock.shape| > 0
    ensures r.0 > j && r.1.shape == rock.shape && r.1.row <= rock.row
    ensures AllFree(columns, Cells(rock)) ==> AllFree(columns, Cells(r.1))
    ensures !Move(r.1, -1, 0, columns).0
    decreases Altitude(rock)
  {
    var pushed := Move(rock, 0, Delta(JetAt(jets, j)), columns).1;
    MoveKeepsFree(rock, 0, Delta(JetAt(jets, j)), columns);
    var (down, lower) := Move(pushed, -1, 0, columns);
    if !down then (j + 1, pushed)
    else
      assert Free(columns, Cells(lower)[0]);
      Fall(columns, jets, j + 1, lower)
  }

  // ---------------------------------------------------------------------
  // Storing a rock.

  /** `if (!col.Contains(row)) col.AddLast(row)`. */
  function AddRow(col: seq<int>, row: int): (r: seq<int>)
    ensures row in r && |col| <= |r| <= |col| + 1 && r[..|col|] == col
    ensures forall x :: x in r <==> x in col || x == row
  {
    if row in col then col else col + [row]
  }

  /** The `foreach` storing every cell of a resting rock in its column. */
  function Store(columns: Columns, figure: seq<Point>): (r: Columns)
    requires forall i :: 0 <= i < |figure| ==> 0 <= figure[i].col < Width
    ensures forall c :: 0 <= c < Width ==> |columns[c]| <= |r[c]| <= |columns[c]| + |figure| && r[c][..|columns[c]|] == columns[c]
    ensures forall c, x :: 0 <= c < Width ==>
      (x in r[c] <==> x in columns[c] || exists i :: 0 <= i < |figure| && figure[i] == Point(x, c))
    decreases |figure|
  {
    if |figure| == 0 then columns
    else
      var p := figure[0];
      var next: Columns := columns[p.col := AddRow(columns[p.col], p.row)];
      var r := Store(next, figure[1..]);
      StoreStep(columns, next, r, figure);
      r
  }

  lemma StoreStep(columns: Columns, next: Columns, r: Columns, figure: seq<Point>)
    requires |figure| > 0 && 0 <= figure[0].col < Width
    requires next == columns[figure[0].col := AddRow(columns[figure[0].col], figure[0].row)]
    requires forall c :: 0 <= c < Width ==> |next[c]| <= |r[c]| <= |next[c]| + |figure| - 1 && r[c][..|next[c]|] == next[c]
    requires forall c, x :: 0 <= c < Width ==>
      (x in r[c] <==> x in next[c] || exists i :: 0 <= i < |figure[1..]| && figure[1..][i] == Point(x, c))
    ensures forall c :: 0 <= c < Width ==> |columns[c]| <= |r[c]| <= |columns[c]| + |figure| && r[c][..|columns[c]|] == columns[c]
    ensures forall c, x :: 0 <= c < Width ==>
      (x in r[c] <==> x in columns[c] || exists i :: 0 <= i < |figure| && figure[i] == Point(x, c))
  {
    forall c | 0 <= c < Width
      ensures |columns[c]| <= |r[c]| <= |columns[c]| + |figure| && r[c][..|columns[c]|] == columns[c]
    {
      assert r[c][..|next[c]|][..|columns[c]|] == r[c][..|columns[c]|];
    }
    forall c, x | 0 <= c < Width
      ensures x in r[c] <==> x in columns[c] || exists i :: 0 <= i < |figure| && figure[i] == Point(x, c)
    {
      if exists i :: 0 <= i < |figure[1..]| && figure[1..][i] == Point(x, c) {
        var i :| 0 <= i < |figure[1..]| && figure[1..][i] == Point(x, c);
        assert figure[i + 1] == Point(x, c);
      }
      if exists i :: 0 <= i < |figure| && figure[i] == Point(x, c) {
        var i :| 0 <= i < |figure| && figure[i] == Point(x, c);
        if i > 0 { assert figure[1..][i - 1] == Point(x, c); }
      }
    }
  }

  /** `while (lst.Count > listLength) lst.RemoveFirst()`. */
  function Truncate(col: seq<int>): (r: seq<int>)
    ensures |r| <= ListLength
    ensures |col| <= ListLength ==> r == col
    ensures |col| > ListLength ==> r == col[|col| - ListLength..]
  {
    if |col| > ListLength then col[|col| - ListLength..] else col
  }

  /** Storing a rock, then forgetting all but each column's last rows. */
  function Rest(columns: Columns, figure: seq<Point>): (r: Columns)
    requires forall i :: 0 <= i < |figure| ==> 0 <= figure[i].col < Width
  {
    var stored := Store(columns, figure);
    seq(Width, c requires 0 <= c < Width => Truncate(stored[c]))
  }

  /** A rock resting on free cells is remembered whole; every remembered
      row was remembered before or belongs to the rock; no column holds
      more than `ListLength` rows. */
  lemma RestKeeps(columns: Columns, figure: seq<Point>)
    requires AllFree(columns, figure) && |figure| <= ListLength
    ensures forall i :: 0 <= i < |figure| ==> figure[i].row in Rest(columns, figure)[figure[i].col]
    ensures forall c, x :: 0 <= c < Width && x in Rest(columns, figure)[c] ==>
      x in columns[c] || exists i :: 0 <= i < |figure| && figure[i] == Point(x, c)
    ensures forall c :: 0 <= c < Width ==> |Rest(columns, figure)[c]| <= ListLength
  {
    var stored := Store(columns, figure);
    var r := Rest(columns, figure);
    forall i | 0 <= i < |figure|
      ensures figure[i].row in r[figure[i].col]
    {
      var c := figure[i].col;
      var x := figure[i].row;
      assert x in stored[c] && x !in columns[c];
      var k :| 0 <= k < |stored[c]| && stored[c][k] == x;
      assert r[c] == Truncate(stored[c]);
      if |stored[c]| > ListLength {
        assert r[c][k - (|stored[c]| - ListLength)] == x;
      }
    }
    forall c, x | 0 <= c < Width && x in r[c]
      ensures x in stored[c]
    {
      assert r[c] == Truncate(stored[c]);
    }
  }

  /** `staticPoints.Values.SelectMany(v => v).Max()`: the highest
      remembered row. */
  function Bottom(columns: Columns): (m: int)
    requires exists c :: 0 <= c < Width && |columns[c]| > 0
    ensures forall c, x :: 0 <= c < Width && x in columns[c] ==> x <= m
    ensures exists c :: 0 <= c < Width && m in columns[c]
  {
    var all := columns[0] + columns[1] + columns[2] + columns[3] + columns[4] + columns[5] + columns[6];
    assert |columns[0]| > 0 || |columns[1]| > 0 || |columns[2]| > 0 || |columns[3]| > 0
        || |columns[4]| > 0 || |columns[5]| > 0 || |columns[6]| > 0;
    var m := Max(all);
    forall c, x | 0 <= c < Width && x in columns[c] ensures x <= m {
      assert x in columns[c];
      if c == 0 { assert x in all; }
      else if c == 1 { assert x in all; }
      else if c == 2 { assert x in all; }
      else if c == 3 { assert x in all; }
      else if c == 4 { assert x in all; }
      else if c == 5 { assert x in all; }
      else { assert x in all; }
      var i :| 0 <= i < |all| && all[i] == x;
    }
    assert m in all;
    assert m in columns[0] || m in columns[1] || m in columns[2] || m in columns[3]
        || m in columns[4] || m in columns[5] || m in columns[6];
    m
  }

  // ---------------------------------------------------------------------
  // The tower.

  datatype Tower = Tower(columns: Columns, bottom: int, jet: nat, rocks: nat)

  /** Remembered rows are above the floor and at most `bottom`, which is
      one of them once a rock has fallen; no column holds more than
      `ListLength` rows. */
  predicate Valid(t: Tower)
  {
    && t.bottom >= 0
    && (forall c, x :: 0 <= c < Width && x in t.columns[c] ==> 0 < x <= t.bottom)
    && (forall c :: 0 <= c < Width ==> |t.columns[c]| <= ListLength)
    && (t.rocks > 0 ==> exists c :: 0 <= c < Width && t.bottom in t.columns[c])
  }

  /** One iteration of the `foreach` over the rocks. */
  function Drop(t: Tower, jets: seq<Direction>): (r: Tower)
    requires Valid(t) && |jets| > 0
    ensures Valid(r) && r.rocks == t.rocks + 1 && r.jet > t.jet
    ensures t.bottom < r.bottom ==> r.bottom <= t.bottom + 7
  {
    var spawned := Spawn(t.rocks, t.bottom, t.columns);
    SpawnFits(t.rocks, t.bottom, t.columns);
    var (jet, rest) := Fall(t.columns, jets, t.jet, spawned);
    var cells := Cells(rest);
    var columns := Rest(t.columns, cells);
    RestKeeps(t.columns, cells);
    DropBounds(t, rest, columns);
    Tower(columns, Bottom(columns), jet, t.rocks + 1)
  }

  /** The rock rests no higher than where it appeared, so the new highest
      row is at most seven above the old one. */
  lemma DropBounds(t: Tower, rest: Rock, columns: Columns)
    requires Valid(t) && rest.shape == Shape(t.rocks) && rest.row <= t.bottom + 4
    requires AllFree(t.columns, Cells(rest))
    requires forall i :: 0 <= i < |Cells(rest)| ==> Cells(rest)[i].row in columns[Cells(rest)[i].col]
    requires forall c, x :: 0 <= c < Width && x in columns[c] ==>
      x in t.columns[c] || exists i :: 0 <= i < |Cells(rest)| && Cells(rest)[i] == Point(x, c)
    requires forall c :: 0 <= c < Width ==> |columns[c]| <= ListLength
    ensures exists c :: 0 <= c < Width && |columns[c]| > 0
    ensures Valid(Tower(columns, Bottom(columns), 0, t.rocks + 1))
    ensures t.bottom < Bottom(columns) ==> Bottom(columns) <= t.bottom + 7
  {
    var cells := Cells(rest);
    assert cells[0].row in columns[cells[0].col];
    forall c, x | 0 <= c < Width && x in columns[c]
      ensures 0 < x <= t.bottom + 7
    {
      if x !in t.columns[c] {
        var i :| 0 <= i < |cells| && cells[i] == Point(x, c);
        assert Free(t.columns, cells[i]);
      }
    }
  }

  /** `n` rocks fallen from an empty chamber. */
  function Run(jets: seq<Direction>, n: nat): (r: Tower)
    requires |jets| > 0
    ensures Valid(r) && r.rocks == n && r.jet >= n
    ensures n > 0 ==> r.bottom >= 1
    ensures r.bottom <= 7 * n
  {
    if n == 0 then Tower([[], [], [], [], [], [], []], 0, 0, 0)
    else Drop(Run(jets, n - 1), jets)
  }

  /** `Calculate`: the height after `steps` rocks. The source waits forever
      for a jet when the pattern is empty, and extrapolates from a detected
      period when fewer than `steps` rocks fell; both are errors here. */
  function Calculate(input: string, steps: int): (r: Result<int>)
    ensures r.Ok? <==> |ParseJets(input)| > 0 && 1 <= steps <= StepCap + 1
    ensures r.Ok? ==> r.value == Run(ParseJets(input), steps).bottom
    ensures r.Ok? ==> 1 <= r.value <= 7 * steps
  {
    var jets := ParseJets(input);
    if |jets| == 0 then Err("the jet pattern is empty")
    else
      var n := Processed(steps);
      var t := Run(jets, n);
      if n == steps then Ok(t.bottom)
      else Err("period detection is not part of this model")
  }

  /** `CalculateTaskOne`: the height after 2022 rocks. */
  function PartOne(input: string): (r: Result<int>)
    ensures r.Ok? <==> |ParseJets(input)| > 0
    ensures r.Ok? ==> r.value == Run(ParseJets(input), 2022).bottom && 1 <= r.value <= 7 * 2022
  {
    Calculate(input, 2022)
  }
}

=== FILE: day18.dfy ===
/** Day 18 (newer tree): the surface of a droplet made of unit cubes. Part
    one counts the cube faces that do not touch another cube; part two
    counts only those whose air cell finds a way out of the droplet's
    bounding box.

    The cubes are taken as parsed. `ToHashSet` is modelled as the list of
    distinct cubes in order of first appearance. */
module Day18 {
  import opened Common

  datatype Point3 = Point3(x: int, y: int, z: int)

  /** Two cells share a face. */
  predicate Touching(p: Point3, q: Point3)
  {
    Abs(p.x - q.x) + Abs(p.y - q.y) + Abs(p.z - q.z) == 1
  }

  /** `GetAdjacent`: the six cells sharing a face with `p`, each once. */
  function Adjacent(p: Point3): (r: seq<Point3>)
    ensures |r| == 6 && NoRepeats(r)
    ensures forall q :: q in r <==> Touching(p, q)
  {
    [p.(x := p.x + 1), p.(x := p.x - 1),
     p.(y := p.y + 1), p.(y := p.y - 1),
     p.(z := p.z + 1), p.(z := p.z - 1)]
  }

  lemma TouchingSymmetric(p: Point3, q: Point3)
    ensures Touching(p, q) == Touching(q, p)
    ensures !Touching(p, p)
  {
  }

  // ---------------------------------------------------------------------
  // Counting.

  /** How many of `cells` are not in `cubes`. */
  function CountOut(cells: seq<Point3>, cubes: set<Point3>): (n: nat)
    ensures n <= |cells|
  {
    if |cells| == 0 then 0
    else CountOut(cells[..|cells| - 1], cubes) + (if cells[|cells| - 1] in cubes then 0 else 1)
  }

  /** How many of `cells` are in `cubes`. */
  function CountIn(cells: seq<Point3>, cubes: set<Point3>): (n: nat)
  {
    if |cells| == 0 then 0
    else CountIn(cells[..|cells| - 1], cubes) + (if cells[|cells| - 1] in cubes then 1 else 0)
  }

  lemma {:induction false} CountInOut(cells: seq<Point3>, cubes: set<Point3>)
    ensures CountIn(cells, cubes) + CountOut(cells, cubes) == |cells|
  {
    if |cells| > 0 {
      CountInOut(cells[..|cells| - 1], cubes);
    }
  }

  /** One more cube adds one to the count of a list of distinct cells
      exactly when the list holds it. */
  lemma {:induction false} CountInAdd(cells: seq<Point3>, cubes: set<Point3>, x: Point3)
    requires NoRepeats(cells) && x !in cubes
    ensures CountIn(cells, cubes + {x}) == CountIn(cells, cubes) + (if x in cells then 1 else 0)
  {
    if |cells| > 0 {
      var init := cells[..|cells| - 1];
      assert NoRepeats(init) by {
        assert forall i :: 0 <= i < |init| ==> init[i] == cells[i];
      }
      CountInAdd(init, cubes, x);
      assert cells == init + [cells[|cells| - 1]];
      assert x in init ==> x != cells[|cells| - 1] by {
        assert forall i :: 0 <= i < |init| ==> init[i] == cells[i] && cells[i] != cells[|cells| - 1];
      }
    }
  }

  /** The faces of `p` open to air. */
  function Exposed(p: Point3, cubes: set<Point3>): (n: nat)
    ensures n <= 6
  {
    CountOut(Adjacent(p), cubes)
  }

  /** The open faces of every cube in `list`. */
  function SurfaceSum(list: seq<Point3>, cubes: set<Point3>): (n: nat)
    ensures n <= 6 * |list|
  {
    if |list| == 0 then 0
    else SurfaceSum(list[..|list| - 1], cubes) + Exposed(list[|list| - 1], cubes)
  }

  /** `CalculateTaskOne`: every distinct cube's faces that touch no other
      cube. */
  function PartOne(points: seq<Point3>): (n: nat)
    ensures n <= 6 * |Cubes(points)|
  {
    var list := Distinct(points);
    NoRepeatsCardinality(list);
    assert (set p | p in list) == Cubes(points);
    SurfaceSum(list, Cubes(points))
  }

  // ---------------------------------------------------------------------
  // Part one counts each touching pair of cubes twice.

  /** How many of `list` touch `p`. */
  function Touches(p: Point3, list: seq<Point3>): nat
  {
    if |list| == 0 then 0
    else Touches(p, list[..|list| - 1]) + (if Touching(p, list[|list| - 1]) then 1 else 0)
  }

  /** Over distinct cubes, the cubes touching `p` are the neighbours of `p`
      among them. */
  lemma {:induction false} TouchesCount(p: Point3, list: seq<Point3>)
    requires NoRepeats(list)
    ensures Touches(p, list) == CountIn(Adjacent(p), set q | q in list)
  {
    if |list| == 0 {
      assert (set q | q in list) == {};
      CountInEmpty(Adjacent(p));
    } else {
      var init := list[..|list| - 1];
      var last := list[|list| - 1];
      NoRepeatsInit(list);
      TouchesCount(p, init);
      assert list == init + [last];
      SetSnoc(init, last);
      CountInAdd(Adjacent(p), (set q | q in init), last);
    }
  }

  /** Dropping the last of distinct cells keeps them distinct, and the last
      is not among the rest. */
  lemma NoRepeatsInit(list: seq<Point3>)
    requires NoRepeats(list) && |list| > 0
    ensures NoRepeats(list[..|list| - 1]) && list[|list| - 1] !in list[..|list| - 1]
  {
    var init := list[..|list| - 1];
    assert forall i :: 0 <= i < |init| ==> init[i] == list[i];
  }

  lemma SetSnoc(init: seq<Point3>, last: Point3)
    ensures (set q | q in init + [last]) == (set q | q in init) + {last}
  {
  }

  lemma {:induction false} CountInEmpty(cells: seq<Point3>)
    ensures CountIn(cells, {}) == 0
  {
    if |cells| > 0 {
      CountInEmpty(cells[..|cells| - 1]);
    }
  }

  /** How many touching cubes each cube of `list` has in `others`. */
  function TouchSum(list: seq<Point3>, others: seq<Point3>): nat
  {
    if |list| == 0 then 0
    else TouchSum(list[..|list| - 1], others) + Touches(list[|list| - 1], others)
  }

  /** The number of touching pairs `list[i]`, `list[j]` with `i < j`. */
  function Pairs(list: seq<Point3>): nat
  {
    if |list| == 0 then 0
    else Pairs(list[..|list| - 1]) + Touches(list[|list| - 1], list[..|list| - 1])
  }

  lemma TouchesAppend(p: Point3, list: seq<Point3>, x: Point3)
    ensures Touches(p, list + [x]) == Touches(p, list) + (if Touching(p, x) then 1 else 0)
  {
    assert (list + [x])[..|list|] == list;
  }

  /** One more cube in `others` adds the cubes of `list` it touches. */
  lemma {:induction false} TouchSumAppend(list: seq<Point3>, others: seq<Point3>, x: Point3)
    ensures TouchSum(list, others + [x]) == TouchSum(list, others) + Touches(x, list)
  {
    if |list| > 0 {
      var init := list[..|list| - 1];
      var last := list[|list| - 1];
      TouchSumAppend(init, others, x);
      TouchesAppend(last, others, x);
      TouchingSymmetric(last, x);
    }
  }

  /** Counting, for every cube, the cubes it touches counts every pair
      twice. */
  lemma {:induction false} TouchSumPairs(list: seq<Point3>)
    ensures TouchSum(list, list) == 2 * Pairs(list)
  {
    if |list| > 0 {
      var init := list[..|list| - 1];
      var x := list[|list| - 1];
      assert list == init + [x];
      TouchSumPairs(init);
      TouchSumAppend(init, init, x);
      TouchesAppend(x, init, x);
      TouchingSymmetric(x, x);
      assert TouchSum(list, list) == TouchSum(init, list) + Touches(x, list);
    }
  }

  /** Every cube has six faces, less those touching another cube. */
  lemma {:induction false} SurfaceContacts(list: seq<Point3>, others: seq<Point3>)
    requires NoRepeats(others)
    ensures SurfaceSum(list, set q | q in others) == 6 * |list| - TouchSum(list, others)
  {
    if |list| > 0 {
      var p := list[|list| - 1];
      SurfaceContacts(list[..|list| - 1], others);
      TouchesCount(p, others);
      CountInOut(Adjacent(p), (set q | q in others));
    }
  }

  /** Part one is six faces per cube less two per pair of touching
      cubes. */
  lemma PartOneFaces(points: seq<Point3>)
    ensures PartOne(points) == 6 * |Distinct(points)| - 2 * Pairs(Distinct(points))
  {
    var list := Distinct(points);
    assert (set p | p in list) == Cubes(points);
    SurfaceContacts(list, list);
    TouchSumPairs(list);
  }

  // ---------------------------------------------------------------------
  // Part two.

  /** Within `[lo, hi]` on every axis. */
  predicate Inside(p: Point3, lo: int, hi: int)
  {
    lo <= p.x <= hi && lo <= p.y <= hi && lo <= p.z <= hi
  }

  /** The cells of the bounding box. */
  function Box(lo: int, hi: int): (r: set<Point3>)
    ensures forall p :: p in r <==> Inside(p, lo, hi)
  {
    set x, y, z | lo <= x <= hi && lo <= y <= hi && lo <= z <= hi :: Point3(x, y, z)
  }

  /** A walk through air: no cube on it, each step to a touching cell. */
  predicate AirPath(cubes: set<Point3>, path: seq<Point3>)
  {
    && |path| > 0
    && (forall i :: 0 <= i < |path| ==> path[i] !in cubes)
    && (forall i :: 0 < i < |path| ==> Touching(path[i - 1], path[i]))
  }

  /** From `p` some walk through air leaves the box. */
  ghost predicate Escapes(cubes: set<Point3>, lo: int, hi: int, p: Point3)
  {
    exists path :: AirPath(cubes, path) && path[0] == p && !Inside(path[|path| - 1], lo, hi)
  }

  /** Walking from the end of `a` back to its start and then along `b`
      leaves the box when `b` does. */
  lemma EscapeVia(cubes: set<Point3>, lo: int, hi: int, a: seq<Point3>, b: seq<Point3>)
    requires AirPath(cubes, a) && AirPath(cubes, b) && a[0] == b[0]
    requires !Inside(b[|b| - 1], lo, hi)
    ensures Escapes(cubes, lo, hi, a[|a| - 1])
  {
    var back := Reverse(a);
    var path := back + b[1..];
    forall i | 0 < i < |path|
      ensures Touching(path[i - 1], path[i])
    {
      if i < |back| {
        TouchingSymmetric(a[|a| - 1 - i], a[|a| - i]);
      } else {
        assert path[i] == b[i - |back| + 1];
      }
    }
    assert path[|path| - 1] == b[|b| - 1];
    assert AirPath(cubes, path);
  }

  /** `GetAdjacent(current).Where(...).FirstOrDefault()`: the first cell
      that is neither a cube nor visited. */
  function FirstOpen(cells: seq<Point3>, cubes: set<Point3>, visited: set<Point3>): (r: Option<Point3>)
    ensures r.Some? ==> r.value in cells && r.value !in cubes && r.value !in visited
    ensures r.None? <==> forall c :: c in cells ==> c in cubes || c in visited
  {
    if |cells| == 0 then None
    else if cells[0] !in cubes && cells[0] !in visited then Some(cells[0])
    else
      var r := FirstOpen(cells[1..], cubes, visited);
      assert forall c :: c in cells ==> c == cells[0] || c in cells[1..];
      r
  }

  lemma FewerLeft(box: set<Point3>, visited: set<Point3>, next: Point3)
    requires next in box && next !in visited
    ensures |box - (visited + {next})| < |box - visited|
  {
    assert box - (visited + {next}) == (box - visited) - {next};
  }

  /** Every cell in `paths` is reached from `pt` by its walk through
      air. */
  ghost predicate Reached(cubes: set<Point3>, pt: Point3, paths: map<Point3, seq<Point3>>)
  {
    forall v :: v in paths ==> AirPath(cubes, paths[v]) && paths[v][0] == pt && paths[v][|paths[v]| - 1] == v
  }

  /** A step from a reached cell to a touching air cell reaches it. */
  lemma ReachStep(cubes: set<Point3>, pt: Point3, paths: map<Point3, seq<Point3>>, from: Point3, next: Point3)
    requires Reached(cubes, pt, paths) && from in paths
    requires next !in cubes && Touching(from, next)
    ensures Reached(cubes, pt, paths[next := paths[from] + [next]])
  {
    var path := paths[from] + [next];
    assert forall i :: 0 <= i < |paths[from]| ==> path[i] == paths[from][i];
    assert AirPath(cubes, path);
  }

  /** Once a reached cell lies outside the box, every reached cell gets
      out. */
  lemma ReachedEscape(cubes: set<Point3>, lo: int, hi: int, pt: Point3, paths: map<Point3, seq<Point3>>, exit: Point3)
    requires Reached(cubes, pt, paths) && exit in paths && !Inside(exit, lo, hi)
    ensures forall v :: v in paths ==> Escapes(cubes, lo, hi, v)
  {
    forall v | v in paths
      ensures Escapes(cubes, lo, hi, v)
    {
      EscapeVia(cubes, lo, hi, paths[v], paths[exit]);
    }
  }

  /** What the walk keeps true: every cell on the route or visited, and
      the current one, is reached, and the visited ones are inside the
      box. */
  ghost predicate Walking(cubes: set<Point3>, lo: int, hi: int, pt: Point3, paths: map<Point3, seq<Point3>>,
                          route: seq<Point3>, visited: set<Point3>, current: Point3)
  {
    && current in paths
    && (forall v :: v in route ==> v in paths)
    && (forall v :: v in visited ==> v in paths && Inside(v, lo, hi))
    && Reached(cubes, pt, paths)
  }

  /** Stepping to a touching air cell keeps the walk's facts, the step
      being inside the box. */
  lemma PushKeeps(cubes: set<Point3>, lo: int, hi: int, pt: Point3, paths: map<Point3, seq<Point3>>,
                  route: seq<Point3>, visited: set<Point3>, current: Point3, next: Point3)
    requires Walking(cubes, lo, hi, pt, paths, route, visited, current)
    requires next !in cubes && Touching(current, next) && Inside(next, lo, hi)
    ensures Walking(cubes, lo, hi, pt, paths[next := paths[current] + [next]], route + [next], visited + {next}, next)
  {
    ReachStep(cubes, pt, paths, current, next);
  }

  /** Stepping back along the route keeps the walk's facts. */
  lemma PopKeeps(cubes: set<Point3>, lo: int, hi: int, pt: Point3, paths: map<Point3, seq<Point3>>,
                 route: seq<Point3>, visited: set<Point3>, current: Point3)
    requires Walking(cubes, lo, hi, pt, paths, route, visited, current) && |route| > 0
    ensures Walking(cubes, lo, hi, pt, paths, route[..|route| - 1], visited, route[|route| - 1])
  {
    assert route[|route| - 1] in route;
    assert forall v :: v in route[..|route| - 1] ==> v in route;
  }

  /** A step out of the box: the start and every visited cell get out. */
  lemma ExitFound(cubes: set<Point3>, lo: int, hi: int, pt: Point3, paths: map<Point3, seq<Point3>>,
                  route: seq<Point3>, visited: set<Point3>, current: Point3, step: Point3, known: set<Point3>)
    requires Walking(cubes, lo, hi, pt, paths, route, visited, current) && pt in paths
    requires step !in cubes && Touching(current, step) && !Inside(step, lo, hi)
    requires forall c :: c in known ==> Escapes(cubes, lo, hi, c)
    ensures Escapes(cubes, lo, hi, pt)
    ensures forall c :: c in known + visited + {step} ==> Escapes(cubes, lo, hi, c)
  {
    ReachStep(cubes, pt, paths, current, step);
    var paths' := paths[step := paths[current] + [step]];
    ReachedEscape(cubes, lo, hi, pt, paths', step);
  }

  /** `HasWayOut`: a depth-first walk through air from `pt`, given the
      cells already known to get out. It answers yes only when `pt` is
      known to get out or the walk leaves the box, and then every cell the
      walk visited becomes known too. */
  method HasWayOut(cubes: set<Point3>, lo: int, hi: int, known: set<Point3>, pt: Point3)
    returns (out: bool, known': set<Point3>)
    requires pt !in cubes
    requires forall c :: c in known ==> Escapes(cubes, lo, hi, c)
    ensures known <= known'
    ensures forall c :: c in known' ==> Escapes(cubes, lo, hi, c)
    ensures out ==> Escapes(cubes, lo, hi, pt)
    ensures !out ==> known' == known
  {
    if pt in known {
      return true, known;
    }
    var route := [pt];
    var visited: set<Point3> := {};
    var current := pt;
    ghost var paths: map<Point3, seq<Point3>> := map[pt := [pt]];
    ghost var box := Box(lo, hi);
    assert AirPath(cubes, [pt]);
    while |route| > 0
      invariant Walking(cubes, lo, hi, pt, paths, route, visited, current) && pt in paths
      invariant box == Box(lo, hi)
      decreases |box - visited|, |route|
    {
      var next := FirstOpen(Adjacent(current), cubes, visited);
      if next.None? {
        PopKeeps(cubes, lo, hi, pt, paths, route, visited, current);
        current := route[|route| - 1];
        route := route[..|route| - 1];
        continue;
      }
      var step := next.value;
      if !Inside(step, lo, hi) {
        ExitFound(cubes, lo, hi, pt, paths, route, visited, current, step, known);
        return true, known + visited + {step};
      }
      PushKeeps(cubes, lo, hi, pt, paths, route, visited, current, step);
      FewerLeft(box, visited, step);
      paths := paths[step := paths[current] + [step]];
      route := route + [step];
      visited := visited + {step};
      current := step;
    }
    return false, known;
  }

  /** How many of `cells` are air from which a walk leaves the box. */
  ghost function EscapingOut(cells: seq<Point3>, cubes: set<Point3>, lo: int, hi: int): (n: nat)
    ensures n <= CountOut(cells, cubes)
  {
    if |cells| == 0 then 0
    else
      var c := cells[|cells| - 1];
      EscapingOut(cells[..|cells| - 1], cubes, lo, hi) + (if c !in cubes && Escapes(cubes, lo, hi, c) then 1 else 0)
  }

  /** The faces of the cubes in `list` whose air cell gets out of the
      box. */
  ghost function EscapingSurface(list: seq<Point3>, cubes: set<Point3>, lo: int, hi: int): (n: nat)
    ensures n <= SurfaceSum(list, cubes)
  {
    if |list| == 0 then 0
    else
      EscapingSurface(list[..|list| - 1], cubes, lo, hi)
        + EscapingOut(Adjacent(list[|list| - 1]), cubes, lo, hi)
  }

  function Largest(p: Point3): int
  {
    Max2(p.x, Max2(p.y, p.z))
  }

  function Smallest(p: Point3): int
  {
    Min2(p.x, Min2(p.y, p.z))
  }

  /** `maxCoord`: the largest coordinate of any cube. */
  function MaxCoord(points: seq<Point3>): int
    requires |points| > 0
  {
    Max(seq(|points|, i requires 0 <= i < |points| => Largest(points[i])))
  }

  /** `minCoord`: the smallest coordinate of any cube. */
  function MinCoord(points: seq<Point3>): int
    requires |points| > 0
  {
    -Max(seq(|points|, i requires 0 <= i < |points| => -Smallest(points[i])))
  }

  /** The open faces of one cube whose air cell `HasWayOut` accepts, the
      known cells carried from call to call. */
  method ExposedOut(cubes: set<Point3>, lo: int, hi: int, known: set<Point3>, p: Point3)
    returns (n: nat, known': set<Point3>)
    requires forall c :: c in known ==> Escapes(cubes, lo, hi, c)
    ensures known <= known'
    ensures forall c :: c in known' ==> Escapes(cubes, lo, hi, c)
    ensures n <= EscapingOut(Adjacent(p), cubes, lo, hi)
  {
    var cells := Adjacent(p);
    n := 0;
    known' := known;
    for j := 0 to 6
      invariant known <= known'
      invariant forall c :: c in known' ==> Escapes(cubes, lo, hi, c)
      invariant n <= EscapingOut(cells[..j], cubes, lo, hi)
    {
      assert cells[..j + 1][..j] == cells[..j];
      if cells[j] !in cubes {
        var out;
        out, known' := HasWayOut(cubes, lo, hi, known', cells[j]);
        if out {
          n := n + 1;
        }
      }
    }
    assert cells[..6] == cells;
  }

  /** The faces of the cubes in `list` that `HasWayOut` accepts, the known
      cells carried from cube to cube. */
  method OutsideSurface(list: seq<Point3>, cubes: set<Point3>, lo: int, hi: int) returns (total: nat)
    ensures total <= EscapingSurface(list, cubes, lo, hi)
  {
    total := 0;
    var known: set<Point3> := {};
    for i := 0 to |list|
      invariant forall c :: c in known ==> Escapes(cubes, lo, hi, c)
      invariant total <= EscapingSurface(list[..i], cubes, lo, hi)
    {
      assert list[..i + 1][..i] == list[..i];
      var n;
      n, known := ExposedOut(cubes, lo, hi, known, list[i]);
      total := total + n;
    }
    assert list[..|list|] == list;
  }

  /** The cubes as a set. */
  function Cubes(points: seq<Point3>): (r: set<Point3>)
    ensures forall p :: p in r <==> p in points
  {
    set p | p in points
  }

  /** `CalculateTaskTwo`: the open faces whose air cell `HasWayOut` accepts.
      Each of them gets out of the bounding box, so the count is at most
      the number of such faces, which is at most part one's answer. With
      no cubes `Max` fails. */
  method PartTwo(points: seq<Point3>) returns (r: Result<nat>)
    ensures r.Err? <==> |points| == 0
    ensures r.Ok? ==> r.value <= EscapingSurface(Distinct(points), Cubes(points), MinCoord(points), MaxCoord(points))
    ensures r.Ok? ==> r.value <= PartOne(points)
  {
    if |points| == 0 {
      return Err("Sequence contains no elements");
    }
    var total := OutsideSurface(Distinct(points), Cubes(points), MinCoord(points), MaxCoord(points));
    return Ok(total);
  }
}

=== FILE: day19.dfy ===
/** Day 19 (newer tree), part one: robot factories. A blueprint prices a
    robot of each kind in ore, clay and obsidian. From one ore robot and no
    resources, the search repeatedly chooses the next robot to build, waits
    until its price is affordable, and builds it in one more minute, within
    24 minutes. A blueprint's quality is its number times the most geodes any
    reachable state is on course to crack by minute 24; part one sums the
    qualities. Part two does nothing in the source. */
module Day19 {
  import opened Common

  datatype Resource = Ore | Clay | Obsidian | Geode

  /** One entry of a price: so many of one resource. */
  datatype Price = Price(resource: Resource, value: int)

  datatype Robot = Robot(kind: Resource, price: seq<Price>)

  datatype Blueprint = Blueprint(number: int, robots: seq<Robot>)

  /** An amount of each resource (the source's dictionaries keyed by
      resource, always holding all four keys). */
  datatype Amounts = Amounts(ore: int, clay: int, obsidian: int, geode: int)

  /** A search state: resources in stock, robots working, minutes gone. */
  datatype State = State(resources: Amounts, robots: Amounts, elapsed: int)

  const MaxTime := 24

  /** `int.MaxValue`, the geode robots' cap. */
  const IntMax := 2147483647

  /** The order the search tries robots in. */
  const BuildOrder: seq<Resource> := [Geode, Obsidian, Clay, Ore]

  function Get(a: Amounts, r: Resource): int
  {
    match r
    case Ore => a.ore
    case Clay => a.clay
    case Obsidian => a.obsidian
    case Geode => a.geode
  }

  /** `a[r] += v`. */
  function Plus(a: Amounts, r: Resource, v: int): (b: Amounts)
    ensures Get(b, r) == Get(a, r) + v
    ensures forall q :: q != r ==> Get(b, q) == Get(a, q)
  {
    match r
    case Ore => a.(ore := a.ore + v)
    case Clay => a.(clay := a.clay + v)
    case Obsidian => a.(obsidian := a.obsidian + v)
    case Geode => a.(geode := a.geode + v)
  }

  // ---------------------------------------------------------------------
  // Waiting for a price.

  /** `CalculateTime`: the minutes until `start`, growing by `income` a
      minute, reaches `required` — the least such number. The source calls
      it only for resources some robot produces. */
  function CalculateTime(start: int, required: int, income: int): (t: nat)
    requires income > 0
    ensures start + t * income >= required
    ensures t > 0 ==> start + (t - 1) * income < required
    ensures start >= required <==> t == 0
    decreases if start < required then required - start else 0
  {
    if start >= required then 0
    else
      var t := CalculateTime(start + income, required, income);
      assert (t + 1) * income == t * income + income;
      t + 1
  }

  /** After `w` minutes every entry of the price is in stock. */
  predicate Affordable(s: State, price: seq<Price>, w: int)
  {
    forall i :: 0 <= i < |price| ==>
      Get(s.resources, price[i].resource) + w * Get(s.robots, price[i].resource) >= price[i].value
  }

  /** Every priced resource has robots (`canBuild`). */
  predicate Produced(s: State, price: seq<Price>)
  {
    forall i :: 0 <= i < |price| ==> Get(s.robots, price[i].resource) > 0
  }

  /** `price.Select(p => CalculateTime(...)).Max()`: the least number of
      minutes after which the whole price is in stock. */
  function Wait(s: State, price: seq<Price>): (w: nat)
    requires |price| > 0 && Produced(s, price)
    ensures Affordable(s, price, w)
    ensures w > 0 ==> !Affordable(s, price, w - 1)
  {
    var p := price[0];
    var t := CalculateTime(Get(s.resources, p.resource), p.value, Get(s.robots, p.resource));
    if |price| == 1 then t
    else
      var rest := Wait(s, price[1..]);
      var w := Max2(t, rest);
      WaitStep(s, price, t, rest, w);
      w
  }

  lemma WaitStep(s: State, price: seq<Price>, t: nat, rest: nat, w: nat)
    requires |price| > 1 && Produced(s, price)
    requires t == CalculateTime(Get(s.resources, price[0].resource), price[0].value, Get(s.robots, price[0].resource))
    requires Affordable(s, price[1..], rest) && (rest > 0 ==> !Affordable(s, price[1..], rest - 1))
    requires w == Max2(t, rest)
    ensures Affordable(s, price, w)
    ensures w > 0 ==> !Affordable(s, price, w - 1)
  {
    forall i | 0 <= i < |price|
      ensures Get(s.resources, price[i].resource) + w * Get(s.robots, price[i].resource) >= price[i].value
    {
      var income := Get(s.robots, price[i].resource);
      var have := if i == 0 then t else rest;
      if i > 0 { assert price[i] == price[1..][i - 1]; }
      MulMonotone(have, w, income);
    }
    if w > 0 && w != t {
      var i :| 0 <= i < |price[1..]| && Get(s.resources, price[1..][i].resource) + (w - 1) * Get(s.robots, price[1..][i].resource) < price[1..][i].value;
      assert price[i + 1] == price[1..][i];
    }
  }

  lemma MulMonotone(a: int, b: int, c: int)
    requires a <= b && c >= 0
    ensures a * c <= b * c
  {
    if a < b && c > 0 {
      MulAtLeast(b - a, c);
      assert b * c - a * c == (b - a) * c;
    }
  }

  /** Waiting longer never makes a price unaffordable again. */
  lemma AffordableLater(s: State, price: seq<Price>, w: int, v: int)
    requires Produced(s, price) && w <= v && Affordable(s, price, w)
    ensures Affordable(s, price, v)
  {
    forall i | 0 <= i < |price|
      ensures Get(s.resources, price[i].resource) + v * Get(s.robots, price[i].resource) >= price[i].value
    {
      MulMonotone(w, v, Get(s.robots, price[i].resource));
    }
  }

  // ---------------------------------------------------------------------
  // Building a robot.

  /** The total a price asks of one resource. */
  function PriceOf(price: seq<Price>, r: Resource): int
  {
    if |price| == 0 then 0
    else (if price[0].resource == r then price[0].value else 0) + PriceOf(price[1..], r)
  }

  /** `newResources[item.Resource] -= item.Value` for every entry. */
  function Pay(a: Amounts, price: seq<Price>): (b: Amounts)
    ensures forall r :: Get(b, r) == Get(a, r) - PriceOf(price, r)
    decreases |price|
  {
    if |price| == 0 then a
    else Pay(Plus(a, price[0].resource, -price[0].value), price[1..])
  }

  /** Every resource grows by its robots' output over `t` minutes. */
  function Produce(resources: Amounts, robots: Amounts, t: int): (b: Amounts)
    ensures forall r :: Get(b, r) == Get(resources, r) + Get(robots, r) * t
  {
    Amounts(resources.ore + robots.ore * t, resources.clay + robots.clay * t,
            resources.obsidian + robots.obsidian * t, resources.geode + robots.geode * t)
  }

  /** `bp.RobotsByType[kind]`: the robot of that kind, or the dictionary's
      missing-key error. */
  function RobotFor(bp: Blueprint, kind: Resource): (r: Result<Robot>)
    ensures r.Ok? <==> exists i :: 0 <= i < |bp.robots| && bp.robots[i].kind == kind
    ensures r.Ok? ==> r.value in bp.robots && r.value.kind == kind
  {
    Find(bp.robots, kind)
  }

  function Find(robots: seq<Robot>, kind: Resource): (r: Result<Robot>)
    ensures r.Ok? <==> exists i :: 0 <= i < |robots| && robots[i].kind == kind
    ensures r.Ok? ==> r.value in robots && r.value.kind == kind
  {
    if |robots| == 0 then Err("The given key was not present in the dictionary.")
    else if robots[0].kind == kind then Ok(robots[0])
    else
      assert forall i :: 1 <= i < |robots| ==> robots[i] == robots[1..][i - 1];
      Find(robots[1..], kind)
  }

  /** One pass of the inner `foreach`: the state after building a robot of
      `kind`, none when the search skips it, or the error the source throws. */
  function Build(bp: Blueprint, caps: Amounts, s: State, kind: Resource): (r: Result<Option<State>>)
    ensures r.Ok? && r.value.Some? ==> Get(s.robots, kind) != Get(caps, kind)
    ensures r.Ok? && r.value.Some? ==> s.elapsed < r.value.value.elapsed <= MaxTime
    ensures r.Ok? && r.value.Some? ==>
      Get(r.value.value.robots, kind) == Get(s.robots, kind) + 1
      && forall q :: q != kind ==> Get(r.value.value.robots, q) == Get(s.robots, q)
    ensures r.Ok? && r.value.Some? ==> RobotFor(bp, kind).Ok? && Built(s, RobotFor(bp, kind).value.price, r.value.value)
  {
    if Get(s.robots, kind) == Get(caps, kind) then Ok(None)
    else
      match RobotFor(bp, kind)
      case Err(e) => Err(e)
      case Ok(robot) =>
        var price := robot.price;
        if !Produced(s, price) then Ok(None)
        else if |price| == 0 then Err("Sequence contains no elements")
        else
          var time := Wait(s, price) + 1;
          if s.elapsed + time > MaxTime then Ok(None)
          else Ok(Some(State(Pay(Produce(s.resources, s.robots, time), price), Plus(s.robots, kind, 1), s.elapsed + time)))
  }

  /** Building a robot with this price took `next` from `s`: it waited the
      least number of minutes that makes the price affordable, plus one
      minute to build, and every resource gained its robots' output over
      that time and lost what the price asks. */
  predicate Built(s: State, price: seq<Price>, next: State)
  {
    var time := next.elapsed - s.elapsed;
    && Produced(s, price) && |price| > 0
    && Affordable(s, price, time - 1) && (time > 1 ==> !Affordable(s, price, time - 2))
    && forall r :: Get(next.resources, r) == Get(s.resources, r) + Get(s.robots, r) * time - PriceOf(price, r)
  }

  /** With one entry per resource in a price, stock never goes negative. */
  lemma BuildKeepsStock(bp: Blueprint, caps: Amounts, s: State, kind: Resource)
    requires Build(bp, caps, s, kind).Ok? && Build(bp, caps, s, kind).value.Some?
    requires forall r :: Get(s.resources, r) >= 0 && Get(s.robots, r) >= 0
    requires NoRepeats(Resources(RobotFor(bp, kind).value.price))
    ensures forall r :: Get(Build(bp, caps, s, kind).value.value.resources, r) >= 0
  {
    var next := Build(bp, caps, s, kind).value.value;
    PayKeepsStock(s, RobotFor(bp, kind).value.price, next);
  }

  lemma PayKeepsStock(s: State, price: seq<Price>, next: State)
    requires Built(s, price, next) && next.elapsed > s.elapsed && NoRepeats(Resources(price))
    requires forall r :: Get(s.resources, r) >= 0 && Get(s.robots, r) >= 0
    ensures forall r :: Get(next.resources, r) >= 0
  {
    var time := next.elapsed - s.elapsed;
    var after := next.resources;
    forall r
      ensures Get(after, r) >= 0
    {
      var income := Get(s.robots, r);
      MulMonotone(time - 1, time, income);
      if exists i :: 0 <= i < |price| && price[i].resource == r {
        var i :| 0 <= i < |price| && price[i].resource == r;
        PriceOfSingle(price, r, i);
      } else {
        PriceOfAbsent(price, r);
        MulNonNegative(income, time);
      }
    }
  }

  function Resources(price: seq<Price>): (r: seq<Resource>)
    ensures |r| == |price| && forall i :: 0 <= i < |r| ==> r[i] == price[i].resource
  {
    if |price| == 0 then [] else [price[0].resource] + Resources(price[1..])
  }

  lemma {:induction false} PriceOfSingle(price: seq<Price>, r: Resource, i: nat)
    requires i < |price| && price[i].resource == r && NoRepeats(Resources(price))
    ensures PriceOf(price, r) == price[i].value
  {
    if i == 0 {
      assert forall j :: 0 <= j < |price[1..]| ==> price[1..][j].resource != r by {
        forall j | 0 <= j < |price[1..]| ensures price[1..][j].resource != r {
          assert Resources(price)[j + 1] != Resources(price)[0];
        }
      }
      PriceOfAbsent(price[1..], r);
    } else {
      assert price[0].resource != r by {
        assert Resources(price)[0] != Resources(price)[i];
      }
      assert NoRepeats(Resources(price[1..])) by {
        forall a, b | 0 <= a < b < |price[1..]|
          ensures Resources(price[1..])[a] != Resources(price[1..])[b]
        {
          assert Resources(price)[a + 1] != Resources(price)[b + 1];
        }
      }
      PriceOfSingle(price[1..], r, i - 1);
    }
  }

  lemma {:induction false} PriceOfAbsent(price: seq<Price>, r: Resource)
    requires forall i :: 0 <= i < |price| ==> price[i].resource != r
    ensures PriceOf(price, r) == 0
  {
    if |price| > 0 {
      assert forall i :: 0 <= i < |price[1..]| ==> price[1..][i] == price[i + 1];
      PriceOfAbsent(price[1..], r);
    }
  }

  // ---------------------------------------------------------------------
  // The search.

  /** `expectedCracked`: geodes in stock plus what the geode robots crack
      by the end. */
  function Expected(s: State): int
  {
    Get(s.resources, Geode) + (MaxTime - s.elapsed) * Get(s.robots, Geode)
  }

  function Remaining(s: State): nat
  {
    if s.elapsed < MaxTime then MaxTime - s.elapsed else 0
  }

  /** The most any state reachable from `s` is on course to crack. */
  function Explore(bp: Blueprint, caps: Amounts, s: State): (r: Result<int>)
    ensures r.Ok? ==> r.value >= Expected(s)
    decreases Remaining(s), 5
  {
    Branches(bp, caps, s, BuildOrder, Expected(s))
  }

  /** The robots of `kinds` in turn, each built when it can be and its
      branch explored; `best` is the most found so far. */
  function Branches(bp: Blueprint, caps: Amounts, s: State, kinds: seq<Resource>, best: int): (r: Result<int>)
    ensures r.Ok? ==> r.value >= best
    decreases Remaining(s), |kinds|
  {
    if |kinds| == 0 then Ok(best)
    else
      match Build(bp, caps, s, kinds[0])
      case Err(e) => Err(e)
      case Ok(None) => Branches(bp, caps, s, kinds[1..], best)
      case Ok(Some(next)) =>
        match Explore(bp, caps, next)
        case Err(e) => Err(e)
        case Ok(v) => Branches(bp, caps, s, kinds[1..], Max2(best, v))
  }

  /** Building `kind` from `s` leads to a state whose branch explores to
      `v`. */
  predicate Successor(bp: Blueprint, caps: Amounts, s: State, kind: Resource, v: int)
  {
    && Build(bp, caps, s, kind).Ok? && Build(bp, caps, s, kind).value.Some?
    && Explore(bp, caps, Build(bp, caps, s, kind).value.value) == Ok(v)
  }

  /** Building `kind` from `s` succeeds or is skipped, and a built state's
      branch explores to at most `v`. */
  predicate Explored(bp: Blueprint, caps: Amounts, s: State, kind: Resource, v: int)
  {
    && Build(bp, caps, s, kind).Ok?
    && (Build(bp, caps, s, kind).value.Some? ==>
          var e := Explore(bp, caps, Build(bp, caps, s, kind).value.value);
          e.Ok? && e.value <= v)
  }

  /** Every branch tried was explored and found no more than the answer. */
  lemma {:induction false} BranchesBound(bp: Blueprint, caps: Amounts, s: State, kinds: seq<Resource>, best: int)
    requires Branches(bp, caps, s, kinds, best).Ok?
    ensures forall i :: 0 <= i < |kinds| ==> Explored(bp, caps, s, kinds[i], Branches(bp, caps, s, kinds, best).value)
    decreases |kinds|
  {
    if |kinds| > 0 {
      var r := Branches(bp, caps, s, kinds, best);
      var b := Build(bp, caps, s, kinds[0]).value;
      var best' := if b.None? then best else Max2(best, Explore(bp, caps, b.value).value);
      assert r == Branches(bp, caps, s, kinds[1..], best');
      BranchesBound(bp, caps, s, kinds[1..], best');
      forall i | 0 < i < |kinds| ensures Explored(bp, caps, s, kinds[i], r.value) {
        assert kinds[i] == kinds[1..][i - 1];
      }
    }
  }

  /** The answer is the starting best or some branch's answer. */
  lemma {:induction false} BranchesAttained(bp: Blueprint, caps: Amounts, s: State, kinds: seq<Resource>, best: int)
    requires Branches(bp, caps, s, kinds, best).Ok?
    ensures var v := Branches(bp, caps, s, kinds, best).value;
      v == best || exists i :: 0 <= i < |kinds| && Successor(bp, caps, s, kinds[i], v)
    decreases |kinds|
  {
    if |kinds| > 0 {
      var r := Branches(bp, caps, s, kinds, best);
      var b := Build(bp, caps, s, kinds[0]).value;
      var best' := if b.None? then best else Max2(best, Explore(bp, caps, b.value).value);
      assert r == Branches(bp, caps, s, kinds[1..], best');
      BranchesAttained(bp, caps, s, kinds[1..], best');
      if r.value != best' {
        var i :| 0 <= i < |kinds[1..]| && Successor(bp, caps, s, kinds[1..][i], r.value);
        assert kinds[i + 1] == kinds[1..][i];
      } else if best' != best {
        assert Successor(bp, caps, s, kinds[0], r.value);
      }
    }
  }

  // ---------------------------------------------------------------------
  // The reference: the best over every reachable state.

  /** One build from `a` gives `b`. */
  predicate Step(bp: Blueprint, caps: Amounts, a: State, b: State)
  {
    exists i :: 0 <= i < |BuildOrder| && Build(bp, caps, a, BuildOrder[i]) == Ok(Some(b))
  }

  /** A sequence of builds. */
  predicate Path(bp: Blueprint, caps: Amounts, p: seq<State>)
  {
    |p| > 0 && forall i :: 0 < i < |p| ==> Step(bp, caps, p[i - 1], p[i])
  }

  /** The search's answer is the most any state reachable from `s` is on
      course to crack: no reachable state expects more, and some reachable
      state expects exactly that. The source's queue and visited set visit
      each reachable state once, which does not change the maximum. */
  lemma {:induction false} ExploreIsBest(bp: Blueprint, caps: Amounts, s: State, p: seq<State>)
    requires Explore(bp, caps, s).Ok? && Path(bp, caps, p) && p[0] == s
    ensures Expected(p[|p| - 1]) <= Explore(bp, caps, s).value
    decreases |p|
  {
    if |p| > 1 {
      var v := Explore(bp, caps, s).value;
      var i :| 0 <= i < |BuildOrder| && Build(bp, caps, s, BuildOrder[i]) == Ok(Some(p[1]));
      BranchesBound(bp, caps, s, BuildOrder, Expected(s));
      assert Explored(bp, caps, s, BuildOrder[i], v);
      var tail := p[1..];
      assert Path(bp, caps, tail) by {
        forall j | 0 < j < |tail| ensures Step(bp, caps, tail[j - 1], tail[j]) {
          assert tail[j - 1] == p[j] && tail[j] == p[j + 1];
        }
      }
      ExploreIsBest(bp, caps, p[1], tail);
    }
  }

  lemma {:induction false} ExploreAttained(bp: Blueprint, caps: Amounts, s: State) returns (p: seq<State>)
    requires Explore(bp, caps, s).Ok?
    ensures Path(bp, caps, p) && p[0] == s && Expected(p[|p| - 1]) == Explore(bp, caps, s).value
    decreases Remaining(s)
  {
    var v := Explore(bp, caps, s).value;
    BranchesAttained(bp, caps, s, BuildOrder, Expected(s));
    if v == Expected(s) {
      p := [s];
    } else {
      var i :| 0 <= i < |BuildOrder| && Successor(bp, caps, s, BuildOrder[i], v);
      var next := Build(bp, caps, s, BuildOrder[i]).value.value;
      var tail := ExploreAttained(bp, caps, next);
      p := [s] + tail;
      forall j | 0 < j < |p| ensures Step(bp, caps, p[j - 1], p[j]) {
        if j == 1 {
          assert p[1] == next;
        } else {
          assert p[j - 1] == tail[j - 2] && p[j] == tail[j - 1];
        }
      }
    }
  }

  /** Along any sequence of builds, robot counts that start within their
      caps stay within them: the search never builds past a cap. */
  lemma {:induction false} PathKeepsCaps(bp: Blueprint, caps: Amounts, p: seq<State>)
    requires Path(bp, caps, p)
    requires forall r :: Get(p[0].robots, r) <= Get(caps, r)
    ensures forall k, r :: 0 <= k < |p| ==> Get(p[k].robots, r) <= Get(caps, r)
    decreases |p|
  {
    if |p| > 1 {
      var front := p[..|p| - 1];
      assert Path(bp, caps, front) by {
        forall j | 0 < j < |front| ensures Step(bp, caps, front[j - 1], front[j]) {
          assert front[j - 1] == p[j - 1] && front[j] == p[j];
        }
      }
      PathKeepsCaps(bp, caps, front);
      var last := p[|p| - 1];
      assert Step(bp, caps, p[|p| - 2], last);
      assert forall r :: Get(p[|p| - 2].robots, r) <= Get(caps, r) by {
        assert p[|p| - 2] == front[|front| - 1];
      }
      forall k, r | 0 <= k < |p| ensures Get(p[k].robots, r) <= Get(caps, r) {
        if k < |p| - 1 { assert p[k] == front[k]; }
      }
    }
  }

  /** Every robot's price names each resource at most once. */
  predicate PlainPrices(bp: Blueprint)
  {
    forall i :: 0 <= i < |bp.robots| ==> NoRepeats(Resources(bp.robots[i].price))
  }

  /** With plain prices, stock and robot counts never go negative along a
      sequence of builds. */
  lemma {:induction false} PathKeepsStock(bp: Blueprint, caps: Amounts, p: seq<State>)
    requires Path(bp, caps, p) && PlainPrices(bp)
    requires forall r :: Get(p[0].resources, r) >= 0 && Get(p[0].robots, r) >= 0
    ensures forall k, r :: 0 <= k < |p| ==> Get(p[k].resources, r) >= 0 && Get(p[k].robots, r) >= 0
    decreases |p|
  {
    if |p| > 1 {
      var front := p[..|p| - 1];
      assert Path(bp, caps, front) by {
        forall j | 0 < j < |front| ensures Step(bp, caps, front[j - 1], front[j]) {
          assert front[j - 1] == p[j - 1] && front[j] == p[j];
        }
      }
      PathKeepsStock(bp, caps, front);
      var prev := p[|p| - 2];
      assert prev == front[|front| - 1];
      var i :| 0 <= i < |BuildOrder| && Build(bp, caps, prev, BuildOrder[i]) == Ok(Some(p[|p| - 1]));
      var robot := RobotFor(bp, BuildOrder[i]).value;
      var j :| 0 <= j < |bp.robots| && bp.robots[j] == robot;
      BuildKeepsStock(bp, caps, prev, BuildOrder[i]);
      forall k, r | 0 <= k < |p| ensures Get(p[k].resources, r) >= 0 && Get(p[k].robots, r) >= 0 {
        if k < |p| - 1 { assert p[k] == front[k]; }
      }
    }
  }

  // ---------------------------------------------------------------------
  // Quality.

  /** The robots' prices in one resource, in order. */
  function PricesIn(robots: seq<Robot>, r: Resource): seq<int>
  {
    if |robots| == 0 then [] else Values(robots[0].price, r) + PricesIn(robots[1..], r)
  }

  /** A value is among them exactly when some robot's price asks that
      much of the resource. */
  lemma {:induction false} PricesInMembers(robots: seq<Robot>, r: Resource, x: int)
    ensures x in PricesIn(robots, r) <==>
      exists i, j :: 0 <= i < |robots| && 0 <= j < |robots[i].price| && robots[i].price[j] == Price(r, x)
  {
    if |robots| > 0 {
      PricesInMembers(robots[1..], r, x);
      assert forall i :: 1 <= i < |robots| ==> robots[i] == robots[1..][i - 1];
      if exists i, j :: 0 <= i < |robots| && 0 <= j < |robots[i].price| && robots[i].price[j] == Price(r, x) {
        var i, j :| 0 <= i < |robots| && 0 <= j < |robots[i].price| && robots[i].price[j] == Price(r, x);
        if i > 0 { assert robots[1..][i - 1].price[j] == Price(r, x); }
      }
    }
  }

  function Values(price: seq<Price>, r: Resource): (v: seq<int>)
    ensures forall x :: x in v <==> exists j :: 0 <= j < |price| && price[j] == Price(r, x)
  {
    if |price| == 0 then []
    else
      assert forall j :: 1 <= j < |price| ==> price[j] == price[1..][j - 1];
      (if price[0].resource == r then [price[0].value] else []) + Values(price[1..], r)
  }

  /** `maxRobots`: five more than the dearest price in each of ore, clay
      and obsidian (LINQ's `Max` fails when nothing is priced in one), and
      no real cap on geode robots. */
  function Caps(bp: Blueprint): (r: Result<Amounts>)
    ensures r.Ok? <==> |PricesIn(bp.robots, Ore)| > 0 && |PricesIn(bp.robots, Clay)| > 0 && |PricesIn(bp.robots, Obsidian)| > 0
    ensures r.Ok? ==> Get(r.value, Geode) == IntMax
    ensures r.Ok? ==>
      && CapFits(PricesIn(bp.robots, Ore), r.value.ore)
      && CapFits(PricesIn(bp.robots, Clay), r.value.clay)
      && CapFits(PricesIn(bp.robots, Obsidian), r.value.obsidian)
  {
    var ore := PricesIn(bp.robots, Ore);
    var clay := PricesIn(bp.robots, Clay);
    var obsidian := PricesIn(bp.robots, Obsidian);
    if |ore| == 0 || |clay| == 0 || |obsidian| == 0 then Err("Sequence contains no elements")
    else Ok(Amounts(Cap(ore), Cap(clay), Cap(obsidian), IntMax))
  }

  /** `c` is five more than the dearest of `prices`. */
  predicate CapFits(prices: seq<int>, c: int)
  {
    c - 5 in prices && forall x :: x in prices ==> x + 5 <= c
  }

  function Cap(prices: seq<int>): (c: int)
    requires |prices| > 0
    ensures CapFits(prices, c)
  {
    var m := Max(prices);
    forall x | x in prices ensures x <= m {
      var i :| 0 <= i < |prices| && prices[i] == x;
    }
    m + 5
  }

  /** The first state: one ore robot, nothing in stock, no time gone. */
  const Start := State(Amounts(0, 0, 0, 0), Amounts(1, 0, 0, 0), 0)

  /** Two robots of the same kind make `ToDictionary` throw. */
  predicate DistinctKinds(bp: Blueprint)
  {
    forall i, j :: 0 <= i < j < |bp.robots| ==> bp.robots[i].kind != bp.robots[j].kind
  }

  /** `GetQuality`: the best geode count times the blueprint's number. */
  function Quality(bp: Blueprint): (r: Result<int>)
    ensures r.Ok? ==>
      && Caps(bp).Ok? && Explore(bp, Caps(bp).value, Start).Ok?
      && r.value == Explore(bp, Caps(bp).value, Start).value * bp.number
  {
    match Caps(bp)
    case Err(e) => Err(e)
    case Ok(caps) =>
      match Explore(bp, caps, Start)
      case Err(e) => Err(e)
      case Ok(best) => Ok(best * bp.number)
  }

  /** `CalculateTaskOne`: the sum of the qualities, after every blueprint
      has been built; the first failure is the answer. */
  function PartOne(blueprints: seq<Blueprint>): (r: Result<int>)
    ensures r.Ok? <==> forall i :: 0 <= i < |blueprints| ==> DistinctKinds(blueprints[i]) && Quality(blueprints[i]).Ok?
  {
    if exists i :: 0 <= i < |blueprints| && !DistinctKinds(blueprints[i]) then
      Err("An item with the same key has already been added.")
    else
      MapResultFails(blueprints, Quality);
      match MapResult(blueprints, Quality)
      case Err(e) => Err(e)
      case Ok(qualities) => Ok(Sum(qualities))
  }

  /** Part one's answer is the sum of the blueprints' qualities. */
  lemma PartOneSums(blueprints: seq<Blueprint>, qualities: seq<int>)
    requires |qualities| == |blueprints|
    requires forall i :: 0 <= i < |blueprints| ==> DistinctKinds(blueprints[i]) && Quality(blueprints[i]) == Ok(qualities[i])
    ensures PartOne(blueprints) == Ok(Sum(qualities))
  {
    MapResultOk(blueprints, Quality, qualities);
  }
}

=== FILE: day2.dfy ===
/** Day 2: rock, paper, scissors. A round scores the value of the figure
    played (1, 2 or 3) plus 6 for a win, 3 for a draw and 0 for a loss. */
module Day2 {
  import opened Common
  import opened Parsing

  datatype Figure = Rock | Paper | Scissors

  datatype Outcome = Win | Draw | Lose

  /** The enum value of a figure. */
  function Value(f: Figure): int
  {
    match f
    case Rock => 1
    case Paper => 2
    case Scissors => 3
  }

  /** The enum value of an outcome. */
  function Points(o: Outcome): int
  {
    match o
    case Win => 6
    case Draw => 3
    case Lose => 0
  }

  /** `WinnersOf`: the figure a figure beats. */
  function BeatenBy(f: Figure): Figure
  {
    match f
    case Rock => Scissors
    case Paper => Rock
    case Scissors => Paper
  }

  /** `LosersOf`, the inverted table: the figure that beats a figure. */
  function Beating(f: Figure): Figure
  {
    match f
    case Scissors => Rock
    case Rock => Paper
    case Paper => Scissors
  }

  /** The two tables are inverse to each other, and no figure beats itself. */
  lemma TablesInverse(f: Figure)
    ensures Beating(BeatenBy(f)) == f && BeatenBy(Beating(f)) == f
    ensures BeatenBy(f) != f && Beating(f) != f && BeatenBy(f) != Beating(f)
  {
  }

  /** The rule of the game stated independently of the tables: each figure
      beats the one before it in the cycle rock, paper, scissors. */
  function Index(f: Figure): int
  {
    match f
    case Rock => 0
    case Paper => 1
    case Scissors => 2
  }

  function OutcomeOf(opponent: Figure, me: Figure): Outcome
  {
    var d := (Index(me) - Index(opponent)) % 3;
    if d == 0 then Draw else if d == 1 then Win else Lose
  }

  /** The `WinnersOf` table is the cyclic rule. */
  lemma BeatenByIsCyclic(me: Figure, opponent: Figure)
    ensures BeatenBy(me) == opponent <==> OutcomeOf(opponent, me) == Win
    ensures Beating(me) == opponent <==> OutcomeOf(opponent, me) == Lose
    ensures me == opponent <==> OutcomeOf(opponent, me) == Draw
  {
  }

  /** Swapping the players swaps win and loss. */
  lemma OutcomeSwap(a: Figure, b: Figure)
    ensures OutcomeOf(a, b) == Win <==> OutcomeOf(b, a) == Lose
    ensures OutcomeOf(a, b) == Draw <==> OutcomeOf(b, a) == Draw
  {
  }

  /** Part one's round score, with the branches the source takes: a draw
      when the figures are equal, a win when my figure beats the other. */
  function ScoreOne(opponent: Figure, me: Figure): (r: int)
    ensures r == Value(me) + Points(OutcomeOf(opponent, me))
    ensures 1 <= r <= 9
  {
    var value := Value(me);
    if opponent == me then value + 3
    else if BeatenBy(me) == opponent then value + 6
    else value
  }

  /** Part two's choice: the figure that brings about the wanted outcome. */
  function Choose(opponent: Figure, wanted: Outcome): (me: Figure)
    ensures OutcomeOf(opponent, me) == wanted
  {
    match wanted
    case Draw => opponent
    case Win => Beating(opponent)
    case Lose => BeatenBy(opponent)
  }

  /** It is the only figure that does. */
  lemma ChooseUnique(opponent: Figure, wanted: Outcome, me: Figure)
    requires OutcomeOf(opponent, me) == wanted
    ensures me == Choose(opponent, wanted)
  {
  }

  /** Part two's round score. */
  function ScoreTwo(opponent: Figure, wanted: Outcome): (r: int)
    ensures r == ScoreOne(opponent, Choose(opponent, wanted))
    ensures 1 <= r <= 9
  {
    Value(Choose(opponent, wanted)) + Points(wanted)
  }

  /** Part one's score of one round. */
  function RoundOne(round: (Figure, Figure)): int
  {
    ScoreOne(round.0, round.1)
  }

  /** Part two's score of one round. */
  function RoundTwo(round: (Figure, Outcome)): int
  {
    ScoreTwo(round.0, round.1)
  }

  /** `CalculateTaskOne`: the sum of part one's round scores, LINQ's
      `Select(score).Sum()`. */
  function TotalOne(rounds: seq<(Figure, Figure)>): (r: int)
    ensures r == Sum(Map(rounds, RoundOne))
  {
    if |rounds| == 0 then 0
    else
      assert Map(rounds, RoundOne)[1..] == Map(rounds[1..], RoundOne);
      ScoreOne(rounds[0].0, rounds[0].1) + TotalOne(rounds[1..])
  }

  /** `CalculateTaskTwo`: the sum of part two's round scores. */
  function TotalTwo(rounds: seq<(Figure, Outcome)>): (r: int)
    ensures r == Sum(Map(rounds, RoundTwo))
  {
    if |rounds| == 0 then 0
    else
      assert Map(rounds, RoundTwo)[1..] == Map(rounds[1..], RoundTwo);
      ScoreTwo(rounds[0].0, rounds[0].1) + TotalTwo(rounds[1..])
  }

  lemma {:induction false} TotalOneBounds(rounds: seq<(Figure, Figure)>)
    ensures |rounds| <= TotalOne(rounds) <= 9 * |rounds|
  {
    if |rounds| > 0 {
      TotalOneBounds(rounds[1..]);
    }
  }

  /** Part two scores exactly what part one would for the chosen figures. */
  lemma {:induction false} TotalTwoIsTotalOne(rounds: seq<(Figure, Outcome)>)
    ensures TotalTwo(rounds) == TotalOne(seq(|rounds|, i requires 0 <= i < |rounds| =>
      (rounds[i].0, Choose(rounds[i].0, rounds[i].1))))
  {
    var chosen := seq(|rounds|, i requires 0 <= i < |rounds| => (rounds[i].0, Choose(rounds[i].0, rounds[i].1)));
    if |rounds| > 0 {
      TotalTwoIsTotalOne(rounds[1..]);
      var rest := seq(|rounds| - 1, i requires 0 <= i < |rounds| - 1 =>
        (rounds[1..][i].0, Choose(rounds[1..][i].0, rounds[1..][i].1)));
      assert chosen[1..] == rest;
    }
  }

  // ---------------------------------------------------------------------
  // The input grammar: a figure letter, white space, a second letter, one
  // round per line.

  /** Part one's letters: A, B, C and X, Y, Z both name the three figures
      and either may stand in either column. */
  function FigureLetter(c: char): Option<Figure>
  {
    match c
    case 'A' => Some(Rock)
    case 'B' => Some(Paper)
    case 'C' => Some(Scissors)
    case 'X' => Some(Rock)
    case 'Y' => Some(Paper)
    case 'Z' => Some(Scissors)
    case _ => None
  }

  /** The opponent's column in part two: A, B or C only. */
  function OpponentLetter(c: char): Option<Figure>
  {
    match c
    case 'A' => Some(Rock)
    case 'B' => Some(Paper)
    case 'C' => Some(Scissors)
    case _ => None
  }

  /** The second column in part two. */
  function OutcomeLetter(c: char): Option<Outcome>
  {
    match c
    case 'X' => Some(Lose)
    case 'Y' => Some(Draw)
    case 'Z' => Some(Win)
    case _ => None
  }

  /** `WS`: any run of white space, line breaks included. */
  function WhiteSpaceRun(s: string): (n: nat)
    ensures n <= |s|
  {
    if |s| > 0 && s[0] in {' ', '\t', '\r', '\n'} then 1 + WhiteSpaceRun(s[1..]) else 0
  }

  /** Two one-letter columns separated by white space. A first letter that
      is not recognised fails without consuming anything; a second one that
      is not recognised is an error. */
  function Columns<A, B>(s: string, first: char -> Option<A>, second: char -> Option<B>): (r: Reply<(A, B)>)
    ensures r.Match? ==> |r.rest| < |s|
  {
    if |s| == 0 || first(s[0]).None? then NoMatch
    else
      var after := s[1..][WhiteSpaceRun(s[1..])..];
      if |after| > 0 && second(after[0]).Some? then
        Match((first(s[0]).value, second(after[0]).value), after[1..])
      else Failure("letter expected")
  }

  function LineOne(s: string): Reply<(Figure, Figure)>
  {
    Columns(s, FigureLetter, FigureLetter)
  }

  function LineTwo(s: string): Reply<(Figure, Outcome)>
  {
    Columns(s, OpponentLetter, OutcomeLetter)
  }

  /** `ParseInputForOne`: zero or more rounds, one per line. `Run` does
      not ask for the end of the text, so text that does not start with a
      letter reads as no rounds; an error needs a first letter. */
  function ParseInputForOne(input: string): (r: Result<seq<(Figure, Figure)>>)
    ensures |input| == 0 || FigureLetter(input[0]).None? ==> r == Ok([])
    ensures r.Err? ==> |input| > 0 && FigureLetter(input[0]).Some?
    ensures r.Ok? && LineOne(input).Match? ==> |r.value| >= 1 && r.value[0] == LineOne(input).value
  {
    RunParser(Many(LineOne, Newline, true, input))
  }

  /** `ParseInputForTwo`: likewise, with an opponent letter first. */
  function ParseInputForTwo(input: string): (r: Result<seq<(Figure, Outcome)>>)
    ensures |input| == 0 || OpponentLetter(input[0]).None? ==> r == Ok([])
    ensures r.Err? ==> |input| > 0 && OpponentLetter(input[0]).Some?
    ensures r.Ok? && LineTwo(input).Match? ==> |r.value| >= 1 && r.value[0] == LineTwo(input).value
  {
    RunParser(Many(LineTwo, Newline, true, input))
  }

  function OpponentChar(f: Figure): char
  {
    match f
    case Rock => 'A'
    case Paper => 'B'
    case Scissors => 'C'
  }

  function MyChar(f: Figure): char
  {
    match f
    case Rock => 'X'
    case Paper => 'Y'
    case Scissors => 'Z'
  }

  function OutcomeChar(o: Outcome): char
  {
    match o
    case Lose => 'X'
    case Draw => 'Y'
    case Win => 'Z'
  }

  function ShowRoundOne(round: (Figure, Figure)): string
  {
    [OpponentChar(round.0), ' ', MyChar(round.1)]
  }

  function ShowRoundTwo(round: (Figure, Outcome)): string
  {
    [OpponentChar(round.0), ' ', OutcomeChar(round.1)]
  }

  lemma LineOneReadsBack()
    ensures ReadsBack(LineOne, ShowRoundOne, Anything)
  {
    forall x: (Figure, Figure), rest: string | rest == "" || rest[0] == '\n'
      ensures LineOne(ShowRoundOne(x) + rest) == Match(x, rest)
    {
      var s := ShowRoundOne(x) + rest;
      assert s[1..][1..] == [MyChar(x.1)] + rest;
      assert WhiteSpaceRun(s[1..][1..]) == 0;
      assert WhiteSpaceRun(s[1..]) == 1;
      assert s[1..][1..][1..] == rest;
    }
  }

  lemma LineTwoReadsBack()
    ensures ReadsBack(LineTwo, ShowRoundTwo, Anything)
  {
    forall x: (Figure, Outcome), rest: string | rest == "" || rest[0] == '\n'
      ensures LineTwo(ShowRoundTwo(x) + rest) == Match(x, rest)
    {
      var s := ShowRoundTwo(x) + rest;
      assert s[1..][1..] == [OutcomeChar(x.1)] + rest;
      assert WhiteSpaceRun(s[1..][1..]) == 0;
      assert WhiteSpaceRun(s[1..]) == 1;
      assert s[1..][1..][1..] == rest;
    }
  }

  /** Rounds printed one per line are read back by both grammars. */
  lemma ParseShowRounds(one: seq<(Figure, Figure)>, two: seq<(Figure, Outcome)>)
    ensures ParseInputForOne(Lines(one, ShowRoundOne)) == Ok(one)
    ensures ParseInputForTwo(Lines(two, ShowRoundTwo)) == Ok(two)
  {
    LineOneReadsBack();
    LineTwoReadsBack();
    ManyLines(LineOne, ShowRoundOne, Anything, one);
    ManyLines(LineTwo, ShowRoundTwo, Anything, two);
  }
}

=== FILE: day20.dfy ===
/** Day 20: mixing a circular list of numbers. Every node, in input
    order, is taken out and walked as many places forward (positive value)
    or backward (negative value) as its value says, then put back; the
    answer sums the values 1000, 2000 and 3000 places after the first zero.

    The linked list is modelled as the sequence of node numbers from its
    first node to its last, a node number being the node's position in the
    input; `values[id]` is the value node `id` carries. */
module Day20 {
  import opened Common

  /** Part two multiplies every value by the decryption key ... */
  const DecryptionKey: int := 811589153
  /** ... and mixes ten times. */
  const Rounds: nat := 10

  // ---------------------------------------------------------------------
  // Input: one `int` per non-empty trimmed line.

  function ParseEntry(entry: string): Result<int>
  {
    match ParseInt32(entry)
    case Some(v) => Ok(v)
    case None => Err("Input string was not in a correct format.")
  }

  function ParseInput(source: string): (r: Result<seq<int>>)
    ensures r.Ok? ==> |r.value| == |TrimmedEntries(source, '\n')|
    ensures r.Ok? ==> forall i :: 0 <= i < |r.value| ==> IsInt32(r.value[i])
  {
    var entries := TrimmedEntries(source, '\n');
    var r := MapResult(entries, ParseEntry);
    if r.Ok? then
      MapResultEach(entries, ParseEntry, r.value);
      r
    else r
  }

  lemma {:induction false} MapResultEach(entries: seq<string>, f: string -> Result<int>, values: seq<int>)
    requires MapResult(entries, f) == Ok(values)
    ensures |values| == |entries|
    ensures forall i :: 0 <= i < |values| ==> f(entries[i]) == Ok(values[i])
  {
    if |entries| > 0 {
      MapResultEach(entries[1..], f, values[1..]);
      forall i | 0 < i < |values|
        ensures f(entries[i]) == Ok(values[i])
      {
        assert entries[1..][i - 1] == entries[i];
      }
    }
  }

  /** A printed number ends with a digit. */
  lemma ShowIntEnd(i: int)
    ensures IsDigit(ShowInt(i)[|ShowInt(i)| - 1])
  {
    assert AllDigits(ShowNat(Abs(i)));
  }

  /** A printed `int` is one trimmed entry that parses back. */
  lemma ShowEntry(v: int)
    requires IsInt32(v)
    ensures '\n' !in ShowInt(v) && ShowInt(v) != "" && Trim(ShowInt(v)) == ShowInt(v)
    ensures ParseEntry(ShowInt(v)) == Ok(v)
  {
    var s := ShowInt(v);
    assert '\n' !in s by {
      ShowIntWithout(v, '\n');
    }
    assert Trim(s) == s by {
      ShowIntStart(v);
      ShowIntEnd(v);
      assert !IsWhiteSpace(s[0]) && !IsWhiteSpace(s[|s| - 1]);
    }
    assert ParseEntry(s) == Ok(v) by {
      ParseShowInt32(v);
    }
  }

  /** Numbers printed one per line are read back as themselves. */
  lemma ParseShowInput(values: seq<int>)
    requires |values| > 0
    requires forall i :: 0 <= i < |values| ==> IsInt32(values[i])
    ensures ParseInput(Join(Map(values, ShowInt), '\n')) == Ok(values)
  {
    var lines := Map(values, ShowInt);
    forall i | 0 <= i < |lines|
      ensures '\n' !in lines[i] && lines[i] != "" && Trim(lines[i]) == lines[i]
      ensures ParseEntry(lines[i]) == Ok(values[i])
    {
      ShowEntry(values[i]);
    }
    TrimmedEntriesJoin(lines, '\n');
    MapResultOk(lines, ParseEntry, values);
  }

  // ---------------------------------------------------------------------
  // Arrangements of the nodes.

  /** The node numbers of an `n`-element input, in input order. */
  function Ids(n: nat): (r: seq<nat>)
    ensures |r| == n
    ensures forall i :: 0 <= i < n ==> r[i] == i
  {
    if n == 0 then [] else Ids(n - 1) + [n - 1]
  }

  /** `order` lists every one of the `n` nodes exactly once. */
  predicate IsArrangement(order: seq<nat>, n: nat)
  {
    multiset(order) == multiset(Ids(n))
  }

  lemma {:induction false} IdsCount(n: nat, x: nat)
    ensures multiset(Ids(n))[x] == if x < n then 1 else 0
  {
    if n > 0 {
      IdsCount(n - 1, x);
      var last: nat := n - 1;
      var before := Ids(n - 1);
      assert Ids(n) == before + [last];
      SnocCount(before, last, x);
    }
  }

  lemma SnocCount(s: seq<nat>, last: nat, x: nat)
    ensures multiset(s + [last])[x] == multiset(s)[x] + if x == last then 1 else 0
  {
    assert multiset(s + [last]) == multiset(s) + multiset{last};
  }

  /** An arrangement has one entry per node ... */
  lemma ArrangementLength(order: seq<nat>, n: nat)
    requires IsArrangement(order, n)
    ensures |order| == n
  {
    assert |order| == |multiset(order)| == |multiset(Ids(n))| == n;
  }

  /** ... and holds every node exactly once. */
  lemma ArrangementHas(order: seq<nat>, n: nat, id: nat)
    requires IsArrangement(order, n) && id < n
    ensures |order| == n && id in order && multiset(order)[id] == 1
  {
    ArrangementLength(order, n);
    IdsCount(n, id);
  }

  /** Where node `x` is: `LinkedListNode` identity as a position. */
  function IndexOf(s: seq<nat>, x: nat): (k: nat)
    requires x in s
    ensures k < |s| && s[k] == x
    ensures forall j :: 0 <= j < k ==> s[j] != x
  {
    if s[0] == x then 0 else 1 + IndexOf(s[1..], x)
  }

  /** `LinkedList.Remove(node)`. */
  function RemoveAt(s: seq<nat>, p: nat): (r: seq<nat>)
    requires p < |s|
    ensures |r| == |s| - 1
  {
    s[..p] + s[p + 1..]
  }

  /** Removing takes out one occurrence of the removed node. */
  lemma RemoveAtCount(s: seq<nat>, p: nat)
    requires p < |s|
    ensures multiset(RemoveAt(s, p)) == multiset(s) - multiset{s[p]}
  {
    RemoveAtMultiset(s, p);
  }

  /** `LinkedList.AddBefore` the node at index `k`, or `AddAfter` the node at
      index `k - 1`. */
  function InsertAt(s: seq<nat>, k: nat, x: nat): (r: seq<nat>)
    requires k <= |s|
    ensures |r| == |s| + 1 && r[k] == x
  {
    s[..k] + [x] + s[k..]
  }

  /** Inserting adds one occurrence of the inserted node. */
  lemma InsertAtCount(s: seq<nat>, k: nat, x: nat)
    requires k <= |s|
    ensures multiset(InsertAt(s, k, x)) == multiset(s) + multiset{x}
  {
    assert s == s[..k] + s[k..];
  }

  // ---------------------------------------------------------------------
  // Moving one node.

  /** Where a move leaves the list, in closed form. With `m` the number of
      other nodes and `p` the node's index: a forward move starts from the
      node before it (index `p - 1` among the others, the last one when
      the node is first), advances `steps` times, wrapping from the last
      node to the first, and inserts after the node reached; a backward
      move starts from the node after it (index `p` among the others, the
      first one when the node is last), goes back `steps` times, wrapping
      from the first to the last, and inserts before the node reached. */
  function Moved(order: seq<nat>, id: nat, forward: bool, steps: nat): (r: seq<nat>)
    requires |order| >= 2 && id in order
    ensures |r| == |order|
    ensures multiset(r) == multiset(order)
  {
    var p := IndexOf(order, id);
    var k := Landing(p, |order| - 1, forward, steps);
    RemoveAtCount(order, p);
    InsertAtCount(RemoveAt(order, p), k, id);
    InsertAt(RemoveAt(order, p), k, id)
  }

  /** The index among the other nodes at which the moved node is put back. */
  function Landing(p: int, m: int, forward: bool, steps: nat): (k: nat)
    requires m > 0
    ensures k <= m
  {
    if forward then (p - 1 + steps) % m + 1 else (p - steps) % m
  }

  lemma StepForward(a: int, m: int)
    requires m > 0
    ensures (a + 1) % m == if a % m + 1 < m then a % m + 1 else 0
  {
    var q := a / m;
    var r := a % m;
    assert a == q * m + r;
    if r + 1 < m {
      ModUnique(a + 1, m, q, r + 1);
    } else {
      assert a + 1 == (q + 1) * m;
      ModUnique(a + 1, m, q + 1, 0);
    }
  }

  lemma StepBack(a: int, m: int)
    requires m > 0
    ensures (a - 1) % m == if a % m > 0 then a % m - 1 else m - 1
  {
    var q := a / m;
    var r := a % m;
    assert a == q * m + r;
    if r > 0 {
      ModUnique(a - 1, m, q, r - 1);
    } else {
      assert a - 1 == (q - 1) * m + (m - 1);
      ModUnique(a - 1, m, q - 1, m - 1);
    }
  }

  /** Where the walks start, as remainders. */
  lemma WalkStart(p: int, m: int)
    requires 0 <= p <= m && m > 0
    ensures (p - 1) % m == if p > 0 then p - 1 else m - 1
    ensures p % m == if p < m then p else 0
  {
    if p > 0 {
      ModUnique(p - 1, m, 0, p - 1);
    } else {
      ModUnique(p - 1, m, -1, m - 1);
    }
    if p < m {
      ModUnique(p, m, 0, p);
    } else {
      ModUnique(p, m, 1, 0);
    }
  }

  /** The forward walk of `CalculateTaskOne` and `CalculateTaskTwo` over
      the `m` other nodes, the moved node already removed: start at
      `node.Previous` (`list.Last` for the first node), then `steps` times
      `previous.Next ?? list.First`. Returns the index of the node to add
      after. */
  method WalkForward(p: nat, m: nat, steps: nat) returns (previous: nat)
    requires 0 < m && p <= m
    ensures previous < m && previous + 1 == Landing(p, m, true, steps)
  {
    WalkStart(p, m);
    previous := if p > 0 then p - 1 else m - 1;
    var i := 0;
    while i < steps
      invariant 0 <= i <= steps
      invariant previous == (p - 1 + i) % m
    {
      StepForward(p - 1 + i, m);
      previous := if previous + 1 < m then previous + 1 else 0;
      i := i + 1;
    }
  }

  /** The backward walk: start at `node.Next` (`list.First` for the last
      node), then `steps` times `next.Previous ?? list.Last`. Returns the
      index of the node to add before. */
  method WalkBack(p: nat, m: nat, steps: nat) returns (next: nat)
    requires 0 < m && p <= m
    ensures next < m && next == Landing(p, m, false, steps)
  {
    WalkStart(p, m);
    next := if p < m then p else 0;
    var i := 0;
    while i < steps
      invariant 0 <= i <= steps
      invariant next == (p - i) % m
    {
      StepBack(p - i, m);
      next := if next > 0 then next - 1 else m - 1;
      i := i + 1;
    }
  }

  /** One node's move as the linked list performs it. */
  method MoveNode(order: seq<nat>, id: nat, forward: bool, steps: nat) returns (r: seq<nat>)
    requires |order| >= 2 && id in order
    ensures r == Moved(order, id, forward, steps)
  {
    var p := IndexOf(order, id);
    var rest := RemoveAt(order, p);
    var m := |rest|;
    if forward {
      var previous := WalkForward(p, m, steps);
      r := InsertAt(rest, previous + 1, id);
    } else {
      var next := WalkBack(p, m, steps);
      r := InsertAt(rest, next, id);
    }
  }

  /** Putting a node back where it is missing, and taking it out again. */
  lemma InsertThenRemove(rest: seq<nat>, k: nat, id: nat)
    requires k <= |rest| && id !in rest
    ensures id in InsertAt(rest, k, id)
    ensures IndexOf(InsertAt(rest, k, id), id) == k
    ensures RemoveAt(InsertAt(rest, k, id), k) == rest
  {
    var r := InsertAt(rest, k, id);
    assert forall j :: 0 <= j < k ==> r[j] == rest[j];
    assert r[..k] == rest[..k] && r[k + 1..] == rest[k..];
  }

  /** The only node left out of the rest is the one taken out. */
  lemma RemovedIsGone(order: seq<nat>, id: nat)
    requires id in order && multiset(order)[id] == 1
    ensures id !in RemoveAt(order, IndexOf(order, id))
  {
    RemoveAtCount(order, IndexOf(order, id));
    assert multiset(RemoveAt(order, IndexOf(order, id)))[id] == 0;
  }

  /** Moving leaves the other nodes in the order they were in. */
  lemma MovedKeepsOthers(order: seq<nat>, id: nat, forward: bool, steps: nat)
    requires |order| >= 2 && id in order && multiset(order)[id] == 1
    ensures id in Moved(order, id, forward, steps)
    ensures RemoveAt(Moved(order, id, forward, steps), IndexOf(Moved(order, id, forward, steps), id))
         == RemoveAt(order, IndexOf(order, id))
  {
    var p := IndexOf(order, id);
    RemovedIsGone(order, id);
    InsertThenRemove(RemoveAt(order, p), Landing(p, |order| - 1, forward, steps), id);
  }

  /** The node before index `k` going round the circle. */
  function Before(s: seq<nat>, k: nat): nat
    requires k < |s|
  {
    if k > 0 then s[k - 1] else s[|s| - 1]
  }

  lemma BeforeInserted(rest: seq<nat>, k: nat, id: nat)
    requires 0 < |rest| && k <= |rest|
    ensures Before(InsertAt(rest, k, id), k) == if k > 0 then rest[k - 1] else rest[|rest| - 1]
  {
  }

  /** The index, among the `m` other nodes, of the node `steps` places
      forward (or back) from index `p - 1`, the old predecessor, going
      round. */
  function Reached(p: int, m: int, forward: bool, steps: nat): (t: nat)
    requires m > 0
    ensures t < m
  {
    (if forward then p - 1 + steps else p - 1 - steps) % m
  }

  /** The landing index is just after the node reached. */
  lemma LandingAfter(p: int, m: int, forward: bool, steps: nat)
    requires m > 0
    ensures var k := Landing(p, m, forward, steps);
            (if k > 0 then k - 1 else m - 1) == Reached(p, m, forward, steps)
  {
    if !forward {
      StepBack(p - steps, m);
    }
  }

  /** Where a move puts the node: right after the node that lies `steps`
      places forward (or back) from its old predecessor, around the circle
      of the other nodes. */
  lemma MovedLandsAfter(order: seq<nat>, id: nat, forward: bool, steps: nat)
    requires |order| >= 2 && id in order && multiset(order)[id] == 1
    ensures var r := Moved(order, id, forward, steps);
            var p := IndexOf(order, id);
            id in r &&
            Before(r, IndexOf(r, id))
              == RemoveAt(order, p)[Reached(p, |order| - 1, forward, steps)]
  {
    var p := IndexOf(order, id);
    var rest := RemoveAt(order, p);
    var k := Landing(p, |rest|, forward, steps);
    var r := Moved(order, id, forward, steps);
    assert r == InsertAt(rest, k, id);
    assert id in r && IndexOf(r, id) == k by {
      RemovedIsGone(order, id);
      InsertThenRemove(rest, k, id);
    }
    assert Before(r, k) == rest[Reached(p, |rest|, forward, steps)] by {
      BeforeInserted(rest, k, id);
      LandingAfter(p, |rest|, forward, steps);
    }
  }

  /** Walking a whole lap of the `m` other nodes leads back to where the
      walk started, so only the remainder by `m` matters. */
  lemma MovedModulo(order: seq<nat>, id: nat, forward: bool, steps: nat)
    requires |order| >= 2 && id in order
    ensures Moved(order, id, forward, steps) == Moved(order, id, forward, steps % (|order| - 1))
  {
    var p := IndexOf(order, id);
    var m := |order| - 1;
    var q := steps / m;
    assert steps == q * m + steps % m;
    ModAddMultiple(p - 1 + steps % m, m, q);
    assert p - 1 + steps == p - 1 + steps % m + q * m;
    ModAddMultiple(p - steps, m, q);
    assert p - steps % m == p - steps + q * m;
  }

  // ---------------------------------------------------------------------
  // Mixing.

  /** How far a node is walked: its value's magnitude in part one, the
      truncated remainder of its value by `count - 1`, negated for a
      negative value, in part two. A one-node list never walks (its turn
      fails first), so no count is needed for it. */
  function Steps(v: int, count: nat, reduce: bool): (r: nat)
    ensures !reduce ==> r == v || r == -v
    ensures reduce && count >= 2 ==> r < count - 1 && r == Abs(v) % (count - 1)
  {
    if !reduce then Abs(v)
    else if count < 2 then 0
    else Abs(TMod(v, count - 1))
  }

  /** Part two's reduced walk is part one's walk modulo the other nodes. */
  lemma StepsReduce(v: int, count: nat)
    requires count >= 2
    ensures Steps(v, count, true) == Steps(v, count, false) % (count - 1)
  {
  }

  /** The walk length of every node, in input order. */
  function Walks(values: seq<int>, reduce: bool): (w: seq<nat>)
    ensures |w| == |values|
    ensures forall i :: 0 <= i < |values| ==> w[i] == Steps(values[i], |values|, reduce)
  {
    seq(|values|, i requires 0 <= i < |values| => Steps(values[i], |values|, reduce))
  }

  /** Two walk lengths for every node that agree up to whole laps of the
      other nodes. */
  predicate SameLaps(n: nat, w1: seq<nat>, w2: seq<nat>)
    requires n >= 2
  {
    |w1| == |w2| == n && forall i :: 0 <= i < n ==> w1[i] % (n - 1) == w2[i] % (n - 1)
  }

  /** Part two's reduced walks differ from part one's by whole laps. */
  lemma WalksReduce(values: seq<int>)
    requires |values| >= 2
    ensures SameLaps(|values|, Walks(values, false), Walks(values, true))
  {
    var m := |values| - 1;
    forall i | 0 <= i < |values|
      ensures Walks(values, false)[i] % m == Walks(values, true)[i] % m
    {
      StepsReduce(values[i], |values|);
      var w := Steps(values[i], |values|, false);
      ModOfMod(w, m);
    }
  }

  lemma ModOfMod(w: nat, m: nat)
    requires m > 0
    ensures (w % m) % m == w % m
  {
    ModUnique(w % m, m, 0, w % m);
  }

  /** One node's turn, walking `walks[id]` places: a zero stays put; any
      other value in a one-node list has no node to walk from (in part two
      the remainder by `count - 1` divides by zero). */
  function MixNode(order: seq<nat>, values: seq<int>, id: nat, walks: seq<nat>): (r: Result<seq<nat>>)
    requires IsArrangement(order, |values|) && id < |values| == |walks|
    ensures r.Err? <==> values[id] != 0 && |values| < 2
    ensures r.Ok? ==> IsArrangement(r.value, |values|)
    ensures values[id] == 0 ==> r == Ok(order)
  {
    ArrangementHas(order, |values|, id);
    if values[id] == 0 then Ok(order)
    else if |values| < 2 then Err("Object reference not set to an instance of an object.")
    else Ok(Moved(order, id, values[id] > 0, walks[id]))
  }

  /** The nodes `id`, `id + 1`, ... take their turns in input order. */
  function MixFrom(order: seq<nat>, values: seq<int>, id: nat, walks: seq<nat>): (r: Result<seq<nat>>)
    requires IsArrangement(order, |values|) && id <= |values| == |walks|
    ensures r.Ok? ==> IsArrangement(r.value, |values|)
    decreases |values| - id, 1
  {
    if id == |values| then Ok(order) else MixTurn(order, values, id, walks)
  }

  /** Node `id`'s turn, then the rest of the round. */
  function MixTurn(order: seq<nat>, values: seq<int>, id: nat, walks: seq<nat>): (r: Result<seq<nat>>)
    requires IsArrangement(order, |values|) && id < |values| == |walks|
    ensures r.Ok? ==> IsArrangement(r.value, |values|)
    decreases |values| - id, 0
  {
    match MixNode(order, values, id, walks)
    case Err(e) => Err(e)
    case Ok(next) => MixFrom(next, values, id + 1, walks)
  }

  /** After a node's successful turn, the round goes on from the next node. */
  lemma MixFromNext(order: seq<nat>, values: seq<int>, id: nat, walks: seq<nat>, next: seq<nat>)
    requires IsArrangement(order, |values|) && id < |values| == |walks|
    requires MixNode(order, values, id, walks) == Ok(next)
    ensures IsArrangement(next, |values|)
    ensures MixFrom(order, values, id, walks) == MixFrom(next, values, id + 1, walks)
  {
  }

  /** A round fails exactly on a one-node list with a non-zero value. */
  lemma {:induction false} MixFromFails(order: seq<nat>, values: seq<int>, id: nat, walks: seq<nat>)
    requires IsArrangement(order, |values|) && id <= |values| == |walks|
    ensures MixFrom(order, values, id, walks).Err? <==> |values| == 1 && id == 0 && values[0] != 0
    decreases |values| - id
  {
    if id < |values| {
      var step := MixNode(order, values, id, walks);
      if step.Ok? {
        MixFromNext(order, values, id, walks, step.value);
        MixFromFails(step.value, values, id + 1, walks);
      }
    }
  }

  /** A node's turn is the same with walks that differ by whole laps. */
  lemma MixNodeLaps(order: seq<nat>, values: seq<int>, id: nat, w1: seq<nat>, w2: seq<nat>)
    requires IsArrangement(order, |values|) && id < |values| == |w1| == |w2|
    requires |values| >= 2 ==> SameLaps(|values|, w1, w2)
    ensures MixNode(order, values, id, w1) == MixNode(order, values, id, w2)
  {
    if values[id] != 0 && |values| >= 2 {
      ArrangementHas(order, |values|, id);
      MovedModulo(order, id, values[id] > 0, w1[id]);
      MovedModulo(order, id, values[id] > 0, w2[id]);
    }
  }

  /** Rounds with walks that differ by whole laps mix alike. */
  lemma {:induction false} MixFromLaps(order: seq<nat>, values: seq<int>, id: nat, w1: seq<nat>, w2: seq<nat>)
    requires IsArrangement(order, |values|) && id <= |values| == |w1| == |w2|
    requires |values| >= 2 ==> SameLaps(|values|, w1, w2)
    ensures MixFrom(order, values, id, w1) == MixFrom(order, values, id, w2)
    decreases |values| - id
  {
    if id < |values| {
      MixNodeLaps(order, values, id, w1, w2);
      var step := MixNode(order, values, id, w1);
      if step.Ok? {
        MixFromLaps(step.value, values, id + 1, w1, w2);
        SameTurn(order, values, id, w1, w2, step.value);
      }
    }
  }

  /** Two turns that move the node alike and go on alike end alike. */
  lemma SameTurn(order: seq<nat>, values: seq<int>, id: nat, w1: seq<nat>, w2: seq<nat>, next: seq<nat>)
    requires IsArrangement(order, |values|) && id < |values| == |w1| == |w2|
    requires MixNode(order, values, id, w1) == MixNode(order, values, id, w2) == Ok(next)
    requires IsArrangement(next, |values|)
    requires MixFrom(next, values, id + 1, w1) == MixFrom(next, values, id + 1, w2)
    ensures MixFrom(order, values, id, w1) == MixFrom(order, values, id, w2)
  {
    MixFromNext(order, values, id, w1, next);
    MixFromNext(order, values, id, w2, next);
  }

  /** Part one's full walks and part two's reduced walks mix alike. */
  lemma MixFromReduce(order: seq<nat>, values: seq<int>)
    requires IsArrangement(order, |values|) && |values| >= 2
    ensures MixFrom(order, values, 0, Walks(values, false)) == MixFrom(order, values, 0, Walks(values, true))
  {
    WalksReduce(values);
    MixFromLaps(order, values, 0, Walks(values, false), Walks(values, true));
  }

  /** One node's turn as the linked list takes it. */
  method Turn(order: seq<nat>, values: seq<int>, id: nat, walks: seq<nat>) returns (r: Result<seq<nat>>)
    requires IsArrangement(order, |values|) && id < |values| == |walks|
    ensures r == MixNode(order, values, id, walks)
  {
    var value := values[id];
    if value == 0 {
      return Ok(order);
    }
    if |values| < 2 {
      return Err("Object reference not set to an instance of an object.");
    }
    ArrangementHas(order, |values|, id);
    var next := MoveNode(order, id, value > 0, walks[id]);
    return Ok(next);
  }

  /** `foreach (var node in nodes)`: one round. */
  method MixRound(order: seq<nat>, values: seq<int>, walks: seq<nat>) returns (r: Result<seq<nat>>)
    requires IsArrangement(order, |values|) && |values| == |walks|
    ensures r == MixFrom(order, values, 0, walks)
  {
    var current := order;
    var id := 0;
    while id < |values|
      invariant 0 <= id <= |values|
      invariant IsArrangement(current, |values|)
      invariant MixFrom(order, values, 0, walks) == MixFrom(current, values, id, walks)
    {
      var next := Turn(current, values, id, walks);
      if next.Err? {
        return Err(next.error);
      }
      MixFromNext(current, values, id, walks, next.value);
      current := next.value;
      id := id + 1;
    }
    return Ok(current);
  }

  /** `rounds` rounds, each starting from the previous one's list. */
  function MixRounds(order: seq<nat>, values: seq<int>, rounds: nat, walks: seq<nat>): (r: Result<seq<nat>>)
    requires IsArrangement(order, |values|) && |values| == |walks|
    ensures r.Ok? ==> IsArrangement(r.value, |values|)
    decreases rounds
  {
    if rounds == 0 then Ok(order)
    else
      match MixFrom(order, values, 0, walks)
      case Err(e) => Err(e)
      case Ok(next) => MixRounds(next, values, rounds - 1, walks)
  }

  /** One more round: it fails as the round fails, or goes on from the
      round's list. */
  lemma MixRoundsNext(order: seq<nat>, values: seq<int>, rounds: nat, walks: seq<nat>)
    requires IsArrangement(order, |values|) && |values| == |walks| && rounds > 0
    ensures MixFrom(order, values, 0, walks).Err? ==>
      MixRounds(order, values, rounds, walks) == Err(MixFrom(order, values, 0, walks).error)
    ensures MixFrom(order, values, 0, walks).Ok? ==>
      MixRounds(order, values, rounds, walks) == MixRounds(MixFrom(order, values, 0, walks).value, values, rounds - 1, walks)
  {
  }

  /** Mixing fails only on a one-node list with a non-zero value, and then
      only if it mixes at all. */
  lemma {:induction false} MixRoundsFails(order: seq<nat>, values: seq<int>, rounds: nat, walks: seq<nat>)
    requires IsArrangement(order, |values|) && |values| == |walks|
    ensures MixRounds(order, values, rounds, walks).Err?
        <==> rounds > 0 && |values| == 1 && values[0] != 0
    decreases rounds
  {
    if rounds > 0 {
      MixFromFails(order, values, 0, walks);
      MixRoundsNext(order, values, rounds, walks);
      var next := MixFrom(order, values, 0, walks);
      if next.Ok? {
        MixRoundsFails(next.value, values, rounds - 1, walks);
      }
    }
  }

  /** Rounds with walks that differ by whole laps mix alike. */
  lemma {:induction false} MixRoundsLaps(order: seq<nat>, values: seq<int>, rounds: nat, w1: seq<nat>, w2: seq<nat>)
    requires IsArrangement(order, |values|) && |values| == |w1| == |w2|
    requires |values| >= 2 ==> SameLaps(|values|, w1, w2)
    ensures MixRounds(order, values, rounds, w1) == MixRounds(order, values, rounds, w2)
    decreases rounds
  {
    if rounds > 0 {
      MixFromLaps(order, values, 0, w1, w2);
      MixRoundsNext(order, values, rounds, w1);
      MixRoundsNext(order, values, rounds, w2);
      var next := MixFrom(order, values, 0, w1);
      if next.Ok? {
        MixRoundsLaps(next.value, values, rounds - 1, w1, w2);
      }
    }
  }

  /** Part one's full walks and part two's reduced walks give the same
      rounds. */
  lemma MixRoundsReduce(order: seq<nat>, values: seq<int>, rounds: nat)
    requires IsArrangement(order, |values|) && |values| >= 2
    ensures MixRounds(order, values, rounds, Walks(values, false)) == MixRounds(order, values, rounds, Walks(values, true))
  {
    WalksReduce(values);
    MixRoundsLaps(order, values, rounds, Walks(values, false), Walks(values, true));
  }

  /** Mixing from the input order. */
  method Mix(values: seq<int>, rounds: nat, reduce: bool) returns (r: Result<seq<nat>>)
    ensures r == MixRounds(Ids(|values|), values, rounds, Walks(values, reduce))
    ensures r.Err? <==> rounds > 0 && |values| == 1 && values[0] != 0
    ensures r.Ok? ==> IsArrangement(r.value, |values|)
  {
    var walks := Walks(values, reduce);
    MixRoundsFails(Ids(|values|), values, rounds, walks);
    var order := Ids(|values|);
    var done := 0;
    while done < rounds
      invariant 0 <= done <= rounds
      invariant IsArrangement(order, |values|)
      invariant MixRounds(Ids(|values|), values, rounds, walks)
             == MixRounds(order, values, rounds - done, walks)
    {
      var next := MixRound(order, values, walks);
      MixRoundsNext(order, values, rounds - done, walks);
      if next.Err? {
        return Err(next.error);
      }
      order := next.value;
      done := done + 1;
    }
    return Ok(order);
  }

  // ---------------------------------------------------------------------
  // The list's contents.

  /** The value node `id` carries. */
  function ValueOf(values: seq<int>, id: nat): int
  {
    if id < |values| then values[id] else 0
  }

  /** The values along the list, first node first. */
  function Contents(order: seq<nat>, values: seq<int>): (r: seq<int>)
    ensures |r| == |order|
    ensures forall k :: 0 <= k < |order| ==> r[k] == ValueOf(values, order[k])
  {
    if |order| == 0 then [] else [ValueOf(values, order[0])] + Contents(order[1..], values)
  }

  lemma ContentsAppend(a: seq<nat>, b: seq<nat>, values: seq<int>)
    ensures Contents(a + b, values) == Contents(a, values) + Contents(b, values)
  {
  }

  lemma {:induction false} ContentsPermutation(a: seq<nat>, b: seq<nat>, values: seq<int>)
    requires multiset(a) == multiset(b)
    ensures multiset(Contents(a, values)) == multiset(Contents(b, values))
    decreases |a|
  {
    if |a| > 0 {
      var j := PermutationHead(a, b);
      ContentsPermutation(a[1..], b[..j] + b[j + 1..], values);
      ContentsAppend(b[..j] + [a[0]], b[j + 1..], values);
      ContentsAppend(b[..j], [a[0]], values);
      ContentsAppend(b[..j], b[j + 1..], values);
    } else {
      assert |b| == |multiset(b)| == 0;
    }
  }

  /** Mixing only rearranges: the list holds the input's values, each as
      often as the input does. */
  lemma MixedIsPermutation(order: seq<nat>, values: seq<int>)
    requires IsArrangement(order, |values|)
    ensures multiset(Contents(order, values)) == multiset(values)
  {
    ContentsPermutation(order, Ids(|values|), values);
    ContentsOfIds(values);
  }

  /** The input order carries the input's values. */
  lemma ContentsOfIds(values: seq<int>)
    ensures Contents(Ids(|values|), values) == values
  {
    var ids := Ids(|values|);
    var c := Contents(ids, values);
    forall k | 0 <= k < |values|
      ensures c[k] == values[k]
    {
      assert ids[k] == k;
    }
  }

  // ---------------------------------------------------------------------
  // Grove coordinates.

  /** `list.Find(0)`: the index of the first zero in the list. */
  function FirstZero(list: seq<int>): (r: Option<nat>)
    ensures r.None? <==> 0 !in list
    ensures r.Some? ==> r.value < |list| && list[r.value] == 0
    ensures r.Some? ==> forall k :: 0 <= k < r.value ==> list[k] != 0
  {
    if |list| == 0 then None
    else if list[0] == 0 then Some(0)
    else
      match FirstZero(list[1..])
      case None => None
      case Some(k) => Some(k + 1)
  }

  /** The value `offset` places after index `z`, around the circle. */
  function After(list: seq<int>, z: nat, offset: nat): int
    requires |list| > 0
  {
    list[(z + offset) % |list|]
  }

  /** The grove coordinates summed: the values 1000, 2000 and 3000 places
      after the first zero. */
  function Coordinates(list: seq<int>): int
    requires 0 in list
  {
    var z := FirstZero(list).value;
    After(list, z, 1000) + After(list, z, 2000) + After(list, z, 3000)
  }

  /** The walk of `CalculateTaskOne` and `CalculateTaskTwo` after mixing:
      3000 steps from the first zero, `current.Next ?? list.First`, keeping
      every thousandth value; without a zero the walk starts from a null
      node. */
  method GroveSum(list: seq<int>) returns (r: Result<int>)
    ensures r.Err? <==> 0 !in list
    ensures r.Ok? ==> r.value == Coordinates(list)
  {
    var zero := FirstZero(list);
    if zero.None? {
      return Err("Object reference not set to an instance of an object.");
    }
    var z := zero.value;
    var n := |list|;
    var current := z;
    var collected: seq<int> := [];
    var i := 1;
    while i <= 3000
      invariant 1 <= i <= 3001
      invariant current == (z + i - 1) % n
      invariant |collected| == (i - 1) / 1000
      invariant forall k :: 0 <= k < |collected| ==> collected[k] == After(list, z, 1000 * (k + 1))
    {
      StepForward(z + i - 1, n);
      current := if current + 1 < n then current + 1 else 0;
      if i % 1000 == 0 {
        collected := collected + [list[current]];
      }
      i := i + 1;
    }
    assert |collected| == 3;
    return Ok(collected[0] + collected[1] + collected[2]);
  }

  // ---------------------------------------------------------------------
  // The two parts.

  /** `CalculateTaskOne`: one round of full walks. */
  method TaskOne(source: string) returns (r: Result<int>)
    ensures ParseInput(source).Err? ==> r.Err?
    ensures ParseInput(source).Ok? ==>
      var values := ParseInput(source).value;
      (r.Ok? <==> (|values| != 1 || values[0] == 0) && 0 in values)
    ensures r.Ok? ==>
      var values := ParseInput(source).value;
      MixRounds(Ids(|values|), values, 1, Walks(values, false)).Ok? &&
      var list := Contents(MixRounds(Ids(|values|), values, 1, Walks(values, false)).value, values);
      0 in list && r.value == Coordinates(list)
  {
    var parsed := ParseInput(source);
    if parsed.Err? {
      return Err(parsed.error);
    }
    var values := parsed.value;
    var mixed := Mix(values, 1, false);
    if mixed.Err? {
      return Err(mixed.error);
    }
    var list := Contents(mixed.value, values);
    MixedIsPermutation(mixed.value, values);
    assert 0 in list <==> 0 in multiset(values);
    r := GroveSum(list);
  }

  /** The values part two mixes. */
  function Decrypted(values: seq<int>): (r: seq<int>)
    ensures |r| == |values|
    ensures forall i :: 0 <= i < |values| ==> r[i] == values[i] * DecryptionKey
    ensures forall i :: 0 <= i < |values| ==> (r[i] == 0 <==> values[i] == 0)
  {
    Map(values, v => v * DecryptionKey)
  }

  /** `CalculateTaskTwo`: the values times the decryption key, ten rounds of
      reduced walks. */
  method TaskTwo(source: string) returns (r: Result<int>)
    ensures ParseInput(source).Err? ==> r.Err?
    ensures ParseInput(source).Ok? ==>
      var values := ParseInput(source).value;
      (r.Ok? <==> (|values| != 1 || values[0] == 0) && 0 in values)
    ensures r.Ok? ==>
      var keyed := Decrypted(ParseInput(source).value);
      MixRounds(Ids(|keyed|), keyed, Rounds, Walks(keyed, true)).Ok? &&
      var list := Contents(MixRounds(Ids(|keyed|), keyed, Rounds, Walks(keyed, true)).value, keyed);
      0 in list && r.value == Coordinates(list)
  {
    var parsed := ParseInput(source);
    if parsed.Err? {
      return Err(parsed.error);
    }
    var values := parsed.value;
    var keyed := Decrypted(values);
    DecryptedZero(values);
    var mixed := Mix(keyed, Rounds, true);
    if mixed.Err? {
      return Err(mixed.error);
    }
    var list := Contents(mixed.value, keyed);
    MixedIsPermutation(mixed.value, keyed);
    assert 0 in list <==> 0 in multiset(keyed);
    r := GroveSum(list);
  }

  lemma DecryptedZero(values: seq<int>)
    ensures 0 in Decrypted(values) <==> 0 in values
  {
    if 0 in values {
      var i :| 0 <= i < |values| && values[i] == 0;
      assert Decrypted(values)[i] == 0;
    }
  }

  lemma MulMonotone(a: int, b: int, c: int)
    requires 0 <= a <= b && c >= 0
    ensures a * c <= b * c
  {
    MulNonNegative(b - a, c);
    assert b * c - a * c == (b - a) * c;
  }

  /** The keyed values stay within C#'s `long`. */
  lemma DecryptedFitsLong(values: seq<int>)
    requires forall i :: 0 <= i < |values| ==> IsInt32(values[i])
    ensures forall i :: 0 <= i < |values| ==> IsInt64(Decrypted(values)[i])
  {
    forall i | 0 <= i < |values|
      ensures IsInt64(values[i] * DecryptionKey)
    {
      var v := values[i];
      MulMonotone(Abs(v), 0x8000_0000, DecryptionKey);
      MulNonNegative(Abs(v), DecryptionKey);
      assert Abs(v * DecryptionKey) == Abs(v) * DecryptionKey;
    }
  }
}

=== FILE: day21.dfy ===
/** Day 21 (newer tree): monkeys that shout numbers. A monkey either shouts
    a constant or applies `+`, `-`, `*` or `/` to what two other monkeys
    shout. Part one evaluates, pass after pass, every monkey whose two
    operands are known until `root` is. Part two leaves `humn` out, lets the
    passes settle, and walks back from `root`'s unknown operand to `humn`,
    undoing one operation per step.

    The monkeys are taken as parsed, in input order; the numbers are C#
    `long`s, unbounded here. */
module Day21 {
  import opened Common

  datatype Op = Add | Subtract | Multiply | Divide

  /** `left op right`, the operands given by monkey id. */
  datatype Formula = Formula(left: string, op: Op, right: string)

  datatype Job = Constant(value: int) | Expression(formula: Formula)

  datatype Monkey = Monkey(id: string, job: Job)

  const DivideByZero := "Attempted to divide by zero."
  const DuplicateKey := "An item with the same key has already been added."
  const KeyNotFound := "The given key was not present in the dictionary."
  /** `ImmutableDictionary.Add` of a key that already has a different value. */
  const SameKeyDifferentValue := "An element with the same key but a different value already exists."
  /** The message for a loop the source never leaves. */
  const NeverEnds := "the loop never ends"

  // ---------------------------------------------------------------------
  // Operations.

  function OpText(op: Op): string
  {
    match op
    case Add => "+"
    case Subtract => "-"
    case Multiply => "*"
    case Divide => "/"
  }

  /** `ExpressionMonkey.Create`: the operator's text picks the operation;
      any other text is an error. */
  function Create(operation: string): (r: Result<Op>)
    ensures r.Ok? <==> operation in {"+", "-", "*", "/"}
    ensures r.Ok? ==> OpText(r.value) == operation
  {
    if operation == "+" then Ok(Add)
    else if operation == "-" then Ok(Subtract)
    else if operation == "/" then Ok(Divide)
    else if operation == "*" then Ok(Multiply)
    else Err("Unknown operation " + operation)
  }

  /** Every operation is created from its own text. */
  lemma CreateOpText(op: Op)
    ensures Create(OpText(op)) == Ok(op)
  {
  }

  /** The operation on `long`s: division truncates and fails on a zero
      divisor. */
  function Apply(op: Op, a: int, b: int): (r: Result<int>)
    ensures r.Err? <==> op == Divide && b == 0
  {
    match op
    case Add => Ok(a + b)
    case Subtract => Ok(a - b)
    case Multiply => Ok(a * b)
    case Divide => if b == 0 then Err(DivideByZero) else Ok(TDiv(a, b))
  }

  // ---------------------------------------------------------------------
  // The monkeys as given.

  function Ids(monkeys: seq<Monkey>): (r: seq<string>)
    ensures |r| == |monkeys|
    ensures forall i :: 0 <= i < |monkeys| ==> r[i] == monkeys[i].id
  {
    seq(|monkeys|, i requires 0 <= i < |monkeys| => monkeys[i].id)
  }

  /** Every monkey's job by id. */
  function Jobs(monkeys: seq<Monkey>): map<string, Job>
  {
    if |monkeys| == 0 then map[]
    else Jobs(monkeys[..|monkeys| - 1])[monkeys[|monkeys| - 1].id := monkeys[|monkeys| - 1].job]
  }

  /** With distinct ids, each monkey's job is found by its id. */
  lemma {:induction false} JobsFind(monkeys: seq<Monkey>, i: int)
    requires NoRepeats(Ids(monkeys)) && 0 <= i < |monkeys|
    ensures monkeys[i].id in Jobs(monkeys) && Jobs(monkeys)[monkeys[i].id] == monkeys[i].job
  {
    var n := |monkeys| - 1;
    if i < n {
      var init := monkeys[..n];
      assert Ids(init) == Ids(monkeys)[..n];
      assert monkeys[i].id != monkeys[n].id by {
        assert Ids(monkeys)[i] != Ids(monkeys)[n];
      }
      JobsFind(init, i);
      assert init[i] == monkeys[i];
    }
  }

  /** `values[monkey.Id] = monkey.Value` over the constants in order: a
      later constant with the same id wins. */
  function Constants(monkeys: seq<Monkey>): map<string, int>
  {
    if |monkeys| == 0 then map[]
    else
      var last := monkeys[|monkeys| - 1];
      var before := Constants(monkeys[..|monkeys| - 1]);
      if last.job.Constant? then before[last.id := last.job.value] else before
  }

  /** The expression monkeys, in input order, as `(id, formula)`. */
  function Expressions(monkeys: seq<Monkey>): (r: seq<(string, Formula)>)
    ensures forall i :: 0 <= i < |r| ==> Monkey(r[i].0, Expression(r[i].1)) in monkeys
  {
    if |monkeys| == 0 then []
    else
      var rest := Expressions(monkeys[1..]);
      assert forall i :: 0 <= i < |rest| ==> Monkey(rest[i].0, Expression(rest[i].1)) in monkeys[1..];
      if monkeys[0].job.Expression? then [(monkeys[0].id, monkeys[0].job.formula)] + rest
      else rest
  }

  function Keys(entries: seq<(string, Formula)>): (r: seq<string>)
    ensures |r| == |entries|
    ensures forall i :: 0 <= i < |entries| ==> r[i] == entries[i].0
  {
    seq(|entries|, i requires 0 <= i < |entries| => entries[i].0)
  }

  // ---------------------------------------------------------------------
  // Evaluation passes.

  /** Both operands have a value. */
  predicate Ready(values: map<string, int>, f: Formula)
  {
    f.left in values && f.right in values
  }

  /** One pass of the `foreach` over the waiting monkeys, in dictionary
      order: a monkey whose operands are both known is evaluated, recorded
      and left out of what still waits; values recorded earlier in the pass
      already count. `strict` is part two's `ImmutableDictionary.Add`, which
      refuses an id that already has a different value and leaves an equal
      one alone; part one's indexer overwrites it. */
  function Pass(values: map<string, int>, waiting: seq<(string, Formula)>, strict: bool)
    : (r: Result<(map<string, int>, seq<(string, Formula)>)>)
    ensures r.Ok? ==> values.Keys <= r.value.0.Keys
    ensures r.Ok? ==> |r.value.1| <= |waiting|
    ensures r.Ok? ==> forall i :: 0 <= i < |r.value.1| ==> r.value.1[i] in waiting
    ensures r.Ok? && |r.value.1| == |waiting| ==> r.value.0 == values && r.value.1 == waiting
    ensures r.Ok? && strict ==> forall k :: k in values ==> r.value.0[k] == values[k]
    ensures r.Ok? ==> forall i :: 0 <= i < |r.value.1| ==> !Ready(values, r.value.1[i].1)
    decreases |waiting|
  {
    if |waiting| == 0 then Ok((values, []))
    else
      var (id, f) := waiting[0];
      if Ready(values, f) then
        match Apply(f.op, values[f.left], values[f.right])
        case Err(e) => Err(e)
        case Ok(v) =>
          if strict && id in values && values[id] != v then Err(SameKeyDifferentValue)
          else
            var r := Pass(values[id := v], waiting[1..], strict);
            if r.Ok? then
              assert forall i :: 0 <= i < |r.value.1| ==> r.value.1[i] in waiting[1..];
              r
            else r
      else
        match Pass(values, waiting[1..], strict)
        case Err(e) => Err(e)
        case Ok((next, rest)) =>
          assert forall i :: 0 <= i < |rest| ==> rest[i] in waiting[1..];
          assert |rest| == |waiting| - 1 ==> rest == waiting[1..];
          assert waiting == [waiting[0]] + waiting[1..];
          Ok((next, [waiting[0]] + rest))
  }

  // ---------------------------------------------------------------------
  // Part one.

  /** `while (!values.ContainsKey("root"))`: passes until `root` has a
      value. A pass that evaluates nobody leaves everything as it was, so
      the source would repeat it forever. */
  function UntilRoot(values: map<string, int>, waiting: seq<(string, Formula)>): (r: Result<map<string, int>>)
    ensures r.Ok? ==> "root" in r.value && values.Keys <= r.value.Keys
    decreases |waiting|
  {
    if "root" in values then Ok(values)
    else
      match Pass(values, waiting, false)
      case Err(e) => Err(e)
      case Ok((next, rest)) =>
        if |rest| == |waiting| then Err(NeverEnds)
        else UntilRoot(next, rest)
  }

  /** `CalculateTaskOne`: constants first, the expression monkeys by id
      (`ToDictionary` refuses a repeated id), then passes until `root`
      is known. */
  function PartOne(monkeys: seq<Monkey>): (r: Result<int>)
    ensures !NoRepeats(Keys(Expressions(monkeys))) ==> r.Err?
    ensures r.Ok? && NoRepeats(Ids(monkeys)) ==> exists depth: nat :: Eval(Jobs(monkeys), "root", depth) == Some(r.value)
  {
    var waiting := Expressions(monkeys);
    if !NoRepeats(Keys(waiting)) then Err(DuplicateKey)
    else
      match UntilRoot(Constants(monkeys), waiting)
      case Err(e) => Err(e)
      case Ok(values) =>
        if NoRepeats(Ids(monkeys)) then
          StartMeant(monkeys);
          Ok(values["root"])
        else
          Ok(values["root"])
  }

  /** With distinct ids, every value known once `root` is reached is what
      the expression tree gives, at some depth. */
  lemma StartMeant(monkeys: seq<Monkey>)
    requires NoRepeats(Ids(monkeys)) && UntilRoot(Constants(monkeys), Expressions(monkeys)).Ok?
    ensures exists depth: nat :: Meant(Jobs(monkeys), UntilRoot(Constants(monkeys), Expressions(monkeys)).value, depth)
  {
    ConstantsMeant(monkeys);
    ExpressionsWait(monkeys);
    var depth := UntilRootMeant(Jobs(monkeys), Constants(monkeys), Expressions(monkeys), 0);
  }

  // ---------------------------------------------------------------------
  // Part one computes what the expression tree means.

  /** What monkey `id` shouts, following at most `depth` expressions deep;
      `None` when that is not enough, an id has no monkey or a division
      by zero happens. */
  function Eval(jobs: map<string, Job>, id: string, depth: nat): Option<int>
    decreases depth
  {
    if id !in jobs then None
    else
      match jobs[id]
      case Constant(c) => Some(c)
      case Expression(f) =>
        if depth == 0 then None
        else
          match (Eval(jobs, f.left, depth - 1), Eval(jobs, f.right, depth - 1))
          case (Some(a), Some(b)) =>
            (match Apply(f.op, a, b)
             case Ok(v) => Some(v)
             case Err(_) => None)
          case _ => None
  }

  /** More depth never changes an answer already found. */
  lemma {:induction false} EvalDeeper(jobs: map<string, Job>, id: string, depth: nat)
    requires Eval(jobs, id, depth).Some?
    ensures Eval(jobs, id, depth + 1) == Eval(jobs, id, depth)
    decreases depth
  {
    if jobs[id].Expression? {
      var f := jobs[id].formula;
      EvalDeeper(jobs, f.left, depth - 1);
      EvalDeeper(jobs, f.right, depth - 1);
    }
  }

  /** Every recorded value is what the tree gives, `depth` deep. */
  predicate Meant(jobs: map<string, Job>, values: map<string, int>, depth: nat)
  {
    forall k :: k in values ==> Eval(jobs, k, depth) == Some(values[k])
  }

  /** Every waiting monkey waits with its own formula. */
  predicate Waits(jobs: map<string, Job>, waiting: seq<(string, Formula)>)
  {
    forall i :: 0 <= i < |waiting| ==> waiting[i].0 in jobs && jobs[waiting[i].0] == Expression(waiting[i].1)
  }

  lemma MeantDeeper(jobs: map<string, Job>, values: map<string, int>, depth: nat)
    requires Meant(jobs, values, depth)
    ensures Meant(jobs, values, depth + 1)
  {
    forall k | k in values
      ensures Eval(jobs, k, depth + 1) == Some(values[k])
    {
      EvalDeeper(jobs, k, depth);
    }
  }

  /** A value a pass records is the one the tree gives, one level deeper
      than its operands'. */
  lemma EvaluatedMeant(jobs: map<string, Job>, values: map<string, int>, depth: nat, id: string, f: Formula, v: int)
    requires Meant(jobs, values, depth) && Ready(values, f)
    requires id in jobs && jobs[id] == Expression(f)
    requires Apply(f.op, values[f.left], values[f.right]) == Ok(v)
    ensures Meant(jobs, values[id := v], depth + 1)
  {
    MeantDeeper(jobs, values, depth);
    assert Eval(jobs, id, depth + 1) == Some(v);
  }

  /** A pass only records values the tree gives. */
  lemma {:induction false} PassMeant(jobs: map<string, Job>, values: map<string, int>, waiting: seq<(string, Formula)>, strict: bool, depth: nat)
    requires Meant(jobs, values, depth) && Waits(jobs, waiting)
    ensures Pass(values, waiting, strict).Ok? ==> Meant(jobs, Pass(values, waiting, strict).value.0, depth + |waiting|)
    decreases |waiting|
  {
    if |waiting| > 0 {
      var (id, f) := waiting[0];
      assert Waits(jobs, waiting[1..]) by {
        assert forall i :: 0 <= i < |waiting| - 1 ==> waiting[1..][i] == waiting[i + 1];
      }
      if Ready(values, f) {
        var a := Apply(f.op, values[f.left], values[f.right]);
        if a.Ok? && !(strict && id in values && values[id] != a.value) {
          EvaluatedMeant(jobs, values, depth, id, f, a.value);
          PassMeant(jobs, values[id := a.value], waiting[1..], strict, depth + 1);
        }
      } else {
        MeantDeeper(jobs, values, depth);
        PassMeant(jobs, values, waiting[1..], strict, depth + 1);
      }
    }
  }

  lemma {:induction false} UntilRootMeant(jobs: map<string, Job>, values: map<string, int>, waiting: seq<(string, Formula)>, depth: nat)
    returns (final: nat)
    requires Meant(jobs, values, depth) && Waits(jobs, waiting)
    requires UntilRoot(values, waiting).Ok?
    ensures Meant(jobs, UntilRoot(values, waiting).value, final)
    decreases |waiting|
  {
    final := depth;
    if "root" !in values {
      var (next, rest) := Pass(values, waiting, false).value;
      PassMeant(jobs, values, waiting, false, depth);
      assert Waits(jobs, rest);
      final := UntilRootMeant(jobs, next, rest, depth + |waiting|);
    }
  }

  /** With distinct ids, the constants are the constant monkeys' values. */
  lemma {:induction false} ConstantsMeant(monkeys: seq<Monkey>)
    requires NoRepeats(Ids(monkeys))
    ensures Meant(Jobs(monkeys), Constants(monkeys), 0)
  {
    forall k | k in Constants(monkeys)
      ensures Eval(Jobs(monkeys), k, 0) == Some(Constants(monkeys)[k])
    {
      var i := ConstantOrigin(monkeys, k);
      JobsFind(monkeys, i);
    }
  }

  /** The monkey a constant comes from. */
  lemma {:induction false} ConstantOrigin(monkeys: seq<Monkey>, k: string) returns (i: int)
    requires k in Constants(monkeys)
    ensures 0 <= i < |monkeys| && monkeys[i] == Monkey(k, Constant(Constants(monkeys)[k]))
  {
    var n := |monkeys| - 1;
    if monkeys[n].job.Constant? && monkeys[n].id == k {
      i := n;
    } else {
      i := ConstantOrigin(monkeys[..n], k);
    }
  }

  lemma ExpressionsWait(monkeys: seq<Monkey>)
    requires NoRepeats(Ids(monkeys))
    ensures Waits(Jobs(monkeys), Expressions(monkeys))
  {
    var waiting := Expressions(monkeys);
    forall i | 0 <= i < |waiting|
      ensures waiting[i].0 in Jobs(monkeys) && Jobs(monkeys)[waiting[i].0] == Expression(waiting[i].1)
    {
      var j :| 0 <= j < |monkeys| && monkeys[j] == Monkey(waiting[i].0, Expression(waiting[i].1));
      JobsFind(monkeys, j);
    }
  }

  /** Part one's answer is what `root`'s expression tree gives, when all
      monkeys have distinct ids. */
  lemma PartOneEvaluates(monkeys: seq<Monkey>) returns (depth: nat)
    requires NoRepeats(Ids(monkeys)) && PartOne(monkeys).Ok?
    ensures Eval(Jobs(monkeys), "root", depth) == Some(PartOne(monkeys).value)
  {
    ConstantsMeant(monkeys);
    ExpressionsWait(monkeys);
    depth := UntilRootMeant(Jobs(monkeys), Constants(monkeys), Expressions(monkeys), 0);
  }

  // ---------------------------------------------------------------------
  // Part two: undoing one operation.

  /** The value of the right operand that makes `known op right` equal
      `current`, the left one being known. */
  function SolveRight(op: Op, current: int, known: int): (r: Result<int>)
    ensures r.Err? <==> (op == Multiply && known == 0) || (op == Divide && current == 0)
  {
    match op
    case Add => Ok(current - known)
    case Subtract => Ok(known - current)
    case Multiply => if known == 0 then Err(DivideByZero) else Ok(TDiv(current, known))
    case Divide => if current == 0 then Err(DivideByZero) else Ok(TDiv(known, current))
  }

  /** The value of the left operand that makes `left op known` equal
      `current`, the right one being known. */
  function SolveLeft(op: Op, current: int, known: int): (r: Result<int>)
    ensures r.Err? <==> op == Multiply && known == 0
  {
    match op
    case Add => Ok(current - known)
    case Subtract => Ok(known + current)
    case Multiply => if known == 0 then Err(DivideByZero) else Ok(TDiv(current, known))
    case Divide => Ok(known * current)
  }

  /** Reapplying the operation to the known operand and the recovered right
      one gives `current` back: always for `+` and `-`, and for `*` and `/`
      when the division that recovered it was exact. */
  lemma SolveRightReapplies(op: Op, current: int, known: int)
    ensures op == Add || op == Subtract ==> Apply(op, known, SolveRight(op, current, known).value) == Ok(current)
    ensures op == Multiply && known != 0 && TMod(current, known) == 0 ==>
      Apply(op, known, SolveRight(op, current, known).value) == Ok(current)
    ensures op == Divide && current != 0 && TMod(known, current) == 0 && known != 0 ==>
      Apply(op, known, SolveRight(op, current, known).value) == Ok(current)
  {
    if op == Multiply && known != 0 && TMod(current, known) == 0 {
      TDivMod(current, known);
    }
    if op == Divide && current != 0 && TMod(known, current) == 0 && known != 0 {
      var q := TDiv(known, current);
      TDivMod(known, current);
      assert known == q * current;
      TDivExact(current, q);
    }
  }

  /** The same for a recovered left operand: `+`, `-` and `/` always give
      `current` back (for `/` the divisor must not be zero), `*` when the
      division was exact. */
  lemma SolveLeftReapplies(op: Op, current: int, known: int)
    ensures op == Add || op == Subtract ==> Apply(op, SolveLeft(op, current, known).value, known) == Ok(current)
    ensures op == Multiply && known != 0 && TMod(current, known) == 0 ==>
      Apply(op, SolveLeft(op, current, known).value, known) == Ok(current)
    ensures op == Divide && known != 0 ==> Apply(op, SolveLeft(op, current, known).value, known) == Ok(current)
  {
    if op == Multiply && known != 0 && TMod(current, known) == 0 {
      TDivMod(current, known);
      assert TDiv(current, known) * known == current;
    }
    if op == Divide && known != 0 {
      assert known * current == current * known;
      TDivExact(current, known);
    }
  }

  /** Everything part two knows before walking back. */
  datatype Settled = Settled(values: map<string, int>, waiting: map<string, Formula>)

  /** A constant monkey part two starts from: every one except `humn`. */
  predicate Seeded(m: Monkey)
  {
    m.job.Constant? && m.id != "humn"
  }

  /** Two seeded constants `ImmutableDictionary.Add` cannot both take: the
      same id with different numbers. */
  predicate Clash(a: Monkey, b: Monkey)
  {
    Seeded(a) && Seeded(b) && a.id == b.id && a.job.value != b.job.value
  }

  /** `ImmutableDictionary.Add` of the constants, `humn` left out: a
      repeated id with the same number changes nothing, one with a
      different number is an error (`SeedValuesExact`). */
  function SeedValues(monkeys: seq<Monkey>): (r: Result<map<string, int>>)
    ensures r.Ok? ==> "humn" !in r.value
    ensures r.Ok? ==> forall k :: k in r.value ==> Monkey(k, Constant(r.value[k])) in monkeys
  {
    if |monkeys| == 0 then Ok(map[])
    else
      var last := monkeys[|monkeys| - 1];
      match SeedValues(monkeys[..|monkeys| - 1])
      case Err(e) => Err(e)
      case Ok(before) =>
        if Seeded(last) && last.id in before && before[last.id] != last.job.value then Err(SameKeyDifferentValue)
        else Ok(if Seeded(last) then before[last.id := last.job.value] else before)
  }

  /** Seeding fails exactly when two seeded constants clash; otherwise
      every seeded constant's id holds its number. */
  lemma {:induction false} SeedValuesExact(monkeys: seq<Monkey>)
    ensures SeedValues(monkeys).Err? <==> exists i, j :: 0 <= i < j < |monkeys| && Clash(monkeys[i], monkeys[j])
    ensures SeedValues(monkeys).Ok? ==> forall i :: 0 <= i < |monkeys| && Seeded(monkeys[i]) ==>
      monkeys[i].id in SeedValues(monkeys).value && SeedValues(monkeys).value[monkeys[i].id] == monkeys[i].job.value
  {
    if |monkeys| > 0 {
      var init := monkeys[..|monkeys| - 1];
      var last := monkeys[|monkeys| - 1];
      SeedValuesExact(init);
      match SeedValues(init)
      case Err(_) =>
        ClashFromInit(monkeys, init);
      case Ok(before) =>
        if Seeded(last) && last.id in before && before[last.id] != last.job.value {
          ClashWithLast(monkeys, init, before);
        } else {
          NoClashWithLast(monkeys, init, before);
        }
    }
  }

  lemma ClashFromInit(monkeys: seq<Monkey>, init: seq<Monkey>)
    requires |monkeys| > 0 && init == monkeys[..|monkeys| - 1]
    requires exists i, j :: 0 <= i < j < |init| && Clash(init[i], init[j])
    ensures exists i, j :: 0 <= i < j < |monkeys| && Clash(monkeys[i], monkeys[j])
  {
    var i, j :| 0 <= i < j < |init| && Clash(init[i], init[j]);
    assert Clash(monkeys[i], monkeys[j]);
  }

  lemma ClashWithLast(monkeys: seq<Monkey>, init: seq<Monkey>, before: map<string, int>)
    requires |monkeys| > 0 && init == monkeys[..|monkeys| - 1]
    requires forall k :: k in before ==> Monkey(k, Constant(before[k])) in init
    requires var last := monkeys[|monkeys| - 1];
      Seeded(last) && last.id in before && before[last.id] != last.job.value
    ensures exists i, j :: 0 <= i < j < |monkeys| && Clash(monkeys[i], monkeys[j])
  {
    var last := monkeys[|monkeys| - 1];
    var i :| 0 <= i < |init| && init[i] == Monkey(last.id, Constant(before[last.id]));
    assert monkeys[i] == init[i];
    assert Clash(monkeys[i], monkeys[|monkeys| - 1]);
  }

  lemma NoClashWithLast(monkeys: seq<Monkey>, init: seq<Monkey>, before: map<string, int>)
    requires |monkeys| > 0 && init == monkeys[..|monkeys| - 1]
    requires forall i, j :: 0 <= i < j < |init| ==> !Clash(init[i], init[j])
    requires forall i :: 0 <= i < |init| && Seeded(init[i]) ==>
      init[i].id in before && before[init[i].id] == init[i].job.value
    requires var last := monkeys[|monkeys| - 1];
      !(Seeded(last) && last.id in before && before[last.id] != last.job.value)
    ensures forall i, j :: 0 <= i < j < |monkeys| ==> !Clash(monkeys[i], monkeys[j])
    ensures var last := monkeys[|monkeys| - 1];
      var after := if Seeded(last) then before[last.id := last.job.value] else before;
      forall i :: 0 <= i < |monkeys| && Seeded(monkeys[i]) ==>
        monkeys[i].id in after && after[monkeys[i].id] == monkeys[i].job.value
  {
    assert forall i :: 0 <= i < |init| ==> monkeys[i] == init[i];
    forall i, j | 0 <= i < j < |monkeys|
      ensures !Clash(monkeys[i], monkeys[j])
    {
      if j < |init| {
        assert !Clash(init[i], init[j]);
      }
    }
  }

  /** The expression monkeys other than `root`, added in input order with
      `ImmutableDictionary.Add`. */
  function SeedWaiting(monkeys: seq<Monkey>): (r: Result<seq<(string, Formula)>>)
    ensures r.Ok? ==> NoRepeats(Keys(r.value))
    ensures r.Ok? ==> forall i :: 0 <= i < |r.value| ==>
      r.value[i].0 != "root" && Monkey(r.value[i].0, Expression(r.value[i].1)) in monkeys
    ensures r.Ok? ==> forall i :: 0 <= i < |monkeys| && monkeys[i].id != "root" && monkeys[i].job.Expression? ==>
      (monkeys[i].id, monkeys[i].job.formula) in r.value
  {
    var all := Expressions(monkeys);
    ExpressionsAll(monkeys);
    MergeExact(Filter(all));
    Merge(Filter(all))
  }

  /** Every expression monkey is among the expressions. */
  lemma {:induction false} ExpressionsAll(monkeys: seq<Monkey>)
    ensures forall i :: 0 <= i < |monkeys| && monkeys[i].job.Expression? ==>
      (monkeys[i].id, monkeys[i].job.formula) in Expressions(monkeys)
  {
    if |monkeys| > 0 {
      ExpressionsAll(monkeys[1..]);
      assert forall i :: 1 <= i < |monkeys| ==> monkeys[i] == monkeys[1..][i - 1];
    }
  }

  /** Two entries `ImmutableDictionary.Add` cannot both take: the same id
      with different formulas. */
  predicate Conflict(a: (string, Formula), b: (string, Formula))
  {
    a.0 == b.0 && a.1 != b.1
  }

  /** `ImmutableDictionary.Add` of each entry in turn: an entry equal to
      the one already under its id changes nothing (the records compare
      equal, their operators being the same cached delegates), and a
      different one under the same id is an error (`MergeExact`). */
  function Merge(entries: seq<(string, Formula)>): (r: Result<seq<(string, Formula)>>)
    ensures r.Ok? ==> NoRepeats(Keys(r.value))
    ensures r.Ok? ==> forall i :: 0 <= i < |r.value| ==> r.value[i] in entries
  {
    if |entries| == 0 then Ok([])
    else
      var init := entries[..|entries| - 1];
      var last := entries[|entries| - 1];
      match Merge(init)
      case Err(e) => Err(e)
      case Ok(before) =>
        if last in before then Ok(before)
        else if last.0 in Keys(before) then Err(SameKeyDifferentValue)
        else
          assert Keys(before + [last]) == Keys(before) + [last.0];
          assert forall i :: 0 <= i < |init| ==> init[i] == entries[i];
          Ok(before + [last])
  }

  /** Merging fails exactly when two entries conflict; otherwise every
      entry is kept. */
  lemma {:induction false} MergeExact(entries: seq<(string, Formula)>)
    ensures Merge(entries).Err? <==> exists i, j :: 0 <= i < j < |entries| && Conflict(entries[i], entries[j])
    ensures Merge(entries).Ok? ==> forall i :: 0 <= i < |entries| ==> entries[i] in Merge(entries).value
  {
    if |entries| > 0 {
      var init := entries[..|entries| - 1];
      var last := entries[|entries| - 1];
      MergeExact(init);
      match Merge(init)
      case Err(_) =>
        ConflictFromInit(entries, init);
      case Ok(before) =>
        if last in before {
          NoConflictWithLast(entries, init, before);
        } else if last.0 in Keys(before) {
          ConflictWithLast(entries, init, before);
        } else {
          NoConflictWithLast(entries, init, before);
        }
    }
  }

  lemma ConflictFromInit(entries: seq<(string, Formula)>, init: seq<(string, Formula)>)
    requires |entries| > 0 && init == entries[..|entries| - 1]
    requires exists i, j :: 0 <= i < j < |init| && Conflict(init[i], init[j])
    ensures exists i, j :: 0 <= i < j < |entries| && Conflict(entries[i], entries[j])
  {
    var i, j :| 0 <= i < j < |init| && Conflict(init[i], init[j]);
    assert Conflict(entries[i], entries[j]);
  }

  lemma ConflictWithLast(entries: seq<(string, Formula)>, init: seq<(string, Formula)>, before: seq<(string, Formula)>)
    requires |entries| > 0 && init == entries[..|entries| - 1]
    requires forall i :: 0 <= i < |before| ==> before[i] in init
    requires entries[|entries| - 1] !in before && entries[|entries| - 1].0 in Keys(before)
    ensures exists i, j :: 0 <= i < j < |entries| && Conflict(entries[i], entries[j])
  {
    var last := entries[|entries| - 1];
    var k :| 0 <= k < |before| && Keys(before)[k] == last.0;
    var i :| 0 <= i < |init| && init[i] == before[k];
    assert entries[i] == init[i];
    assert Conflict(entries[i], entries[|entries| - 1]);
  }

  /** With no conflict before and the last entry either present already
      or new by id, nothing conflicts. */
  lemma NoConflictWithLast(entries: seq<(string, Formula)>, init: seq<(string, Formula)>, before: seq<(string, Formula)>)
    requires |entries| > 0 && init == entries[..|entries| - 1]
    requires NoRepeats(Keys(before))
    requires forall i :: 0 <= i < |init| ==> init[i] in before
    requires forall i, j :: 0 <= i < j < |init| ==> !Conflict(init[i], init[j])
    requires entries[|entries| - 1] in before || entries[|entries| - 1].0 !in Keys(before)
    ensures forall i, j :: 0 <= i < j < |entries| ==> !Conflict(entries[i], entries[j])
    ensures forall i :: 0 <= i < |entries| ==> entries[i] in before + [entries[|entries| - 1]]
  {
    var last := entries[|entries| - 1];
    assert forall i :: 0 <= i < |init| ==> entries[i] == init[i];
    forall i | 0 <= i < |entries| - 1
      ensures !Conflict(entries[i], last)
    {
      var m :| 0 <= m < |before| && before[m] == entries[i];
      if last in before && entries[i].0 == last.0 {
        var k :| 0 <= k < |before| && before[k] == last;
        assert Keys(before)[m] == Keys(before)[k];
      }
    }
  }

  /** The entries not for `root`. */
  function Filter(entries: seq<(string, Formula)>): (r: seq<(string, Formula)>)
    ensures forall i :: 0 <= i < |r| ==> r[i] in entries && r[i].0 != "root"
    ensures forall i :: 0 <= i < |entries| && entries[i].0 != "root" ==> entries[i] in r
  {
    if |entries| == 0 then []
    else
      var rest := Filter(entries[1..]);
      assert forall i :: 1 <= i < |entries| ==> entries[i] == entries[1..][i - 1];
      if entries[0].0 == "root" then rest else [entries[0]] + rest
  }

  /** The `while (true)` loop: passes until one evaluates nobody. */
  function Settle(values: map<string, int>, waiting: seq<(string, Formula)>): (r: Result<(map<string, int>, seq<(string, Formula)>)>)
    ensures r.Ok? ==> values.Keys <= r.value.0.Keys && forall k :: k in values ==> r.value.0[k] == values[k]
    ensures r.Ok? ==> forall i :: 0 <= i < |r.value.1| ==> r.value.1[i] in waiting
    ensures r.Ok? ==> Pass(r.value.0, r.value.1, true) == Ok(r.value)
    ensures r.Ok? ==> forall i :: 0 <= i < |r.value.1| ==> !Ready(r.value.0, r.value.1[i].1)
    decreases |waiting|
  {
    match Pass(values, waiting, true)
    case Err(e) => Err(e)
    case Ok((next, rest)) =>
      if |rest| == |waiting| then Ok((values, waiting))
      else
        var r := Settle(next, rest);
        if r.Ok? then
          assert forall i :: 0 <= i < |r.value.1| ==> r.value.1[i] in rest;
          r
        else r
  }

  /** The waiting monkeys by id. */
  function ById(entries: seq<(string, Formula)>): (m: map<string, Formula>)
    ensures forall k :: k in m <==> k in Keys(entries)
  {
    if |entries| == 0 then map[]
    else
      var rest := ById(entries[1..]);
      assert forall k :: k in Keys(entries[1..]) <==> k in Keys(entries)[1..];
      assert Keys(entries) == [entries[0].0] + Keys(entries)[1..];
      rest[entries[0].0 := entries[0].1]
  }

  /** Walking back from `current`, whose value is fixed, towards `humn`:
      the one unknown operand of `current`'s formula gets the value that
      makes the formula come out right. The walk stops at `humn`, or when
      neither operand is known; both operands known is an error. Every
      step gives a new monkey a value, so the walk ends. */
  function Walk(values: map<string, int>, waiting: map<string, Formula>, current: string): (r: Result<map<string, int>>)
    requires current in values
    ensures r.Ok? ==> values.Keys <= r.value.Keys && forall k :: k in values ==> r.value[k] == values[k]
    decreases |waiting.Keys - values.Keys|, if current in waiting then 1 else 0
  {
    if current == "humn" then Ok(values)
    else if current !in waiting then Err(KeyNotFound)
    else
      var f := waiting[current];
      var goal := values[current];
      if f.left !in values && f.right !in values then Ok(values)
      else if f.left in values && f.right in values then Err("Something went wrong")
      else
        var next := if f.left in values then f.right else f.left;
        var solved := if f.left in values then SolveRight(f.op, goal, values[f.left])
                       else SolveLeft(f.op, goal, values[f.right]);
        match solved
        case Err(e) => Err(e)
        case Ok(v) =>
          FewerUnknown(waiting.Keys, values.Keys, next);
          assert values[next := v].Keys == values.Keys + {next};
          Walk(values[next := v], waiting, next)
  }

  /** Giving a value to a waiting monkey leaves one fewer waiting monkey
      without a value. */
  lemma FewerUnknown(waiting: set<string>, known: set<string>, next: string)
    requires next !in known
    ensures next in waiting ==> |waiting - (known + {next})| < |waiting - known|
    ensures next !in waiting ==> waiting - (known + {next}) == waiting - known
  {
    assert waiting - (known + {next}) == (waiting - known) - {next};
  }

  /** One step of the walk: with exactly one operand known, the other gets
      the solved value and the walk goes on from it. */
  lemma WalkStep(values: map<string, int>, waiting: map<string, Formula>, current: string)
    requires current in values && current != "humn" && current in waiting
    requires var f := waiting[current]; (f.left in values) != (f.right in values)
    ensures var f := waiting[current];
      var known := if f.left in values then values[f.left] else values[f.right];
      var solved := if f.left in values then SolveRight(f.op, values[current], known)
                    else SolveLeft(f.op, values[current], known);
      var next := if f.left in values then f.right else f.left;
      && (solved.Err? ==> Walk(values, waiting, current) == Err(solved.error))
      && (solved.Ok? ==> Walk(values, waiting, current) == Walk(values[next := solved.value], waiting, next))
  {
  }

  /** Where the walk stops: at `humn` and when neither operand is known it
      returns what it has; a monkey not waiting and a formula with both
      operands known are errors. */
  lemma WalkEnds(values: map<string, int>, waiting: map<string, Formula>, current: string)
    requires current in values
    ensures current == "humn" ==> Walk(values, waiting, current) == Ok(values)
    ensures current != "humn" && current !in waiting ==> Walk(values, waiting, current).Err?
    ensures (current != "humn" && current in waiting &&
             waiting[current].left !in values && waiting[current].right !in values) ==>
      Walk(values, waiting, current) == Ok(values)
    ensures current != "humn" && current in waiting && Ready(values, waiting[current]) ==>
      Walk(values, waiting, current) == Err("Something went wrong")
  {
  }

  /** `CalculateTaskTwo`. */
  function PartTwo(monkeys: seq<Monkey>): (r: Result<int>)
    ensures r.Ok? ==> exists i :: 0 <= i < |monkeys| && monkeys[i].id == "root" && monkeys[i].job.Expression?
  {
    match RootFormula(monkeys)
    case Err(e) => Err(e)
    case Ok(root) =>
      match SeedValues(monkeys)
      case Err(e) => Err(e)
      case Ok(values) =>
        match SeedWaiting(monkeys)
        case Err(e) => Err(e)
        case Ok(waiting) =>
          match Settle(values, waiting)
          case Err(e) => Err(e)
          case Ok((settled, rest)) =>
            match Equate(settled, root)
            case Err(e) => Err(e)
            case Ok((start, equated)) =>
              match Walk(equated, ById(rest), start)
              case Err(e) => Err(e)
              case Ok(last) =>
                if "humn" in last then Ok(last["humn"]) else Err("Should never get here")
  }

  /** `First(m => m.Id == "root")` cast to an expression monkey. */
  function RootFormula(monkeys: seq<Monkey>): (r: Result<Formula>)
    ensures r.Ok? ==> exists i :: 0 <= i < |monkeys| && monkeys[i] == Monkey("root", Expression(r.value))
    ensures r.Ok? ==> forall j :: 0 <= j < |monkeys| && monkeys[j].id == "root" ==> monkeys[j].job == Expression(r.value) || exists i :: 0 <= i < j && monkeys[i].id == "root"
    ensures r.Err? ==> forall i :: 0 <= i < |monkeys| && monkeys[i].id == "root" ==>
      monkeys[i].job.Constant? || exists j :: 0 <= j < i && monkeys[j].id == "root" 
  {
    if |monkeys| == 0 then Err("Sequence contains no matching element")
    else if monkeys[0].id == "root" then
      if monkeys[0].job.Expression? then Ok(monkeys[0].job.formula)
      else Err("Unable to cast object of type 'ConstantMonkey' to type 'ExpressionMonkey'.")
    else
      var r := RootFormula(monkeys[1..]);
      if r.Ok? then
        var i :| 0 <= i < |monkeys[1..]| && monkeys[1..][i] == Monkey("root", Expression(r.value));
        assert monkeys[i + 1] == monkeys[1..][i];
        r
      else
        assert forall i :: 1 <= i < |monkeys| ==> monkeys[i] == monkeys[1..][i - 1];
        r
  }

  /** Root's two operands must come out equal: one of them must be known
      already (the left one is preferred, as the source swaps only when it
      is unknown); the other one, `start`, is given its value with `Add`,
      which fails when it already has a different one. */
  function Equate(values: map<string, int>, root: Formula): (r: Result<(string, map<string, int>)>)
    ensures r.Err? <==>
      || (root.left !in values && root.right !in values)
      || (root.left in values && root.right in values && values[root.left] != values[root.right])
    ensures r.Ok? ==> var (start, equated) := r.value;
      var known := if start == root.right then root.left else root.right;
      && (start == root.left || start == root.right)
      && known in values
      && equated == values[start := values[known]]
    ensures r.Ok? && !Ready(values, root) ==> r.value.0 !in values
    ensures r.Ok? && Ready(values, root) ==> r.value == (root.right, values)
  {
    if root.left !in values && root.right !in values then
      Err("Monkey 1 or monkey 2 must be precalculated for this solution to work")
    else
      var (known, start) := if root.left in values then (root.left, root.right) else (root.right, root.left);
      if start in values && values[start] != values[known] then Err(SameKeyDifferentValue)
      else if start in values then
        assert values[start := values[known]] == values;
        Ok((start, values))
      else Ok((start, values[start := values[known]]))
  }

  /** The constants of `root: aaaa + humn` followed by `aaaa: 5` twice. */
  lemma SeedTwice(monkeys: seq<Monkey>, n: int)
    requires monkeys == [Monkey("root", Expression(Formula("aaaa", Add, "humn"))),
                         Monkey("aaaa", Constant(5)), Monkey("aaaa", Constant(n))]
    ensures n == 5 ==> SeedValues(monkeys) == Ok(map["aaaa" := 5])
    ensures n != 5 ==> SeedValues(monkeys).Err?
  {
    assert monkeys[..1][..0] == [];
    assert SeedValues(monkeys[..1]) == Ok(map[]);
    assert monkeys[..2][..1] == monkeys[..1];
    assert SeedValues(monkeys[..2]) == Ok(map["aaaa" := 5]);
    assert monkeys[..|monkeys| - 1] == monkeys[..2];
    assert Seeded(monkeys[2]) && "aaaa" in map["aaaa" := 5];
    assert map["aaaa" := 5]["aaaa" := 5] == map["aaaa" := 5];
  }

  /** A constant written twice with the same number is added once:
      `root: aaaa + humn` with `aaaa: 5` twice answers 5. */
  lemma RepeatedConstant()
    ensures PartTwo([Monkey("root", Expression(Formula("aaaa", Add, "humn"))),
                     Monkey("aaaa", Constant(5)), Monkey("aaaa", Constant(5))]) == Ok(5)
  {
    SeedTwice([Monkey("root", Expression(Formula("aaaa", Add, "humn"))),
               Monkey("aaaa", Constant(5)), Monkey("aaaa", Constant(5))], 5);
  }

  /** The same constant written again with another number is an error. */
  lemma ClashingConstant()
    ensures PartTwo([Monkey("root", Expression(Formula("aaaa", Add, "humn"))),
                     Monkey("aaaa", Constant(5)), Monkey("aaaa", Constant(6))]).Err?
  {
    SeedTwice([Monkey("root", Expression(Formula("aaaa", Add, "humn"))),
               Monkey("aaaa", Constant(5)), Monkey("aaaa", Constant(6))], 6);
  }

  /** In part two a monkey whose id already holds the value it evaluates
      to is let through: `Add` of an equal value changes nothing. */
  lemma PassEqualValue()
    ensures Pass(map["aaaa" := 2, "bbbb" := 1], [("aaaa", Formula("bbbb", Add, "bbbb"))], true)
      == Ok((map["aaaa" := 2, "bbbb" := 1], []))
    ensures Pass(map["aaaa" := 3, "bbbb" := 1], [("aaaa", Formula("bbbb", Add, "bbbb"))], true).Err?
  {
    var values := map["aaaa" := 2, "bbbb" := 1];
    assert values["aaaa" := 2] == values;
    assert Pass(values, [], true) == Ok((values, []));
  }
}

=== FILE: day3.dfy ===
/** Day 3: rucksacks. Part one finds the item both halves of a line share,
    part two the badge the three lines of a group share; each answer is a
    sum of item priorities. */
module Day3 {
  import opened Common

  predicate IsLower(c: char) { 'a' <= c <= 'z' }

  predicate IsUpper(c: char) { 'A' <= c <= 'Z' }

  /** `GetPriority`: a to z are 1 to 26, A to Z are 27 to 52, anything else
      is an error. */
  function Priority(c: char): (r: Result<int>)
    ensures r.Ok? <==> IsLower(c) || IsUpper(c)
    ensures r.Ok? ==> 1 <= r.value <= 52
    ensures r.Ok? ==> (r.value <= 26 <==> IsLower(c))
  {
    if IsLower(c) then Ok(c as int - 'a' as int + 1)
    else if IsUpper(c) then Ok(c as int - 'A' as int + 27)
    else Err("invalid char")
  }

  /** The item with a given priority. */
  function ItemOf(p: int): (c: char)
    requires 1 <= p <= 52
  {
    if p <= 26 then ('a' as int + p - 1) as char else ('A' as int + p - 27) as char
  }

  /** Priorities and items correspond one to one. */
  lemma PriorityInverse(c: char, p: int)
    requires 1 <= p <= 52
    ensures Priority(ItemOf(p)) == Ok(p)
    ensures Priority(c).Ok? ==> ItemOf(Priority(c).value) == c
  {
  }

  lemma PriorityInjective(c: char, d: char)
    requires Priority(c).Ok? && Priority(c) == Priority(d)
    ensures c == d
  {
    PriorityInverse(c, 1);
    PriorityInverse(d, 1);
  }

  /** The two compartments: the first `length / 2` items and the rest. */
  function Halves(line: string): (r: (string, string))
    ensures |r.0| == |line| / 2 && |r.1| == |line| - |line| / 2
    ensures r.0 + r.1 == line
  {
    (line[..|line| / 2], line[|line| / 2..])
  }

  // ---------------------------------------------------------------------
  // LINQ `Intersect`: the distinct items of the first sequence that occur
  // in the second, in the order of their first occurrence.

  /** The items of `a` that occur in `b`, in order, repeats kept. */
  function Filter(a: string, b: string): (r: string)
    ensures forall x :: x in r <==> x in a && x in b
    ensures |r| <= |a|
  {
    if |a| == 0 then ""
    else if a[0] in b then [a[0]] + Filter(a[1..], b)
    else Filter(a[1..], b)
  }

  /** The first item of `a` that occurs in `b` heads the filtered items. */
  lemma {:induction false} FilterFirst(a: string, b: string, k: int)
    requires 0 <= k < |a| && a[k] in b
    requires forall j :: 0 <= j < k ==> a[j] !in b
    ensures |Filter(a, b)| > 0 && Filter(a, b)[0] == a[k]
  {
    if k > 0 {
      assert a[0] !in b;
      FilterFirst(a[1..], b, k - 1);
    }
  }

  function Intersect(a: string, b: string): (r: string)
    ensures forall x :: x in r <==> x in a && x in b
    ensures NoRepeats(r)
  {
    Distinct(Filter(a, b))
  }

  /** `Intersect(...).First()`: the first item of `first` that `second`
      also holds; an error when there is none. */
  function CommonItem(first: string, second: string): (r: Result<char>)
    ensures r.Ok? <==> exists x :: x in first && x in second
    ensures r.Ok? ==> r.value in first && r.value in second
  {
    var common := Intersect(first, second);
    if |common| == 0 then
      assert forall x :: x in first && x in second ==> x in common;
      Err("sequence contains no elements")
    else
      assert common[0] in common;
      Ok(common[0])
  }

  /** It is the earliest such item of `first`. */
  lemma CommonItemIsFirst(first: string, second: string, k: int)
    requires 0 <= k < |first| && first[k] in second
    requires forall j :: 0 <= j < k ==> first[j] !in second
    ensures CommonItem(first, second) == Ok(first[k])
  {
    FilterFirst(first, second, k);
  }

  /** Part one's score of a line: the priority of an item both halves
      hold. */
  function LineScore(line: string): (r: Result<int>)
    ensures r.Ok? ==> 1 <= r.value <= 52
    ensures r.Ok? ==> exists c :: c in Halves(line).0 && c in Halves(line).1 && Priority(c) == r
  {
    var (first, second) := Halves(line);
    match CommonItem(first, second)
    case Err(e) => Err(e)
    case Ok(c) => Priority(c)
  }

  /** `CalculateTaskOne`: the lines' scores added up. It fails exactly when
      some line has no shared letter, and each line adds 1 to 52. */
  function TaskOne(input: string): (r: Result<int>)
    ensures r.Ok? <==> forall i :: 0 <= i < |Split(input, '\n')| ==> LineScore(Split(input, '\n')[i]).Ok?
    ensures r.Ok? ==> |Split(input, '\n')| <= r.value <= 52 * |Split(input, '\n')|
    ensures r.Ok? ==> exists scores: seq<int> ::
      && |scores| == |Split(input, '\n')|
      && (forall i :: 0 <= i < |scores| ==> LineScore(Split(input, '\n')[i]) == Ok(scores[i]))
      && r.value == Sum(scores)
  {
    match ParseEachLine(input, LineScore)
    case Err(e) => Err(e)
    case Ok(scores) =>
      var lines := Split(input, '\n');
      forall i | 0 <= i < |scores|
        ensures LineScore(lines[i]) == Ok(scores[i]) && 1 <= scores[i] <= 52
      {
        ParseEachLineAt(input, LineScore, i);
      }
      SumBounds(scores, 1, 52);
      Ok(Sum(scores))
  }

  // ---------------------------------------------------------------------
  // Part two: groups of three lines.

  /** `Chunk(size)`: consecutive pieces of `size` items, the last one
      possibly shorter. */
  function Chunk<T>(s: seq<T>, size: nat): (r: seq<seq<T>>)
    requires size > 0
    ensures forall i :: 0 <= i < |r| ==> 0 < |r[i]| <= size
    ensures forall i :: 0 <= i < |r| - 1 ==> |r[i]| == size
    decreases |s|
  {
    if |s| == 0 then []
    else if |s| <= size then [s]
    else [s[..size]] + Chunk(s[size..], size)
  }

  /** The chunks, put back together, are the sequence. */
  lemma {:induction false} ChunkConcat<T>(s: seq<T>, size: nat)
    requires size > 0
    ensures Concat(Chunk(s, size)) == s
    decreases |s|
  {
    if |s| > size {
      ChunkConcat(s[size..], size);
      assert Chunk(s, size)[1..] == Chunk(s[size..], size);
      assert s == s[..size] + s[size..];
    }
  }

  function Concat<T>(parts: seq<seq<T>>): seq<T>
  {
    if |parts| == 0 then [] else parts[0] + Concat(parts[1..])
  }

  /** The item occurs in every line of the group. */
  predicate InAll(x: char, group: seq<string>)
  {
    forall i :: 0 <= i < |group| ==> x in group[i]
  }

  /** `Aggregate((a, b) => a.Intersect(b).ToArray())`: the items of the
      group's first line the other lines share (the first line itself when
      it is alone). */
  function Shared(group: seq<string>): (r: string)
    requires |group| > 0
    ensures forall x :: x in r <==> InAll(x, group)
  {
    if |group| == 1 then group[0]
    else
      var front := group[..|group| - 1];
      var r := Intersect(Shared(front), group[|group| - 1]);
      assert forall x :: InAll(x, group) <==> InAll(x, front) && x in group[|group| - 1] by {
        forall x
          ensures InAll(x, group) <==> InAll(x, front) && x in group[|group| - 1]
        {
          assert forall i :: 0 <= i < |front| ==> front[i] == group[i];
        }
      }
      r
  }

  /** `[0]` of the shared items: the badge, an error when the lines share
      nothing. */
  function Badge(group: seq<string>): (r: Result<char>)
    requires |group| > 0
    ensures r.Ok? <==> exists x :: InAll(x, group)
    ensures r.Ok? ==> InAll(r.value, group)
  {
    var shared := Shared(group);
    if |shared| == 0 then Err("index out of range")
    else
      assert shared[0] in shared;
      Ok(shared[0])
  }

  function GroupScore(group: seq<string>): Result<int>
    requires |group| > 0
  {
    match Badge(group)
    case Err(e) => Err(e)
    case Ok(c) => Priority(c)
  }

  /** The score of every group, the first failure ending the walk. */
  function GroupScores(groups: seq<seq<string>>): (r: Result<seq<int>>)
    requires forall i :: 0 <= i < |groups| ==> |groups[i]| > 0
    ensures r.Ok? ==> |r.value| == |groups|
  {
    if |groups| == 0 then Ok([])
    else
      match GroupScore(groups[0])
      case Err(e) => Err(e)
      case Ok(x) =>
        match GroupScores(groups[1..])
        case Err(e) => Err(e)
        case Ok(xs) => Ok([x] + xs)
  }

  /** The groups' scores added up: it fails exactly when some group has no
      badge, and each group adds 1 to 52. */
  function GroupsTotal(groups: seq<seq<string>>): (r: Result<int>)
    requires forall i :: 0 <= i < |groups| ==> |groups[i]| > 0
    ensures r.Ok? <==> forall i :: 0 <= i < |groups| ==> GroupScore(groups[i]).Ok?
    ensures r.Ok? ==> |groups| <= r.value <= 52 * |groups|
    ensures r.Ok? ==> exists scores: seq<int> ::
      && |scores| == |groups|
      && (forall i :: 0 <= i < |scores| ==> GroupScore(groups[i]) == Ok(scores[i]))
      && r.value == Sum(scores)
  {
    GroupScoresOk(groups);
    match GroupScores(groups)
    case Err(e) => Err(e)
    case Ok(scores) =>
      forall i | 0 <= i < |scores|
        ensures GroupScore(groups[i]) == Ok(scores[i])
      {
        GroupScoresAt(groups, i);
      }
      SumBounds(scores, 1, 52);
      Ok(Sum(scores))
  }

  /** `CalculateTaskTwo`: the badges' priorities added up, three lines to a
      group. */
  function TaskTwo(input: string): (r: Result<int>)
    ensures r.Ok? ==> forall i :: 0 <= i < |Chunk(Split(input, '\n'), 3)| ==> GroupScore(Chunk(Split(input, '\n'), 3)[i]).Ok?
    ensures (forall i :: 0 <= i < |Chunk(Split(input, '\n'), 3)| ==> GroupScore(Chunk(Split(input, '\n'), 3)[i]).Ok?) ==> r.Ok?
    ensures r.Ok? ==> |Chunk(Split(input, '\n'), 3)| <= r.value <= 52 * |Chunk(Split(input, '\n'), 3)|
    ensures r.Ok? ==> exists scores: seq<int> ::
      && |scores| == |Chunk(Split(input, '\n'), 3)|
      && (forall i :: 0 <= i < |scores| ==> GroupScore(Chunk(Split(input, '\n'), 3)[i]) == Ok(scores[i]))
      && r.value == Sum(scores)
  {
    GroupsTotal(Chunk(Split(input, '\n'), 3))
  }

  /** A group scores exactly when its lines share an item that is a
      letter; each group's score is a priority. */
  lemma {:induction false} GroupScoresOk(groups: seq<seq<string>>)
    requires forall i :: 0 <= i < |groups| ==> |groups[i]| > 0
    ensures GroupScores(groups).Ok? <==> forall i :: 0 <= i < |groups| ==> GroupScore(groups[i]).Ok?
    ensures GroupScores(groups).Ok? ==> forall i :: 0 <= i < |groups| ==> 1 <= GroupScores(groups).value[i] <= 52
  {
    if |groups| > 0 {
      GroupScoresOk(groups[1..]);
      assert forall i :: 1 <= i < |groups| ==> groups[i] == groups[1..][i - 1];
    }
  }

  /** Each group's entry is that group's own score. */
  lemma {:induction false} GroupScoresAt(groups: seq<seq<string>>, i: int)
    requires forall j :: 0 <= j < |groups| ==> |groups[j]| > 0
    requires GroupScores(groups).Ok? && 0 <= i < |groups|
    ensures GroupScore(groups[i]) == Ok(GroupScores(groups).value[i])
  {
    if i > 0 {
      GroupScoresAt(groups[1..], i - 1);
      assert groups[1..][i - 1] == groups[i];
    }
  }
}

=== FILE: day4.dfy ===
/** Day 4: pairs of section ranges. Part one counts the pairs where one
    range contains the other, part two the pairs that overlap. */
module Day4 {
  import opened Common
  import opened Parsing

  /** An inclusive range of section numbers. */
  datatype Range = Range(start: int, end: int)

  /** `RangeExtensions.Contains` (and the older tree's `IsBetween`). */
  predicate Contains(r: Range, value: int)
  {
    r.start <= value && value <= r.end
  }

  /** Part one's test: both ends of one range lie in the other. */
  predicate EitherContainsOther(first: Range, second: Range)
  {
    (Contains(second, first.start) && Contains(second, first.end)) ||
    (Contains(first, second.start) && Contains(first, second.end))
  }

  /** Part two's test: some end of one range lies in the other. */
  predicate AnyEndInOther(first: Range, second: Range)
  {
    (Contains(second, first.start) || Contains(second, first.end)) ||
    (Contains(first, second.start) || Contains(first, second.end))
  }

  predicate WellFormed(r: Range)
  {
    r.start <= r.end
  }

  /** The sections a range covers. */
  function Sections(r: Range): set<int>
  {
    set v | r.start <= v <= r.end && Contains(r, v)
  }

  /** For ranges written low to high, part one's test is set inclusion one
      way or the other. */
  lemma EitherContainsOtherIsInclusion(first: Range, second: Range)
    requires WellFormed(first) && WellFormed(second)
    ensures EitherContainsOther(first, second) <==>
      Sections(first) <= Sections(second) || Sections(second) <= Sections(first)
  {
    if Sections(first) <= Sections(second) {
      assert first.start in Sections(first) && first.end in Sections(first);
    }
    if Sections(second) <= Sections(first) {
      assert second.start in Sections(second) && second.end in Sections(second);
    }
  }

  /** For ranges written low to high, part two's test is a shared section. */
  lemma AnyEndInOtherIsOverlap(first: Range, second: Range)
    requires WellFormed(first) && WellFormed(second)
    ensures AnyEndInOther(first, second) <==> Sections(first) * Sections(second) != {}
  {
    if AnyEndInOther(first, second) {
      if Contains(second, first.start) {
        assert first.start in Sections(first) * Sections(second);
      }
      if Contains(second, first.end) {
        assert first.end in Sections(first) * Sections(second);
      }
      if Contains(first, second.start) {
        assert second.start in Sections(first) * Sections(second);
      }
      if Contains(first, second.end) {
        assert second.end in Sections(first) * Sections(second);
      }
    }
    if Sections(first) * Sections(second) != {} {
      var v :| v in Sections(first) * Sections(second);
      if first.start >= second.start {
        assert Contains(second, first.start);
      } else {
        assert Contains(first, second.start);
      }
    }
  }

  /** Both tests are symmetric, and containment implies overlap. */
  lemma TestsRelated(first: Range, second: Range)
    requires WellFormed(first) && WellFormed(second)
    ensures EitherContainsOther(first, second) == EitherContainsOther(second, first)
    ensures AnyEndInOther(first, second) == AnyEndInOther(second, first)
    ensures EitherContainsOther(first, second) ==> AnyEndInOther(first, second)
  {
  }

  /** A malformed range (end before start) defeats the inclusion reading:
      its set of sections is empty and so contained in anything, but the
      test looks at its ends. */
  lemma MalformedRangeExample()
    ensures !EitherContainsOther(Range(5, 3), Range(4, 4))
    ensures Sections(Range(5, 3)) <= Sections(Range(4, 4))
  {
    assert Sections(Range(5, 3)) == {};
  }

  predicate ContainsPair(pair: (Range, Range))
  {
    EitherContainsOther(pair.0, pair.1)
  }

  predicate OverlapsPair(pair: (Range, Range))
  {
    AnyEndInOther(pair.0, pair.1)
  }

  /** `CalculateTaskOne`: the number of pairs in which one range holds
      both ends of the other. */
  function CountContaining(pairs: seq<(Range, Range)>): (n: nat)
    ensures n <= |pairs|
    ensures n == |set i | 0 <= i < |pairs| && ContainsPair(pairs[i])|
  {
    CountWhereIndices(pairs, ContainsPair);
    assert Positions(pairs, ContainsPair) == set i | 0 <= i < |pairs| && ContainsPair(pairs[i]);
    CountWhere(pairs, ContainsPair)
  }

  /** `CalculateTaskTwo`: the number of pairs in which one range holds an
      end of the other. */
  function CountOverlapping(pairs: seq<(Range, Range)>): (n: nat)
    ensures n <= |pairs|
    ensures n == |set i | 0 <= i < |pairs| && OverlapsPair(pairs[i])|
  {
    CountWhereIndices(pairs, OverlapsPair);
    assert Positions(pairs, OverlapsPair) == set i | 0 <= i < |pairs| && OverlapsPair(pairs[i]);
    CountWhere(pairs, OverlapsPair)
  }

  /** Part one's count never exceeds part two's. */
  lemma CountsOrdered(pairs: seq<(Range, Range)>)
    ensures CountContaining(pairs) <= CountOverlapping(pairs)
  {
    CountWhereMonotone(pairs, ContainsPair, OverlapsPair);
  }

  // ---------------------------------------------------------------------
  // The grammar: `a-b,c-d`, one pair per line.

  /** `Int "-" Int` mapped to a range. The conversion of each bound to an
      `Index` throws for a negative number. */
  function RangeParser(s: string): (r: Reply<Range>)
    ensures r.Match? ==> |r.rest| < |s| && r.value.start >= 0 && r.value.end >= 0
  {
    match Int(s)
    case NoMatch => NoMatch
    case Failure(m) => Failure(m)
    case Match(a, rest) =>
      match Commit(Char('-', rest))
      case Match(_, rest2) =>
        (match Commit(Int(rest2))
         case Match(b, rest3) =>
           if a < 0 || b < 0 then Failure("negative index") else Match(Range(a as int, b as int), rest3)
         case Failure(m) => Failure(m))
      case Failure(m) => Failure(m)
  }

  /** A range, a comma, a range. */
  function LineParser(s: string): (r: Reply<(Range, Range)>)
    ensures r.Match? ==> |r.rest| < |s|
  {
    match RangeParser(s)
    case NoMatch => NoMatch
    case Failure(m) => Failure(m)
    case Match(first, rest) =>
      match Commit(Char(',', rest))
      case Match(_, rest2) =>
        (match Commit(RangeParser(rest2))
         case Match(second, rest3) => Match((first, second), rest3)
         case Failure(m) => Failure(m))
      case Failure(m) => Failure(m)
  }

  /** `ParseInput`: one or more lines. Text that does not start with a
      range is an error; otherwise the first pair is the first line's. */
  function ParseInput(input: string): (r: Result<seq<(Range, Range)>>)
    ensures !LineParser(input).Match? ==> r.Err?
    ensures r.Ok? ==> |r.value| >= 1 && r.value[0] == LineParser(input).value
  {
    Many1First(LineParser, Newline, true, input);
    RunParser(Many1(LineParser, Newline, true, input))
  }

  /** A range of section numbers the grammar accepts. */
  predicate Printable(r: Range)
  {
    0 <= r.start <= 0x7FFF_FFFF && 0 <= r.end <= 0x7FFF_FFFF
  }

  function ShowRange(r: Range): string
  {
    ShowInt(r.start) + "-" + ShowInt(r.end)
  }

  function ShowPair(pair: (Range, Range)): string
  {
    ShowRange(pair.0) + "," + ShowRange(pair.1)
  }

  lemma RangeShown(r: Range, rest: string)
    requires Printable(r)
    requires rest == "" || !IsDigit(rest[0])
    ensures RangeParser(ShowRange(r) + rest) == Match(r, rest)
  {
    var a := r.start as Int32;
    var b := r.end as Int32;
    var tail := "-" + (ShowInt(r.end) + rest);
    var s := ShowInt(a as int) + tail;
    Regroup(ShowInt(r.start), "-", ShowInt(r.end), rest);
    assert ShowRange(r) + rest == s;
    IntShown(a, tail);
    assert tail[1..] == ShowInt(b as int) + rest;
    IntShown(b, rest);
    RangeStep(s, a, tail, b, rest);
  }

  lemma Regroup(a: string, b: string, c: string, d: string)
    ensures a + b + c + d == a + (b + (c + d))
  {
  }

  /** A number, a dash and a number read as a range. */
  lemma RangeStep(s: string, a: Int32, tail: string, b: Int32, rest: string)
    requires a >= 0 && b >= 0
    requires Int(s) == Match(a, tail)
    requires |tail| > 0 && tail[0] == '-'
    requires Int(tail[1..]) == Match(b, rest)
    ensures RangeParser(s) == Match(Range(a as int, b as int), rest)
  {
    assert Char('-', tail) == Match((), tail[1..]);
  }

  lemma LineStep(s: string, first: Range, tail: string, second: Range, rest: string)
    requires RangeParser(s) == Match(first, tail)
    requires |tail| > 0 && tail[0] == ','
    requires RangeParser(tail[1..]) == Match(second, rest)
    ensures LineParser(s) == Match((first, second), rest)
  {
    assert Char(',', tail) == Match((), tail[1..]);
  }

  lemma FirstRangeShown(pair: (Range, Range), rest: string)
    requires Printable(pair.0)
    ensures RangeParser(ShowPair(pair) + rest) == Match(pair.0, "," + ShowRange(pair.1) + rest)
  {
    var tail := "," + ShowRange(pair.1) + rest;
    assert ShowPair(pair) + rest == ShowRange(pair.0) + tail;
    RangeShown(pair.0, tail);
  }

  lemma SecondRangeShown(r: Range, rest: string)
    requires Printable(r)
    requires rest == "" || rest[0] == '\n'
    ensures RangeParser(("," + ShowRange(r) + rest)[1..]) == Match(r, rest)
  {
    assert ("," + ShowRange(r) + rest)[1..] == ShowRange(r) + rest;
    RangeShown(r, rest);
  }

  lemma PairShown(pair: (Range, Range), rest: string)
    requires Printable(pair.0) && Printable(pair.1)
    requires rest == "" || rest[0] == '\n'
    ensures LineParser(ShowPair(pair) + rest) == Match(pair, rest)
  {
    FirstRangeShown(pair, rest);
    SecondRangeShown(pair.1, rest);
    LineStep(ShowPair(pair) + rest, pair.0, "," + ShowRange(pair.1) + rest, pair.1, rest);
  }

  predicate PrintablePair(pair: (Range, Range))
  {
    Printable(pair.0) && Printable(pair.1)
  }

  lemma LineReadsBack()
    ensures ReadsBack(LineParser, ShowPair, PrintablePair)
  {
    forall x: (Range, Range), rest: string | PrintablePair(x) && (rest == "" || rest[0] == '\n')
      ensures LineParser(ShowPair(x) + rest) == Match(x, rest)
    {
      PairShown(x, rest);
    }
    forall x: (Range, Range) | PrintablePair(x)
      ensures |ShowPair(x)| > 0 && ShowPair(x)[0] != '\n'
    {
      ShowIntStart(x.0.start);
    }
  }

  /** Pairs of printable ranges, one per line, read back as themselves. */
  lemma ParseShowInput(pairs: seq<(Range, Range)>)
    requires |pairs| > 0
    requires forall i :: 0 <= i < |pairs| ==> PrintablePair(pairs[i])
    ensures ParseInput(Lines(pairs, ShowPair)) == Ok(pairs)
  {
    LineReadsBack();
    Many1Lines(LineParser, ShowPair, PrintablePair, pairs);
  }
}

=== FILE: day5.dfy ===
/** Day 5: stacks of crates rearranged by a crane. Part one's crane moves
    crates one at a time, so a moved block lands reversed; part two's moves
    them together, keeping their order. The answer is the top crate of each
    stack in the order of the stack numbers. */
module Day5 {
  import opened Common
  import opened Parsing

  /** Stacks by number, each listed bottom to top. */
  type Stacks = map<int, seq<char>>

  datatype Command = Command(count: int, from: int, to: int)

  /** Every crate on every stack, counted once per crate. */
  function CratesOver(stacks: Stacks, keys: seq<int>): multiset<char>
    requires forall i :: 0 <= i < |keys| ==> keys[i] in stacks
  {
    if |keys| == 0 then multiset{} else multiset(stacks[keys[0]]) + CratesOver(stacks, keys[1..])
  }

  function Crates(stacks: Stacks): multiset<char>
  {
    CratesOver(stacks, Ascending(stacks.Keys))
  }

  lemma {:induction false} CratesOverUnchanged(stacks: Stacks, keys: seq<int>, k: int, v: seq<char>)
    requires forall i :: 0 <= i < |keys| ==> keys[i] in stacks && keys[i] != k
    ensures CratesOver(stacks[k := v], keys) == CratesOver(stacks, keys)
  {
    if |keys| > 0 {
      CratesOverUnchanged(stacks, keys[1..], k, v);
    }
  }

  lemma {:induction false} CratesOverUpdate(stacks: Stacks, keys: seq<int>, k: int, v: seq<char>)
    requires forall i :: 0 <= i < |keys| ==> keys[i] in stacks
    requires forall i, j :: 0 <= i < j < |keys| ==> keys[i] != keys[j]
    requires k in keys
    ensures CratesOver(stacks[k := v], keys) + multiset(stacks[k]) == CratesOver(stacks, keys) + multiset(v)
  {
    if keys[0] == k {
      CratesOverUnchanged(stacks, keys[1..], k, v);
    } else {
      assert k in keys[1..];
      assert stacks[k := v][keys[0]] == stacks[keys[0]];
      CratesOverUpdate(stacks, keys[1..], k, v);
      var a := multiset(stacks[keys[0]]);
      var x := CratesOver(stacks[k := v], keys[1..]);
      var y := CratesOver(stacks, keys[1..]);
      assert CratesOver(stacks[k := v], keys) == a + x;
      assert CratesOver(stacks, keys) == a + y;
      assert a + x + multiset(stacks[k]) == a + (x + multiset(stacks[k]));
      assert a + y + multiset(v) == a + (y + multiset(v));
    }
  }

  /** Replacing one stack trades its crates for the new ones. */
  lemma CratesUpdate(stacks: Stacks, k: int, v: seq<char>)
    requires k in stacks
    ensures Crates(stacks[k := v]) + multiset(stacks[k]) == Crates(stacks) + multiset(v)
  {
    assert stacks[k := v].Keys == stacks.Keys;
    CratesOverUpdate(stacks, Ascending(stacks.Keys), k, v);
  }

  // ---------------------------------------------------------------------
  // The two cranes. Each is given as the result it produces and as the
  // loop the source runs, and the two are proved to agree.

  /** The stacks with the top `count` crates of `from` lifted off. */
  function Lift(stacks: Stacks, c: Command): Stacks
    requires c.from in stacks && 0 <= c.count <= |stacks[c.from]|
  {
    var f := stacks[c.from];
    stacks[c.from := f[..|f| - c.count]]
  }

  /** The top `count` crates of `from`, bottom to top. */
  function Block(stacks: Stacks, c: Command): seq<char>
    requires c.from in stacks && 0 <= c.count <= |stacks[c.from]|
  {
    var f := stacks[c.from];
    f[|f| - c.count..]
  }

  /** Part one's move. A missing stack, a negative count (`Enumerable.Range`
      refuses it) and an empty stack met on the way are errors. Moving a
      stack onto itself puts each crate back where it was, so only an
      empty stack fails there. */
  function MoveReversed(stacks: Stacks, c: Command): (r: Result<Stacks>)
    ensures r.Ok? ==> c.from in stacks && c.to in stacks && c.count >= 0
    ensures r.Ok? ==> r.value.Keys == stacks.Keys
    ensures r.Ok? ==> forall k :: k in stacks && k != c.from && k != c.to ==> r.value[k] == stacks[k]
    ensures r.Ok? && c.from == c.to ==> r.value == stacks
    ensures r.Ok? && c.from != c.to ==>
      |r.value[c.from]| == |stacks[c.from]| - c.count && |r.value[c.to]| == |stacks[c.to]| + c.count
  {
    if c.from !in stacks || c.to !in stacks || c.count < 0 then Err("bad command")
    else if c.from == c.to then
      if |stacks[c.from]| == 0 && c.count > 0 then Err("empty stack") else Ok(stacks)
    else if |stacks[c.from]| < c.count then Err("empty stack")
    else
      var lifted := Lift(stacks, c);
      Ok(lifted[c.to := lifted[c.to] + Reverse(Block(stacks, c))])
  }

  /** Part two's move: the block keeps its order. */
  function MoveKeepingOrder(stacks: Stacks, c: Command): (r: Result<Stacks>)
    ensures r.Ok? ==> c.from in stacks && c.to in stacks && c.count >= 0
    ensures r.Ok? ==> r.value.Keys == stacks.Keys
    ensures r.Ok? ==> forall k :: k in stacks && k != c.from && k != c.to ==> r.value[k] == stacks[k]
    ensures r.Ok? && c.from == c.to ==> r.value == stacks
    ensures r.Ok? && c.from != c.to ==>
      |r.value[c.from]| == |stacks[c.from]| - c.count && |r.value[c.to]| == |stacks[c.to]| + c.count
  {
    if c.from !in stacks || c.to !in stacks || c.count < 0 then Err("bad command")
    else if |stacks[c.from]| < c.count then Err("empty stack")
    else
      var lifted := Lift(stacks, c);
      var r := lifted[c.to := lifted[c.to] + Block(stacks, c)];
      assert c.from == c.to ==> r[c.from] == stacks[c.from];
      Ok(r)
  }

  /** Both moves fail exactly when a stack is missing, the count is
      negative, or there are too few crates to take. */
  lemma MovesFail(stacks: Stacks, c: Command)
    ensures MoveKeepingOrder(stacks, c).Err? <==>
      c.from !in stacks || c.to !in stacks || c.count < 0 || |stacks[c.from]| < c.count
    ensures c.from != c.to ==> MoveReversed(stacks, c).Err? == MoveKeepingOrder(stacks, c).Err?
  {
  }

  /** The crate counts behind a move: lifting `put` off a stack (whose
      remainder is `rest`) and adding it on top of `t` leaves the total as
      it was. */
  lemma Rebalance(moved: multiset<char>, lifted: multiset<char>, start: multiset<char>,
                  rest: multiset<char>, t: multiset<char>, put: multiset<char>)
    requires lifted + (rest + put) == start + rest
    requires moved + t == lifted + (t + put)
    ensures moved == start
  {
    forall y
      ensures moved[y] == start[y]
    {
      assert (lifted + (rest + put))[y] == (start + rest)[y];
      assert (moved + t)[y] == (lifted + (t + put))[y];
    }
  }

  /** Taking a block off one stack and putting `put` on another keeps
      every crate when `put` holds the block's crates. */
  lemma MoveBlockConserves(stacks: Stacks, c: Command, put: seq<char>)
    requires c.from in stacks && c.to in stacks && c.from != c.to && 0 <= c.count <= |stacks[c.from]|
    requires multiset(put) == multiset(Block(stacks, c))
    ensures var lifted := Lift(stacks, c); Crates(lifted[c.to := lifted[c.to] + put]) == Crates(stacks)
  {
    var f := stacks[c.from];
    var rest := f[..|f| - c.count];
    var lifted := stacks[c.from := rest];
    var t := stacks[c.to];
    var moved := lifted[c.to := t + put];
    assert lifted[c.to] == t;
    assert multiset(f) == multiset(rest) + multiset(put) by {
      assert f == rest + Block(stacks, c);
    }
    CratesUpdate(stacks, c.from, rest);
    CratesUpdate(lifted, c.to, t + put);
    assert multiset(t + put) == multiset(t) + multiset(put);
    Rebalance(Crates(moved), Crates(lifted), Crates(stacks), multiset(rest), multiset(t), multiset(put));
  }

  /** Both moves keep every crate. */
  lemma MovesConserve(stacks: Stacks, c: Command)
    ensures MoveReversed(stacks, c).Ok? ==> Crates(MoveReversed(stacks, c).value) == Crates(stacks)
    ensures MoveKeepingOrder(stacks, c).Ok? ==> Crates(MoveKeepingOrder(stacks, c).value) == Crates(stacks)
  {
    if c.from in stacks && c.to in stacks && c.from != c.to && 0 <= c.count <= |stacks[c.from]| {
      ReverseMultiset(Block(stacks, c));
      MoveBlockConserves(stacks, c, Reverse(Block(stacks, c)));
      MoveBlockConserves(stacks, c, Block(stacks, c));
    }
  }

  /** The two cranes end with the same stack sizes; only the order of each
      moved block differs, reversed by part one. */
  lemma MovesCompared(stacks: Stacks, c: Command)
    requires c.from != c.to
    requires MoveReversed(stacks, c).Ok?
    ensures MoveKeepingOrder(stacks, c).Ok?
    ensures var one := MoveReversed(stacks, c).value; var two := MoveKeepingOrder(stacks, c).value;
      var t := stacks[c.to];
      one[c.from] == two[c.from] &&
      one[c.to][..|t|] == two[c.to][..|t|] == t &&
      one[c.to][|t|..] == Reverse(two[c.to][|t|..])
  {
    var block := Block(stacks, c);
    var t := stacks[c.to];
    assert (t + Reverse(block))[..|t|] == t && (t + block)[..|t|] == t;
    assert (t + Reverse(block))[|t|..] == Reverse(block) && (t + block)[|t|..] == block;
  }

  lemma ReverseStep(f: seq<char>, i: nat)
    requires i < |f|
    ensures Reverse(f[|f| - (i + 1)..]) == Reverse(f[|f| - i..]) + [f[|f| - i - 1]]
  {
    var s := f[|f| - (i + 1)..];
    assert s[1..] == f[|f| - i..];
  }

  /** The source's part-one loop: `count` times, the top crate of `from`
      is taken off and put on `to`. `fs` and `ts` stand for the two linked
      lists the source holds; when `from` and `to` are the same stack they
      are one list. */
  method CrateMover9000(stacks: Stacks, c: Command) returns (r: Result<Stacks>)
    ensures r == MoveReversed(stacks, c)
  {
    if c.from !in stacks || c.to !in stacks || c.count < 0 {
      return Err("bad command");
    }
    var f := stacks[c.from];
    var i := 0;
    if c.from == c.to {
      var fs := f;
      while i < c.count
        invariant 0 <= i <= c.count
        invariant fs == f && (i > 0 ==> |f| > 0)
      {
        if |fs| == 0 {
          return Err("empty stack");
        }
        var top := fs[|fs| - 1];
        fs := fs[..|fs| - 1];
        fs := fs + [top];
        i := i + 1;
      }
      assert stacks[c.from := fs] == stacks;
      return Ok(stacks[c.from := fs]);
    }
    var fs := f;
    var ts := stacks[c.to];
    assert f[..|f|] == f && Reverse(f[|f|..]) == [];
    while i < c.count
      invariant 0 <= i <= c.count && i <= |f|
      invariant fs == f[..|f| - i]
      invariant ts == stacks[c.to] + Reverse(f[|f| - i..])
    {
      if |fs| == 0 {
        return Err("empty stack");
      }
      var top := fs[|fs| - 1];
      fs := fs[..|fs| - 1];
      ts := ts + [top];
      ReverseStep(f, i);
      assert f[..|f| - i][..|f| - i - 1] == f[..|f| - (i + 1)];
      i := i + 1;
    }
    return Ok(stacks[c.from := fs][c.to := ts]);
  }

  /** The spare stack popped onto `base` until it is empty. */
  method Unload(temp: seq<char>, base: seq<char>) returns (ts: seq<char>)
    ensures ts == base + Reverse(temp)
  {
    var rest := temp;
    ts := base;
    var block := Reverse(temp);
    var j := 0;
    assert base + block[..0] == base;
    assert forall k :: 0 <= k < |block| ==> block[k] == temp[|temp| - 1 - k];
    while |rest| > 0
      invariant 0 <= j <= |block| && |rest| == |block| - j
      invariant rest == temp[..|temp| - j]
      invariant ts == base + block[..j]
      decreases |rest|
    {
      var top := rest[|rest| - 1];
      assert top == block[j];
      ts := ts + [top];
      assert block[..j + 1] == block[..j] + [block[j]];
      rest := rest[..|rest| - 1];
      j := j + 1;
    }
    assert block[..j] == block;
  }

  /** The source's part-two loop: the crates are popped onto a spare stack
      and then popped from it onto `to`. The spare stack is empty between
      commands, so it is local here. */
  method CrateMover9001(stacks: Stacks, c: Command) returns (r: Result<Stacks>)
    ensures r == MoveKeepingOrder(stacks, c)
  {
    if c.from !in stacks || c.to !in stacks || c.count < 0 {
      return Err("bad command");
    }
    var f := stacks[c.from];
    var ok, fs, temp := LoadSpare(f, c.count);
    if !ok {
      return Err("empty stack");
    }
    ReverseReverse(f[|f| - c.count..]);
    var ts := Unload(temp, if c.from == c.to then fs else stacks[c.to]);
    KeepingOrderResult(stacks, c, fs, ts);
    return Ok(stacks[c.from := fs][c.to := ts]);
  }

  /** The top `count` crates of `f` popped one by one onto an empty spare
      stack; fails when `f` runs out first. */
  method LoadSpare(f: seq<char>, count: int) returns (ok: bool, fs: seq<char>, temp: seq<char>)
    requires count >= 0
    ensures ok <==> count <= |f|
    ensures ok ==> fs == f[..|f| - count] && temp == Reverse(f[|f| - count..])
  {
    fs := f;
    temp := [];
    var i := 0;
    assert f[..|f|] == f && Reverse(f[|f|..]) == [];
    while i < count
      invariant 0 <= i <= count && i <= |f|
      invariant fs == f[..|f| - i]
      invariant temp == Reverse(f[|f| - i..])
    {
      if |fs| == 0 {
        return false, fs, temp;
      }
      var top := f[|f| - 1 - i];
      fs := f[..|f| - (i + 1)];
      temp := temp + [top];
      ReverseStep(f, i);
      i := i + 1;
    }
    ok := true;
  }

  /** Part two's move, given the lowered `from` stack and the new `to`
      stack. */
  lemma KeepingOrderResult(stacks: Stacks, c: Command, fs: seq<char>, ts: seq<char>)
    requires c.from in stacks && c.to in stacks && 0 <= c.count <= |stacks[c.from]|
    requires fs == stacks[c.from][..|stacks[c.from]| - c.count]
    requires ts == (if c.from == c.to then fs else stacks[c.to]) + Block(stacks, c)
    ensures MoveKeepingOrder(stacks, c) == Ok(stacks[c.from := fs][c.to := ts])
  {
    var lifted := Lift(stacks, c);
    assert lifted[c.from] == fs;
    assert lifted[c.to] + Block(stacks, c) == ts;
    assert lifted[c.to := ts] == stacks[c.from := fs][c.to := ts];
  }

  /** A crane: part one's (`keepOrder` false) or part two's. */
  function Move(stacks: Stacks, c: Command, keepOrder: bool): Result<Stacks>
  {
    if keepOrder then MoveKeepingOrder(stacks, c) else MoveReversed(stacks, c)
  }

  /** The commands in order; the first failure ends the run. */
  function Run(stacks: Stacks, commands: seq<Command>, keepOrder: bool): Result<Stacks>
  {
    if |commands| == 0 then Ok(stacks)
    else
      match Move(stacks, commands[0], keepOrder)
      case Err(e) => Err(e)
      case Ok(next) => Run(next, commands[1..], keepOrder)
  }

  /** A run keeps the stack numbers and every crate. */
  lemma {:induction false} RunConserves(stacks: Stacks, commands: seq<Command>, keepOrder: bool)
    ensures Run(stacks, commands, keepOrder).Ok? ==>
      Run(stacks, commands, keepOrder).value.Keys == stacks.Keys &&
      Crates(Run(stacks, commands, keepOrder).value) == Crates(stacks)
  {
    if |commands| > 0 {
      MovesConserve(stacks, commands[0]);
      var m := Move(stacks, commands[0], keepOrder);
      if m.Ok? {
        RunConserves(m.value, commands[1..], keepOrder);
      }
    }
  }

  /** The top crate of a stack. */
  function Last(stack: seq<char>): char
    requires |stack| > 0
  {
    stack[|stack| - 1]
  }

  /** The top crates, by ascending stack number. An empty stack has no
      top, which is an error. */
  function Tops(stacks: Stacks): (r: Result<string>)
    ensures r.Ok? <==> forall k :: k in stacks ==> |stacks[k]| > 0
    ensures r.Ok? ==> |r.value| == |stacks.Keys|
    ensures r.Ok? ==> forall i :: 0 <= i < |r.value| ==>
      var k := Ascending(stacks.Keys)[i]; r.value[i] == stacks[k][|stacks[k]| - 1]
  {
    var keys := Ascending(stacks.Keys);
    if !forall k :: k in stacks ==> |stacks[k]| > 0 then Err("empty stack")
    else
      var tops := seq(|keys|, i requires 0 <= i < |keys| => Last(stacks[keys[i]]));
      Ok(tops)
  }

  // ---------------------------------------------------------------------
  // The input: a drawing of the stacks, a blank line, the commands.

  /** One crate on stack `k`, which is created when it is first needed. */
  function Push(stacks: Stacks, k: int, x: char): (r: Stacks)
    ensures r.Keys == stacks.Keys + {k}
    ensures r[k] == (if k in stacks then stacks[k] else []) + [x]
    ensures forall j :: j in stacks && j != k ==> r[j] == stacks[j]
  {
    stacks[k := (if k in stacks then stacks[k] else []) + [x]]
  }

  /** One drawn row: cells of three characters with one character between
      them. A cell `[X]` puts `X` on the stack of its position (numbered
      from `index`). The `Slice(0, 3)` of a shorter remainder throws. */
  function ParseRow(chars: string, index: int, stacks: Stacks): (r: Result<Stacks>)
    decreases |chars|
  {
    if |chars| < 3 then Err("slice out of range")
    else
      var next := if chars[0] == '[' && chars[2] == ']' then Push(stacks, index, chars[1]) else stacks;
      if |chars| < 4 then Ok(next) else ParseRow(chars[4..], index + 1, next)
  }

  /** A row is read only when its length is three more than a multiple of
      four. */
  lemma {:induction false} RowLength(chars: string, index: int, stacks: Stacks)
    ensures ParseRow(chars, index, stacks).Ok? <==> |chars| % 4 == 3
    decreases |chars|
  {
    if |chars| >= 4 {
      var next := if chars[0] == '[' && chars[2] == ']' then Push(stacks, index, chars[1]) else stacks;
      RowLength(chars[4..], index + 1, next);
    }
  }

  /** The rows bottom to top, from an empty set of stacks. */
  function ParseRows(rows: seq<string>, stacks: Stacks): Result<Stacks>
  {
    if |rows| == 0 then Ok(stacks)
    else
      match ParseRow(rows[0], 1, stacks)
      case Err(e) => Err(e)
      case Ok(next) => ParseRows(rows[1..], next)
  }

  /** The drawing: its last line (the stack numbers) is skipped and the
      other lines are read from the bottom up. */
  function ParseDrawing(lines: seq<string>): Result<Stacks>
    requires |lines| >= 1
  {
    ParseRows(Reverse(lines[..|lines| - 1]), map[])
  }

  /** `move n from a to b`: the numbers are the second, fourth and sixth
      words; the other words are not looked at. */
  function ParseCommand(line: string): (r: Result<Command>)
    ensures r.Ok? ==> IsInt32(r.value.count) && IsInt32(r.value.from) && IsInt32(r.value.to)
  {
    var words := Split(line, ' ');
    if |words| < 6 then Err("index out of range")
    else
      match (ParseInt32(words[1]), ParseInt32(words[3]), ParseInt32(words[5]))
      case (Some(n), Some(a), Some(b)) => Ok(Command(n, a, b))
      case _ => Err("not an int")
  }

  /** `ParseInput`: the text up to the first blank line is the drawing,
      the text up to the second the commands, one per line and in order.
      Text without a blank line has no command part, which is an error. */
  function ParseInput(source: string): (r: Result<(Stacks, seq<Command>)>)
    ensures |SplitOn(source, "\n\n")| < 2 ==> r.Err?
    ensures r.Ok? ==> ParseDrawing(Split(SplitOn(source, "\n\n")[0], '\n')) == Ok(r.value.0)
    ensures r.Ok? ==> var lines := Split(SplitOn(source, "\n\n")[1], '\n');
      |r.value.1| == |lines| && forall i :: 0 <= i < |lines| ==> ParseCommand(lines[i]) == Ok(r.value.1[i])
    ensures |SplitOn(source, "\n\n")| >= 2 && ParseDrawing(Split(SplitOn(source, "\n\n")[0], '\n')).Ok? &&
      (forall i :: 0 <= i < |Split(SplitOn(source, "\n\n")[1], '\n')| ==> ParseCommand(Split(SplitOn(source, "\n\n")[1], '\n')[i]).Ok?)
      ==> r.Ok?
  {
    var parts := SplitOn(source, "\n\n");
    if |parts| < 2 then Err("index out of range")
    else
      match ParseDrawing(Split(parts[0], '\n'))
      case Err(e) => Err(e)
      case Ok(stacks) =>
        match ParseEachLine(parts[1], ParseCommand)
        case Err(e) =>
          var i :| 0 <= i < |Split(parts[1], '\n')| && ParseCommand(Split(parts[1], '\n')[i]).Err?;
          assert !ParseCommand(Split(parts[1], '\n')[i]).Ok?;
          Err(e)
        case Ok(commands) =>
          forall i | 0 <= i < |commands|
            ensures ParseCommand(Split(parts[1], '\n')[i]) == Ok(commands[i])
          {
            ParseEachLineAt(parts[1], ParseCommand, i);
          }
          Ok((stacks, commands))
  }

  /** A stack's crates are among the crates of any list of stack numbers
      that holds it. */
  lemma {:induction false} StackInCrates(stacks: Stacks, keys: seq<int>, k: int)
    requires forall i :: 0 <= i < |keys| ==> keys[i] in stacks
    requires k in keys
    ensures multiset(stacks[k]) <= CratesOver(stacks, keys)
  {
    if keys[0] != k {
      StackInCrates(stacks, keys[1..], k);
    }
  }

  /** Each top crate is one of the crates of its stacks. */
  lemma TopIsCrate(stacks: Stacks, i: int)
    requires Tops(stacks).Ok? && 0 <= i < |Tops(stacks).value|
    ensures Tops(stacks).value[i] in Crates(stacks)
  {
    var keys := Ascending(stacks.Keys);
    var k := keys[i];
    var stack := stacks[k];
    assert Tops(stacks).value[i] == stack[|stack| - 1];
    assert stack[|stack| - 1] in multiset(stack);
    StackInCrates(stacks, keys, k);
  }

  /** After a run from `stacks`, the top crates number one per stack of
      `stacks` and are each one of its crates. */
  lemma TopsAreCrates(stacks: Stacks, commands: seq<Command>, keepOrder: bool)
    requires Run(stacks, commands, keepOrder).Ok? && Tops(Run(stacks, commands, keepOrder).value).Ok?
    ensures var tops := Tops(Run(stacks, commands, keepOrder).value).value;
      |tops| == |stacks.Keys| && forall i :: 0 <= i < |tops| ==> tops[i] in Crates(stacks)
  {
    RunConserves(stacks, commands, keepOrder);
    var final := Run(stacks, commands, keepOrder).value;
    forall i | 0 <= i < |Tops(final).value|
      ensures Tops(final).value[i] in Crates(stacks)
    {
      TopIsCrate(final, i);
    }
  }

  /** The top crates after the whole run: `Solve` succeeds exactly when the
      input reads, every command applies and no stack ends empty, and letter
      `i` is then the last crate of the `i`-th stack (by `Tops`). There is
      one letter per stack of the drawing, each a crate the drawing holds. */
  function Solve(source: string, keepOrder: bool): (r: Result<string>)
    ensures r.Ok? <==>
      && ParseInput(source).Ok?
      && Run(ParseInput(source).value.0, ParseInput(source).value.1, keepOrder).Ok?
      && Tops(Run(ParseInput(source).value.0, ParseInput(source).value.1, keepOrder).value).Ok?
    ensures r.Ok? ==> r.value == Tops(Run(ParseInput(source).value.0, ParseInput(source).value.1, keepOrder).value).value
    ensures r.Ok? ==> |r.value| == |ParseInput(source).value.0.Keys|
    ensures r.Ok? ==> forall i :: 0 <= i < |r.value| ==> r.value[i] in Crates(ParseInput(source).value.0)
  {
    match ParseInput(source)
    case Err(e) => Err(e)
    case Ok((stacks, commands)) =>
      match Run(stacks, commands, keepOrder)
      case Err(e) => Err(e)
      case Ok(final) =>
        match Tops(final)
        case Err(e) => Err(e)
        case Ok(tops) =>
          TopsAreCrates(stacks, commands, keepOrder);
          Ok(tops)
  }

  /** `CalculateTaskOne`: crates moved one at a time. */
  function TaskOne(source: string): (r: Result<string>)
    ensures r.Ok? <==>
      && ParseInput(source).Ok?
      && Run(ParseInput(source).value.0, ParseInput(source).value.1, false).Ok?
      && Tops(Run(ParseInput(source).value.0, ParseInput(source).value.1, false).value).Ok?
    ensures r.Ok? ==> r.value == Tops(Run(ParseInput(source).value.0, ParseInput(source).value.1, false).value).value
    ensures r.Ok? ==> |r.value| == |ParseInput(source).value.0.Keys|
    ensures r.Ok? ==> forall i :: 0 <= i < |r.value| ==> r.value[i] in Crates(ParseInput(source).value.0)
  {
    Solve(source, false)
  }

  /** `CalculateTaskTwo`: crates moved as a block. */
  function TaskTwo(source: string): (r: Result<string>)
    ensures r.Ok? <==>
      && ParseInput(source).Ok?
      && Run(ParseInput(source).value.0, ParseInput(source).value.1, true).Ok?
      && Tops(Run(ParseInput(source).value.0, ParseInput(source).value.1, true).value).Ok?
    ensures r.Ok? ==> r.value == Tops(Run(ParseInput(source).value.0, ParseInput(source).value.1, true).value).value
    ensures r.Ok? ==> |r.value| == |ParseInput(source).value.0.Keys|
    ensures r.Ok? ==> forall i :: 0 <= i < |r.value| ==> r.value[i] in Crates(ParseInput(source).value.0)
  {
    Solve(source, true)
  }

  // ---------------------------------------------------------------------
  // Reading back what is printed.

  /** A drawn cell: a crate in brackets or three spaces. */
  function ShowCell(cell: Option<char>): string
  {
    match cell
    case Some(x) => ['[', x, ']']
    case None => "   "
  }

  /** A drawn row: the cells with one space between them. */
  function ShowRow(cells: seq<Option<char>>): string
  {
    Interleave(cells, ShowCell, " ")
  }

  /** The crates of a row put on stacks `index`, `index + 1`, .... */
  function AddCells(stacks: Stacks, cells: seq<Option<char>>, index: int): Stacks
    decreases |cells|
  {
    if |cells| == 0 then stacks
    else
      var next := if cells[0].Some? then Push(stacks, index, cells[0].value) else stacks;
      AddCells(next, cells[1..], index + 1)
  }

  /** A drawn row is read back as its crates, in cell order. */
  lemma {:induction false} RowReadsBack(cells: seq<Option<char>>, index: int, stacks: Stacks)
    requires |cells| > 0
    ensures ParseRow(ShowRow(cells), index, stacks) == Ok(AddCells(stacks, cells, index))
  {
    var chars := ShowRow(cells);
    InterleaveFirst(cells, ShowCell, " ", "");
    assert chars[..3] == ShowCell(cells[0]);
    var next := if cells[0].Some? then Push(stacks, index, cells[0].value) else stacks;
    if |cells| > 1 {
      assert chars[4..] == ShowRow(cells[1..]);
      RowReadsBack(cells[1..], index + 1, next);
    }
  }

  /** The words of a command line, in order. */
  function CommandWords(c: Command): seq<string>
  {
    ["move", ShowInt(c.count), "from", ShowInt(c.from), "to", ShowInt(c.to)]
  }

  /** A command as the input writes it: its words joined by single spaces. */
  function ShowCommand(c: Command): string
  {
    Join(CommandWords(c), ' ')
  }

  lemma WordsOfCommand(c: Command)
    ensures Split(ShowCommand(c), ' ') == ["move", ShowInt(c.count), "from", ShowInt(c.from), "to", ShowInt(c.to)]
  {
    var words := CommandWords(c);
    ShowIntWithout(c.count, ' ');
    ShowIntWithout(c.from, ' ');
    ShowIntWithout(c.to, ' ');
    assert forall i :: 0 <= i < |words| ==> ' ' !in words[i] by {
      assert ' ' !in words[0] && ' ' !in words[2] && ' ' !in words[4];
    }
    SplitJoin(words, ' ');
  }

  /** A printed command is read back as itself. */
  lemma CommandReadsBack(c: Command)
    requires IsInt32(c.count) && IsInt32(c.from) && IsInt32(c.to)
    ensures ParseCommand(ShowCommand(c)) == Ok(c)
  {
    WordsOfCommand(c);
    ParseShowInt32(c.count);
    ParseShowInt32(c.from);
    ParseShowInt32(c.to);
  }
}

=== FILE: day6.dfy ===
/** Day 6: the first position after which the last `size` characters are
    pairwise distinct (4 for the start-of-packet marker, 14 for the
    start-of-message marker). */
module Day6 {
  import opened Common

  /** `window.Distinct().Count()`. */
  function DistinctCount(s: string): nat
  {
    |set c | c in s|
  }

  /** The count of distinct characters is the length exactly when no
      character repeats. */
  lemma {:induction false} DistinctCountIsLength(s: string)
    ensures DistinctCount(s) <= |s|
    ensures DistinctCount(s) == |s| <==> NoRepeats(s)
  {
    if |s| > 0 {
      var t := s[1..];
      DistinctCountIsLength(t);
      var st := set c | c in t;
      assert (set c | c in s) == st + {s[0]};
      if s[0] in t {
        assert st + {s[0]} == st;
        var k :| 0 <= k < |t| && t[k] == s[0];
        assert s[0] == s[k + 1];
      } else {
        assert (st + {s[0]}) - {s[0]} == st;
        if NoRepeats(s) {
          assert forall i, j :: 0 <= i < j < |t| ==> t[i] == s[i + 1] && t[j] == s[j + 1];
        }
      }
    }
  }

  /** `n` is a marker position: the `size` characters before it differ. */
  predicate MarkerAt(s: string, size: nat, n: int)
  {
    size <= n <= |s| && NoRepeats(s[n - size..n])
  }

  /** The answer the source prints: the first marker position, or the
      length plus one when there is none. */
  predicate IsAnswer(s: string, size: nat, n: int)
  {
    && (forall m :: size <= m < n && m <= |s| ==> !MarkerAt(s, size, m))
    && (MarkerAt(s, size, n) || n == |s| + 1)
  }

  /** The answer is unique. */
  lemma AnswerUnique(s: string, size: nat, n: int, m: int)
    requires size > 0
    requires IsAnswer(s, size, n) && IsAnswer(s, size, m)
    ensures n == m
  {
  }

  /** The marker search of `CalculateTaskOne` (`size` 4) and
      `CalculateTaskTwo` (`size` 14): the first `size - 1` characters prime
      the window, then each further character is added, the window is
      tested and, failing the test, loses its oldest character. Fewer than
      `size - 1` characters make the priming index out of range. */
  method FindMarker(s: string, size: nat) returns (r: Result<int>)
    requires size > 0
    ensures r.Err? <==> |s| < size - 1
    ensures r.Ok? ==> IsAnswer(s, size, r.value)
  {
    if |s| < size - 1 {
      return Err("index out of range");
    }
    var window := s[..size - 1];
    var index := 0;
    var rest := s[size - 1..];
    while |rest| > 0
      invariant 0 <= index <= |s| - (size - 1)
      invariant rest == s[index + size - 1..]
      invariant window == s[index..index + size - 1]
      invariant forall m :: size <= m < index + size ==> !MarkerAt(s, size, m)
      decreases |rest|
    {
      window := window + [rest[0]];
      assert window == s[index..index + size];
      DistinctCountIsLength(window);
      if DistinctCount(window) == size {
        return Ok(index + size);
      }
      index := index + 1;
      window := window[1..];
      rest := rest[1..];
    }
    return Ok(index + size);
  }

  /** `CalculateTaskOne`: the start-of-packet marker. */
  method TaskOne(s: string) returns (r: Result<int>)
    ensures r.Err? <==> |s| < 3
    ensures r.Ok? ==> IsAnswer(s, 4, r.value)
  {
    r := FindMarker(s, 4);
  }

  /** `CalculateTaskTwo`: the start-of-message marker. */
  method TaskTwo(s: string) returns (r: Result<int>)
    ensures r.Err? <==> |s| < 13
    ensures r.Ok? ==> IsAnswer(s, 14, r.value)
  {
    r := FindMarker(s, 14);
  }

  /** Answers on small texts: a marker at once, a marker one character
      late, and no marker at all. */
  lemma MarkerExample()
    ensures IsAnswer("abcd", 4, 4)
    ensures IsAnswer("aabcd", 4, 5)
    ensures IsAnswer("aaaa", 4, 5)
  {
    assert NoRepeats("abcd"[0..4]);
    assert "aabcd"[1..5] == "abcd";
    assert "aabcd"[0..4][0] == "aabcd"[0..4][1];
    assert "aaaa"[0..4][0] == "aaaa"[0..4][1];
  }
}

=== FILE: day7.dfy ===
/** Day 7: a terminal session (`cd`, `ls` and their listings) rebuilds a
    directory tree; part one adds up the total sizes of the small
    directories, part two finds the smallest directory whose removal frees
    enough space. */
module Day7 {
  import opened Common

  datatype File = File(name: string, size: int)

  /** A directory with its sub-directories and files in the order they were
      first seen. The parent link of the source is the path the shell keeps. */
  datatype Dir = Dir(name: string, dirs: seq<Dir>, files: seq<File>)

  // ---------------------------------------------------------------------
  // Sizes and the pre-order walk.

  /** `Files.Sum(f => f.Size)`. */
  function FileSizes(files: seq<File>): int
  {
    if |files| == 0 then 0 else files[0].size + FileSizes(files[1..])
  }

  /** `TotalSize`: the directory's own files and the totals of its
      sub-directories. */
  function TotalSize(d: Dir): int
    decreases d
  {
    FileSizes(d.files) + DirSizes(d.dirs)
  }

  function DirSizes(ds: seq<Dir>): int
    decreases ds
  {
    if |ds| == 0 then 0 else TotalSize(ds[0]) + DirSizes(ds[1..])
  }

  /** The size of the files held directly. */
  function OwnSize(d: Dir): int
  {
    FileSizes(d.files)
  }

  /** `IterateDirectories`: the directory itself, then the walk of each
      sub-directory in turn. */
  function Walk(d: Dir): (r: seq<Dir>)
    ensures |r| > 0 && r[0] == d
    decreases d
  {
    [d] + WalkAll(d.dirs)
  }

  function WalkAll(ds: seq<Dir>): seq<Dir>
    decreases ds
  {
    if |ds| == 0 then [] else Walk(ds[0]) + WalkAll(ds[1..])
  }

  lemma MapAppend<A, B>(a: seq<A>, b: seq<A>, f: A -> B)
    ensures Map(a + b, f) == Map(a, f) + Map(b, f)
  {
  }

  /** The total of a directory is the sum of the own sizes of every
      directory the walk visits. */
  lemma {:induction false} TotalIsWalkSum(d: Dir)
    ensures TotalSize(d) == Sum(Map(Walk(d), OwnSize))
    decreases d
  {
    TotalsAreWalkSum(d.dirs);
    MapAppend([d], WalkAll(d.dirs), OwnSize);
    SumAppend([OwnSize(d)], Map(WalkAll(d.dirs), OwnSize));
  }

  lemma {:induction false} TotalsAreWalkSum(ds: seq<Dir>)
    ensures DirSizes(ds) == Sum(Map(WalkAll(ds), OwnSize))
    decreases ds
  {
    if |ds| > 0 {
      TotalIsWalkSum(ds[0]);
      TotalsAreWalkSum(ds[1..]);
      MapAppend(Walk(ds[0]), WalkAll(ds[1..]), OwnSize);
      SumAppend(Map(Walk(ds[0]), OwnSize), Map(WalkAll(ds[1..]), OwnSize));
    }
  }

  // ---------------------------------------------------------------------
  // Paths: the directory reached from the root through child positions.

  predicate ValidPath(d: Dir, p: seq<nat>)
    decreases |p|
  {
    |p| == 0 || (p[0] < |d.dirs| && ValidPath(d.dirs[p[0]], p[1..]))
  }

  function At(d: Dir, p: seq<nat>): Dir
    requires ValidPath(d, p)
    decreases |p|
  {
    if |p| == 0 then d else At(d.dirs[p[0]], p[1..])
  }

  /** The tree with the directory at `p` replaced by `n`. */
  function Replace(d: Dir, p: seq<nat>, n: Dir): (r: Dir)
    requires ValidPath(d, p)
    ensures ValidPath(r, p) && At(r, p) == n
    ensures |p| > 0 ==> r.name == d.name && r.files == d.files && |r.dirs| == |d.dirs|
    decreases |p|
  {
    if |p| == 0 then n
    else d.(dirs := d.dirs[p[0] := Replace(d.dirs[p[0]], p[1..], n)])
  }

  /** A path through `p` and then `q` is valid exactly when `q` is valid
      below the end of `p`, and it reaches the same directory. */
  lemma {:induction false} PathAppend(d: Dir, p: seq<nat>, q: seq<nat>)
    ensures ValidPath(d, p + q) <==> ValidPath(d, p) && ValidPath(At(d, p), q)
    ensures ValidPath(d, p + q) ==> At(d, p + q) == At(At(d, p), q)
    decreases |p|
  {
    if |p| == 0 {
      assert p + q == q;
    } else {
      assert (p + q)[0] == p[0];
      assert (p + q)[1..] == p[1..] + q;
      if p[0] < |d.dirs| {
        PathAppend(d.dirs[p[0]], p[1..], q);
      }
    }
  }

  /** The parent of a directory: dropping the last step of its path. */
  lemma ParentPath(d: Dir, p: seq<nat>)
    requires ValidPath(d, p) && |p| > 0
    ensures ValidPath(d, p[..|p| - 1])
    ensures p[|p| - 1] < |At(d, p[..|p| - 1]).dirs|
    ensures At(d, p[..|p| - 1]).dirs[p[|p| - 1]] == At(d, p)
  {
    var parent := p[..|p| - 1];
    assert p == parent + [p[|p| - 1]];
    PathAppend(d, parent, [p[|p| - 1]]);
  }

  /** Every directory a path reaches is visited by the walk. */
  lemma {:induction false} PathWalked(d: Dir, p: seq<nat>)
    requires ValidPath(d, p)
    ensures At(d, p) in Walk(d)
    decreases |p|
  {
    if |p| > 0 {
      PathWalked(d.dirs[p[0]], p[1..]);
      WalkAllHas(d.dirs, p[0], At(d, p));
    }
  }

  lemma {:induction false} WalkAllHas(ds: seq<Dir>, k: nat, x: Dir)
    requires k < |ds| && x in Walk(ds[k])
    ensures x in WalkAll(ds)
    decreases k
  {
    if k > 0 {
      WalkAllHas(ds[1..], k - 1, x);
    }
  }

  /** Every directory the walk visits is reached by a path. */
  lemma {:induction false} WalkedPath(d: Dir, x: Dir)
    requires x in Walk(d)
    ensures exists p :: ValidPath(d, p) && At(d, p) == x
    decreases d
  {
    if x == d {
      assert ValidPath(d, []) && At(d, []) == x;
    } else {
      assert x in WalkAll(d.dirs);
      var k, q := WalkAllPath(d.dirs, x);
      var p := [k] + q;
      assert p[0] == k && p[1..] == q;
      assert ValidPath(d, p) && At(d, p) == x;
    }
  }

  lemma {:induction false} WalkAllPath(ds: seq<Dir>, x: Dir) returns (k: nat, q: seq<nat>)
    requires x in WalkAll(ds)
    ensures k < |ds| && ValidPath(ds[k], q) && At(ds[k], q) == x
    decreases ds
  {
    if x in Walk(ds[0]) {
      WalkedPath(ds[0], x);
      k := 0;
      q :| ValidPath(ds[0], q) && At(ds[0], q) == x;
    } else {
      var k', q' := WalkAllPath(ds[1..], x);
      k, q := k' + 1, q';
      assert ds[1..][k'] == ds[k];
    }
  }

  // ---------------------------------------------------------------------
  // The root is the largest directory when no size is negative.

  predicate NonNegative(d: Dir)
    decreases d
  {
    && (forall f | f in d.files :: f.size >= 0)
    && (forall c | c in d.dirs :: NonNegative(c))
  }

  lemma {:induction false} FileSizesNonNegative(files: seq<File>)
    requires forall f | f in files :: f.size >= 0
    ensures FileSizes(files) >= 0
  {
    if |files| > 0 {
      assert files[0] in files;
      FileSizesNonNegative(files[1..]);
    }
  }

  lemma {:induction false} TotalNonNegative(d: Dir)
    requires NonNegative(d)
    ensures TotalSize(d) >= 0
    decreases d
  {
    FileSizesNonNegative(d.files);
    DirSizesNonNegative(d.dirs);
  }

  lemma {:induction false} DirSizesNonNegative(ds: seq<Dir>)
    requires forall c | c in ds :: NonNegative(c)
    ensures DirSizes(ds) >= 0
    decreases ds
  {
    if |ds| > 0 {
      assert ds[0] in ds;
      TotalNonNegative(ds[0]);
      DirSizesNonNegative(ds[1..]);
    }
  }

  /** No directory the walk visits is larger than the one it starts from. */
  lemma {:induction false} WalkBelow(d: Dir, x: Dir)
    requires NonNegative(d) && x in Walk(d)
    ensures TotalSize(x) <= TotalSize(d)
    decreases d
  {
    if x != d {
      FileSizesNonNegative(d.files);
      WalkAllBelow(d.dirs, x);
    }
  }

  lemma {:induction false} WalkAllBelow(ds: seq<Dir>, x: Dir)
    requires (forall c | c in ds :: NonNegative(c)) && x in WalkAll(ds)
    ensures TotalSize(x) <= DirSizes(ds)
    decreases ds
  {
    assert ds[0] in ds;
    TotalNonNegative(ds[0]);
    if x in Walk(ds[0]) {
      WalkBelow(ds[0], x);
      DirSizesNonNegative(ds[1..]);
    } else {
      WalkAllBelow(ds[1..], x);
    }
  }

  // ---------------------------------------------------------------------
  // No two entries of a directory share a name.

  predicate DistinctNames(d: Dir)
  {
    && (forall i, j :: 0 <= i < j < |d.dirs| ==> d.dirs[i].name != d.dirs[j].name)
    && (forall i, j :: 0 <= i < j < |d.files| ==> d.files[i].name != d.files[j].name)
  }

  predicate WellFormed(d: Dir)
    decreases d
  {
    DistinctNames(d) && forall c | c in d.dirs :: WellFormed(c)
  }

  /** Replacing a directory by a well-formed one of the same name keeps the
      tree well formed. */
  lemma {:induction false} ReplaceWellFormed(d: Dir, p: seq<nat>, n: Dir)
    requires ValidPath(d, p) && WellFormed(d) && WellFormed(n)
    requires n.name == At(d, p).name
    ensures WellFormed(Replace(d, p, n))
    decreases |p|
  {
    if |p| > 0 {
      var c := d.dirs[p[0]];
      assert c in d.dirs;
      ReplaceWellFormed(c, p[1..], n);
      var r := Replace(d, p, n);
      assert forall i :: 0 <= i < |d.dirs| ==> r.dirs[i].name == d.dirs[i].name;
      forall x | x in r.dirs
        ensures WellFormed(x)
      {
        var i :| 0 <= i < |r.dirs| && r.dirs[i] == x;
        assert d.dirs[i] in d.dirs;
      }
    }
  }

  /** Replacing a directory changes the root's total by the difference. */
  lemma {:induction false} ReplaceTotal(d: Dir, p: seq<nat>, n: Dir)
    requires ValidPath(d, p)
    ensures TotalSize(Replace(d, p, n)) == TotalSize(d) - TotalSize(At(d, p)) + TotalSize(n)
    decreases |p|
  {
    if |p| > 0 {
      ReplaceTotal(d.dirs[p[0]], p[1..], n);
      DirSizesUpdate(d.dirs, p[0], Replace(d.dirs[p[0]], p[1..], n));
    }
  }

  lemma {:induction false} DirSizesUpdate(ds: seq<Dir>, k: nat, x: Dir)
    requires k < |ds|
    ensures DirSizes(ds[k := x]) == DirSizes(ds) - TotalSize(ds[k]) + TotalSize(x)
    decreases k
  {
    if k == 0 {
      assert ds[k := x][1..] == ds[1..];
    } else {
      DirSizesUpdate(ds[1..], k - 1, x);
      assert ds[k := x][1..] == ds[1..][k - 1 := x];
    }
  }

  lemma {:induction false} FileSizesAppend(files: seq<File>, f: File)
    ensures FileSizes(files + [f]) == FileSizes(files) + f.size
  {
    if |files| > 0 {
      FileSizesAppend(files[1..], f);
      assert (files + [f])[1..] == files[1..] + [f];
    }
  }

  lemma {:induction false} DirSizesAppendEmpty(ds: seq<Dir>, name: string)
    ensures DirSizes(ds + [Dir(name, [], [])]) == DirSizes(ds)
  {
    if |ds| > 0 {
      DirSizesAppendEmpty(ds[1..], name);
      assert (ds + [Dir(name, [], [])])[1..] == ds[1..] + [Dir(name, [], [])];
    } else {
      assert [Dir(name, [], [])][1..] == [];
    }
  }

  // ---------------------------------------------------------------------
  // The lines of the session.

  datatype Item = Command(text: string) | DirEntry(name: string) | FileEntry(name: string, size: int)

  /** One line of `ParseInput`: `$` starts a command (its text after two
      characters), `dir ` a directory; any other line is a size, a space and
      a file name, and words after the name are ignored. */
  function ParseLine(line: string): (r: Result<Item>)
    ensures r.Ok? && r.value.Command? <==> |line| >= 2 && line[0] == '$'
    ensures r.Ok? && r.value.DirEntry? <==> !StartsWith(line, "$") && StartsWith(line, "dir ")
    ensures r.Ok? && r.value.FileEntry? ==> ' ' in line && ' ' !in r.value.name && IsInt64(r.value.size)
  {
    if StartsWith(line, "$") then
      if |line| < 2 then Err("index out of range") else Ok(Command(line[2..]))
    else if StartsWith(line, "dir ") then Ok(DirEntry(line[4..]))
    else
      var parts := Split(line, ' ');
      if |parts| < 2 then
        Err("index out of range")
      else
        match ParseInt64(parts[0])
        case None => Err("input string was not in a correct format")
        case Some(size) =>
          assert ' ' in line by {
            if ' ' !in line {
              SplitNoSeparator(line, ' ');
            }
          }
          Ok(FileEntry(parts[1], size))
  }

  /** The line an item is printed as. */
  function ShowLine(item: Item): string
  {
    match item
    case Command(text) => "$ " + text
    case DirEntry(name) => "dir " + name
    case FileEntry(name, size) => ShowInt(size) + " " + name
  }

  /** Items a line can carry: no line breaks, and a file name without
      spaces whose size fits in a `long`. */
  predicate Printable(item: Item)
  {
    match item
    case Command(text) => '\n' !in text
    case DirEntry(name) => '\n' !in name
    case FileEntry(name, size) => '\n' !in name && ' ' !in name && IsInt64(size)
  }

  /** A printed line is read back as its item. */
  lemma ParseShowLine(item: Item)
    requires Printable(item)
    ensures ParseLine(ShowLine(item)) == Ok(item)
  {
    var line := ShowLine(item);
    match item
    case Command(text) =>
      assert line[2..] == text;
    case DirEntry(name) =>
      assert line[..4] == "dir ";
      assert line[4..] == name;
    case FileEntry(name, size) =>
      ShowIntStart(size);
      ShowIntWithout(size, ' ');
      ParseShowInt64(size);
      FileLineRead(ShowInt(size), name, size);
  }

  /** A size with no space in it, a space and a name with none is read as a
      file entry, as long as the size starts with neither `$` nor `d`. */
  lemma FileLineRead(shown: string, name: string, size: int)
    requires |shown| > 0 && shown[0] != '$' && shown[0] != 'd'
    requires ' ' !in shown && ' ' !in name
    requires ParseInt64(shown) == Some(size)
    ensures ParseLine(shown + " " + name) == Ok(FileEntry(name, size))
  {
    var line := shown + " " + name;
    assert line[0] == shown[0];
    assert line == shown + [' '] + name;
    SplitNoSeparator(name, ' ');
    SplitPrefix(shown, name, ' ');
  }

  lemma ShowLineOneLine(item: Item)
    requires Printable(item)
    ensures '\n' !in ShowLine(item)
  {
    if item.FileEntry? {
      ShowIntWithout(item.size, '\n');
    }
  }

  /** `ParseInput`: every line, the first failure ending the parse. */
  function ParseInput(source: string): (r: Result<seq<Item>>)
    ensures r.Ok? ==> |r.value| == |Split(source, '\n')|
  {
    ParseEachLine(source, ParseLine)
  }

  /** A printed session is read back as itself. */
  lemma ParseShowInput(items: seq<Item>)
    requires |items| > 0 && forall i :: 0 <= i < |items| ==> Printable(items[i])
    ensures ParseInput(Join(Map(items, ShowLine), '\n')) == Ok(items)
  {
    var lines := Map(items, ShowLine);
    forall i | 0 <= i < |lines|
      ensures '\n' !in lines[i] && ParseLine(lines[i]) == Ok(items[i])
    {
      ParseShowLine(items[i]);
      ShowLineOneLine(items[i]);
    }
    SplitJoin(lines, '\n');
    MapResultOk(lines, ParseLine, items);
  }

  // ---------------------------------------------------------------------
  // Replaying the session.

  /** The tree built so far and the path of the current directory; `None`
      once `cd ..` has left the root, where the source holds a null
      reference. */
  datatype Shell = Shell(root: Dir, cwd: Option<seq<nat>>)

  predicate ValidShell(sh: Shell)
  {
    sh.cwd.Some? ==> ValidPath(sh.root, sh.cwd.value)
  }

  /** `FirstOrDefault(d => d.Name == name)` as a position. */
  function FindDir(ds: seq<Dir>, name: string): (r: Option<nat>)
    ensures r.Some? ==> r.value < |ds| && ds[r.value].name == name
    ensures r.Some? ==> forall j :: 0 <= j < r.value ==> ds[j].name != name
    ensures r.None? <==> forall j :: 0 <= j < |ds| ==> ds[j].name != name
  {
    if |ds| == 0 then None
    else if ds[0].name == name then Some(0)
    else
      match FindDir(ds[1..], name)
      case None => None
      case Some(k) => Some(k + 1)
  }

  predicate HasFile(files: seq<File>, name: string)
  {
    exists i :: 0 <= i < |files| && files[i].name == name
  }

  function AddDir(d: Dir, name: string): Dir
  {
    d.(dirs := d.dirs + [Dir(name, [], [])])
  }

  /** One item of the `PrepareRoot` loop. */
  function Step(sh: Shell, item: Item): (r: Result<Shell>)
    requires ValidShell(sh)
    ensures r.Ok? ==> ValidShell(r.value)
    ensures r.Err? <==>
      || (item.Command? && !StartsWith(item.text, "cd ") && item.text != "ls")
      || (sh.cwd.None? && !(item.Command? && item.text == "ls"))
  {
    match sh.cwd
    case None =>
      if item.Command? && item.text == "ls" then Ok(sh)
      else if item.Command? && !StartsWith(item.text, "cd ") then Err("Unknown command " + item.text)
      else Err("object reference not set to an instance of an object")
    case Some(p) =>
      var cur := At(sh.root, p);
      match item
      case Command(text) =>
        if StartsWith(text, "cd ") then
          var target := text[3..];
          if target == ".." then
            if |p| == 0 then Ok(Shell(sh.root, None))
            else
              ParentPath(sh.root, p);
              Ok(Shell(sh.root, Some(p[..|p| - 1])))
          else
            match FindDir(cur.dirs, target)
            case Some(k) =>
              PathAppend(sh.root, p, [k]);
              Ok(Shell(sh.root, Some(p + [k])))
            case None =>
              var root := Replace(sh.root, p, AddDir(cur, target));
              PathAppend(root, p, [|cur.dirs|]);
              Ok(Shell(root, Some(p + [|cur.dirs|])))
        else if text != "ls" then Err("Unknown command " + text)
        else Ok(sh)
      case DirEntry(name) =>
        if FindDir(cur.dirs, name).Some? then Ok(sh)
        else Ok(Shell(Replace(sh.root, p, AddDir(cur, name)), sh.cwd))
      case FileEntry(name, size) =>
        if HasFile(cur.files, name) then Ok(sh)
        else Ok(Shell(Replace(sh.root, p, cur.(files := cur.files + [File(name, size)])), sh.cwd))
  }

  /** `cd ..` moves to the directory holding the current one. */
  lemma CdParent(sh: Shell)
    requires ValidShell(sh) && sh.cwd.Some? && |sh.cwd.value| > 0
    ensures var r := Step(sh, Command("cd ..")); r.Ok? && r.value.root == sh.root && r.value.cwd.Some?
    ensures var r := Step(sh, Command("cd ..")).value;
      var p := sh.cwd.value;
      && ValidPath(sh.root, r.cwd.value)
      && p[|p| - 1] < |At(sh.root, r.cwd.value).dirs|
      && At(sh.root, r.cwd.value).dirs[p[|p| - 1]] == At(sh.root, p)
  {
    var c := "cd ..";
    assert c[..3] == "cd " && c[3..] == "..";
    ParentPath(sh.root, sh.cwd.value);
  }

  /** `cd X` enters the sub-directory named X, creating an empty one when
      there is none; the tree changes only in the second case, and its total
      size never does. */
  lemma CdChild(sh: Shell, x: string)
    requires ValidShell(sh) && sh.cwd.Some? && x != ".."
    ensures var r := Step(sh, Command("cd " + x)); r.Ok? && r.value.cwd.Some?
    ensures var r := Step(sh, Command("cd " + x)).value;
      var p := sh.cwd.value;
      && |r.cwd.value| == |p| + 1 && r.cwd.value[..|p|] == p
      && At(r.root, r.cwd.value).name == x
      && (r.root == sh.root <==> FindDir(At(sh.root, p).dirs, x).Some?)
      && TotalSize(r.root) == TotalSize(sh.root)
  {
    var c := "cd " + x;
    assert c[..3] == "cd " && c[3..] == x;
    var p := sh.cwd.value;
    var cur := At(sh.root, p);
    var r := Step(sh, Command(c)).value;
    assert r.cwd.value[..|p|] == p;
    match FindDir(cur.dirs, x)
    case Some(k) =>
      PathAppend(sh.root, p, [k]);
    case None =>
      var n := AddDir(cur, x);
      PathAppend(r.root, p, [|cur.dirs|]);
      ReplaceTotal(sh.root, p, n);
      DirSizesAppendEmpty(cur.dirs, x);
      assert |At(r.root, p).dirs| == |cur.dirs| + 1;
  }

  /** A file line adds the file to the current directory unless a file of
      that name is there already; the total grows by its size. */
  lemma FileAdded(sh: Shell, name: string, size: int)
    requires ValidShell(sh) && sh.cwd.Some?
    ensures var r := Step(sh, FileEntry(name, size)); r.Ok? && r.value.cwd == sh.cwd
    ensures var r := Step(sh, FileEntry(name, size)).value;
      var p := sh.cwd.value;
      if HasFile(At(sh.root, p).files, name) then r == sh
      else
        && At(r.root, p).files == At(sh.root, p).files + [File(name, size)]
        && TotalSize(r.root) == TotalSize(sh.root) + size
  {
    var p := sh.cwd.value;
    var cur := At(sh.root, p);
    var n := cur.(files := cur.files + [File(name, size)]);
    ReplaceTotal(sh.root, p, n);
    FileSizesAppend(cur.files, File(name, size));
  }

  /** A `dir` line adds an empty sub-directory unless one of that name is
      there already; the total does not change. */
  lemma DirAdded(sh: Shell, name: string)
    requires ValidShell(sh) && sh.cwd.Some?
    ensures var r := Step(sh, DirEntry(name)); r.Ok? && r.value.cwd == sh.cwd
    ensures var r := Step(sh, DirEntry(name)).value;
      var p := sh.cwd.value;
      && (r == sh <==> FindDir(At(sh.root, p).dirs, name).Some?)
      && (r != sh ==> At(r.root, p).dirs == At(sh.root, p).dirs + [Dir(name, [], [])])
      && TotalSize(r.root) == TotalSize(sh.root)
  {
    var p := sh.cwd.value;
    var cur := At(sh.root, p);
    var n := AddDir(cur, name);
    ReplaceTotal(sh.root, p, n);
    DirSizesAppendEmpty(cur.dirs, name);
  }

  /** No step ever gives a directory two entries of the same name. */
  lemma StepWellFormed(sh: Shell, item: Item)
    requires ValidShell(sh) && WellFormed(sh.root) && Step(sh, item).Ok?
    ensures WellFormed(Step(sh, item).value.root)
  {
    if sh.cwd.Some? {
      var p := sh.cwd.value;
      var cur := At(sh.root, p);
      AtWellFormed(sh.root, p);
      var empty := Dir("", [], []);
      match item
      case Command(text) =>
        if StartsWith(text, "cd ") && text[3..] != ".." && FindDir(cur.dirs, text[3..]).None? {
          ReplaceWellFormed(sh.root, p, AddDir(cur, text[3..]));
        }
      case DirEntry(name) =>
        if FindDir(cur.dirs, name).None? {
          ReplaceWellFormed(sh.root, p, AddDir(cur, name));
        }
      case FileEntry(name, size) =>
        if !HasFile(cur.files, name) {
          var n := cur.(files := cur.files + [File(name, size)]);
          assert forall c | c in n.dirs :: WellFormed(c);
          ReplaceWellFormed(sh.root, p, n);
        }
    }
  }

  lemma {:induction false} AtWellFormed(d: Dir, p: seq<nat>)
    requires ValidPath(d, p) && WellFormed(d)
    ensures WellFormed(At(d, p))
    decreases |p|
  {
    if |p| > 0 {
      assert d.dirs[p[0]] in d.dirs;
      AtWellFormed(d.dirs[p[0]], p[1..]);
    }
  }

  /** The items in order, the first failure ending the walk. */
  function Run(sh: Shell, items: seq<Item>): (r: Result<Shell>)
    requires ValidShell(sh)
    ensures r.Ok? ==> ValidShell(r.value)
    decreases |items|
  {
    if |items| == 0 then Ok(sh)
    else
      match Step(sh, items[0])
      case Err(e) => Err(e)
      case Ok(next) => Run(next, items[1..])
  }

  /** Replaying never gives a directory two entries of the same name. */
  lemma {:induction false} RunWellFormed(sh: Shell, items: seq<Item>)
    requires ValidShell(sh) && WellFormed(sh.root) && Run(sh, items).Ok?
    ensures WellFormed(Run(sh, items).value.root)
    decreases |items|
  {
    if |items| > 0 {
      StepWellFormed(sh, items[0]);
      RunWellFormed(Step(sh, items[0]).value, items[1..]);
    }
  }

  function EmptyRoot(): Dir
  {
    Dir("/", [], [])
  }

  /** `PrepareRoot`: every line is parsed, the first one is skipped and the
      rest replayed from the root. */
  function PrepareRoot(source: string): (r: Result<Dir>)
    ensures r.Ok? ==> r.value.name == "/" && WellFormed(r.value)
  {
    match ParseInput(source)
    case Err(e) => Err(e)
    case Ok(items) =>
      var start := Shell(EmptyRoot(), Some([]));
      match Run(start, items[1..])
      case Err(e) => Err(e)
      case Ok(sh) =>
        RunWellFormed(start, items[1..]);
        RunKeepsRootName(start, items[1..]);
        Ok(sh.root)
  }

  lemma {:induction false} RunKeepsRootName(sh: Shell, items: seq<Item>)
    requires ValidShell(sh) && Run(sh, items).Ok?
    ensures Run(sh, items).value.root.name == sh.root.name
    decreases |items|
  {
    if |items| > 0 {
      var next := Step(sh, items[0]).value;
      assert next.root.name == sh.root.name;
      RunKeepsRootName(next, items[1..]);
    }
  }

  // ---------------------------------------------------------------------
  // The answers.

  /** The sum of the totals that are at most `limit`. */
  function SmallTotals(ds: seq<Dir>, limit: int): int
  {
    if |ds| == 0 then 0
    else (if TotalSize(ds[0]) <= limit then TotalSize(ds[0]) else 0) + SmallTotals(ds[1..], limit)
  }

  /** The sum only takes totals within the limit: it is at most the limit
      times the number of directories. */
  lemma {:induction false} SmallTotalsBound(ds: seq<Dir>, limit: int)
    requires limit >= 0
    ensures SmallTotals(ds, limit) <= limit * |ds|
  {
    if |ds| > 0 {
      SmallTotalsBound(ds[1..], limit);
      assert limit * |ds| == limit * |ds[1..]| + limit;
    }
  }

  /** When every total is within the limit, every one is added. */
  lemma {:induction false} SmallTotalsAll(ds: seq<Dir>, limit: int)
    requires forall i :: 0 <= i < |ds| ==> TotalSize(ds[i]) <= limit
    ensures SmallTotals(ds, limit) == Sum(Map(ds, TotalSize))
  {
    if |ds| > 0 {
      SmallTotalsAll(ds[1..], limit);
      assert Map(ds, TotalSize)[1..] == Map(ds[1..], TotalSize);
    }
  }

  /** The filter `d => d.TotalSize <= limit`. */
  function AtMost(limit: int): Dir -> bool
  {
    d => TotalSize(d) <= limit
  }

  /** The recursive sum is LINQ's `Where(total <= limit).Sum(total)`. */
  lemma {:induction false} SmallTotalsWhere(ds: seq<Dir>, limit: int)
    ensures SmallTotals(ds, limit) == Sum(Map(Where(ds, AtMost(limit)), TotalSize))
  {
    if |ds| > 0 {
      SmallTotalsWhere(ds[1..], limit);
      var rest := Where(ds[1..], AtMost(limit));
      if TotalSize(ds[0]) <= limit {
        assert Where(ds, AtMost(limit)) == [ds[0]] + rest;
        assert Map([ds[0]] + rest, TotalSize)[1..] == Map(rest, TotalSize);
      } else {
        assert Where(ds, AtMost(limit)) == rest;
      }
    }
  }

  /** `CalculateTaskOne`: over every directory the walk visits, the totals
      of at most 100000 added up. */
  function TaskOne(source: string): (r: Result<int>)
    ensures r.Ok? <==> PrepareRoot(source).Ok?
    ensures r.Ok? ==> r.value == Sum(Map(Where(Walk(PrepareRoot(source).value), AtMost(100000)), TotalSize))
  {
    match PrepareRoot(source)
    case Err(e) => Err(e)
    case Ok(root) =>
      SmallTotalsWhere(Walk(root), 100000);
      Ok(SmallTotals(Walk(root), 100000))
  }

  /** `Where(total >= bound).OrderBy(total).First()`: the smallest total of
      at least `bound`, none when no directory has one. */
  function SmallestAtLeast(ds: seq<Dir>, bound: int): (r: Option<int>)
    ensures r.None? <==> forall i :: 0 <= i < |ds| ==> TotalSize(ds[i]) < bound
    ensures r.Some? ==> bound <= r.value && exists i :: 0 <= i < |ds| && TotalSize(ds[i]) == r.value
    ensures r.Some? ==> forall i :: 0 <= i < |ds| && TotalSize(ds[i]) >= bound ==> r.value <= TotalSize(ds[i])
  {
    if |ds| == 0 then None
    else
      var t := TotalSize(ds[0]);
      match SmallestAtLeast(ds[1..], bound)
      case None => if t >= bound then Some(t) else None
      case Some(m) =>
        assert exists i :: 1 <= i < |ds| && TotalSize(ds[i]) == m by {
          var i :| 0 <= i < |ds[1..]| && TotalSize(ds[1..][i]) == m;
          assert ds[i + 1] == ds[1..][i];
        }
        if bound <= t < m then Some(t) else Some(m)
  }

  /** `CalculateTaskTwo`: the root itself always qualifies, so the search
      never comes up empty. */
  function TaskTwo(source: string): (r: Result<int>)
    ensures r.Ok? <==> PrepareRoot(source).Ok?
    ensures r.Ok? ==> var root := PrepareRoot(source).value;
      && TotalSize(root) - 40000000 <= r.value <= TotalSize(root)
      && exists d :: d in Walk(root) && TotalSize(d) == r.value
    ensures r.Ok? ==> var root := PrepareRoot(source).value;
      forall d :: d in Walk(root) && TotalSize(d) >= TotalSize(root) - 40000000 ==> r.value <= TotalSize(d)
  {
    match PrepareRoot(source)
    case Err(e) => Err(e)
    case Ok(root) =>
      var all := Walk(root);
      var found := SmallestAtLeast(all, TotalSize(root) - 40000000);
      assert TotalSize(all[0]) >= TotalSize(root) - 40000000;
      var i :| 0 <= i < |all| && TotalSize(all[i]) == found.value;
      assert all[i] in all;
      forall d | d in all && TotalSize(d) >= TotalSize(root) - 40000000
        ensures found.value <= TotalSize(d)
      {
        var j :| 0 <= j < |all| && all[j] == d;
      }
      Ok(found.value)
  }
}

=== FILE: day8.dfy ===
/** Day 8: a grid of tree heights. Part one counts the trees visible from
    outside the grid, part two finds the best scenic score, the product of
    the viewing distances in the four directions. */
module Day8 {
  import opened Common

  datatype Position = Position(row: int, col: int)

  // ---------------------------------------------------------------------
  // Reading the grid.

  /** One line: every character a digit (`int.Parse` of one character). */
  function ParseRow(line: string): (r: Result<seq<int>>)
    ensures r.Ok? <==> AllDigits(line)
    ensures r.Ok? ==> |r.value| == |line| && forall i :: 0 <= i < |line| ==> r.value[i] == DigitValue(line[i])
  {
    if AllDigits(line) then Ok(seq(|line|, i requires 0 <= i < |line| => DigitValue(line[i])))
    else Err("input string was not in a correct format")
  }

  predicate Heights(row: seq<int>)
  {
    forall i :: 0 <= i < |row| ==> 0 <= row[i] <= 9
  }

  function ShowRow(heights: seq<int>): string
    requires Heights(heights)
  {
    seq(|heights|, i requires 0 <= i < |heights| => DigitChar(heights[i]))
  }

  /** A printed row of heights is read back as itself. */
  lemma ParseShowRow(heights: seq<int>)
    requires Heights(heights)
    ensures ParseRow(ShowRow(heights)) == Ok(heights)
  {
    var line := ShowRow(heights);
    assert AllDigits(line);
    assert seq(|line|, i requires 0 <= i < |line| => DigitValue(line[i])) == heights;
  }

  function ParseInput(source: string): (r: Result<seq<seq<int>>>)
    ensures r.Ok? ==> |r.value| == |Split(source, '\n')|
    ensures r.Ok? ==> forall i :: 0 <= i < |r.value| ==> Heights(r.value[i])
  {
    match ParseEachLine(source, ParseRow)
    case Err(e) => Err(e)
    case Ok(lines) =>
      forall i | 0 <= i < |lines|
        ensures Heights(lines[i])
      {
        ParseEachLineAt(source, ParseRow, i);
      }
      Ok(lines)
  }

  function ShowGrid(grid: seq<seq<int>>): (lines: seq<string>)
    requires forall i :: 0 <= i < |grid| ==> Heights(grid[i])
    ensures |lines| == |grid| && forall i :: 0 <= i < |grid| ==> lines[i] == ShowRow(grid[i])
  {
    seq(|grid|, i requires 0 <= i < |grid| => ShowRow(grid[i]))
  }

  /** A printed grid is read back as itself. */
  lemma ParseShowInput(grid: seq<seq<int>>)
    requires |grid| > 0 && forall i :: 0 <= i < |grid| ==> Heights(grid[i])
    ensures ParseInput(Join(ShowGrid(grid), '\n')) == Ok(grid)
  {
    var lines := ShowGrid(grid);
    forall i | 0 <= i < |lines|
      ensures '\n' !in lines[i] && ParseRow(lines[i]) == Ok(grid[i])
    {
      ParseShowRow(grid[i]);
      assert AllDigits(lines[i]);
    }
    SplitJoin(lines, '\n');
    MapResultOk(lines, ParseRow, grid);
  }

  /** The grid the tasks work on: `rows` and `cols` are one more than the
      largest row and column of any tree read. */
  datatype Forest = Forest(heights: seq<seq<int>>, rows: nat, cols: nat)

  predicate Valid(f: Forest)
  {
    && f.rows > 0 && f.cols > 0 && |f.heights| == f.rows
    && forall r :: 0 <= r < f.rows ==> |f.heights[r]| == f.cols && Heights(f.heights[r])
  }

  /** The largest line length. */
  function MaxLength(lines: seq<seq<int>>): (n: nat)
    ensures forall i :: 0 <= i < |lines| ==> |lines[i]| <= n
    ensures n > 0 ==> exists i :: 0 <= i < |lines| && |lines[i]| == n
  {
    if |lines| == 0 then 0
    else
      var rest := MaxLength(lines[1..]);
      assert forall i :: 1 <= i < |lines| ==> lines[i] == lines[1..][i - 1];
      if |lines[0]| >= rest then |lines[0]| else rest
  }

  /** The number of lines up to the last non-empty one. */
  function RowCount(lines: seq<seq<int>>): (n: nat)
    ensures n <= |lines|
    ensures n > 0 ==> |lines[n - 1]| > 0
    ensures forall i :: n <= i < |lines| ==> |lines[i]| == 0
  {
    if |lines| == 0 then 0
    else if |lines[|lines| - 1]| > 0 then |lines|
    else RowCount(lines[..|lines| - 1])
  }

  /** The tasks' view of the parsed lines: no tree at all makes `Max`
      fail, and a missing position inside the bounding rectangle makes the
      dictionary lookup fail. */
  function MakeForest(lines: seq<seq<int>>): (r: Result<Forest>)
    requires forall i :: 0 <= i < |lines| ==> Heights(lines[i])
    ensures r.Ok? ==> Valid(r.value)
    ensures r.Ok? <==>
      (RowCount(lines) > 0 && forall i :: 0 <= i < RowCount(lines) ==> |lines[i]| == MaxLength(lines))
  {
    var rows := RowCount(lines);
    var cols := MaxLength(lines);
    if rows == 0 then Err("sequence contains no elements")
    else if exists i :: 0 <= i < rows && |lines[i]| != cols then Err("key not found")
    else Ok(Forest(lines[..rows], rows, cols))
  }

  // ---------------------------------------------------------------------
  // Part one.

  predicate ClearLeft(f: Forest, r: int, c: int)
    requires Valid(f) && 0 <= r < f.rows && 0 <= c < f.cols
  {
    forall j :: 0 <= j < c ==> f.heights[r][j] < f.heights[r][c]
  }

  predicate ClearRight(f: Forest, r: int, c: int)
    requires Valid(f) && 0 <= r < f.rows && 0 <= c < f.cols
  {
    forall j :: c < j < f.cols ==> f.heights[r][j] < f.heights[r][c]
  }

  predicate ClearUp(f: Forest, r: int, c: int)
    requires Valid(f) && 0 <= r < f.rows && 0 <= c < f.cols
  {
    forall i :: 0 <= i < r ==> f.heights[i][c] < f.heights[r][c]
  }

  predicate ClearDown(f: Forest, r: int, c: int)
    requires Valid(f) && 0 <= r < f.rows && 0 <= c < f.cols
  {
    forall i :: r < i < f.rows ==> f.heights[i][c] < f.heights[r][c]
  }

  /** A tree is visible when it is strictly taller than every tree between
      it and some edge. */
  predicate Visible(f: Forest, r: int, c: int)
    requires Valid(f) && 0 <= r < f.rows && 0 <= c < f.cols
  {
    ClearLeft(f, r, c) || ClearRight(f, r, c) || ClearUp(f, r, c) || ClearDown(f, r, c)
  }

  /** Every tree on the edge is visible. */
  lemma EdgeVisible(f: Forest, r: int, c: int)
    requires Valid(f) && 0 <= r < f.rows && 0 <= c < f.cols
    requires r == 0 || c == 0 || r == f.rows - 1 || c == f.cols - 1
    ensures Visible(f, r, c)
  {
  }

  /** One sweep along a line: a tree is marked when it is taller than the
      tallest tree before it (heights start below 0). */
  method Sweep(hs: seq<int>) returns (marks: seq<bool>)
    requires Heights(hs)
    ensures |marks| == |hs|
    ensures forall i :: 0 <= i < |hs| ==> (marks[i] <==> forall j :: 0 <= j < i ==> hs[j] < hs[i])
  {
    marks := [];
    var maxHeight := -1;
    var i := 0;
    while i < |hs|
      invariant 0 <= i <= |hs| && |marks| == i
      invariant forall j :: 0 <= j < i ==> hs[j] <= maxHeight
      invariant i == 0 ==> maxHeight == -1
      invariant i > 0 ==> exists j :: 0 <= j < i && hs[j] == maxHeight
      invariant forall k :: 0 <= k < i ==> (marks[k] <==> forall j :: 0 <= j < k ==> hs[j] < hs[k])
    {
      marks := marks + [hs[i] > maxHeight];
      maxHeight := Max2(maxHeight, hs[i]);
      i := i + 1;
    }
  }

  /** The sweep from the far end, read in the line's own order: a tree is
      marked when it is taller than every tree after it. */
  method SweepBack(hs: seq<int>) returns (marks: seq<bool>)
    requires Heights(hs)
    ensures |marks| == |hs|
    ensures forall i :: 0 <= i < |hs| ==> (marks[i] <==> forall j :: i < j < |hs| ==> hs[j] < hs[i])
  {
    var back := Sweep(Reverse(hs));
    marks := Reverse(back);
    forall i | 0 <= i < |hs|
      ensures marks[i] <==> forall j :: i < j < |hs| ==> hs[j] < hs[i]
    {
      var k := |hs| - 1 - i;
      assert marks[i] == back[k];
      assert Reverse(hs)[k] == hs[i];
      assert forall j :: 0 <= j < k ==> Reverse(hs)[j] == hs[|hs| - 1 - j];
      if !(forall j :: i < j < |hs| ==> hs[j] < hs[i]) {
        var j :| i < j < |hs| && hs[j] >= hs[i];
        assert Reverse(hs)[|hs| - 1 - j] == hs[j];
      }
    }
  }

  function Column(f: Forest, c: int): (col: seq<int>)
    requires Valid(f) && 0 <= c < f.cols
    ensures |col| == f.rows && Heights(col)
    ensures forall r :: 0 <= r < f.rows ==> col[r] == f.heights[r][c]
  {
    seq(f.rows, r requires 0 <= r < f.rows => f.heights[r][c])
  }

  /** The visibility map of the reference definition. */
  function VisibleMap(f: Forest): seq<seq<bool>>
    requires Valid(f)
  {
    seq(f.rows, r requires 0 <= r < f.rows => seq(f.cols, c requires 0 <= c < f.cols => Visible(f, r, c)))
  }

  /** The row sweeps of `CalculateTaskOne`: along every row from the left
      and from the right. */
  method SweepRows(f: Forest) returns (vis: seq<seq<bool>>)
    requires Valid(f)
    ensures |vis| == f.rows && forall i :: 0 <= i < f.rows ==> |vis[i]| == f.cols
    ensures forall i, c :: 0 <= i < f.rows && 0 <= c < f.cols ==>
      (vis[i][c] <==> ClearLeft(f, i, c) || ClearRight(f, i, c))
  {
    vis := [];
    var r := 0;
    while r < f.rows
      invariant 0 <= r <= f.rows && |vis| == r
      invariant forall i :: 0 <= i < r ==> |vis[i]| == f.cols
      invariant forall i, c :: 0 <= i < r && 0 <= c < f.cols ==>
        (vis[i][c] <==> ClearLeft(f, i, c) || ClearRight(f, i, c))
    {
      var fw := Sweep(f.heights[r]);
      var bw := SweepBack(f.heights[r]);
      var line := seq(f.cols, c requires 0 <= c < f.cols => fw[c] || bw[c]);
      RowMarks(f, r, fw, bw, line);
      RowsExtended(f, vis, line);
      vis := vis + [line];
      r := r + 1;
    }
  }

  /** The marks of the first rows, extended by the marks of the next. */
  lemma RowsExtended(f: Forest, vis: seq<seq<bool>>, line: seq<bool>)
    requires Valid(f) && |vis| < f.rows && |line| == f.cols
    requires forall i :: 0 <= i < |vis| ==> |vis[i]| == f.cols
    requires forall i, c :: 0 <= i < |vis| && 0 <= c < f.cols ==>
      (vis[i][c] <==> ClearLeft(f, i, c) || ClearRight(f, i, c))
    requires forall c :: 0 <= c < f.cols ==> (line[c] <==> ClearLeft(f, |vis|, c) || ClearRight(f, |vis|, c))
    ensures forall i :: 0 <= i < |vis| + 1 ==> |(vis + [line])[i]| == f.cols
    ensures forall i, c :: 0 <= i < |vis| + 1 && 0 <= c < f.cols ==>
      ((vis + [line])[i][c] <==> ClearLeft(f, i, c) || ClearRight(f, i, c))
  {
    var next := vis + [line];
    forall i | 0 <= i < |vis| + 1
      ensures next[i] == if i < |vis| then vis[i] else line
    {
    }
  }

  lemma RowMarks(f: Forest, r: int, fw: seq<bool>, bw: seq<bool>, line: seq<bool>)
    requires Valid(f) && 0 <= r < f.rows
    requires |fw| == |bw| == |line| == f.cols
    requires forall i :: 0 <= i < f.cols ==>
      (fw[i] <==> forall j :: 0 <= j < i ==> f.heights[r][j] < f.heights[r][i])
    requires forall i :: 0 <= i < f.cols ==>
      (bw[i] <==> forall j :: i < j < f.cols ==> f.heights[r][j] < f.heights[r][i])
    requires forall i :: 0 <= i < f.cols ==> line[i] == (fw[i] || bw[i])
    ensures forall c :: 0 <= c < f.cols ==> (line[c] <==> ClearLeft(f, r, c) || ClearRight(f, r, c))
  {
    var hs := f.heights[r];
    forall c | 0 <= c < f.cols
      ensures line[c] <==> ClearLeft(f, r, c) || ClearRight(f, r, c)
    {
      assert ClearLeft(f, r, c) <==> forall j :: 0 <= j < c ==> hs[j] < hs[c];
      assert ClearRight(f, r, c) <==> forall j :: c < j < f.cols ==> hs[j] < hs[c];
    }
  }

  /** The sweeps down and up one column, added to the marks so far. */
  method SweepColumn(f: Forest, vis: seq<seq<bool>>, c: int) returns (vis': seq<seq<bool>>)
    requires Valid(f) && 0 <= c < f.cols
    requires |vis| == f.rows && forall i :: 0 <= i < f.rows ==> |vis[i]| == f.cols
    ensures |vis'| == f.rows && forall i :: 0 <= i < f.rows ==> |vis'[i]| == f.cols
    ensures forall i, k :: 0 <= i < f.rows && 0 <= k < f.cols && k != c ==> vis'[i][k] == vis[i][k]
    ensures forall i :: 0 <= i < f.rows ==> (vis'[i][c] <==> vis[i][c] || ClearUp(f, i, c) || ClearDown(f, i, c))
  {
    var col := Column(f, c);
    var fw := Sweep(col);
    var bw := SweepBack(col);
    vis' := seq(f.rows, i requires 0 <= i < f.rows => vis[i][c := vis[i][c] || fw[i] || bw[i]]);
  }

  /** The visibility map of `CalculateTaskOne`: every tree some sweep
      marked. */
  method Visibility(f: Forest) returns (vis: seq<seq<bool>>)
    requires Valid(f)
    ensures vis == VisibleMap(f)
  {
    vis := SweepRows(f);
    var c := 0;
    while c < f.cols
      invariant 0 <= c <= f.cols && |vis| == f.rows
      invariant forall i :: 0 <= i < f.rows ==> |vis[i]| == f.cols
      invariant forall i, k :: 0 <= i < f.rows && 0 <= k < f.cols ==>
        (vis[i][k] <==> ClearLeft(f, i, k) || ClearRight(f, i, k) || (k < c && (ClearUp(f, i, k) || ClearDown(f, i, k))))
    {
      vis := SweepColumn(f, vis, c);
      c := c + 1;
    }
    MapIsVisible(f, vis);
  }

  lemma MapIsVisible(f: Forest, vis: seq<seq<bool>>)
    requires Valid(f)
    requires |vis| == f.rows && forall i :: 0 <= i < f.rows ==> |vis[i]| == f.cols
    requires forall i, k :: 0 <= i < f.rows && 0 <= k < f.cols ==> (vis[i][k] <==> Visible(f, i, k))
    ensures vis == VisibleMap(f)
  {
    var m := VisibleMap(f);
    forall i | 0 <= i < f.rows
      ensures vis[i] == m[i]
    {
    }
  }

  /** The number of marked trees. */
  function CountMarked(vis: seq<seq<bool>>): nat
  {
    if |vis| == 0 then 0 else CountWhere(vis[0], (b: bool) => b) + CountMarked(vis[1..])
  }

  /** No more marks than cells. */
  lemma {:induction false} CountMarkedBound(vis: seq<seq<bool>>, width: nat)
    requires forall i :: 0 <= i < |vis| ==> |vis[i]| == width
    ensures CountMarked(vis) <= |vis| * width
  {
    if |vis| > 0 {
      CountMarkedBound(vis[1..], width);
      assert |vis| * width == (|vis| - 1) * width + width;
    }
  }

  /** Part one on a grid: the number of visible trees. */
  method CountVisible(f: Forest) returns (n: nat)
    requires Valid(f)
    ensures n == CountMarked(VisibleMap(f))
    ensures n <= f.rows * f.cols
  {
    var vis := Visibility(f);
    n := CountMarked(vis);
    CountMarkedBound(vis, f.cols);
  }

  // ---------------------------------------------------------------------
  // Part two.

  /** `Enumerable.Range(1, n)`. */
  function RangeFrom1(n: nat): (s: seq<int>)
    ensures |s| == n && forall i :: 0 <= i < n ==> s[i] == i + 1
  {
    seq(n, i => i + 1)
  }

  function TakeWhile<T>(s: seq<T>, p: T -> bool): (r: seq<T>)
    ensures |r| <= |s| && r == s[..|r|]
    ensures forall i :: 0 <= i < |r| ==> p(s[i])
    ensures |r| < |s| ==> !p(s[|r|])
  {
    if |s| == 0 || !p(s[0]) then [] else [s[0]] + TakeWhile(s[1..], p)
  }

  function InRow(r: int, cols: seq<int>): seq<Position>
  {
    Map(cols, c => Position(r, c))
  }

  function InCol(c: int, rows: seq<int>): seq<Position>
  {
    Map(rows, r => Position(r, c))
  }

  /** `Range(1, n).Select(r => start - r).TakeWhile(r => r >= 0)`. */
  function Backward(start: int, n: nat): seq<int>
  {
    TakeWhile(Map(RangeFrom1(n), r => start - r), r => r >= 0)
  }

  /** `Range(1, n).Select(r => start + r).TakeWhile(r => r < bound)`. */
  function Forward(start: int, n: nat, bound: int): seq<int>
  {
    TakeWhile(Map(RangeFrom1(n), r => start + r), r => r < bound)
  }

  /** `MakeRanges`: the positions looking up, left, down and right; a tree
      on that edge gets an empty list. */
  function MakeRanges(row: int, col: int, rows: nat, cols: nat): seq<seq<Position>>
  {
    [ if row > 0 then InCol(col, Backward(row, rows)) else [],
      if col > 0 then InRow(row, Backward(col, cols)) else [],
      if row < rows - 1 then InCol(col, Forward(row, rows, rows)) else [],
      if col < cols - 1 then InRow(row, Forward(col, cols, cols)) else [] ]
  }

  /** `TakeWhile` stops at the first element that fails. */
  lemma {:induction false} TakeWhileLength<T>(s: seq<T>, p: T -> bool, k: nat)
    requires k <= |s| && (forall i :: 0 <= i < k ==> p(s[i])) && (k < |s| ==> !p(s[k]))
    ensures TakeWhile(s, p) == s[..k]
  {
    if k > 0 {
      TakeWhileLength(s[1..], p, k - 1);
      assert s[..k] == [s[0]] + s[1..][..k - 1];
    }
  }

  /** Walking back from `start` one step at a time down to 0. */
  lemma BackwardSteps(start: int, n: nat)
    requires 0 <= start <= n
    ensures Backward(start, n) == seq(start, i => start - 1 - i)
  {
    var s := Map(RangeFrom1(n), r => start - r);
    TakeWhileLength(s, r => r >= 0, start);
  }

  /** Walking forward from `start` one step at a time up to `bound - 1`. */
  lemma ForwardSteps(start: int, n: nat, bound: int)
    requires 0 <= start < bound && bound - start - 1 <= n
    ensures Forward(start, n, bound) == seq(bound - start - 1, i => start + 1 + i)
  {
    var s := Map(RangeFrom1(n), r => start + r);
    TakeWhileLength(s, r => r < bound, bound - start - 1);
  }

  /** The four lists hold the positions in the tree's row and column, in
      bounds, nearest first. */
  lemma RangesInOrder(row: int, col: int, rows: nat, cols: nat)
    requires 0 <= row < rows && 0 <= col < cols
    ensures var rs := MakeRanges(row, col, rows, cols);
      && rs[0] == seq(row, i => Position(row - 1 - i, col))
      && rs[1] == seq(col, i => Position(row, col - 1 - i))
      && rs[2] == seq(rows - row - 1, i => Position(row + 1 + i, col))
      && rs[3] == seq(cols - col - 1, i => Position(row, col + 1 + i))
  {
    UpRange(row, col, rows);
    LeftRange(row, col, cols);
    DownRange(row, col, rows);
    RightRange(row, col, cols);
  }

  lemma UpRange(row: int, col: int, rows: nat)
    requires 0 <= row < rows
    ensures (if row > 0 then InCol(col, Backward(row, rows)) else []) == seq(row, i => Position(row - 1 - i, col))
  {
    BackwardSteps(row, rows);
    ColumnRange(col, Backward(row, rows), seq(row, i => row - 1 - i), seq(row, i => Position(row - 1 - i, col)));
  }

  lemma LeftRange(row: int, col: int, cols: nat)
    requires 0 <= col < cols
    ensures (if col > 0 then InRow(row, Backward(col, cols)) else []) == seq(col, i => Position(row, col - 1 - i))
  {
    BackwardSteps(col, cols);
    RowRange(row, Backward(col, cols), seq(col, i => col - 1 - i), seq(col, i => Position(row, col - 1 - i)));
  }

  lemma DownRange(row: int, col: int, rows: nat)
    requires 0 <= row < rows
    ensures (if row < rows - 1 then InCol(col, Forward(row, rows, rows)) else []) == seq(rows - row - 1, i => Position(row + 1 + i, col))
  {
    ForwardSteps(row, rows, rows);
    ColumnRange(col, Forward(row, rows, rows), seq(rows - row - 1, i => row + 1 + i),
      seq(rows - row - 1, i => Position(row + 1 + i, col)));
  }

  lemma RightRange(row: int, col: int, cols: nat)
    requires 0 <= col < cols
    ensures (if col < cols - 1 then InRow(row, Forward(col, cols, cols)) else []) == seq(cols - col - 1, i => Position(row, col + 1 + i))
  {
    ForwardSteps(col, cols, cols);
    RowRange(row, Forward(col, cols, cols), seq(cols - col - 1, i => col + 1 + i),
      seq(cols - col - 1, i => Position(row, col + 1 + i)));
  }

  lemma ColumnRange(col: int, found: seq<int>, rows: seq<int>, ps: seq<Position>)
    requires found == rows && |ps| == |rows| && forall i :: 0 <= i < |ps| ==> ps[i] == Position(rows[i], col)
    ensures InCol(col, found) == ps
  {
  }

  lemma RowRange(row: int, found: seq<int>, cols: seq<int>, ps: seq<Position>)
    requires found == cols && |ps| == |cols| && forall i :: 0 <= i < |ps| ==> ps[i] == Position(row, cols[i])
    ensures InRow(row, found) == ps
  {
  }

  /** The trees counted looking one way: those lower than `height` up to
      the first that is not, and that one too when it exists. */
  function ViewingDistance(hs: seq<int>, height: int): (n: nat)
    ensures n <= |hs|
  {
    if |hs| == 0 then 0
    else
      var lower := TakeWhile(hs, h => h < height);
      |lower| + (if |lower| < |hs| then 1 else 0)
  }

  /** The distance is the position of the first tree at least as tall,
      plus one, or all the trees when none is. */
  lemma ViewingDistanceFirstBlock(hs: seq<int>, height: int)
    ensures (forall i :: 0 <= i < |hs| ==> hs[i] < height) ==> ViewingDistance(hs, height) == |hs|
    ensures forall k :: 0 <= k < |hs| && hs[k] >= height && (forall i :: 0 <= i < k ==> hs[i] < height) ==>
      ViewingDistance(hs, height) == k + 1
  {
    var lower := TakeWhile(hs, h => h < height);
    if |hs| > 0 && |lower| < |hs| {
      assert hs[|lower|] >= height;
    }
  }

  /** The heights along a list of positions. */
  function HeightsAlong(f: Forest, ps: seq<Position>): (hs: seq<int>)
    requires Valid(f) && InBounds(f, ps)
    ensures |hs| == |ps|
  {
    seq(|ps|, i requires 0 <= i < |ps| => f.heights[ps[i].row][ps[i].col])
  }

  predicate InBounds(f: Forest, ps: seq<Position>)
  {
    forall i :: 0 <= i < |ps| ==> 0 <= ps[i].row < f.rows && 0 <= ps[i].col < f.cols
  }

  /** The four lists of a tree, in bounds. */
  function Ranges(f: Forest, r: int, c: int): (rs: seq<seq<Position>>)
    requires Valid(f) && 0 <= r < f.rows && 0 <= c < f.cols
    ensures |rs| == 4
    ensures InBounds(f, rs[0]) && InBounds(f, rs[1]) && InBounds(f, rs[2]) && InBounds(f, rs[3])
    ensures |rs[0]| == r && |rs[1]| == c && |rs[2]| == f.rows - r - 1 && |rs[3]| == f.cols - c - 1
  {
    RangesInOrder(r, c, f.rows, f.cols);
    var rs := MakeRanges(r, c, f.rows, f.cols);
    assert InBounds(f, rs[0]);
    assert InBounds(f, rs[1]);
    assert InBounds(f, rs[2]);
    assert InBounds(f, rs[3]);
    rs
  }

  /** The viewing distances up, left, down and right. */
  function Distances(f: Forest, r: int, c: int): (ds: seq<nat>)
    requires Valid(f) && 0 <= r < f.rows && 0 <= c < f.cols
    ensures |ds| == 4
    ensures ds[0] <= r && ds[1] <= c && ds[2] <= f.rows - r - 1 && ds[3] <= f.cols - c - 1
  {
    var rs := Ranges(f, r, c);
    var h := f.heights[r][c];
    seq(4, k requires 0 <= k < 4 => ViewingDistance(HeightsAlong(f, rs[k]), h))
  }

  /** `Aggregate((x, y) => x * y)`. */
  function Product(xs: seq<int>): int
  {
    if |xs| == 0 then 1 else Product(xs[..|xs| - 1]) * xs[|xs| - 1]
  }

  /** A zero factor makes the product zero. */
  lemma {:induction false} ProductZero(xs: seq<int>, k: int)
    requires 0 <= k < |xs| && xs[k] == 0
    ensures Product(xs) == 0
  {
    if k < |xs| - 1 {
      ProductZero(xs[..|xs| - 1], k);
    }
  }

  /** `GetScore`: the product of the four viewing distances. */
  function Score(f: Forest, r: int, c: int): int
    requires Valid(f) && 0 <= r < f.rows && 0 <= c < f.cols
  {
    Product(Distances(f, r, c))
  }

  /** A tree on the edge sees nothing one way, so it scores 0. */
  lemma EdgeScoresZero(f: Forest, r: int, c: int)
    requires Valid(f) && 0 <= r < f.rows && 0 <= c < f.cols
    requires r == 0 || c == 0 || r == f.rows - 1 || c == f.cols - 1
    ensures Score(f, r, c) == 0
  {
    var ds := Distances(f, r, c);
    var k := if r == 0 then 0 else if c == 0 then 1 else if r == f.rows - 1 then 2 else 3;
    ProductZero(ds, k);
  }

  /** The best score in one row. */
  function RowBest(f: Forest, r: int): (best: int)
    requires Valid(f) && 0 <= r < f.rows
    ensures forall c :: 0 <= c < f.cols ==> Score(f, r, c) <= best
    ensures exists c :: 0 <= c < f.cols && Score(f, r, c) == best
  {
    Max(RowScores(f, r))
  }

  /** The scores of one row, by column. */
  function RowScores(f: Forest, r: int): (s: seq<int>)
    requires Valid(f) && 0 <= r < f.rows
    ensures |s| == f.cols
    ensures forall c :: 0 <= c < f.cols ==> s[c] == Score(f, r, c)
  {
    seq(f.cols, c requires 0 <= c < f.cols => Score(f, r, c))
  }

  /** Part two on a grid: `scores.Max()` over every tree. */
  function BestScore(f: Forest): (best: int)
    requires Valid(f)
    ensures forall r, c :: 0 <= r < f.rows && 0 <= c < f.cols ==> Score(f, r, c) <= best
    ensures exists r, c :: 0 <= r < f.rows && 0 <= c < f.cols && Score(f, r, c) == best
  {
    var s := seq(f.rows, r requires 0 <= r < f.rows => RowBest(f, r));
    var best := Max(s);
    forall r, c | 0 <= r < f.rows && 0 <= c < f.cols
      ensures Score(f, r, c) <= best
    {
      assert s[r] == RowBest(f, r);
    }
    var r :| 0 <= r < f.rows && s[r] == best;
    var c :| 0 <= c < f.cols && Score(f, r, c) == RowBest(f, r);
    best
  }

  // ---------------------------------------------------------------------
  // The tasks.

  function Prepare(source: string): Result<Forest>
  {
    match ParseInput(source)
    case Err(e) => Err(e)
    case Ok(lines) => MakeForest(lines)
  }

  /** `CalculateTaskOne`. */
  method TaskOne(source: string) returns (r: Result<nat>)
    ensures r.Ok? <==> Prepare(source).Ok?
    ensures r.Ok? ==> r.value == CountMarked(VisibleMap(Prepare(source).value))
  {
    match Prepare(source)
    case Err(e) => return Err(e);
    case Ok(f) =>
      var n := CountVisible(f);
      return Ok(n);
  }

  /** `CalculateTaskTwo`. */
  function TaskTwo(source: string): (r: Result<int>)
    ensures r.Ok? <==> Prepare(source).Ok?
    ensures r.Ok? ==> r.value == BestScore(Prepare(source).value)
  {
    match Prepare(source)
    case Err(e) => Err(e)
    case Ok(f) => Ok(BestScore(f))
  }
}

=== FILE: day9.dfy ===
/** Day 9: a rope of knots on an integer grid. The head moves one square
    per command and every other knot follows the one before it. */
module Day9 {
  import opened Common

  datatype Direction = Up | Down | Left | Right

  datatype Position = Position(row: int, col: int)

  const Origin: Position := Position(0, 0)

  /** `MoveHead`: one square; up and right increase the coordinate. */
  function MoveHead(d: Direction, head: Position): (r: Position)
    ensures Abs(r.row - head.row) + Abs(r.col - head.col) == 1
    ensures d == Up ==> r.row > head.row
    ensures d == Down ==> r.row < head.row
    ensures d == Right ==> r.col > head.col
    ensures d == Left ==> r.col < head.col
  {
    match d
    case Down => head.(row := head.row - 1)
    case Up => head.(row := head.row + 1)
    case Right => head.(col := head.col + 1)
    case Left => head.(col := head.col - 1)
  }

  function Opposite(d: Direction): Direction
  {
    match d
    case Up => Down
    case Down => Up
    case Left => Right
    case Right => Left
  }

  /** A move is undone by the opposite move. */
  lemma MoveHeadInverse(d: Direction, p: Position)
    ensures MoveHead(Opposite(d), MoveHead(d, p)) == p
  {
  }

  /** Two knots touch when they are at most one square apart in each
      coordinate (overlapping counts). */
  predicate Touching(a: Position, b: Position)
  {
    Abs(a.row - b.row) <= 1 && Abs(a.col - b.col) <= 1
  }

  /** At most two squares apart in each coordinate: where a knot can be
      from the one it follows after that one took a single step. */
  predicate WithinTwo(a: Position, b: Position)
  {
    Abs(a.row - b.row) <= 2 && Abs(a.col - b.col) <= 2
  }

  /** `MoveTail`: a knot in the same row or column as the knot it follows
      jumps next to it; otherwise, if they do not touch, it steps one square
      diagonally towards it. */
  function MoveTail(head: Position, tail: Position): (r: Position)
    ensures Touching(head, tail) ==> r == tail
    ensures head.row == tail.row || head.col == tail.col ==> Touching(head, r)
    ensures !Touching(head, tail) && head.row != tail.row && head.col != tail.col ==>
      Abs(r.row - tail.row) == 1 && Abs(r.col - tail.col) == 1 &&
      Abs(head.row - r.row) < Abs(head.row - tail.row) &&
      Abs(head.col - r.col) < Abs(head.col - tail.col)
    ensures WithinTwo(head, tail) ==> Touching(head, r) && Touching(tail, r)
  {
    if head.row == tail.row && Abs(head.col - tail.col) > 1 then
      tail.(col := if tail.col > head.col then head.col + 1 else head.col - 1)
    else if head.col == tail.col && Abs(head.row - tail.row) > 1 then
      tail.(row := if tail.row > head.row then head.row + 1 else head.row - 1)
    else if Abs(head.col - tail.col) > 1 || Abs(head.row - tail.row) > 1 then
      Position(if tail.row > head.row then tail.row - 1 else tail.row + 1,
               if tail.col > head.col then tail.col - 1 else tail.col + 1)
    else tail
  }

  // ---------------------------------------------------------------------
  // A rope: the head first, the tail last.

  /** Every knot after `lead` follows the knot before it. */
  function Follow(lead: Position, knots: seq<Position>): (r: seq<Position>)
    ensures |r| == |knots|
    decreases |knots|
  {
    if |knots| == 0 then []
    else
      var k := MoveTail(lead, knots[0]);
      [k] + Follow(k, knots[1..])
  }

  /** One command: the head moves, then each knot in turn follows. */
  function Step(rope: seq<Position>, d: Direction): (r: seq<Position>)
    requires |rope| > 0
    ensures |r| == |rope|
  {
    var head := MoveHead(d, rope[0]);
    [head] + Follow(head, rope[1..])
  }

  /** Adjacent knots touch. */
  predicate Taut(rope: seq<Position>)
  {
    forall i :: 0 < i < |rope| ==> Touching(rope[i - 1], rope[i])
  }

  lemma TouchingWithinTwo(a: Position, b: Position, c: Position)
    requires Touching(a, b) && Touching(b, c)
    ensures WithinTwo(a, c)
  {
  }

  /** If the knot in front moved to a square touching where it was, the
      knots behind it stay taut. */
  lemma {:induction false} FollowTaut(before: Position, lead: Position, knots: seq<Position>)
    requires Touching(before, lead)
    requires Taut([before] + knots)
    ensures Taut([lead] + Follow(lead, knots))
    decreases |knots|
  {
    if |knots| > 0 {
      assert ([before] + knots)[1] == knots[0];
      assert Touching(([before] + knots)[0], ([before] + knots)[1]);
      TouchingWithinTwo(lead, before, knots[0]);
      var k := MoveTail(lead, knots[0]);
      forall i | 0 < i < |knots[1..]| + 1
        ensures Touching(([knots[0]] + knots[1..])[i - 1], ([knots[0]] + knots[1..])[i])
      {
        assert ([knots[0]] + knots[1..])[i - 1] == ([before] + knots)[i];
        assert ([knots[0]] + knots[1..])[i] == ([before] + knots)[i + 1];
      }
      FollowTaut(knots[0], k, knots[1..]);
      var tailPart := Follow(k, knots[1..]);
      assert Follow(lead, knots) == [k] + tailPart;
      forall i | 0 < i < |knots| + 1
        ensures Touching(([lead] + Follow(lead, knots))[i - 1], ([lead] + Follow(lead, knots))[i])
      {
        if i > 1 {
          assert ([lead] + Follow(lead, knots))[i - 1] == ([k] + tailPart)[i - 2];
          assert ([lead] + Follow(lead, knots))[i] == ([k] + tailPart)[i - 1];
        }
      }
    }
  }

  /** Every command keeps a taut rope taut. */
  lemma StepTaut(rope: seq<Position>, d: Direction)
    requires |rope| > 0 && Taut(rope)
    ensures Taut(Step(rope, d))
  {
    var head := MoveHead(d, rope[0]);
    assert rope == [rope[0]] + rope[1..];
    FollowTaut(rope[0], head, rope[1..]);
  }

  /** The tail positions a rope takes while carrying out `dirs`, starting
      with where it is now. */
  function TailTrail(rope: seq<Position>, dirs: seq<Direction>): (r: set<Position>)
    requires |rope| > 0
    ensures rope[|rope| - 1] in r
    decreases |dirs|
  {
    if |dirs| == 0 then {rope[|rope| - 1]}
    else {rope[|rope| - 1]} + TailTrail(Step(rope, dirs[0]), dirs[1..])
  }

  /** A trail has at most one more square than there are commands. */
  lemma {:induction false} TailTrailSize(rope: seq<Position>, dirs: seq<Direction>)
    requires |rope| > 0
    ensures |TailTrail(rope, dirs)| <= |dirs| + 1
    decreases |dirs|
  {
    if |dirs| > 0 {
      TailTrailSize(Step(rope, dirs[0]), dirs[1..]);
    }
  }

  function Knots(n: nat): (r: seq<Position>)
    ensures |r| == n
    ensures forall i :: 0 <= i < n ==> r[i] == Origin
  {
    seq(n, _ => Origin)
  }

  /** `CalculateTaskOne` with `knots` 2 and `CalculateTaskTwo` with 10: the
      number of squares the last knot visits, the start included. */
  method CountTailSquares(dirs: seq<Direction>, knots: nat) returns (count: nat, rope: seq<Position>)
    requires knots >= 1
    ensures count == |TailTrail(Knots(knots), dirs)|
    ensures 1 <= count <= |dirs| + 1
    ensures |rope| == knots && Taut(rope)
  {
    rope := Knots(knots);
    var visited := {Origin};
    var i := 0;
    TailTrailSize(rope, dirs);
    while i < |dirs|
      invariant 0 <= i <= |dirs|
      invariant |rope| == knots && Taut(rope)
      invariant rope[knots - 1] in visited
      invariant visited + TailTrail(rope, dirs[i..]) == TailTrail(Knots(knots), dirs)
    {
      StepTaut(rope, dirs[i]);
      var next := Step(rope, dirs[i]);
      TrailVisit(visited, rope, next, dirs[i..], dirs[i + 1..]);
      rope := next;
      visited := visited + {rope[knots - 1]};
      i := i + 1;
    }
    assert dirs[i..] == [];
    count := |visited|;
    assert visited == (visited - {rope[knots - 1]}) + {rope[knots - 1]};
  }

  /** Visiting the square the tail steps to keeps the squares seen so far
      plus the rest of the trail the same. */
  lemma TrailVisit(visited: set<Position>, rope: seq<Position>, next: seq<Position>,
                   dirs: seq<Direction>, rest: seq<Direction>)
    requires |rope| > 0 && |dirs| > 0 && rest == dirs[1..]
    requires next == Step(rope, dirs[0]) && |next| == |rope|
    requires rope[|rope| - 1] in visited
    ensures (visited + {next[|next| - 1]}) + TailTrail(next, rest) == visited + TailTrail(rope, dirs)
  {
    var after := TailTrail(next, rest);
    assert TailTrail(rope, dirs) == {rope[|rope| - 1]} + after;
    assert next[|next| - 1] in after;
  }

  // ---------------------------------------------------------------------
  // The input: one command per line, a letter, a space and a count.

  function DirectionOf(c: char): Option<Direction>
  {
    match c
    case 'U' => Some(Up)
    case 'D' => Some(Down)
    case 'L' => Some(Left)
    case 'R' => Some(Right)
    case _ => None
  }

  function Letter(d: Direction): char
  {
    match d
    case Up => 'U'
    case Down => 'D'
    case Left => 'L'
    case Right => 'R'
  }

  /** One line: the first character names the direction, the text from the
      third character on is the count. Lines that are empty, use another
      letter, are too short, or whose count is not a non-negative `int` are
      errors. */
  function ParseLine(line: string): (r: Result<(Direction, nat)>)
    ensures r.Ok? ==> |line| >= 3 && DirectionOf(line[0]) == Some(r.value.0)
    ensures r.Ok? ==> ParseInt32(line[2..]) == Some(r.value.1)
  {
    if |line| == 0 then Err("empty line")
    else
      match DirectionOf(line[0])
      case None => Err("unknown direction")
      case Some(d) =>
        if |line| < 2 then Err("line too short")
        else
          match ParseInt32(line[2..])
          case None => Err("bad count")
          case Some(n) => if n < 0 then Err("negative count") else Ok((d, n))
  }

  function ShowLine(d: Direction, n: nat): string
  {
    [Letter(d), ' '] + ShowNat(n)
  }

  /** A printed command reads back as itself. */
  lemma ParseShowLine(d: Direction, n: nat)
    requires IsInt32(n)
    ensures ParseLine(ShowLine(d, n)) == Ok((d, n))
  {
    ShowLineShape(d, n);
    ParseShowInt32(n);
    LineParts(ShowLine(d, n), d, n);
  }

  lemma ShowLineShape(d: Direction, n: nat)
    ensures |ShowLine(d, n)| >= 2 && DirectionOf(ShowLine(d, n)[0]) == Some(d)
    ensures ShowLine(d, n)[2..] == ShowInt(n)
  {
    assert ShowInt(n) == ShowNat(n);
  }

  /** A line whose first character names `d` and whose text from the third
      character on is the count `n` reads as that command. */
  lemma LineParts(line: string, d: Direction, n: nat)
    requires |line| >= 2 && DirectionOf(line[0]) == Some(d)
    requires ParseInt32(line[2..]) == Some(n)
    ensures ParseLine(line) == Ok((d, n))
  {
  }

  /** `ParseInput`: every line's command repeated by its count. */
  function ParseLines(lines: seq<string>): (r: Result<seq<Direction>>)
  {
    if |lines| == 0 then Ok([])
    else
      match ParseLine(lines[0])
      case Err(e) => Err(e)
      case Ok((d, n)) =>
        match ParseLines(lines[1..])
        case Err(e) => Err(e)
        case Ok(rest) => Ok(Repeat(d, n) + rest)
  }

  function ParseInput(input: string): Result<seq<Direction>>
  {
    ParseLines(Split(input, '\n'))
  }

  /** The whole input fails exactly when one of its lines does. */
  lemma {:induction false} ParseLinesFails(lines: seq<string>)
    ensures ParseLines(lines).Err? <==> exists i :: 0 <= i < |lines| && ParseLine(lines[i]).Err?
  {
    if |lines| > 0 {
      ParseLinesFails(lines[1..]);
      if ParseLine(lines[0]).Ok? {
        forall i | 0 < i < |lines|
          ensures lines[i] == lines[1..][i - 1]
        {
        }
      }
    }
  }

  /** A trailing line break leaves an empty last line, which is an error. */
  lemma TrailingNewlineFails(input: string)
    ensures ParseInput(input + "\n").Err?
  {
    SplitTrailingSeparator(input, '\n');
    var lines := Split(input + "\n", '\n');
    ParseLinesFails(lines);
    assert ParseLine(lines[|lines| - 1]).Err?;
  }
}

=== FILE: legacy_day1.dfy ===
/** Day 1 in the older tree: the same two answers, with the groups cut out
    by `string.Split` and each line read by `long.Parse`. */
module LegacyDay1 {
  import opened Common
  import opened Parsing
  import opened Day1

  /** `long.Parse` of one line. */
  function ParseNumber(line: string): (r: Result<int>)
    ensures r.Ok? <==> ParseInt64(line).Some?
    ensures r.Ok? ==> r.value == ParseInt64(line).value
  {
    match ParseInt64(line)
    case Some(v) => Ok(v)
    case None => Err("input string was not in a correct format")
  }

  /** One group: its lines, each a `long`. */
  function ParseGroup(text: string): (r: Result<seq<int>>)
    ensures r.Ok? ==> |r.value| == |Split(text, '\n')|
  {
    MapResult(Split(text, '\n'), ParseNumber)
  }

  /** `ParseSource`: the text cut at every blank line, then each group. */
  function ParseSource(source: string): (r: Result<seq<seq<int>>>)
    ensures r.Ok? ==> |r.value| == |SplitOn(source, "\n\n")|
  {
    MapResult(SplitOn(source, "\n\n"), ParseGroup)
  }

  /** `CalculateTaskOne`: the largest group total; there is always a group
      to take it from. */
  function CalculateTaskOne(source: string): (r: Result<int>)
    ensures r.Ok? <==> ParseSource(source).Ok?
    ensures r.Ok? ==> forall i :: 0 <= i < |ParseSource(source).value| ==> Sum(ParseSource(source).value[i]) <= r.value
    ensures r.Ok? ==> exists i :: 0 <= i < |ParseSource(source).value| && Sum(ParseSource(source).value[i]) == r.value
  {
    match ParseSource(source)
    case Err(e) => Err(e)
    case Ok(groups) => MaxTotal(groups)
  }

  /** `CalculateTaskTwo`: the sum of the three largest totals. */
  function CalculateTaskTwo(source: string): (r: Result<int>)
    ensures r.Ok? <==> ParseSource(source).Ok?
    ensures r.Ok? ==> forall d :: multiset(d) == multiset(Totals(ParseSource(source).value)) && Descending(d) ==>
      r.value == Sum(d[..TopCount(|d|)])
  {
    match ParseSource(source)
    case Err(e) => Err(e)
    case Ok(groups) =>
      forall d | multiset(d) == multiset(Totals(groups)) && Descending(d)
        ensures TopThree(groups) == Sum(d[..TopCount(|d|)])
      {
        TopThreeOfAnyArrangement(groups, d);
      }
      Ok(TopThree(groups))
  }

  /** Every group the older parser returns is non-empty, because splitting
      always gives at least one line. */
  lemma GroupsNonEmpty(source: string)
    requires ParseSource(source).Ok?
    ensures forall i :: 0 <= i < |ParseSource(source).value| ==> |ParseSource(source).value[i]| > 0
  {
    var pieces := SplitOn(source, "\n\n");
    var groups := ParseSource(source).value;
    forall i | 0 <= i < |groups|
      ensures |groups[i]| > 0
    {
      MapResultAt(pieces, ParseGroup, i);
    }
  }

  // ---------------------------------------------------------------------
  // Reading back printed groups.

  /** Text with no empty line in it and no line break at either end. */
  predicate SingleBreaks(s: string)
  {
    && |s| > 0 && s[0] != '\n' && s[|s| - 1] != '\n'
    && forall i :: 0 <= i < |s| - 1 && s[i] == '\n' ==> s[i + 1] != '\n'
  }

  lemma SingleBreaksJoin(a: string, b: string)
    requires SingleBreaks(a) && SingleBreaks(b)
    ensures SingleBreaks(a + "\n" + b)
  {
    var s := a + "\n" + b;
    forall i | 0 <= i < |s| - 1 && s[i] == '\n'
      ensures s[i + 1] != '\n'
    {
      if i < |a| - 1 {
        assert s[i] == a[i] && s[i + 1] == a[i + 1];
      } else if i == |a| {
        assert s[i + 1] == b[0];
      } else {
        assert s[i] == b[i - |a| - 1] && s[i + 1] == b[i - |a|];
      }
    }
  }

  lemma {:induction false} ShowGroupSingleBreaks(g: seq<int>)
    requires |g| > 0
    ensures SingleBreaks(ShowGroup(g))
  {
    ShowIntStart(g[0]);
    NoLineBreak(g[0]);
    var first := ShowInt(g[0]);
    assert SingleBreaks(first) by {
      assert first[|first| - 1] in first;
    }
    if |g| > 1 {
      ShowGroupSingleBreaks(g[1..]);
      SingleBreaksJoin(first, ShowGroup(g[1..]));
    }
  }

  lemma NoLineBreak(i: int)
    ensures '\n' !in ShowInt(i)
  {
    assert AllDigits(ShowNat(Abs(i)));
  }

  /** Text with single line breaks holds no blank line, not even one that
      runs into a blank line written after it. */
  lemma SingleBreaksSepFree(s: string)
    requires SingleBreaks(s)
    ensures SepFree(s, "\n\n") && SepFreeBefore(s, "\n\n")
  {
    forall i: nat | i < |s|
      ensures !OccursAt(s, "\n\n", i) && !OccursAt(s + "\n\n", "\n\n", i)
    {
      var t := s + "\n\n";
      assert t[i] == s[i];
      if i < |s| - 1 {
        assert t[i + 1] == s[i + 1];
        assert s[i..i + 2] == [s[i], s[i + 1]];
      }
      assert t[i..i + 2] == [t[i], t[i + 1]];
    }
  }

  /** A printed group is read back line by line. */
  lemma GroupReadsBack(g: seq<int>)
    requires ValidGroup(g)
    ensures ParseGroup(ShowGroup(g)) == Ok(g)
  {
    var lines := Map(g, ShowInt);
    InterleaveJoin(g, ShowInt, '\n');
    forall i | 0 <= i < |lines|
      ensures '\n' !in lines[i] && ParseNumber(lines[i]) == Ok(g[i])
    {
      NoLineBreak(g[i]);
      ParseShowInt64(g[i]);
    }
    SplitJoin(lines, '\n');
    MapResultOk(lines, ParseNumber, g);
  }

  /** Printed groups are read back as themselves. */
  lemma ParseShowSource(groups: seq<seq<int>>)
    requires Printable(groups)
    ensures ParseSource(ShowGroups(groups)) == Ok(groups)
  {
    var pieces := Map(groups, ShowGroup);
    InterleaveJoinOn(groups, ShowGroup, "\n\n");
    forall i | 0 <= i < |pieces|
      ensures SepFree(pieces[i], "\n\n") && SepFreeBefore(pieces[i], "\n\n")
      ensures ParseGroup(pieces[i]) == Ok(groups[i])
    {
      assert ValidGroup(groups[i]);
      ShowGroupSingleBreaks(groups[i]);
      SingleBreaksSepFree(pieces[i]);
      GroupReadsBack(groups[i]);
    }
    SplitOnJoinOn(pieces, "\n\n");
    MapResultOk(pieces, ParseGroup, groups);
  }

  /** Both trees read printed groups alike, so they give the same answers. */
  lemma TreesAgree(groups: seq<seq<int>>)
    requires Printable(groups)
    ensures ParseSource(ShowGroups(groups)) == Day1.ParseSource(ShowGroups(groups))
    ensures CalculateTaskOne(ShowGroups(groups)) == Day1.CalculateTaskOne(ShowGroups(groups))
    ensures CalculateTaskTwo(ShowGroups(groups)) == Day1.CalculateTaskTwo(ShowGroups(groups))
  {
    ParseShowSource(groups);
    Day1.ParseShowSource(groups);
  }

  /** The trees differ on empty text: the grammar sees one empty group,
      `long.Parse` refuses the empty line. */
  lemma EmptySourceDiffers()
    ensures ParseSource("").Err?
    ensures Day1.ParseSource("") == Ok([[]])
  {
    assert SplitOn("", "\n\n") == [""];
    assert Trim("") == "";
    assert ParseInt("") == None;
    Day1.EmptySource();
  }

  /** A line break at the very end leaves an empty last line, which is not
      a number. */
  lemma TrailingNewlineFails(source: string)
    ensures ParseSource(source + "\n").Err?
  {
    var s := source + "\n";
    var pieces := SplitOn(s, "\n\n");
    var last := pieces[|pieces| - 1];
    SplitOnLastPiece(s, "\n\n");
    if |last| > 0 {
      assert last[|last| - 1] == s[|s| - 1] == '\n';
    }
    EmptyLastLine(last);
    assert ParseGroup(last).Err?;
    MapResultFails(pieces, ParseGroup);
  }

  /** A group that is empty or ends with a line break does not parse. */
  lemma EmptyLastLine(group: string)
    requires |group| == 0 || group[|group| - 1] == '\n'
    ensures ParseGroup(group).Err?
  {
    var lines := Split(group, '\n');
    if |group| == 0 {
      assert lines == [""];
    } else {
      assert group == group[..|group| - 1] + "\n";
      SplitTrailingSeparator(group[..|group| - 1], '\n');
    }
    assert Trim("") == "";
    assert ParseNumber(lines[|lines| - 1]).Err?;
    MapResultFails(lines, ParseNumber);
  }
}

=== FILE: legacy_day2.dfy ===
/** Day 2 in the older tree: the same game and scores, read with
    `string.Split` instead of a grammar. Only the first character of each
    space-separated column matters. */
module LegacyDay2 {
  import opened Common
  import opened Parsing
  import opened Day2

  /** The second column in part one: X, Y, Z only. */
  function MyLetter(c: char): Option<Figure>
  {
    match c
    case 'X' => Some(Rock)
    case 'Y' => Some(Paper)
    case 'Z' => Some(Scissors)
    case _ => None
  }

  /** One line: split at spaces, then the first character of the first and
      second pieces. An empty first piece, a missing or empty second piece
      and a letter outside the table all throw in the source. */
  function ParseLine<B>(line: string, second: char -> Option<B>): (r: Result<(Figure, B)>)
    ensures r.Ok? <==>
      && |Split(line, ' ')[0]| > 0
      && OpponentLetter(Split(line, ' ')[0][0]).Some?
      && |Split(line, ' ')| >= 2
      && |Split(line, ' ')[1]| > 0
      && second(Split(line, ' ')[1][0]).Some?
    ensures r.Ok? ==> |line| >= 1 && OpponentLetter(line[0]) == Some(r.value.0)
    ensures r.Ok? ==> second(Split(line, ' ')[1][0]) == Some(r.value.1)
  {
    var items := Split(line, ' ');
    if |items[0]| == 0 then Err("empty first column")
    else
      match OpponentLetter(items[0][0])
      case None => Err("unknown opponent letter")
      case Some(opponent) =>
        if |items| < 2 || |items[1]| == 0 then Err("missing second column")
        else
          match second(items[1][0])
          case None => Err("unknown second letter")
          case Some(b) =>
            SplitFirstChar(line, ' ');
            Ok((opponent, b))
  }

  lemma SplitFirstChar(s: string, sep: char)
    requires |Split(s, sep)[0]| > 0
    ensures |s| > 0 && Split(s, sep)[0][0] == s[0]
  {
  }

  /** Every line in turn; the first failure is the answer. */
  function ParseLines<B>(lines: seq<string>, second: char -> Option<B>): (r: Result<seq<(Figure, B)>>)
    ensures r.Ok? <==> forall i :: 0 <= i < |lines| ==> ParseLine(lines[i], second).Ok?
    ensures r.Ok? ==> |r.value| == |lines|
    ensures r.Ok? ==> forall i :: 0 <= i < |lines| ==> ParseLine(lines[i], second) == Ok(r.value[i])
  {
    if |lines| == 0 then Ok([])
    else
      match ParseLine(lines[0], second)
      case Err(e) => Err(e)
      case Ok(x) =>
        assert forall i :: 1 <= i < |lines| ==> lines[i] == lines[1..][i - 1];
        match ParseLines(lines[1..], second)
        case Err(e) => Err(e)
        case Ok(xs) => Ok([x] + xs)
  }

  /** `ParseInputForOne`: every line must read, and the rounds are the
      lines' readings in order. */
  function ParseInputForOne(input: string): (r: Result<seq<(Figure, Figure)>>)
    ensures r.Ok? ==> forall i :: 0 <= i < |Split(input, '\n')| ==> ParseLine(Split(input, '\n')[i], MyLetter).Ok?
    ensures (forall i :: 0 <= i < |Split(input, '\n')| ==> ParseLine(Split(input, '\n')[i], MyLetter).Ok?) ==> r.Ok?
    ensures r.Ok? ==> |r.value| == |Split(input, '\n')|
    ensures r.Ok? ==> forall i :: 0 <= i < |r.value| ==> ParseLine(Split(input, '\n')[i], MyLetter) == Ok(r.value[i])
  {
    ParseLines(Split(input, '\n'), MyLetter)
  }

  /** `ParseInputForTwo`: likewise, with the outcome letters. */
  function ParseInputForTwo(input: string): (r: Result<seq<(Figure, Outcome)>>)
    ensures r.Ok? ==> forall i :: 0 <= i < |Split(input, '\n')| ==> ParseLine(Split(input, '\n')[i], OutcomeLetter).Ok?
    ensures (forall i :: 0 <= i < |Split(input, '\n')| ==> ParseLine(Split(input, '\n')[i], OutcomeLetter).Ok?) ==> r.Ok?
    ensures r.Ok? ==> |r.value| == |Split(input, '\n')|
    ensures r.Ok? ==> forall i :: 0 <= i < |r.value| ==> ParseLine(Split(input, '\n')[i], OutcomeLetter) == Ok(r.value[i])
  {
    ParseLines(Split(input, '\n'), OutcomeLetter)
  }

  lemma ParseShownLine<B>(first: char, c: char, second: char -> Option<B>, x: (Figure, B))
    requires OpponentLetter(first) == Some(x.0)
    requires second(c) == Some(x.1)
    requires c != ' '
    ensures ParseLine([first, ' ', c], second) == Ok(x)
  {
    var line := [first, ' ', c];
    assert line == [first] + [' '] + [c];
    SplitPrefix([first], [c], ' ');
    SplitNoSeparator([c], ' ');
  }

  lemma {:induction false} ParseShownLines<B>(lines: seq<string>, xs: seq<(Figure, B)>, second: char -> Option<B>)
    requires |lines| == |xs|
    requires forall i :: 0 <= i < |lines| ==> ParseLine(lines[i], second) == Ok(xs[i])
    ensures ParseLines(lines, second) == Ok(xs)
  {
    if |lines| > 0 {
      ParseShownLines(lines[1..], xs[1..], second);
      assert [xs[0]] + xs[1..] == xs;
    }
  }

  lemma ShownRoundOne(x: (Figure, Figure))
    ensures '\n' !in ShowRoundOne(x)
    ensures ParseLine(ShowRoundOne(x), MyLetter) == Ok(x)
  {
    assert MyLetter(MyChar(x.1)) == Some(x.1);
    assert OpponentLetter(OpponentChar(x.0)) == Some(x.0);
    ParseShownLine(OpponentChar(x.0), MyChar(x.1), MyLetter, x);
  }

  /** Printed rounds, one per line with no line break after the last, read
      back as themselves. */
  lemma ParseShowRoundsOne(rounds: seq<(Figure, Figure)>)
    requires |rounds| > 0
    ensures ParseInputForOne(Join(Map(rounds, ShowRoundOne), '\n')) == Ok(rounds)
  {
    var shown := Map(rounds, ShowRoundOne);
    forall i | 0 <= i < |rounds|
      ensures '\n' !in shown[i] && ParseLine(shown[i], MyLetter) == Ok(rounds[i])
    {
      ShownRoundOne(rounds[i]);
    }
    SplitJoin(shown, '\n');
    ParseShownLines(shown, rounds, MyLetter);
  }

  /** The grammar of the newer tree reads the same rounds from the same text
      followed by a line break. */
  lemma TreesAgreeOne(rounds: seq<(Figure, Figure)>)
    requires |rounds| > 0
    ensures Day2.ParseInputForOne(Join(Map(rounds, ShowRoundOne), '\n') + "\n") ==
      ParseInputForOne(Join(Map(rounds, ShowRoundOne), '\n'))
  {
    ParseShowRoundsOne(rounds);
    LinesJoin(rounds, ShowRoundOne);
    ParseShowRounds(rounds, []);
  }

  lemma ShownRoundTwo(x: (Figure, Outcome))
    ensures '\n' !in ShowRoundTwo(x)
    ensures ParseLine(ShowRoundTwo(x), OutcomeLetter) == Ok(x)
  {
    assert OutcomeLetter(OutcomeChar(x.1)) == Some(x.1);
    assert OpponentLetter(OpponentChar(x.0)) == Some(x.0);
    ParseShownLine(OpponentChar(x.0), OutcomeChar(x.1), OutcomeLetter, x);
  }

  /** Printed rounds, one per line with no line break after the last, read
      back as themselves. */
  lemma ParseShowRoundsTwo(rounds: seq<(Figure, Outcome)>)
    requires |rounds| > 0
    ensures ParseInputForTwo(Join(Map(rounds, ShowRoundTwo), '\n')) == Ok(rounds)
  {
    var shown := Map(rounds, ShowRoundTwo);
    forall i | 0 <= i < |rounds|
      ensures '\n' !in shown[i] && ParseLine(shown[i], OutcomeLetter) == Ok(rounds[i])
    {
      ShownRoundTwo(rounds[i]);
    }
    SplitJoin(shown, '\n');
    ParseShownLines(shown, rounds, OutcomeLetter);
  }

  /** The grammar of the newer tree reads the same rounds from the same text
      followed by a line break. */
  lemma TreesAgreeTwo(rounds: seq<(Figure, Outcome)>)
    requires |rounds| > 0
    ensures Day2.ParseInputForTwo(Join(Map(rounds, ShowRoundTwo), '\n') + "\n") ==
      ParseInputForTwo(Join(Map(rounds, ShowRoundTwo), '\n'))
  {
    ParseShowRoundsTwo(rounds);
    LinesJoin(rounds, ShowRoundTwo);
    ParseShowRounds([], rounds);
  }

  /** Unlike the grammar, the line-splitting reader fails on a final line
      break: the empty last line has no first column. */
  lemma TrailingNewlineFails(input: string)
    ensures ParseInputForOne(input + "\n").Err?
    ensures ParseInputForTwo(input + "\n").Err?
  {
    SplitTrailingSeparator(input, '\n');
    var lines := Split(input + "\n", '\n');
    LastLineFails(lines, MyLetter);
    LastLineFails(lines, OutcomeLetter);
  }

  lemma {:induction false} LastLineFails<B>(lines: seq<string>, second: char -> Option<B>)
    requires |lines| > 0 && lines[|lines| - 1] == ""
    ensures ParseLines(lines, second).Err?
  {
    assert Split("", ' ') == [""];
    if |lines| > 1 {
      LastLineFails(lines[1..], second);
    }
  }
}

=== FILE: legacy_day4.dfy ===
/** Day 4 in the older tree: the same two counts, with the ranges read by
    `string.Split` and `int.Parse` instead of a grammar. */
module LegacyDay4 {
  import opened Common
  import opened Parsing
  import opened Day4

  /** `IsBetween`: `value` lies in the inclusive interval `from..to`. */
  predicate IsBetween(value: int, from: int, to: int)
  {
    value >= from && value <= to
  }

  /** Part one's filter, written with `IsBetween`. */
  predicate OneContainsOther(first: Range, second: Range)
  {
    (IsBetween(first.start, second.start, second.end) && IsBetween(first.end, second.start, second.end)) ||
    (IsBetween(second.start, first.start, first.end) && IsBetween(second.end, first.start, first.end))
  }

  /** Part two's filter, written with `IsBetween`. */
  predicate OneEndInOther(first: Range, second: Range)
  {
    (IsBetween(first.start, second.start, second.end) || IsBetween(first.end, second.start, second.end)) ||
    (IsBetween(second.start, first.start, first.end) || IsBetween(second.end, first.start, first.end))
  }

  /** The older tree's filters are the newer tree's, so both count alike;
      for ranges written low to high they are inclusion and overlap. */
  lemma FiltersAgree(first: Range, second: Range)
    ensures OneContainsOther(first, second) == EitherContainsOther(first, second)
    ensures OneEndInOther(first, second) == AnyEndInOther(first, second)
    ensures WellFormed(first) && WellFormed(second) ==>
      (OneContainsOther(first, second) <==> Sections(first) <= Sections(second) || Sections(second) <= Sections(first))
    ensures WellFormed(first) && WellFormed(second) ==>
      (OneEndInOther(first, second) <==> Sections(first) * Sections(second) != {})
  {
    if WellFormed(first) && WellFormed(second) {
      EitherContainsOtherIsInclusion(first, second);
      AnyEndInOtherIsOverlap(first, second);
    }
  }

  /** `ParseRange`: split at '-', then `int.Parse` of the first two pieces.
      A missing second piece and a piece that is not an `int` are errors;
      pieces after the second are ignored. */
  function ParseRange(text: string): (r: Result<Range>)
    ensures r.Ok? ==> IsInt32(r.value.start) && IsInt32(r.value.end)
  {
    var parts := Split(text, '-');
    if |parts| < 2 then Err("index out of range")
    else
      match ParseInt32(parts[0])
      case None => Err("not an int")
      case Some(from) =>
        match ParseInt32(parts[1])
        case None => Err("not an int")
        case Some(to) => Ok(Range(from, to))
  }

  /** One line: split at ',', then a range from each of the first two
      pieces. */
  function ParseLine(line: string): (r: Result<(Range, Range)>)
    ensures r.Ok? <==>
      && |Split(line, ',')| >= 2
      && ParseRange(Split(line, ',')[0]).Ok?
      && ParseRange(Split(line, ',')[1]).Ok?
    ensures r.Ok? ==> ParseRange(Split(line, ',')[0]) == Ok(r.value.0)
    ensures r.Ok? ==> ParseRange(Split(line, ',')[1]) == Ok(r.value.1)
  {
    var parts := Split(line, ',');
    if |parts| < 2 then Err("index out of range")
    else
      match ParseRange(parts[0])
      case Err(e) => Err(e)
      case Ok(first) =>
        match ParseRange(parts[1])
        case Err(e) => Err(e)
        case Ok(second) => Ok((first, second))
  }

  /** `ParseInput`: one pair per line; any line that does not read fails
      the whole input. */
  function ParseInput(input: string): (r: Result<seq<(Range, Range)>>)
    ensures r.Err? <==> exists i :: 0 <= i < |Split(input, '\n')| && ParseLine(Split(input, '\n')[i]).Err?
    ensures r.Ok? ==> |r.value| == |Split(input, '\n')|
    ensures r.Ok? ==> forall i :: 0 <= i < |r.value| ==> ParseLine(Split(input, '\n')[i]) == Ok(r.value[i])
  {
    match ParseEachLine(input, ParseLine)
    case Err(e) =>
      var i :| 0 <= i < |Split(input, '\n')| && (ParseLine)(Split(input, '\n')[i]).Err?;
      assert ParseLine(Split(input, '\n')[i]).Err?;
      Err(e)
    case Ok(pairs) =>
      forall i | 0 <= i < |pairs|
        ensures ParseLine(Split(input, '\n')[i]) == Ok(pairs[i])
      {
        ParseEachLineAt(input, ParseLine, i);
      }
      Ok(pairs)
  }

  lemma NoSign(n: nat)
    ensures '-' !in ShowNat(n) && ',' !in ShowNat(n) && '\n' !in ShowNat(n)
  {
  }

  lemma RangeReadsBack(r: Range)
    requires Printable(r)
    ensures ParseRange(ShowRange(r)) == Ok(r)
    ensures ',' !in ShowRange(r) && '\n' !in ShowRange(r)
  {
    var a := ShowInt(r.start);
    var b := ShowInt(r.end);
    NoSign(r.start);
    NoSign(r.end);
    assert ShowRange(r) == a + ['-'] + b;
    SplitPrefix(a, b, '-');
    SplitNoSeparator(b, '-');
    ParseShowInt32(r.start);
    ParseShowInt32(r.end);
    RangeParts(ShowRange(r), r, a, b);
  }

  /** A text that splits at '-' into two printed numbers reads as the range
      of those numbers. */
  lemma RangeParts(text: string, r: Range, a: string, b: string)
    requires Split(text, '-') == [a, b]
    requires ParseInt32(a) == Some(r.start) && ParseInt32(b) == Some(r.end)
    ensures ParseRange(text) == Ok(r)
  {
  }

  lemma LineReadsBack(pair: (Range, Range))
    requires PrintablePair(pair)
    ensures ParseLine(ShowPair(pair)) == Ok(pair)
    ensures '\n' !in ShowPair(pair)
  {
    RangeReadsBack(pair.0);
    RangeReadsBack(pair.1);
    SplitPrefix(ShowRange(pair.0), ShowRange(pair.1), ',');
    SplitNoSeparator(ShowRange(pair.1), ',');
  }

  /** Printed pairs of non-negative ranges, one per line with no line break
      after the last, read back as themselves. */
  lemma ParseShowInput(pairs: seq<(Range, Range)>)
    requires |pairs| > 0
    requires forall i :: 0 <= i < |pairs| ==> PrintablePair(pairs[i])
    ensures ParseInput(Join(Map(pairs, ShowPair), '\n')) == Ok(pairs)
  {
    var shown := Map(pairs, ShowPair);
    forall i | 0 <= i < |pairs|
      ensures '\n' !in shown[i] && ParseLine(shown[i]) == Ok(pairs[i])
    {
      LineReadsBack(pairs[i]);
    }
    SplitJoin(shown, '\n');
    MapResultOk(shown, ParseLine, pairs);
  }

  /** The grammar of the newer tree reads the same pairs from the same text
      followed by a line break. */
  lemma TreesAgree(pairs: seq<(Range, Range)>)
    requires |pairs| > 0
    requires forall i :: 0 <= i < |pairs| ==> PrintablePair(pairs[i])
    ensures Day4.ParseInput(Join(Map(pairs, ShowPair), '\n') + "\n") ==
      ParseInput(Join(Map(pairs, ShowPair), '\n'))
  {
    ParseShowInput(pairs);
    LinesJoin(pairs, ShowPair);
    Day4.ParseShowInput(pairs);
  }

  /** A final line break leaves an empty last line, which has no second
      range. */
  lemma TrailingNewlineFails(input: string)
    ensures ParseInput(input + "\n").Err?
  {
    SplitTrailingSeparator(input, '\n');
    var lines := Split(input + "\n", '\n');
    assert Split("", ',') == [""];
    assert ParseLine(lines[|lines| - 1]).Err?;
  }

  /** A negative lower bound cannot be read: its minus sign is taken for the
      separator and leaves an empty first piece. */
  lemma NegativeStartFails(r: Range)
    requires r.start < 0 && r.end >= 0
    ensures ParseRange(ShowRange(r)).Err?
  {
    var s := ShowRange(r);
    assert s == "-" + ShowNat(-r.start) + "-" + ShowInt(r.end);
    assert s == [] + ['-'] + (ShowNat(-r.start) + "-" + ShowInt(r.end));
    SplitPrefix([], ShowNat(-r.start) + "-" + ShowInt(r.end), '-');
    assert ParseInt32("") == None;
  }
}

=== FILE: parsing.dfy ===
/** The parser-combinator behaviour the FParsec-based parsers rely on: a
    parser either fails without consuming input (so an alternative or the
    end of a repetition may be tried), fails after consuming input (a hard
    error), or matches and leaves the rest of the text. */
module Parsing {
  import opened Common

  datatype Reply<T> = NoMatch | Failure(message: string) | Match(value: T, rest: string)

  /** `Run(...).GetResult()`: the value of a match, whatever text follows
      it; any failure is an error. */
  function RunParser<T>(r: Reply<T>): Result<T>
  {
    match r
    case Match(v, _) => Ok(v)
    case NoMatch => Err("parse error")
    case Failure(m) => Err(m)
  }

  /** A match runs to its value. */
  lemma RunMatch<T>(r: Reply<T>, v: T, rest: string)
    requires r == Match(v, rest)
    ensures RunParser(r) == Ok(v)
  {
  }

  /** `Newline` with the line break written as a single `\n`. */
  function Newline(s: string): (r: Reply<()>)
    ensures r.Match? ==> |s| > 0 && s[0] == '\n' && r.rest == s[1..]
    ensures !r.Failure?
  {
    if |s| > 0 && s[0] == '\n' then Match((), s[1..]) else NoMatch
  }

  /** Number of line breaks `s` starts with. */
  function NewlineRun(s: string): (n: nat)
    ensures n <= |s|
    ensures forall i :: 0 <= i < n ==> s[i] == '\n'
    ensures n < |s| ==> s[n] != '\n'
  {
    if |s| == 0 || s[0] != '\n' then 0 else 1 + NewlineRun(s[1..])
  }

  /** `Many1(Newline)`: one or more line breaks. */
  function Newlines(s: string): (r: Reply<()>)
    ensures r.Match? ==> |r.rest| < |s|
    ensures !r.Failure?
  {
    var n := NewlineRun(s);
    if n == 0 then NoMatch else Match((), s[n..])
  }

  /** Two line breaks before text that does not start with one are
      skipped together. */
  lemma TwoNewlines(after: string)
    requires |after| > 0 && after[0] != '\n'
    ensures Newlines("\n\n" + after) == Match((), after)
  {
    var s := "\n\n" + after;
    assert s[1..] == "\n" + after;
    assert s[2..] == after;
    assert NewlineRun(s[2..]) == 0;
    assert NewlineRun(s[1..]) == 1;
  }

  /** `StringP` of a one-character literal. */
  function Char(c: char, s: string): (r: Reply<()>)
    ensures r.Match? ==> |s| > 0 && s[0] == c && r.rest == s[1..]
    ensures !r.Failure?
  {
    if |s| > 0 && s[0] == c then Match((), s[1..]) else NoMatch
  }

  /** `StringP` of a literal. */
  function Literal(lit: string, s: string): (r: Reply<()>)
    ensures r.Match? ==> |lit| <= |s| && s[..|lit|] == lit && r.rest == s[|lit|..]
    ensures !r.Failure?
  {
    if |lit| <= |s| && s[..|lit|] == lit then Match((), s[|lit|..]) else NoMatch
  }

  lemma LiteralShown(lit: string, rest: string)
    ensures Literal(lit, lit + rest) == Match((), rest)
  {
    assert (lit + rest)[..|lit|] == lit;
    assert (lit + rest)[|lit|..] == rest;
  }

  /** A failure to match after earlier parts of a sequence consumed input
      is an error. */
  function Commit<T>(r: Reply<T>): (c: Reply<T>)
    ensures c.NoMatch? ==> false
    ensures r.Match? ==> c == r
  {
    if r.NoMatch? then Failure("unexpected input") else r
  }

  /** Length of the run of digits `s` starts with. */
  function DigitRun(s: string): (n: nat)
    ensures n <= |s|
    ensures AllDigits(s[..n])
    ensures n < |s| ==> !IsDigit(s[n])
  {
    if |s| == 0 || !IsDigit(s[0]) then 0
    else
      var n := 1 + DigitRun(s[1..]);
      assert s[..n] == [s[0]] + s[1..][..n - 1];
      n
  }

  lemma {:induction false} DigitRunOfDigits(d: string, rest: string)
    requires AllDigits(d)
    requires rest == "" || !IsDigit(rest[0])
    ensures DigitRun(d + rest) == |d|
  {
    if |d| > 0 {
      assert (d + rest)[1..] == d[1..] + rest;
      DigitRunOfDigits(d[1..], rest);
    }
  }

  /** An optional sign and a run of decimal digits, with the value they
      denote; text that does not start so fails without consuming input. */
  function SignedDigits(s: string): (r: Reply<int>)
    ensures r.Match? ==> |r.rest| < |s|
    ensures !r.Failure?
  {
    var signed := |s| > 0 && (s[0] == '-' || s[0] == '+');
    var body := if signed then s[1..] else s;
    var n := DigitRun(body);
    if n == 0 then NoMatch
    else
      var magnitude := DigitsValue(body[..n]);
      Match(if signed && s[0] == '-' then 0 - magnitude else magnitude, body[n..])
  }

  /** `Int` (`pint32`): a signed number within the range of `int`. Text
      that does not start with digits, after an optional sign, fails
      without consuming input; a number out of range fails after consuming
      its digits, which is an error. */
  function Int(s: string): (r: Reply<Int32>)
    ensures r.Match? ==> |r.rest| < |s|
    ensures r.NoMatch? <==> SignedDigits(s).NoMatch?
    ensures r.Failure? <==> SignedDigits(s).Match? && !IsInt32(SignedDigits(s).value)
  {
    match SignedDigits(s)
    case Match(v, rest) => if IsInt32(v) then Match(v as Int32, rest) else Failure(OutOfRange)
    case _ => NoMatch
  }

  /** `Long` (`pint64`): a signed number within the range of `long`, with
      the same failures as `Int`. */
  function Long(s: string): (r: Reply<int>)
    ensures r.Match? ==> |r.rest| < |s| && IsInt64(r.value)
    ensures r.NoMatch? <==> SignedDigits(s).NoMatch?
    ensures r.Failure? <==> SignedDigits(s).Match? && !IsInt64(SignedDigits(s).value)
  {
    match SignedDigits(s)
    case Match(v, rest) => if IsInt64(v) then Match(v, rest) else Failure(OutOfRange)
    case _ => NoMatch
  }

  /** The error of a number that does not fit its type. */
  const OutOfRange := "The number is outside the range of the type."

  lemma DigitsShown(n: nat, rest: string)
    requires rest == "" || !IsDigit(rest[0])
    ensures var t := ShowNat(n) + rest; var k := |ShowNat(n)|;
      DigitRun(t) == k && t[..k] == ShowNat(n) && t[k..] == rest && DigitsValue(t[..k]) == n
  {
    var d := ShowNat(n);
    DigitRunOfDigits(d, rest);
    assert (d + rest)[..|d|] == d;
    assert (d + rest)[|d|..] == rest;
    DigitsValueShowNat(n);
  }

  lemma SignedDigitsShownNat(n: nat, rest: string)
    requires rest == "" || !IsDigit(rest[0])
    ensures SignedDigits(ShowNat(n) + rest) == Match(n, rest)
  {
    DigitsShown(n, rest);
    assert IsDigit(ShowNat(n)[0]);
  }

  lemma SignedDigitsShownNegative(n: nat, rest: string)
    requires n > 0
    requires rest == "" || !IsDigit(rest[0])
    ensures SignedDigits("-" + ShowNat(n) + rest) == Match(0 - n, rest)
  {
    var s := "-" + ShowNat(n) + rest;
    assert s[1..] == ShowNat(n) + rest;
    DigitsShown(n, rest);
  }

  /** A printed number is read back when no digit follows it. */
  lemma SignedDigitsShown(i: int, rest: string)
    requires rest == "" || !IsDigit(rest[0])
    ensures SignedDigits(ShowInt(i) + rest) == Match(i, rest)
  {
    if i < 0 {
      SignedDigitsShownNegative(-i, rest);
    } else {
      SignedDigitsShownNat(i, rest);
    }
  }

  lemma IntShown(v: Int32, rest: string)
    requires rest == "" || !IsDigit(rest[0])
    ensures Int(ShowInt(v as int) + rest) == Match(v, rest)
  {
    SignedDigitsShown(v as int, rest);
  }

  /** A printed number outside the range of `int` is an error for `Int`,
      not the end of a list. */
  lemma IntOutOfRange(i: int, rest: string)
    requires !IsInt32(i)
    requires rest == "" || !IsDigit(rest[0])
    ensures Int(ShowInt(i) + rest).Failure?
  {
    SignedDigitsShown(i, rest);
  }

  /** A printed number outside the range of `long` is an error for
      `Long`. */
  lemma LongOutOfRange(i: int, rest: string)
    requires !IsInt64(i)
    requires rest == "" || !IsDigit(rest[0])
    ensures Long(ShowInt(i) + rest).Failure?
  {
    SignedDigitsShown(i, rest);
  }

  lemma LongShown(i: int, rest: string)
    requires IsInt64(i)
    requires rest == "" || !IsDigit(rest[0])
    ensures Long(ShowInt(i) + rest) == Match(i, rest)
  {
    SignedDigitsShown(i, rest);
  }

  /** The repetitions after the first item: separator then item, again and
      again. `canEndWithSep` lets a separator with no item after it end the
      list; otherwise that is an error. A round that consumes nothing is
      refused, as FParsec refuses it rather than looping. */
  function ManyRest<T>(p: string -> Reply<T>, sep: string -> Reply<()>, canEndWithSep: bool,
                       acc: seq<T>, s: string): (r: Reply<seq<T>>)
    ensures r.Match? ==> |r.value| >= |acc| && r.value[..|acc|] == acc
    ensures !r.NoMatch?
    decreases |s|
  {
    match sep(s)
    case NoMatch => Match(acc, s)
    case Failure(m) => Failure(m)
    case Match(_, afterSep) =>
      match p(afterSep)
      case NoMatch =>
        if canEndWithSep && |afterSep| <= |s| then Match(acc, afterSep)
        else Failure("item expected after separator")
      case Failure(m) => Failure(m)
      case Match(x, rest) =>
        if |rest| < |s| then
          var r := ManyRest(p, sep, canEndWithSep, acc + [x], rest);
          assert r.Match? ==> r.value[..|acc|] == (acc + [x])[..|acc|];
          r
        else Failure("no progress")
  }

  /** `Many(p, sep, canEndWithSep)`: zero or more items. */
  function Many<T>(p: string -> Reply<T>, sep: string -> Reply<()>, canEndWithSep: bool, s: string): (r: Reply<seq<T>>)
    ensures s == "" && p("") == NoMatch ==> r == Match([], "")
    ensures !r.NoMatch?
    ensures r.Failure? ==> !p(s).NoMatch?
  {
    match p(s)
    case NoMatch => Match([], s)
    case Failure(m) => Failure(m)
    case Match(x, rest) => ManyRest(p, sep, canEndWithSep, [x], rest)
  }

  /** `Many1(p, sep, canEndWithSep)`: one or more items. */
  function Many1<T>(p: string -> Reply<T>, sep: string -> Reply<()>, canEndWithSep: bool, s: string): (r: Reply<seq<T>>)
    ensures r.Match? ==> |r.value| >= 1
    ensures p(s).NoMatch? ==> r.NoMatch?
  {
    match p(s)
    case NoMatch => NoMatch
    case Failure(m) => Failure(m)
    case Match(x, rest) => ManyRest(p, sep, canEndWithSep, [x], rest)
  }

  /** `Many1` matches only when its first item does, and then starts with
      that item. */
  lemma Many1First<T>(p: string -> Reply<T>, sep: string -> Reply<()>, canEndWithSep: bool, s: string)
    ensures Many1(p, sep, canEndWithSep, s).Match? ==>
      p(s).Match? && Many1(p, sep, canEndWithSep, s).value[0] == p(s).value
  {
    if p(s).Match? {
      var r := ManyRest(p, sep, canEndWithSep, [p(s).value], p(s).rest);
      if r.Match? {
        assert r.value[..1] == [p(s).value];
      }
    }
  }

  /** One round of `ManyRest`: a separator and an item, with progress. */
  lemma ManyRestStep<T>(p: string -> Reply<T>, sep: string -> Reply<()>, canEndWithSep: bool,
                        acc: seq<T>, s: string, afterSep: string, x: T, rest: string)
    requires sep(s) == Match((), afterSep)
    requires p(afterSep) == Match(x, rest)
    requires |rest| < |s|
    ensures ManyRest(p, sep, canEndWithSep, acc, s) == ManyRest(p, sep, canEndWithSep, acc + [x], rest)
  {
  }

  /** `ManyRest` ends where no separator follows. */
  lemma ManyRestStop<T>(p: string -> Reply<T>, sep: string -> Reply<()>, canEndWithSep: bool,
                        acc: seq<T>, s: string)
    requires sep(s) == NoMatch
    ensures ManyRest(p, sep, canEndWithSep, acc, s) == Match(acc, s)
  {
  }

  /** `Many` after its first item. */
  lemma ManyFirst<T>(p: string -> Reply<T>, sep: string -> Reply<()>, canEndWithSep: bool,
                     s: string, x: T, rest: string)
    requires p(s) == Match(x, rest)
    ensures Many(p, sep, canEndWithSep, s) == ManyRest(p, sep, canEndWithSep, [x], rest)
    ensures Many1(p, sep, canEndWithSep, s) == ManyRest(p, sep, canEndWithSep, [x], rest)
  {
  }

  // ---------------------------------------------------------------------
  // Printing items one per line and reading them back.

  /** Every item on its own line, each line ended by a line break. */
  function Lines<T>(items: seq<T>, show: T -> string): string
  {
    if |items| == 0 then "" else show(items[0]) + "\n" + Lines(items[1..], show)
  }

  /** `p` reads back what `show` printed for every `valid` item when a line
      break or the end of the text follows, and finds nothing in empty text;
      printed items do not start with a line break. */
  ghost predicate ReadsBack<T(!new)>(p: string -> Reply<T>, show: T -> string, valid: T -> bool)
  {
    && p("") == NoMatch
    && (forall x: T :: valid(x) ==> |show(x)| > 0 && show(x)[0] != '\n')
    && forall x: T, rest: string {:trigger p(show(x) + rest)} ::
         valid(x) && (rest == "" || rest[0] == '\n') ==> p(show(x) + rest) == Match(x, rest)
  }

  predicate AllValid<T>(items: seq<T>, valid: T -> bool)
  {
    forall i :: 0 <= i < |items| ==> valid(items[i])
  }

  /** Every value is valid. */
  predicate Anything<T>(x: T)
  {
    true
  }

  lemma {:induction false} ManyRestLines<T(!new)>(p: string -> Reply<T>, show: T -> string, valid: T -> bool,
                                                  acc: seq<T>, items: seq<T>)
    requires ReadsBack(p, show, valid)
    requires AllValid(items, valid)
    ensures ManyRest(p, Newline, true, acc, "\n" + Lines(items, show)) == Match(acc + items, "")
    ensures ManyRest(p, Newlines, true, acc, "\n" + Lines(items, show)) == Match(acc + items, "")
    decreases |items|
  {
    if |items| == 0 {
      assert acc + items == acc;
      assert Newline("\n") == Match((), "");
      assert Newlines("\n") == Match((), "");
    } else {
      var x := items[0];
      var after := "\n" + Lines(items[1..], show);
      var s := "\n" + Lines(items, show);
      assert s == "\n" + show(x) + after;
      LineStep(p, show, valid, x, after);
      ManyRestStep(p, Newline, true, acc, s, show(x) + after, x, after);
      ManyRestStep(p, Newlines, true, acc, s, show(x) + after, x, after);
      ManyRestLines(p, show, valid, acc + [x], items[1..]);
      AppendHead(acc, items);
    }
  }

  /** A line break then a printed item: either separator reads the line
      break alone, and `p` reads the item. */
  lemma LineStep<T(!new)>(p: string -> Reply<T>, show: T -> string, valid: T -> bool, x: T, after: string)
    requires ReadsBack(p, show, valid) && valid(x) && (after == "" || after[0] == '\n')
    ensures Newline("\n" + show(x) + after) == Match((), show(x) + after)
    ensures Newlines("\n" + show(x) + after) == Match((), show(x) + after)
    ensures p(show(x) + after) == Match(x, after)
    ensures |after| < |"\n" + show(x) + after|
  {
    var s := "\n" + show(x) + after;
    assert s[1..] == show(x) + after;
    assert s[1] == show(x)[0];
    assert NewlineRun(s[1..]) == 0;
  }

  /** Items printed one per line are read back by `Many`. */
  lemma ManyLines<T(!new)>(p: string -> Reply<T>, show: T -> string, valid: T -> bool, items: seq<T>)
    requires ReadsBack(p, show, valid)
    requires AllValid(items, valid)
    ensures Many(p, Newline, true, Lines(items, show)) == Match(items, "")
  {
    if |items| > 0 {
      var rest := "\n" + Lines(items[1..], show);
      FirstLine(p, show, valid, items);
      ManyFirst(p, Newline, true, Lines(items, show), items[0], rest);
      ManyRestLines(p, show, valid, [items[0]], items[1..]);
      assert [items[0]] + items[1..] == items;
    }
  }

  /** `p` reads the first of the printed lines. */
  lemma FirstLine<T(!new)>(p: string -> Reply<T>, show: T -> string, valid: T -> bool, items: seq<T>)
    requires ReadsBack(p, show, valid)
    requires |items| > 0 && valid(items[0])
    ensures p(Lines(items, show)) == Match(items[0], "\n" + Lines(items[1..], show))
  {
    var rest := "\n" + Lines(items[1..], show);
    assert Lines(items, show) == show(items[0]) + rest;
    assert rest[0] == '\n';
  }

  /** A non-empty list printed one item per line is read back by `Many1`,
      whether the separator is one line break or a run of them. */
  lemma Many1Lines<T(!new)>(p: string -> Reply<T>, show: T -> string, valid: T -> bool, items: seq<T>)
    requires ReadsBack(p, show, valid)
    requires AllValid(items, valid)
    requires |items| > 0
    ensures Many1(p, Newline, true, Lines(items, show)) == Match(items, "")
    ensures Many1(p, Newlines, true, Lines(items, show)) == Match(items, "")
  {
    var rest := "\n" + Lines(items[1..], show);
    FirstLine(p, show, valid, items);
    ManyFirst(p, Newline, true, Lines(items, show), items[0], rest);
    ManyFirst(p, Newlines, true, Lines(items, show), items[0], rest);
    ManyRestLines(p, show, valid, [items[0]], items[1..]);
    assert [items[0]] + items[1..] == items;
  }

  /** `Lines` is the items joined by line breaks, plus a final one. */
  lemma {:induction false} LinesJoin<T>(items: seq<T>, show: T -> string)
    requires |items| > 0
    ensures Lines(items, show) == Join(Map(items, show), '\n') + "\n"
  {
    var shown := Map(items, show);
    if |items| > 1 {
      LinesJoin(items[1..], show);
      assert Map(items[1..], show) == shown[1..];
    } else {
      assert Lines(items[1..], show) == "";
    }
  }

  // ---------------------------------------------------------------------
  // Printing items with a separator text between them and reading them
  // back.

  /** The items printed with `sepText` between consecutive ones. */
  function Interleave<T>(items: seq<T>, show: T -> string, sepText: string): string
  {
    if |items| == 0 then ""
    else if |items| == 1 then show(items[0])
    else show(items[0]) + sepText + Interleave(items[1..], show, sepText)
  }

  /** Interleaving is joining the printed items. */
  lemma {:induction false} InterleaveJoinOn<T>(items: seq<T>, show: T -> string, sepText: string)
    requires |items| > 0
    ensures Interleave(items, show, sepText) == JoinOn(Map(items, show), sepText)
  {
    if |items| > 1 {
      InterleaveJoinOn(items[1..], show, sepText);
      assert Map(items, show)[1..] == Map(items[1..], show);
    }
  }

  lemma {:induction false} InterleaveJoin<T>(items: seq<T>, show: T -> string, sep: char)
    requires |items| > 0
    ensures Interleave(items, show, [sep]) == Join(Map(items, show), sep)
  {
    if |items| > 1 {
      InterleaveJoin(items[1..], show, sep);
      assert Map(items, show)[1..] == Map(items[1..], show);
    }
  }

  /** `p` and `sep` read back what `show` and `sepText` print: an item is
      read back when the end (`ends`) or another separator follows, the
      separator text is read before a printed item, and no separator is
      found at the end. */
  ghost predicate ReadsBackWith<T(!new)>(p: string -> Reply<T>, sep: string -> Reply<()>, show: T -> string,
                                         valid: T -> bool, sepText: string, ends: string -> bool)
  {
    && |sepText| > 0
    && (forall t: string {:trigger sep(t)} :: ends(t) ==> sep(t) == NoMatch)
    && (forall x: T, t: string {:trigger p(show(x) + t)} :: valid(x) && ends(t) ==> p(show(x) + t) == Match(x, t))
    && (forall x: T, t: string {:trigger p(show(x) + (sepText + t))} ::
          valid(x) ==> p(show(x) + (sepText + t)) == Match(x, sepText + t))
    && (forall x: T, t: string {:trigger sep(sepText + (show(x) + t))} ::
          valid(x) ==> sep(sepText + (show(x) + t)) == Match((), show(x) + t))
  }

  /** How printed items start: the first item, then a separator when more
      follow. */
  lemma InterleaveFirst<T>(items: seq<T>, show: T -> string, sepText: string, rest: string)
    requires |items| > 0
    ensures |items| == 1 ==> Interleave(items, show, sepText) + rest == show(items[0]) + rest
    ensures |items| > 1 ==>
      Interleave(items, show, sepText) + rest == show(items[0]) + (sepText + (Interleave(items[1..], show, sepText) + rest))
  {
  }

  lemma {:induction false} ManyRestInterleave<T(!new)>(p: string -> Reply<T>, sep: string -> Reply<()>, canEndWithSep: bool,
                                                       show: T -> string, valid: T -> bool, sepText: string,
                                                       ends: string -> bool, acc: seq<T>, items: seq<T>, rest: string)
    requires ReadsBackWith(p, sep, show, valid, sepText, ends)
    requires |items| > 0 && AllValid(items, valid)
    requires ends(rest)
    ensures ManyRest(p, sep, canEndWithSep, acc, sepText + (Interleave(items, show, sepText) + rest)) == Match(acc + items, rest)
    decreases |items|
  {
    var s := sepText + (Interleave(items, show, sepText) + rest);
    var after := Interleave(items, show, sepText) + rest;
    InterleaveFirst(items, show, sepText, rest);
    if |items| == 1 {
      assert sep(s) == Match((), after);
      assert p(after) == Match(items[0], rest);
      ManyRestStep(p, sep, canEndWithSep, acc, s, after, items[0], rest);
      ManyRestStop(p, sep, canEndWithSep, acc + [items[0]], rest);
      assert acc + [items[0]] == acc + items;
    } else {
      var t := Interleave(items[1..], show, sepText) + rest;
      assert sep(s) == Match((), after);
      assert p(after) == Match(items[0], sepText + t);
      ManyRestStep(p, sep, canEndWithSep, acc, s, after, items[0], sepText + t);
      ManyRestInterleave(p, sep, canEndWithSep, show, valid, sepText, ends, acc + [items[0]], items[1..], rest);
      AppendHead(acc, items);
    }
  }

  /** Items printed with separators between them are read back by `Many`
      and `Many1`, up to the end that follows. */
  lemma ManyInterleave<T(!new)>(p: string -> Reply<T>, sep: string -> Reply<()>, canEndWithSep: bool,
                                show: T -> string, valid: T -> bool, sepText: string,
                                ends: string -> bool, items: seq<T>, rest: string)
    requires ReadsBackWith(p, sep, show, valid, sepText, ends)
    requires |items| > 0 && AllValid(items, valid)
    requires ends(rest)
    ensures Many(p, sep, canEndWithSep, Interleave(items, show, sepText) + rest) == Match(items, rest)
    ensures Many1(p, sep, canEndWithSep, Interleave(items, show, sepText) + rest) == Match(items, rest)
  {
    var s := Interleave(items, show, sepText) + rest;
    InterleaveFirst(items, show, sepText, rest);
    if |items| == 1 {
      assert p(s) == Match(items[0], rest);
      ManyFirst(p, sep, canEndWithSep, s, items[0], rest);
      ManyRestStop(p, sep, canEndWithSep, [items[0]], rest);
      assert [items[0]] == items;
    } else {
      var t := Interleave(items[1..], show, sepText) + rest;
      assert p(s) == Match(items[0], sepText + t);
      ManyFirst(p, sep, canEndWithSep, s, items[0], sepText + t);
      ManyRestInterleave(p, sep, canEndWithSep, show, valid, sepText, ends, [items[0]], items[1..], rest);
      assert [items[0]] + items[1..] == items;
    }
  }

  /** Items printed with separators between them, and nothing after, are
      read back by `Many` and `Many1` to the end of the text. */
  lemma ManyInterleaveAll<T(!new)>(p: string -> Reply<T>, sep: string -> Reply<()>, canEndWithSep: bool,
                                   show: T -> string, valid: T -> bool, sepText: string, items: seq<T>)
    requires ReadsBackWith(p, sep, show, valid, sepText, AtEnd)
    requires |items| > 0 && AllValid(items, valid)
    ensures Many(p, sep, canEndWithSep, Interleave(items, show, sepText)) == Match(items, "")
    ensures Many1(p, sep, canEndWithSep, Interleave(items, show, sepText)) == Match(items, "")
  {
    var text := Interleave(items, show, sepText);
    assert text + "" == text;
    ManyInterleave(p, sep, canEndWithSep, show, valid, sepText, AtEnd, items, "");
  }

  /** The end of the text. */
  predicate AtEnd(s: string)
  {
    s == ""
  }
}
